=== FILE: README.md ===
# Secure storage for .NET, modelled in Dafny

This project models the core of the `Mjcheetham.SecureStorage` library, which
keeps secrets in the store of the operating system:

- the macOS Keychain, reached through the Security framework and the
  CoreFoundation wrappers:
  - `Keychain`, `KeychainItem`, `MacOSKeychain`, the `SecItem` classes;
  - `CFType`, `CFString`, `CFData`, `CFNumber`, `CFArray`, `CFDictionary`;
  - `FourCharCodeUtils`, the `SecurityFramework` and `NativeMethods` error
    tables;
- the Windows Credential Manager, reached through advapi32:
  - `WindowsCredentialManager`, in both of its revisions;
  - `Win32Error`, `FileTimeExtensions`;
- the marshalling helpers `IntPtrExtensions`, `StringExtensions` and
  `Utf8StringMarshaler`.

## The native world

Nothing native is executed. Each native service is a Dafny class whose
fields are the state the library can observe:

- `NativeMemory.Memory` is the unmanaged heap. It holds a map from address
  to cell and the live blocks with the allocator that owns each
  (`AllocHGlobal`, `AllocCoTaskMem`, the Keychain and the credential API).
  "Freed on every path" is stated as `mem.allocs == old(mem.allocs)`.
- `CoreFoundation.CFHeap` is the CoreFoundation object graph: strings, data,
  numbers, arrays and dictionaries by handle. Its multiset `owned` holds
  the references the library owns. A creating or copying call adds one
  reference and `CFRelease` removes one, so a leak shows up as growth of
  `owned`.
- `KeychainServices.Vault` is a keychain. It maps item attributes to an
  item id and its secret.
- `Advapi32.CredentialSet` is the Credential Manager vault. It maps target
  names to credentials, in the order of their creation.

Two matching rules of these stores are assumptions of the model:

- `KeychainServices.Vault` matches item attributes exactly. Keychain
  Services treats a NULL attribute of `SecKeychainFind…Password` as "any
  value". The source passes NULL for the security domain of every internet
  lookup (`MacOS/Keychain.cs` lines 111-158) and for a null service,
  server, account or path. There a lookup can find an item stored with
  another value; in the model a null argument matches only the empty one.
- `Advapi32.CredentialSet` compares target names and filters exactly. The
  Credential Manager compares them without regard to case, so writing
  "Git:X" replaces "git:x" there, while the model keeps both.

`Keychain.AddThenFind`, `CredentialManager.WriteLeavesOtherTargets` and
`WindowsCredentialManager.AddOrUpdateLeavesOtherKeys` hold under these
rules.

The stores are also assumed to hand out a non-null pointer for every blob
they return, an empty one included: `Advapi32.CredentialSet.CredRead`,
`CredEnumerate` and `KeychainServices.Vault.FindPassword` place each blob at
a real address.

Whatever the operating system decides on its own becomes a parameter:

- a native call's failure code (`fault`, `status`);
- the reply of `SecItemCopyMatching`;
- the user name, the clock and the OS major version.

Integers keep their C# width. `int32`, `uint32`, `int16` and `int64` are
subtypes of `int`, and every wrap-around is written out in `Numeric`.

Strings are sequences of Unicode scalar values. `Unicode` defines UTF-8 and
UTF-16LE encoding and decoding and proves their round trips. A .NET
`string.Length` is `Utf16Length`, the count of UTF-16 code units. UTF-8
decoding replaces ill-formed input as `Encoding.UTF8` does on .NET Core 3.0
and later: one U+FFFD for each byte that cannot lead a sequence and one for
each maximal subpart of a sequence that is cut short.

Exceptions are values of `Exceptions.Exception`. A member that can throw
returns `Result` (a value or an exception) or `Outcome` (pass or an
exception).

`Windows/WindowsCredentialManager.cs` converts a credential's `FILETIME`
with `ToDateTimeUtc`, and `DateTime.FromFileTimeUtc` throws
`ArgumentOutOfRangeException` for a tick count outside
0..2650467743999999999. The tick count the source computes is wrong (see
Findings), so each read path of that class takes a `TickRule`:
`AsWritten` reads with the source's tick count, `Intended` with the
corrected one. `EnumerateAsWritten` and the `PresentDay…AsWritten` lemmas
show the source's behaviour: a present-day credential cannot be read.
`Enumerate`, `EnumerateListsMatches` and `WriteThenRead` state the
corrected behaviour.

The library holds two generations of its stores side by side, and two
`NativeMethods.MacOS` classes that cannot be compiled together:

- The root `MacOSKeychain.cs` implements the older
  `GetData`/`SetData`/`DeleteData`/`ListKeys` interface. It is paired with
  `NativeMethods.cs`. That file's non-partial `NativeMethods.MacOS` declares
  exactly the six calls the store makes and nothing else, and its `ThrowOnError` raises
  plain `Exception`s: "Item already exists", "Item does not exist",
  "Interaction not allowed", or "Unknown error N" after the caller's
  message. `MacOSKeychain.Throw`, and through it every failure of
  `MacOSKeychain`, is `NativeMethodsLegacy.ThrowOnError`.
- `NativeMethods.Mac.cs` is the partial class of a later generation. It
  raises `KeyNotFoundException`, `ArgumentException` or
  `InvalidOperationException` with the code in parentheses, and adds the
  attribute structures and `SecKeychainItemCopyAttributesAndData`. No
  modelled caller uses it. `NativeMethodsMac` models it on its own.
- The root `WindowsCredentialManager.cs` implements the later
  `Get`/`AddOrUpdate`/`Remove` interface of `ISecureStore.cs`. It calls a
  `NativeMethods.Windows` with members, so it belongs to the later
  generation: the `Windows` class of `NativeMethods.cs` is empty.
- `MacOS/MacOSKeychain.cs` and `Windows/WindowsCredentialManager.cs` are the
  stores built on the `Interop` classes (`SecurityFramework`, `Advapi32`,
  `Win32Error`).

Throughout the table below, `S/` stands for `src/Mjcheetham.SecureStorage/`.

## Model

| member | source | states |
|---|---|---|
| StringExtensions.ToByteArray | src/Mjcheetham.SecureStorage/StringExtensions.cs:7-14 | a null string gives the empty array and any other string its encoded bytes; the result is empty exactly when the string is null or "" |
| StringExtensions.GetBytesNonEmpty | src/Mjcheetham.SecureStorage/StringExtensions.cs:13 | a non-empty string never encodes to no bytes, so the `IsNullOrEmpty` shortcut is the only source of an empty array |
| StringExtensions.ToByteArrayRoundTrip | src/Mjcheetham.SecureStorage/StringExtensions.cs:7-14 | decoding the array with the same encoding gives back the string, with null read back as "" |
| Unicode.Utf8RoundTrip | src/Mjcheetham.SecureStorage/StringExtensions.cs:13 | UTF-8 decoding undoes UTF-8 encoding for every string |
| Unicode.MaximalSubpartsReplaced | src/Mjcheetham.SecureStorage/MacOS/Keychain.cs:87 | `Encoding.UTF8.GetString` gives one U+FFFD per maximal ill-formed subpart: a cut-off emoji F0 9F 98 is one U+FFFD, E2 82 41 is U+FFFD then "A", and C0 80 and ED A0 80 are replaced byte by byte |
| Unicode.Utf16RoundTrip | src/Mjcheetham.SecureStorage/WindowsCredentialManager.cs:40 | UTF-16LE decoding (`Encoding.Unicode.GetString`) undoes UTF-16LE encoding for every string |
| Unicode.EncodingRoundTrip | src/Mjcheetham.SecureStorage/Interop/IntPtrExtensions.cs:35-39 | `GetString` undoes `GetBytes` for both encodings the library uses |
| Unicode.Utf16LengthBounds | src/Mjcheetham.SecureStorage/MacOS/Keychain.cs:72-73 | a string's UTF-16 length is at most its UTF-8 byte count, which is at most three times that length; the two are equal exactly for ASCII strings |
| FileTimeExtensions.TicksAsWritten | src/Mjcheetham.SecureStorage/Windows/FileTimeExtensions.cs:10 | the expression as C# parses it: `high << (32 + low)`, with the shift count masked to 6 bits; a zero high half gives 0 whatever the low half |
| FileTimeExtensions.ShiftLeftInt64 | src/Mjcheetham.SecureStorage/Windows/FileTimeExtensions.cs:10 | C#'s `long << int`: the count is taken modulo 64 and zero shifts to zero |
| FileTimeExtensions.FromFileTimeChecked | src/Mjcheetham.SecureStorage/Windows/FileTimeExtensions.cs:11-17 | `DateTime.FromFileTime` and `FromFileTimeUtc` succeed exactly for ticks in 0..2650467743999999999, keep the tick count and the kind asked for, and raise `ArgumentOutOfRangeException` otherwise |
| FileTimeExtensions.AsWrittenShiftCount | src/Mjcheetham.SecureStorage/Windows/FileTimeExtensions.cs:10 | the as-written value is the high half times 2 to the power (low + 32) mod 64, wrapped to 64 bits |
| FileTimeExtensions.ToDateTimeUtc | src/Mjcheetham.SecureStorage/Windows/FileTimeExtensions.cs:14-18 | as written: it throws `ArgumentOutOfRangeException` exactly when the as-written tick count lies outside 0..2650467743999999999, and otherwise gives the UTC time of that tick count; it fails exactly when the local `ToDateTime` fails, and on success both carry the same tick count |
| FileTimeExtensions.Ticks | src/Mjcheetham.SecureStorage/Windows/FileTimeExtensions.cs:10 | the intended 64-bit value: the high half times 2^32 plus the unsigned low half, modulo 2^64 |
| FileTimeExtensions.TicksRoundTrip | src/Mjcheetham.SecureStorage/Windows/FileTimeExtensions.cs:10 | splitting the intended tick value gives back both halves |
| FileTimeExtensions.TicksInjective | src/Mjcheetham.SecureStorage/Windows/FileTimeExtensions.cs:10 | two FILETIMEs with the same intended tick value are equal |
| FileTimeExtensions.AsWrittenAgreesWhenLowIsZero | src/Mjcheetham.SecureStorage/Windows/FileTimeExtensions.cs:16 | as written and intended agree whenever the low half is 0 |
| FileTimeExtensions.AsWrittenLosesLowHalf | src/Mjcheetham.SecureStorage/Windows/FileTimeExtensions.cs:10 | as written, every FILETIME with a high half of 0 converts to tick 0, while {high 0, low 1} should be tick 1 |
| FileTimeExtensions.AsWrittenWrapsPresentDay | src/Mjcheetham.SecureStorage/Windows/FileTimeExtensions.cs:16 | a present-day FILETIME gives a negative tick count as written |
| FileTimeExtensions.ToDateTimeUtcBy | src/Mjcheetham.SecureStorage/Windows/FileTimeExtensions.cs:14-18 | under `AsWritten` it is `ToDateTimeUtc`; under either rule it throws exactly outside the accepted range, and under `Intended` a successful conversion keeps a tick count that splits back into the FILETIME |
| FileTimeExtensions.AsWrittenPresentDayThrows | src/Mjcheetham.SecureStorage/Windows/FileTimeExtensions.cs:14-18 | a present-day FILETIME makes `ToDateTimeUtc` raise `ArgumentOutOfRangeException`, while the intended tick count converts |
| FourCharCode.ToUInt32Bytes | src/Mjcheetham.SecureStorage/MacOS/FourCharCodeUtils.cs:9-12 | `BitConverter.ToUInt32` at offset 0 succeeds exactly when there are at least 4 bytes, and reads the first four little-endian; fewer bytes raise an argument exception |
| FourCharCode.ToUInt32ReadsLastFourBytes | src/Mjcheetham.SecureStorage/MacOS/FourCharCodeUtils.cs:14-18 | reversing the UTF-8 bytes and then reading little-endian gives the last four bytes of the string read big-endian; it fails exactly when the string has fewer than 4 UTF-8 bytes |
| FourCharCode.ToUInt32OfTag | src/Mjcheetham.SecureStorage/MacOS/FourCharCodeUtils.cs:14-18 | a four-character ASCII tag reads as its big-endian value |
| FourCharCode.TagRoundTrip | src/Mjcheetham.SecureStorage/MacOS/FourCharCodeUtils.cs:14-29 | `ToString(ToUInt32(tag)) == tag` for every four-character ASCII tag |
| FourCharCode.CodeRoundTrip | src/Mjcheetham.SecureStorage/MacOS/FourCharCodeUtils.cs:14-29 | `ToUInt32(ToString(code)) == code` for every code whose four bytes are ASCII |
| FourCharCode.ToBytesOfCodeIsBigEndian | src/Mjcheetham.SecureStorage/MacOS/FourCharCodeUtils.cs:36-39 | `ToBytes(uint)` gives 4 bytes, and reading them big-endian gives back the code |
| Win32Error.GetLastError | src/Mjcheetham.SecureStorage/Windows/Interop/Win32Error.cs:91-99 | success gives `Success` (0), and failure gives the thread's last Win32 error |
| Win32Error.ThrowIfError | src/Mjcheetham.SecureStorage/Windows/Interop/Win32Error.cs:107-118 | it returns exactly for `Success`; any other code raises an `InteropException` with the caller's message and that code |
| Win32Error.CheckAfterCall | src/Mjcheetham.SecureStorage/Windows/Interop/Win32Error.cs:91-118 | a call checked this way throws exactly when it failed with a non-zero last error, and the exception carries that error |
| Win32Error.NotFoundFails | src/Mjcheetham.SecureStorage/Windows/Interop/Win32Error.cs:107-118 | `ERROR_NOT_FOUND` (1168) is not success, so `ThrowIfError` raises for it |
| IntPtrExtensions.Dereference | src/Mjcheetham.SecureStorage/Interop/IntPtrExtensions.cs:9-12 | the structure read is the one stored at the pointer |
| IntPtrExtensions.ToStructureArray | src/Mjcheetham.SecureStorage/Interop/IntPtrExtensions.cs:14-26 | a negative length overflows; otherwise element i is the structure stored at `ptr + i * sizeof(T)` |
| IntPtrExtensions.ToByteArray | src/Mjcheetham.SecureStorage/Interop/IntPtrExtensions.cs:28-33 | a negative length raises `OverflowException`, the null pointer raises `ArgumentNullException` from `Marshal.Copy` whatever the length, and otherwise the result is exactly the `length` bytes stored from the pointer on |
| IntPtrExtensions.ToString | src/Mjcheetham.SecureStorage/Interop/IntPtrExtensions.cs:35-39 | a negative length raises `OverflowException` and the null pointer `ArgumentNullException`; otherwise the result is the stored bytes decoded with the given encoding |
| Utf8StringMarshaler.Marshaler.constructor | src/Mjcheetham.SecureStorage/Interop/Utf8StringMarshaler.cs:35-38 | the marshaler remembers whether it cleans up native data |
| Utf8StringMarshaler.Instances.constructor | src/Mjcheetham.SecureStorage/Interop/Utf8StringMarshaler.cs:14-15 | the native instance cleans up and the managed one does not; they are distinct objects |
| Utf8StringMarshaler.Instances.GetInstance | src/Mjcheetham.SecureStorage/Interop/Utf8StringMarshaler.cs:22-33 | the native cookie selects the cleaning instance, the managed cookie the other, and any other cookie raises "Invalid marshaler cookie" |
| Utf8StringMarshaler.Marshaler.GetNativeDataSize | src/Mjcheetham.SecureStorage/Interop/Utf8StringMarshaler.cs:40-43 | the size is -1, meaning not of fixed size |
| Utf8StringMarshaler.Marshaler.MarshalManagedToNative | src/Mjcheetham.SecureStorage/Interop/Utf8StringMarshaler.cs:45-56 | null gives the null pointer, a non-string raises `MarshalDirectiveException`, and both leave memory untouched; a string gives a fresh HGlobal block holding its UTF-8 bytes and a terminating NUL |
| Utf8StringMarshaler.Marshaler.MarshalNativeToManaged | src/Mjcheetham.SecureStorage/Interop/Utf8StringMarshaler.cs:58-61 | a null pointer gives null; otherwise the bytes up to the first NUL, decoded as UTF-8 |
| Utf8StringMarshaler.Marshaler.CleanUpNativeData | src/Mjcheetham.SecureStorage/Interop/Utf8StringMarshaler.cs:67-73 | the block is freed exactly when the pointer is non-null and this instance cleans up; otherwise nothing changes |
| Utf8StringMarshaler.NativeRoundTrip | src/Mjcheetham.SecureStorage/Interop/Utf8StringMarshaler.cs:45-61 | marshalling a string to native and back gives the string up to its first NUL character |
| Decimal.IntToStringRoundTrip | src/Mjcheetham.SecureStorage/NativeMethods.cs:37 | the decimal text of an error code is digits, after a '-' for a negative code, and parses back to the code |
| NativeMethodsLegacy.ThrowOnError | src/Mjcheetham.SecureStorage/NativeMethods.cs:22-44 | it returns exactly for OK; the three named codes raise their fixed messages, and any other code raises "Unknown error N", with the caller's message in front when one is given |
| NativeMethodsLegacy.FixedMessagesExactlyThree | src/Mjcheetham.SecureStorage/NativeMethods.cs:26-33 | exactly duplicate item, item not found and interaction not allowed have fixed messages, and these three messages differ |
| NativeMethodsLegacy.UnknownErrorMessageIdentifiesCode | src/Mjcheetham.SecureStorage/NativeMethods.cs:34-42 | with the same default message, two different unknown codes never give the same message |
| NativeMethodsMac.ThrowOnError | src/Mjcheetham.SecureStorage/NativeMethods.Mac.cs:25-50 | it returns exactly for OK; a duplicate item raises `ArgumentException`, a missing item `KeyNotFoundException`, and the interaction and keychain codes `InvalidOperationException`; every message is the named or default text followed by " (code)" |
| NativeMethodsMac.MessageIdentifiesCode | src/Mjcheetham.SecureStorage/NativeMethods.Mac.cs:25-50 | two failures with the same message come from the same code |
| NativeMethodsMac.SuffixDeterminesCode | src/Mjcheetham.SecureStorage/NativeMethods.Mac.cs:48 | the " (code)" suffix alone determines the code, whatever text precedes it |
| SecurityFramework.ThrowIfError | src/Mjcheetham.SecureStorage/MacOS/Interop/SecurityFramework.cs:183-208 | it returns exactly for OK; any other code raises an `InteropException` carrying the code, with its table message when it has one and the caller's default otherwise |
| SecurityFramework.NamedErrorMessagesDistinct | src/Mjcheetham.SecureStorage/MacOS/Interop/SecurityFramework.cs:189-204 | no two codes share a table message, and OK has none |
| SecurityFramework.ItemNotFoundThrows | src/Mjcheetham.SecureStorage/MacOS/Interop/SecurityFramework.cs:197-198 | `errSecItemNotFound` raises "The item cannot be found." |
| SecurityFramework.AttrTypeTagValues | src/Mjcheetham.SecureStorage/MacOS/Interop/SecurityFramework.cs:248-255 | each attribute type's constant is the big-endian value of its four-character ASCII tag |
| SecurityFramework.AttrTypeTags | src/Mjcheetham.SecureStorage/MacOS/Interop/SecurityFramework.cs:248-255 | `FourCharCodeUtils.ToUInt32` of each attribute tag is the enum constant |
| SecurityFramework.AttrTypeFromValueInverse | src/Mjcheetham.SecureStorage/MacOS/Interop/SecurityFramework.cs:248-255 | casting an attribute type's value back gives the same member |
| SecurityFramework.ProtocolTagValues | src/Mjcheetham.SecureStorage/MacOS/Interop/SecurityFramework.cs:257-294 | every protocol except `Any` has as its constant the big-endian value of its four-character tag |
| SecurityFramework.ProtocolTags | src/Mjcheetham.SecureStorage/MacOS/Interop/SecurityFramework.cs:257-294 | `FourCharCodeUtils.ToUInt32` of each protocol tag is the enum constant |
| SecurityFramework.ProtocolFromValueInverse | src/Mjcheetham.SecureStorage/MacOS/Interop/SecurityFramework.cs:257-294 | protocol values are distinct, casting back gives the same member, and 0 is exactly `Any` |
| SecurityFramework.AuthenticationTagValues | src/Mjcheetham.SecureStorage/MacOS/Interop/SecurityFramework.cs:296-307 | every authentication type except `Any` has as its constant the big-endian value of its four-character tag |
| SecurityFramework.AuthenticationTags | src/Mjcheetham.SecureStorage/MacOS/Interop/SecurityFramework.cs:296-307 | `FourCharCodeUtils.ToUInt32` of each authentication tag is the enum constant |
| SecurityFramework.AuthenticationFromValueInverse | src/Mjcheetham.SecureStorage/MacOS/Interop/SecurityFramework.cs:296-307 | authentication values are distinct, casting back gives the same member, and 0 is exactly `Any` |
| SecurityFramework.EnumValuesDistinct | src/Mjcheetham.SecureStorage/MacOS/Interop/SecurityFramework.cs:257-307 | within each enum, equal values mean equal members |
| SecurityFramework.HttpSharedAcrossTables | src/Mjcheetham.SecureStorage/MacOS/Interop/SecurityFramework.cs:257-307 | the protocol `HTTP` and the authentication type `HTTPBasic` share the value of the tag "http" |
| CoreFoundation.CFHeap.constructor | src/Mjcheetham.SecureStorage/MacOS/Interop/CoreFoundation.cs:10-35 | the heap starts with the framework constants only, and the library owns nothing |
| CoreFoundation.CFHeap.Create | src/Mjcheetham.SecureStorage/MacOS/Interop/CoreFoundation.cs:83 | a creating call returns a fresh non-null handle to the given object, owned once by the caller |
| CoreFoundation.CFHeap.Release | src/Mjcheetham.SecureStorage/MacOS/Interop/CoreFoundation.cs:80 | `CFRelease` gives back one owned reference |
| CoreFoundation.CFHeap.CopyTypeIDDescription | src/Mjcheetham.SecureStorage/MacOS/Interop/CoreFoundation.cs:41 | it returns a fresh owned string holding the type's description |
| CoreFoundation.CFHeap.StringCreateWithBytes | src/Mjcheetham.SecureStorage/MacOS/Interop/CoreFoundation.cs:92 | it returns null exactly when the bytes are not valid UTF-8; otherwise a fresh owned string holding them decoded |
| CoreFoundation.EncodingIsUtf8 | src/Mjcheetham.SecureStorage/MacOS/Interop/CoreFoundation.cs:92 | UTF-8 encoding always produces valid UTF-8, so `CFStringCreateWithBytes` never fails for the library's strings |
| CoreFoundation.CFHeap.StringGetCString | src/Mjcheetham.SecureStorage/MacOS/Interop/CoreFoundation.cs:105 | it succeeds exactly when the UTF-8 text and its NUL fit in the buffer, and then writes them to its front and nothing else; on failure the buffer is unchanged |
| CoreFoundation.CFHeap.DataCreate | src/Mjcheetham.SecureStorage/MacOS/Interop/CoreFoundation.cs:111 | a fresh owned data object holding the first `length` bytes |
| CoreFoundation.CFHeap.NumberCreate | src/Mjcheetham.SecureStorage/MacOS/Interop/CoreFoundation.cs:83 | a fresh owned number holding the value read from the cell as the given number type |
| CoreFoundation.NumberFromCell | src/Mjcheetham.SecureStorage/MacOS/Interop/CoreFoundation.cs:83 | a value read from a cell always fits the number type it was read as |
| CoreFoundation.OutValue | src/Mjcheetham.SecureStorage/MacOS/Interop/CoreFoundation.cs:86 | `CFNumberGetValue` into an `IntPtr` slot gives the value zero-extended from the narrow type's width: an unsigned value below 2^bits, and the value itself for 64-bit types |
| CoreFoundation.CFHeap.ArrayCreateMutable | src/Mjcheetham.SecureStorage/MacOS/Interop/CoreFoundation.cs:126 | a fresh owned empty array |
| CoreFoundation.CFHeap.ArrayAppendValue | src/Mjcheetham.SecureStorage/MacOS/Interop/CoreFoundation.cs:129 | the array gains the value at its end and nothing else changes |
| CoreFoundation.CFHeap.DictionaryCreateMutable | src/Mjcheetham.SecureStorage/MacOS/Interop/CoreFoundation.cs:59 | a fresh owned empty dictionary |
| CoreFoundation.DictionaryAdd | src/Mjcheetham.SecureStorage/MacOS/Interop/CoreFoundation.cs:62 | adding leaves a dictionary that already has the key unchanged; otherwise the pair is inserted and the key goes last |
| CoreFoundation.CFHeap.DictionaryAddValue | src/Mjcheetham.SecureStorage/MacOS/Interop/CoreFoundation.cs:62 | the dictionary becomes `DictionaryAdd` of it, and no other object changes |
| CoreFoundation.DictionarySet | src/Mjcheetham.SecureStorage/MacOS/Interop/CoreFoundation.cs:65 | setting maps the key to the value whether or not the key was there; only a new key is appended to the order |
| CoreFoundation.CFHeap.DictionarySetValue | src/Mjcheetham.SecureStorage/MacOS/Interop/CoreFoundation.cs:65 | the dictionary becomes `DictionarySet` of it, and no other object changes |
| CoreFoundation.DictionaryCount | src/Mjcheetham.SecureStorage/MacOS/Interop/CoreFoundation.cs:74 | add and set each grow the count by one for a new key and leave it for an existing key |
| CoreFoundation.ValuesInOrder | src/Mjcheetham.SecureStorage/MacOS/Interop/CoreFoundation.cs:68 | the values, listed in the order of their keys |
| CoreFoundation.CFHeap.DictionaryGetKeysAndValues | src/Mjcheetham.SecureStorage/MacOS/Interop/CoreFoundation.cs:68 | it fills the front of the two arrays with the keys and their values in the same order, and leaves the rest untouched |
| CFTypes.Registered | src/Mjcheetham.SecureStorage/MacOS/CFType.cs:13-20 | a registered type id maps to the wrapper kind of that id |
| CFTypes.RegisteredExactlyFive | src/Mjcheetham.SecureStorage/MacOS/CFType.cs:13-20 | exactly the array, data, dictionary, number and string type ids are registered, and booleans and keychain items are not |
| CFTypes.RegisteredKindFits | src/Mjcheetham.SecureStorage/MacOS/CFType.cs:32-38 | a registered object gets the wrapper of its own kind; the unregistered objects are exactly booleans, keychain items and other types |
| CFTypes.CFType.constructor | src/Mjcheetham.SecureStorage/MacOS/CFType.cs:22 | a new wrapper has the null handle (so it is invalid), its kind and its ownership |
| CFTypes.CFType.SetHandle | src/Mjcheetham.SecureStorage/MacOS/CFString.cs:17 | the wrapper takes the handle |
| CFTypes.CFType.ReleaseHandle | src/Mjcheetham.SecureStorage/MacOS/CFType.cs:26-30 | `CFRelease` gives back the wrapper's reference, and the result is true |
| CFTypes.CFType.Dispose | src/Mjcheetham.SecureStorage/MacOS/CFType.cs:26-30 | disposing closes the wrapper, and an owning valid wrapper gives back exactly one reference |
| CFTypes.Wrap | src/Mjcheetham.SecureStorage/MacOS/CFType.cs:15-19 | a constructor entry gives a fresh open wrapper of its kind on the handle |
| CFTypes.FromHandle | src/Mjcheetham.SecureStorage/MacOS/CFType.cs:32-42 | a registered type gives a wrapper of its kind and changes no state; any other type raises "Unknown CFTypeID id (name)", leaking one description string |
| CFTypes.NewString | src/Mjcheetham.SecureStorage/MacOS/CFString.cs:10-13 | a fresh owning wrapper on a fresh string object holding the text |
| CFTypes.NewData | src/Mjcheetham.SecureStorage/MacOS/CFData.cs:11-12 | a fresh owning wrapper on a fresh data object holding the bytes |
| CFTypes.NewEmptyData | src/Mjcheetham.SecureStorage/MacOS/CFData.cs:9 | a fresh owning wrapper on an empty data object |
| CFTypes.NewNumberByte | src/Mjcheetham.SecureStorage/MacOS/CFNumber.cs:10-12 | a fresh owning wrapper on a `CharType` number holding the byte read as signed |
| CFTypes.NewNumberInt16 | src/Mjcheetham.SecureStorage/MacOS/CFNumber.cs:14 | a fresh owning wrapper on a `ShortType` number holding the value; it is built with the corrected `CreateHandleFreeing`, so no HGlobal block is left allocated, where the source leaks one (see Findings) |
| CFTypes.NewNumberInt32 | src/Mjcheetham.SecureStorage/MacOS/CFNumber.cs:18 | a fresh owning wrapper on a `IntType` number holding the value; it is built with the corrected `CreateHandleFreeing`, so no HGlobal block is left allocated, where the source leaks one (see Findings) |
| CFTypes.NewNumberInt64 | src/Mjcheetham.SecureStorage/MacOS/CFNumber.cs:22 | a fresh owning wrapper on a `LongType` number holding the value; it is built with the corrected `CreateHandleFreeing`, so no HGlobal block is left allocated, where the source leaks one (see Findings) |
| CFTypes.NewNumberFromPointer | src/Mjcheetham.SecureStorage/MacOS/CFNumber.cs:26-29 | a fresh owning wrapper on a number read from the pointed cell as the given type |
| CFString.CreateHandle | src/Mjcheetham.SecureStorage/MacOS/CFString.cs:27-35 | a fresh owned string object holding exactly the string, because UTF-8 bytes always decode back |
| CFString.ToString | src/Mjcheetham.SecureStorage/MacOS/CFString.cs:37-55 | null for the null handle; otherwise the text up to its first NUL character, since the buffer always fits |
| CFString.ToStringWhole | src/Mjcheetham.SecureStorage/MacOS/CFString.cs:50-51 | a text without NUL characters is read back whole |
| CFString.Length | src/Mjcheetham.SecureStorage/MacOS/CFString.cs:20 | 0 for an invalid wrapper, else the UTF-16 length, which never exceeds the UTF-8 byte count |
| CFArray.New | src/Mjcheetham.SecureStorage/MacOS/CFArray.cs:8-16 | a fresh owning wrapper on a fresh empty array |
| CFArray.Handles | src/Mjcheetham.SecureStorage/MacOS/CFArray.cs:29-32 | the handles of the wrappers, in order |
| CFArray.CreateHandle | src/Mjcheetham.SecureStorage/MacOS/CFArray.cs:23-35 | a fresh owned array holding the wrappers' handles in order |
| CFArray.ToArray | src/Mjcheetham.SecureStorage/MacOS/CFArray.cs:37-48 | it succeeds exactly when every element's type is registered; the result is one fresh non-owning wrapper per element, in order; an unregistered element raises a plain exception |
| CFData.CreateHandle | src/Mjcheetham.SecureStorage/MacOS/CFData.cs:25-28 | a fresh owned data object holding exactly the bytes |
| CFData.ToArray | src/Mjcheetham.SecureStorage/MacOS/CFData.cs:30-42 | null for the null handle, else the data's bytes |
| CFData.Length | src/Mjcheetham.SecureStorage/MacOS/CFData.cs:19 | 0 for an invalid wrapper, else the number of bytes |
| CFNumber.CreateValuePointer | src/Mjcheetham.SecureStorage/MacOS/CFNumber.cs:36-41 | a fresh HGlobal block of the value's size holding the value |
| CFNumber.CreateHandleLeaking | src/Mjcheetham.SecureStorage/MacOS/CFNumber.cs:50-84 | as written: a fresh owned number holding the value, and the value block stays allocated |
| CFNumber.CreateHandleFreeing | src/Mjcheetham.SecureStorage/MacOS/CFNumber.cs:50-84 | the same number, with memory left exactly as before |
| CFNumber.SignedChar | src/Mjcheetham.SecureStorage/MacOS/CFNumber.cs:54-55 | the byte as a signed char: in [-128, 128) and congruent to it modulo 256 |
| CFNumber.CreateHandleByte | src/Mjcheetham.SecureStorage/MacOS/CFNumber.cs:50-57 | a fresh owned `CharType` number holding the byte as signed char; corrected: memory is left as before, where the source leaves the value block allocated (see Findings) |
| CFNumber.CreateHandleInt16 | src/Mjcheetham.SecureStorage/MacOS/CFNumber.cs:59-66 | a fresh owned `ShortType` number holding the value; corrected: memory is left as before, where the source leaves the value block allocated (see Findings) |
| CFNumber.CreateHandleInt32 | src/Mjcheetham.SecureStorage/MacOS/CFNumber.cs:68-75 | a fresh owned `IntType` number holding the value; corrected: memory is left as before, where the source leaves the value block allocated (see Findings) |
| CFNumber.CreateHandleInt64 | src/Mjcheetham.SecureStorage/MacOS/CFNumber.cs:77-84 | a fresh owned `LongType` number holding the value; corrected: memory is left as before, where the source leaves the value block allocated (see Findings) |
| CFNumber.IntPtrToInt32 | src/Mjcheetham.SecureStorage/MacOS/CFNumber.cs:110 | `IntPtr.ToInt32` on a 64-bit process: the value when it fits in 32 bits, otherwise `OverflowException` |
| CFNumber.ToInt8 | src/Mjcheetham.SecureStorage/MacOS/CFNumber.cs:86-94 | a value that fits `SInt8` gives its byte; any other gives 0 |
| CFNumber.ToInt16 | src/Mjcheetham.SecureStorage/MacOS/CFNumber.cs:96-104 | a value that fits `SInt16` gives itself; any other gives 0 |
| CFNumber.ToInt32 | src/Mjcheetham.SecureStorage/MacOS/CFNumber.cs:106-114 | as written: a non-negative `SInt32` value gives itself, a negative one raises `OverflowException`, and any other gives 0 |
| CFNumber.ToInt32Corrected | src/Mjcheetham.SecureStorage/MacOS/CFNumber.cs:106-114 | a value that fits `SInt32` gives itself, negative or not; any other gives 0 |
| CFNumber.ToInt64 | src/Mjcheetham.SecureStorage/MacOS/CFNumber.cs:116-124 | a value that fits `SInt64` gives itself; any other gives 0 |
| CFNumber.ByteRoundTrip | src/Mjcheetham.SecureStorage/MacOS/CFNumber.cs:50-94 | `ToInt8` of a number made from a byte gives that byte |
| CFNumber.Int16RoundTrip | src/Mjcheetham.SecureStorage/MacOS/CFNumber.cs:59-104 | `ToInt16` of a number made from a short gives that short |
| CFNumber.Int32RoundTrip | src/Mjcheetham.SecureStorage/MacOS/CFNumber.cs:68-114 | the corrected `ToInt32` of a number made from an int gives that int |
| CFNumber.Int64RoundTrip | src/Mjcheetham.SecureStorage/MacOS/CFNumber.cs:77-124 | `ToInt64` of a number made from a long gives that long |
| CFNumber.ToInt32MinusOneFails | src/Mjcheetham.SecureStorage/MacOS/CFNumber.cs:106-114 | for the number -1, the slot reads 0xFFFFFFFF and `ToInt32` as written raises `OverflowException` |
| CFDictionary.New | src/Mjcheetham.SecureStorage/MacOS/CFDictionary.cs:11-20 | a fresh owning wrapper on a fresh empty dictionary |
| CFDictionary.FromDictionary | src/Mjcheetham.SecureStorage/MacOS/CFDictionary.cs:27-33 | the pairs come from an `IDictionary`, whose keys are distinct and enumerate in a repeat-free order; the new dictionary holds exactly those pairs, its keys in that order |
| CFDictionary.NextKeyIsNew | src/Mjcheetham.SecureStorage/MacOS/CFDictionary.cs:29-32 | for a repeat-free key order, each key the copy loop adds is not among those added before it, so every `CFDictionaryAddValue` call adds its pair |
| CFDictionary.GetEnumerator | src/Mjcheetham.SecureStorage/MacOS/CFDictionary.cs:35-38 | always raises `NotImplementedException` |
| CFDictionary.Clear | src/Mjcheetham.SecureStorage/MacOS/CFDictionary.cs:47-50 | always raises `NotImplementedException` |
| CFDictionary.CopyTo | src/Mjcheetham.SecureStorage/MacOS/CFDictionary.cs:55-58 | always raises `NotImplementedException` |
| CFDictionary.RemovePair | src/Mjcheetham.SecureStorage/MacOS/CFDictionary.cs:60-63 | always raises `NotImplementedException` |
| CFDictionary.Remove | src/Mjcheetham.SecureStorage/MacOS/CFDictionary.cs:75-78 | always raises `NotImplementedException` |
| CFDictionary.Count | src/Mjcheetham.SecureStorage/MacOS/CFDictionary.cs:65 | the number of keys |
| CFDictionary.ContainsKey | src/Mjcheetham.SecureStorage/MacOS/CFDictionary.cs:73 | true exactly when the key is present |
| CFDictionary.TryGetValue | src/Mjcheetham.SecureStorage/MacOS/CFDictionary.cs:80-90 | found with the value when the key is present; otherwise not found and the null pointer |
| CFDictionary.Contains | src/Mjcheetham.SecureStorage/MacOS/CFDictionary.cs:52-53 | true exactly when the key is present with that value |
| CFDictionary.Get | src/Mjcheetham.SecureStorage/MacOS/CFDictionary.cs:94 | the indexer gives the key's value, or null when the key is absent |
| CFDictionary.GetNullIffAbsent | src/Mjcheetham.SecureStorage/MacOS/CFDictionary.cs:80-94 | the indexer gives null exactly when `TryGetValue` finds nothing |
| CFDictionary.Keys | src/Mjcheetham.SecureStorage/MacOS/CFDictionary.cs:102-111 | the keys in the dictionary's order, each once, `Count` of them |
| CFDictionary.Values | src/Mjcheetham.SecureStorage/MacOS/CFDictionary.cs:113-122 | the values in the order of the keys |
| CFDictionary.DistinctSetSize | src/Mjcheetham.SecureStorage/MacOS/CFDictionary.cs:106-109 | a list without repeats has as many elements as its set |
| CFDictionary.Add | src/Mjcheetham.SecureStorage/MacOS/CFDictionary.cs:69 | a key not present gains the value; a key present keeps its old value |
| CFDictionary.AddHandle | src/Mjcheetham.SecureStorage/MacOS/CFDictionary.cs:71 | `Add` of the handle's pointer |
| CFDictionary.SetValue | src/Mjcheetham.SecureStorage/MacOS/CFDictionary.cs:98 | the key maps to the new value, present or not |
| CFDictionary.SetValueHandle | src/Mjcheetham.SecureStorage/MacOS/CFDictionary.cs:100 | `SetValue` of the handle's pointer |
| CFDictionary.SetThenGet | src/Mjcheetham.SecureStorage/MacOS/CFDictionary.cs:98 | after `SetValue`, the key reads the new value and every other key reads as before |
| CFDictionary.AddThenGet | src/Mjcheetham.SecureStorage/MacOS/CFDictionary.cs:69 | after `Add`, a new key reads the value and an existing key reads its old value |
| CFDictionary.GetString | src/Mjcheetham.SecureStorage/MacOS/CFDictionary.cs:130-133 | null for a missing key, else the stored text up to its first NUL |
| CFDictionary.SetString | src/Mjcheetham.SecureStorage/MacOS/CFDictionary.cs:135-145 | null raises `NotImplementedException` and changes nothing; a string stores a fresh string object under the key, whose reference the dictionary keeps |
| CFDictionary.SetStringThenGetString | src/Mjcheetham.SecureStorage/MacOS/CFDictionary.cs:130-145 | a string set under a key reads back up to its first NUL |
| KeychainServices.Passed | src/Mjcheetham.SecureStorage/MacOS/Interop/SecurityFramework.cs:82-90 | the Security framework sees the first `length` bytes of the UTF-8 string |
| KeychainServices.LengthAsWritten | src/Mjcheetham.SecureStorage/MacOS/Keychain.cs:72-73 | as written, the length passed is the UTF-16 length, at most the UTF-8 byte count |
| KeychainServices.ArgumentAsWritten | src/Mjcheetham.SecureStorage/MacOS/Keychain.cs:72-80 | as written, the framework sees a prefix of the UTF-8 bytes, `LengthAsWritten` of them |
| KeychainServices.Argument | src/Mjcheetham.SecureStorage/MacOS/Keychain.cs:72-80 | corrected: the framework sees all the UTF-8 bytes, with null as the empty string |
| KeychainServices.ArgumentInjective | src/Mjcheetham.SecureStorage/MacOS/Keychain.cs:72-80 | corrected arguments are equal only for equal strings |
| KeychainServices.ArgumentsAgreeOnAscii | src/Mjcheetham.SecureStorage/MacOS/Keychain.cs:72-73 | for ASCII strings, as written and corrected agree |
| KeychainServices.ArgumentAsWrittenCollides | src/Mjcheetham.SecureStorage/MacOS/Keychain.cs:72-73 | as written, "é" and "è" both reach the framework as the single byte 0xC3 |
| KeychainServices.AttributeValue | src/Mjcheetham.SecureStorage/MacOS/Interop/SecurityFramework.cs:140-146 | only service, account and label attributes are stored; the account attribute is the item's account |
| KeychainServices.WithData | src/Mjcheetham.SecureStorage/MacOS/Interop/SecurityFramework.cs:149-153 | the item with the id gets the new data, and every other item is unchanged |
| KeychainServices.WithoutId | src/Mjcheetham.SecureStorage/MacOS/Interop/SecurityFramework.cs:159-160 | exactly the items with the id are removed, and the rest are unchanged |
| KeychainServices.Vault.FindPassword | src/Mjcheetham.SecureStorage/MacOS/Interop/SecurityFramework.cs:111-137 | it finds exactly the stored attributes; on success it hands out a fresh content block holding the secret and a fresh owned item reference; on failure it returns the fault or `errSecItemNotFound`, with nothing allocated |
| KeychainServices.Vault.AddPassword | src/Mjcheetham.SecureStorage/MacOS/Interop/SecurityFramework.cs:82-108 | new attributes are added with a fresh id and the secret, and the caller gets an owned item reference; existing attributes give `errSecDuplicateItem` and no change |
| KeychainServices.Vault.ModifyData | src/Mjcheetham.SecureStorage/MacOS/Interop/SecurityFramework.cs:149-153 | a live item's data is replaced (`WithData`); a deleted item gives `errSecInvalidItemRef` |
| KeychainServices.Vault.DeleteItem | src/Mjcheetham.SecureStorage/MacOS/Interop/SecurityFramework.cs:159-160 | a live item is removed (`WithoutId`); a deleted item gives `errSecInvalidItemRef` |
| KeychainServices.Vault.CopyAttribute | src/Mjcheetham.SecureStorage/MacOS/Interop/SecurityFramework.cs:140-146 | on success, a fresh attribute list holding the item's value for the requested tag; a stored attribute always succeeds without a fault; on failure nothing is allocated |
| KeychainServices.Vault.FreeContent | src/Mjcheetham.SecureStorage/MacOS/Interop/SecurityFramework.cs:163-165 | the content block is freed |
| KeychainServices.Vault.FreeAttributesAndData | src/Mjcheetham.SecureStorage/MacOS/Interop/SecurityFramework.cs:168-170 | the attribute list is freed |
| KeychainServices.ItemCopyMatching | src/Mjcheetham.SecureStorage/MacOS/Interop/SecurityFramework.cs:156 | the status is the OS's; on OK the result is a fresh object owned by the caller, otherwise the result is null and nothing changes |
| Keychain.Throw | src/Mjcheetham.SecureStorage/MacOS/Keychain.cs:93 | a failure code becomes an `InteropException` carrying that code |
| Keychain.PasswordLookup | src/Mjcheetham.SecureStorage/MacOS/Keychain.cs:84-95 | the secret stored for the attributes, decoded as `Encoding.UTF8` decodes it, ill-formed bytes replaced per maximal subpart; null for a missing item; any other failure code raises `InteropException` with that code |
| Keychain.FindPassword | src/Mjcheetham.SecureStorage/MacOS/Keychain.cs:67-109 | it answers `PasswordLookup` (the secret decoded per maximal subpart, as `Encoding.UTF8` does), frees the content block, releases the item reference, and leaves no allocation or reference behind |
| Keychain.FindGenericPassword | src/Mjcheetham.SecureStorage/MacOS/Keychain.cs:67-109 | `PasswordLookup` for the service and account with the corrected UTF-8 lengths, with nothing left allocated |
| Keychain.FindInternetPassword | src/Mjcheetham.SecureStorage/MacOS/Keychain.cs:111-158 | `PasswordLookup` for server, account, path, port and protocol with the corrected UTF-8 lengths, with nothing left allocated |
| Keychain.AddOutcome | src/Mjcheetham.SecureStorage/MacOS/Keychain.cs:179 | it passes exactly for new attributes without a fault; a duplicate raises `errSecDuplicateItem` and any fault raises its own code |
| Keychain.AddPassword | src/Mjcheetham.SecureStorage/MacOS/Keychain.cs:160-188 | on success the keychain gains the attributes with the password's UTF-8 bytes; on failure it is unchanged; the item reference is released |
| Keychain.AddGenericPassword | src/Mjcheetham.SecureStorage/MacOS/Keychain.cs:160-188 | `AddPassword` for the service and account with the corrected UTF-8 lengths |
| Keychain.AddInternetPassword | src/Mjcheetham.SecureStorage/MacOS/Keychain.cs:190-223 | `AddPassword` for server, account, path, port and protocol with the corrected UTF-8 lengths |
| Keychain.AddThenFind | src/Mjcheetham.SecureStorage/MacOS/Keychain.cs:160-177 | a password added under attributes is what a find of them returns, with null read back as "" |
| Keychain.GenericArgumentsInjective | src/Mjcheetham.SecureStorage/MacOS/Keychain.cs:72-80 | with the corrected lengths, different service or account strings never name the same item |
| Keychain.ClassHandle | src/Mjcheetham.SecureStorage/MacOS/Keychain.cs:365-380 | the item type's `kSecClass` constant, generic or internet password |
| Keychain.KeychainItem.constructor | src/Mjcheetham.SecureStorage/MacOS/Keychain.cs:341-344 | the item wraps the given dictionary |
| Keychain.NewKeychainItem | src/Mjcheetham.SecureStorage/MacOS/Keychain.cs:335-339 | an undefined type raises `ArgumentOutOfRangeException`; otherwise a fresh item on a fresh owned dictionary whose only field is the type |
| Keychain.NewItemFields | src/Mjcheetham.SecureStorage/MacOS/Keychain.cs:335-339 | a dictionary holding only the class reads as the type with every other property at its default |
| Keychain.KeychainItem.Type | src/Mjcheetham.SecureStorage/MacOS/Keychain.cs:348-364 | generic or internet password by `kSecClass`; any other class raises `InvalidOperationException` |
| Keychain.KeychainItem.SetType | src/Mjcheetham.SecureStorage/MacOS/Keychain.cs:365-380 | a defined type sets `kSecClass` to its constant; an undefined type raises `ArgumentOutOfRangeException` with no change |
| Keychain.KeychainItem.ReadCode | src/Mjcheetham.SecureStorage/MacOS/Keychain.cs:387-391 | an absent key reads 0 (`Any`); otherwise the stored four-character string converted to its code |
| Keychain.KeychainItem.WriteCode | src/Mjcheetham.SecureStorage/MacOS/Keychain.cs:395-406 | 0 (`Any`) tries the unimplemented `Remove`; any other code stores a fresh string of its four characters |
| Keychain.KeychainItem.AuthenticationType | src/Mjcheetham.SecureStorage/MacOS/Keychain.cs:385-394 | the item's authentication type, read back from its four-character code |
| Keychain.KeychainItem.SetAuthenticationType | src/Mjcheetham.SecureStorage/MacOS/Keychain.cs:395-406 | `Any` raises `NotImplementedException` with no change; any other type stores its four-character string |
| Keychain.KeychainItem.Protocol | src/Mjcheetham.SecureStorage/MacOS/Keychain.cs:411-420 | the item's protocol, read back from its four-character code |
| Keychain.KeychainItem.SetProtocol | src/Mjcheetham.SecureStorage/MacOS/Keychain.cs:421-432 | `Any` raises `NotImplementedException` with no change; any other protocol stores its four-character string |
| Keychain.KeychainItem.Data | src/Mjcheetham.SecureStorage/MacOS/Keychain.cs:437 | the stored bytes, or null when there are none |
| Keychain.KeychainItem.SetData | src/Mjcheetham.SecureStorage/MacOS/Keychain.cs:438-448 | null raises `NotImplementedException` with no change; bytes are stored as a fresh data object |
| Keychain.KeychainItem.GetText | src/Mjcheetham.SecureStorage/MacOS/Keychain.cs:451-479 | account, label, service, server or path: the stored text up to its first NUL, or null |
| Keychain.KeychainItem.SetText | src/Mjcheetham.SecureStorage/MacOS/Keychain.cs:451-479 | null raises `NotImplementedException` with no change; a string is stored as a fresh string object |
| Keychain.KeychainItem.Port | src/Mjcheetham.SecureStorage/MacOS/Keychain.cs:483 | the stored number read as `SInt16`, or 0 when there is none |
| Keychain.KeychainItem.SetPort | src/Mjcheetham.SecureStorage/MacOS/Keychain.cs:484-494 | a positive port is stored as a fresh `ShortType` number made by the corrected number creation (the source also leaks the value block, see Findings); any other port raises `NotImplementedException` with no change |
| Keychain.KeychainItem.Dispose | src/Mjcheetham.SecureStorage/MacOS/Keychain.cs:497 | disposing the item disposes its dictionary |
| Keychain.KeyKept | src/Mjcheetham.SecureStorage/MacOS/Keychain.cs:365-494 | storing under one key leaves what every other key reads unchanged |
| Keychain.OthersKeptNonText | src/Mjcheetham.SecureStorage/MacOS/Keychain.cs:365-494 | storing under one key leaves the type, the two codes, the data and the port that other keys give unchanged |
| Keychain.OthersKeptText | src/Mjcheetham.SecureStorage/MacOS/Keychain.cs:451-479 | storing under one key leaves the text properties stored under other keys unchanged |
| Keychain.OthersKept | src/Mjcheetham.SecureStorage/MacOS/Keychain.cs:365-494 | a setter changes only its own property: every property stored under another key reads as before |
| Keychain.CodeSurvives | src/Mjcheetham.SecureStorage/MacOS/Keychain.cs:389-404 | a four-character ASCII code written as a string reads back as the same code |
| Keychain.SetProtocolThenGet | src/Mjcheetham.SecureStorage/MacOS/Keychain.cs:409-433 | after setting a protocol other than `Any`, the protocol reads it back and every other property is unchanged |
| Keychain.ProtocolReadsBack | src/Mjcheetham.SecureStorage/MacOS/Keychain.cs:415-430 | every protocol except `Any` survives the string round trip |
| Keychain.SetAuthenticationTypeThenGet | src/Mjcheetham.SecureStorage/MacOS/Keychain.cs:383-407 | after setting an authentication type other than `Any`, it reads back and every other property is unchanged |
| Keychain.AuthenticationTypeReadsBack | src/Mjcheetham.SecureStorage/MacOS/Keychain.cs:389-404 | every authentication type except `Any` survives the string round trip |
| Keychain.SetDataThenGet | src/Mjcheetham.SecureStorage/MacOS/Keychain.cs:435-449 | after setting data, the data reads it back and every other property is unchanged |
| Keychain.SetPortThenGet | src/Mjcheetham.SecureStorage/MacOS/Keychain.cs:481-495 | after setting a positive port, the port reads it back and every other property is unchanged |
| Keychain.SetTextThenGet | src/Mjcheetham.SecureStorage/MacOS/Keychain.cs:451-479 | after setting a text property, it reads back up to the first NUL and every other property is unchanged |
| Keychain.SetTypeThenGet | src/Mjcheetham.SecureStorage/MacOS/Keychain.cs:348-381 | after setting a defined type, the type reads it back and every other property is unchanged |
| KeychainQueries.WithSearchOptions | src/Mjcheetham.SecureStorage/MacOS/Keychain.cs:232-234 | the query with the three search options added |
| KeychainQueries.SearchKeepsQuery | src/Mjcheetham.SecureStorage/MacOS/Keychain.cs:232-234 | the search options add the limit and the two return keys, keep every existing entry, and keep an existing limit |
| KeychainQueries.AddThenGetKeeps | src/Mjcheetham.SecureStorage/MacOS/Keychain.cs:232-234 | `Add` gains exactly its key, keeps every existing value, and gives a new key its value |
| KeychainQueries.ReusedQueryKeepsAllLimit | src/Mjcheetham.SecureStorage/MacOS/Keychain.cs:260-262 | a query once used with `FindItems` keeps the "all" limit when it is later used with `FindItem` |
| KeychainQueries.StatusOutcome | src/Mjcheetham.SecureStorage/MacOS/Keychain.cs:238-250 | OK gives the found value, `errSecItemNotFound` the not-found value, and any other status raises `InteropException` |
| KeychainQueries.AddSearchOptions | src/Mjcheetham.SecureStorage/MacOS/Keychain.cs:232-234 | the query's dictionary becomes `WithSearchOptions` of it |
| KeychainQueries.FindItem | src/Mjcheetham.SecureStorage/MacOS/Keychain.cs:225-251 | a query that is not a `KeychainItem` raises `ArgumentException`; otherwise the search options are added, and OK gives a fresh item wrapping the result |
| KeychainQueries.DictionaryElements | src/Mjcheetham.SecureStorage/MacOS/Keychain.cs:269-273 | the dictionaries among the array's elements, in order |
| KeychainQueries.DictionaryElementsAppend | src/Mjcheetham.SecureStorage/MacOS/Keychain.cs:269-273 | filtering one more element appends it exactly when it is a dictionary |
| KeychainQueries.FindItems | src/Mjcheetham.SecureStorage/MacOS/Keychain.cs:253-283 | a query that is not a `KeychainItem` raises `ArgumentException`; otherwise the "all" limit is added, and OK gives one fresh item per dictionary in the result array, in order |
| KeychainQueries.ArrayItems | src/Mjcheetham.SecureStorage/MacOS/Keychain.cs:269-273 | wrapping the array gives one item per dictionary element; an element of unregistered type raises a plain exception |
| KeychainQueries.DictionaryItems | src/Mjcheetham.SecureStorage/MacOS/Keychain.cs:269-273 | `OfType<CFDictionary>` keeps exactly the dictionary wrappers, in order |
| KeychainQueries.DeleteItem | src/Mjcheetham.SecureStorage/MacOS/Keychain.cs:285-308 | a query that is not a `KeychainItem` raises `ArgumentException`; otherwise the limit is set to one, and the status gives true, false or an exception |
| KeychainQueries.AddItem | src/Mjcheetham.SecureStorage/MacOS/Keychain.cs:310-328 | a non-`KeychainItem` raises `ArgumentException`; otherwise OK passes and any other status raises `InteropException` |
| SecItems.PutConstant | src/Mjcheetham.SecureStorage/MacOS/MacOSKeychain.cs:401 | the query dictionary gains the constant under the key, and every other object is unchanged |
| SecItems.PutString | src/Mjcheetham.SecureStorage/MacOS/MacOSKeychain.cs:408-416 | the dictionary gains a fresh string under the key; its creating reference is never released |
| SecItems.PutInt64 | src/Mjcheetham.SecureStorage/MacOS/MacOSKeychain.cs:451-459 | the dictionary gains a fresh `LongType` number under the key |
| SecItems.PutInt16 | src/Mjcheetham.SecureStorage/MacOS/MacOSKeychain.cs:466-469 | the dictionary gains a fresh `ShortType` number under the key |
| SecItems.ToCFDictionary | src/Mjcheetham.SecureStorage/MacOS/MacOSKeychain.cs:394-421 | a fresh owning dictionary holding exactly the query's entries; the strings and numbers it creates stay owned |
| SecItems.AddCommonEntries | src/Mjcheetham.SecureStorage/MacOS/MacOSKeychain.cs:401-416 | return attributes, return data when asked, account and label when given |
| SecItems.PutTextStep | src/Mjcheetham.SecureStorage/MacOS/MacOSKeychain.cs:408-416 | a non-null string is stored under its key; null adds nothing |
| SecItems.PutInt64Step | src/Mjcheetham.SecureStorage/MacOS/MacOSKeychain.cs:451-459 | an enum value other than `Any` is stored as a `LongType` number; `Any` adds nothing |
| SecItems.AddGenericParameters | src/Mjcheetham.SecureStorage/MacOS/MacOSKeychain.cs:428-436 | the generic class and the service when given |
| SecItems.AddInternetHead | src/Mjcheetham.SecureStorage/MacOS/MacOSKeychain.cs:447-459 | the internet class, and the authentication type and protocol when not `Any` |
| SecItems.AddInternetParameters | src/Mjcheetham.SecureStorage/MacOS/MacOSKeychain.cs:447-475 | and then the server, a positive port and the path |
| SecItems.AddQueryParameters | src/Mjcheetham.SecureStorage/MacOS/MacOSKeychain.cs:418 | the parameters of the query's own class |
| SecItems.QueryEntriesKeys | src/Mjcheetham.SecureStorage/MacOS/MacOSKeychain.cs:394-475 | a key is in the query exactly when the query sets that field, and the class is always present |
| SecItems.SecItem.constructor | src/Mjcheetham.SecureStorage/MacOS/MacOSKeychain.cs:313-316 | the item wraps the dictionary and is not disposed |
| SecItems.SecItem.GetData | src/Mjcheetham.SecureStorage/MacOS/MacOSKeychain.cs:320-328 | the stored bytes, or an empty array when there are none |
| SecItems.SecItem.GetString | src/Mjcheetham.SecureStorage/MacOS/MacOSKeychain.cs:330-338 | the stored text up to its first NUL, or the default |
| SecItems.SecItem.GetNumber | src/Mjcheetham.SecureStorage/MacOS/MacOSKeychain.cs:340-348 | the stored number read as `SInt64`, or the default |
| SecItems.SecItem.Data | src/Mjcheetham.SecureStorage/MacOS/MacOSKeychain.cs:350 | the item's data |
| SecItems.SecItem.Account | src/Mjcheetham.SecureStorage/MacOS/MacOSKeychain.cs:352 | the item's account |
| SecItems.SecItem.Label | src/Mjcheetham.SecureStorage/MacOS/MacOSKeychain.cs:354 | the item's label |
| SecItems.SecItem.Server | src/Mjcheetham.SecureStorage/MacOS/MacOSKeychain.cs:379 | an internet item's server |
| SecItems.SecItem.Port | src/Mjcheetham.SecureStorage/MacOS/MacOSKeychain.cs:380 | the 64-bit number truncated to 16 bits, so congruent to it modulo 2^16 |
| SecItems.SecItem.Path | src/Mjcheetham.SecureStorage/MacOS/MacOSKeychain.cs:381 | an internet item's path |
| SecItems.SecItem.Dispose | src/Mjcheetham.SecureStorage/MacOS/MacOSKeychain.cs:356-361 | the first call disposes the dictionary, and later calls change nothing |
| SecItems.QueryReadsBack | src/Mjcheetham.SecureStorage/MacOS/MacOSKeychain.cs:394-475 | a dictionary built from a query reads back, through the item properties, as that query |
| SecItems.QueryText | src/Mjcheetham.SecureStorage/MacOS/MacOSKeychain.cs:408-474 | each text field of the query reads back up to its first NUL, or null when not given |
| SecItems.ReadsText | src/Mjcheetham.SecureStorage/MacOS/MacOSKeychain.cs:408-474 | a created string entry reads back as its text up to the first NUL, and a missing one as null |
| SecItems.SearchHolds | src/Mjcheetham.SecureStorage/MacOS/MacOSKeychain.cs:220 | adding the "one" limit turns the query's entries into the search entries |
| SecItems.FindItem | src/Mjcheetham.SecureStorage/MacOS/MacOSKeychain.cs:218-236 | the query gains the "one" limit; OK gives a fresh owning dictionary on the result, not-found gives null, and any other status raises |
| SecItems.FindSecItem | src/Mjcheetham.SecureStorage/MacOS/MacOSKeychain.cs:194-216 | it builds the query, searches, and on OK wraps the result in a fresh item of the query's kind; the query dictionary is never disposed |
| SecItems.GetAttributeData | src/Mjcheetham.SecureStorage/MacOS/MacOSKeychain.cs:251-305 | it succeeds exactly when the item has the attribute and no fault occurs, and then gives the attribute's bytes; failures raise `InteropException`; every block is given back |
| SecItems.AllocAttributeInfo | src/Mjcheetham.SecureStorage/MacOS/MacOSKeychain.cs:259-263 | two fresh 4-byte HGlobal blocks holding the tag and the format |
| SecItems.CopyOutAndFree | src/Mjcheetham.SecureStorage/MacOS/MacOSKeychain.cs:280-303 | it reads the attribute's bytes and frees the tag, the format and the attribute list |
| SecItems.ArraysGivenBack | src/Mjcheetham.SecureStorage/MacOS/MacOSKeychain.cs:288-298 | freeing the two info arrays restores the allocations from before |
| SecItems.BlocksGivenBack | src/Mjcheetham.SecureStorage/MacOS/MacOSKeychain.cs:288-303 | freeing the two arrays and the list restores the allocations from before |
| SecItems.ReadAttributeBytes | src/Mjcheetham.SecureStorage/MacOS/MacOSKeychain.cs:280-286 | the bytes read through the attribute list are the stored value |
| SecItems.ReadSecItemAttributes | src/Mjcheetham.SecureStorage/MacOS/MacOSKeychain.cs:238-249 | it passes exactly when service, account and label are all present without faults; otherwise it raises `InteropException`; memory is unchanged |
| SecItems.InternetItemHasNoService | src/Mjcheetham.SecureStorage/MacOS/MacOSKeychain.cs:240 | an internet password item has no service attribute, so `ReadSecItemAttributes` always throws for it |
| SecItems.NumericCodesReadAsAny | src/Mjcheetham.SecureStorage/MacOS/MacOSKeychain.cs:451-459 | the numbers this query stores under protocol and authentication type read back as `Any` through the `KeychainItem` getters, which expect strings |
| SecItems.NotStringCode | src/Mjcheetham.SecureStorage/MacOS/MacOSKeychain.cs:451-459 | the protocol and authentication entries of this query are numbers, never strings |
| SecItems.PortKeepsLowBits | src/Mjcheetham.SecureStorage/MacOS/MacOSKeychain.cs:380 | a port stored as 0x105A3 reads 1443 here and 0 through the `KeychainItem` getter |
| MacOSKeychain.Throw | src/Mjcheetham.SecureStorage/NativeMethods.cs:22-44 | the exception the `ThrowOnError` of `NativeMethods.cs`, which the root `MacOSKeychain.cs` calls, raises for the code and message: always a plain `Exception` |
| MacOSKeychain.StoreAttributes | src/Mjcheetham.SecureStorage/MacOSKeychain.cs:21-23 | corrected: a generic item named by all the UTF-8 bytes of the key and of the user name |
| MacOSKeychain.StoreAttributesAsWritten | src/Mjcheetham.SecureStorage/MacOSKeychain.cs:21-23 | as written: the bytes are cut to the UTF-16 lengths (lines 29 and 38), so a prefix of the UTF-8 bytes |
| MacOSKeychain.StoreAttributesInjective | src/Mjcheetham.SecureStorage/MacOSKeychain.cs:29-38 | corrected, different keys name different items |
| MacOSKeychain.KeysCollideAsWritten | src/Mjcheetham.SecureStorage/MacOSKeychain.cs:29 | as written, the keys "é" and "è" name the same item |
| MacOSKeychain.StoreAttributesAgreeOnAscii | src/Mjcheetham.SecureStorage/MacOSKeychain.cs:21 | for ASCII keys and user names, as written and corrected agree |
| MacOSKeychain.WithDataIsUpdate | src/Mjcheetham.SecureStorage/MacOSKeychain.cs:79 | with unique ids, modifying an item's data is a map update at its attributes |
| MacOSKeychain.WithoutIdIsRemoval | src/Mjcheetham.SecureStorage/MacOSKeychain.cs:123 | with unique ids, deleting an item removes exactly its attributes |
| MacOSKeychain.DataLookup | src/Mjcheetham.SecureStorage/MacOSKeychain.cs:36-45 | it succeeds exactly for a stored key without a fault and gives its bytes; a missing key raises the plain `Exception("Item does not exist")`; a fault raises its `ThrowOnError` exception with no default message |
| MacOSKeychain.GiveBack | src/Mjcheetham.SecureStorage/MacOSKeychain.cs:47-58 | the `finally` block frees the returned data block and releases the item reference when there are any, leaving the allocations and owned references as they were before the lookup |
| MacOSKeychain.GetData | src/Mjcheetham.SecureStorage/MacOSKeychain.cs:27-59 | it answers `DataLookup` on the corrected `StoreAttributes` and leaves no block or reference behind |
| MacOSKeychain.SetEffect | src/Mjcheetham.SecureStorage/MacOSKeychain.cs:72-90 | success stores the data under the key, keeping an existing item's id or giving a new one; other keys are unchanged; failure changes nothing |
| MacOSKeychain.UpdateItem | src/Mjcheetham.SecureStorage/MacOSKeychain.cs:76-82 | success replaces the item's data; a fault raises the `ThrowOnError` exception with the message "Could not update existing item" (a fixed message for the three named codes, else "Could not update existing item. Unknown error N"), with no change |
| MacOSKeychain.SetData | src/Mjcheetham.SecureStorage/MacOSKeychain.cs:61-105 | the result and the new keychain are `SetEffect` on the corrected `StoreAttributes`, and nothing is left allocated |
| MacOSKeychain.DeleteEffect | src/Mjcheetham.SecureStorage/MacOSKeychain.cs:116-129 | true and the key removed when it was found and the delete succeeded; false when the lookup found nothing; a delete fault raises |
| MacOSKeychain.DeleteItem | src/Mjcheetham.SecureStorage/MacOSKeychain.cs:120-126 | success removes the item and answers true; a fault raises with no change |
| MacOSKeychain.DeleteData | src/Mjcheetham.SecureStorage/MacOSKeychain.cs:107-143 | the result and the new keychain are `DeleteEffect` on the corrected `StoreAttributes`, and nothing is left allocated |
| MacOSKeychain.ListKeys | src/Mjcheetham.SecureStorage/MacOSKeychain.cs:145-148 | always raises `NotImplementedException` |
| MacOSKeychain.SetThenGet | src/Mjcheetham.SecureStorage/MacOSKeychain.cs:61-105 | data set under a key is what `GetData` of the key returns |
| MacOSKeychain.SetLeavesOtherKeys | src/Mjcheetham.SecureStorage/MacOSKeychain.cs:61-105 | corrected: setting one key leaves what every other key reads unchanged |
| MacOSKeychain.SetOverwritesCollidingKeyAsWritten | src/Mjcheetham.SecureStorage/MacOSKeychain.cs:21-23 | as written, setting the key "é" changes what the key "è" reads to the bytes just set |
| MacOSKeychain.SetLeavesOtherAsciiKeysAsWritten | src/Mjcheetham.SecureStorage/MacOSKeychain.cs:61-105 | as written, setting one key leaves every other key alone when the keys and the user name are ASCII |
| MacOSKeychain.SetAfterFailedLookup | src/Mjcheetham.SecureStorage/MacOSKeychain.cs:72-76 | when the existence check fails for a stored key, `SetData` tries to add it and raises the plain `Exception("Item already exists")` with no change |
| MacOSKeychain.DeleteThenGet | src/Mjcheetham.SecureStorage/MacOSKeychain.cs:107-143 | after a delete that answered true, `GetData` of the key raises the plain `Exception("Item does not exist")` |
| MacOSKeychain.DeleteWithoutLookupIsFalse | src/Mjcheetham.SecureStorage/MacOSKeychain.cs:116-129 | when the lookup fails or finds nothing, `DeleteData` answers false and changes nothing |
| Advapi32.Native | src/Mjcheetham.SecureStorage/Windows/Interop/Advapi32.cs:64-83 | the native record of a stored credential names its target and its blob and blob size |
| Advapi32.Matching | src/Mjcheetham.SecureStorage/Windows/Interop/Advapi32.cs:12-17 | the targets in creation order that the filter matches; no repeats when the order has none |
| Advapi32.EnumerateError | src/Mjcheetham.SecureStorage/Windows/Interop/Advapi32.cs:12-17 | success means at least one match; a filter with `CRED_ENUMERATE_ALL_CREDENTIALS` gives `ERROR_INVALID_FLAGS` |
| Advapi32.Entries | src/Mjcheetham.SecureStorage/Windows/Interop/Advapi32.cs:12-17 | the stored credential of each listed target, in order |
| Advapi32.FillList | src/Mjcheetham.SecureStorage/Windows/Interop/Advapi32.cs:12-17 | the block holds a pointer per entry, and each points at that entry's record and blob |
| Advapi32.ReadError | src/Mjcheetham.SecureStorage/Windows/Interop/Advapi32.cs:19-24 | success exactly for a stored generic target without a fault; a missing target gives `ERROR_NOT_FOUND` |
| Advapi32.WriteError | src/Mjcheetham.SecureStorage/Windows/Interop/Advapi32.cs:26-29 | success exactly for a generic record with a target and a non-negative blob size, without a fault |
| Advapi32.Remove | src/Mjcheetham.SecureStorage/Windows/Interop/Advapi32.cs:31-35 | the order without the target |
| Advapi32.CredentialSet.CredRead | src/Mjcheetham.SecureStorage/Windows/Interop/Advapi32.cs:19-24 | on success, a fresh credential-API block holding the record and its blob; on failure the last error is `ReadError` and nothing is allocated |
| Advapi32.CredentialSet.CredWrite | src/Mjcheetham.SecureStorage/Windows/Interop/Advapi32.cs:26-29 | on success the target maps to the record's user, comment, blob, persistence and the current time, and a new target goes last in order; on failure nothing changes |
| Advapi32.CredentialSet.CredDelete | src/Mjcheetham.SecureStorage/Windows/Interop/Advapi32.cs:31-35 | on success the target is removed from the map and from the order; on failure nothing changes |
| Advapi32.CredentialSet.CredEnumerate | src/Mjcheetham.SecureStorage/Windows/Interop/Advapi32.cs:12-17 | on success, a fresh list of the matching credentials in order, with its count; on failure a zero count, a null list and nothing allocated |
| Advapi32.CredentialSet.CredFree | src/Mjcheetham.SecureStorage/Windows/Interop/Advapi32.cs:37-39 | the block is freed |
| CredentialManager.View | src/Mjcheetham.SecureStorage/Windows/WindowsCredentialManager.cs:162-175 | the conversion of the stored time throws `ArgumentOutOfRangeException` exactly when the rule's tick count is out of range; otherwise the credential read back has the stored target, user, comment and persistence, the UTF-16 decoded password, and the UTC time of that tick count, which under `Intended` splits back into the stored FILETIME |
| CredentialManager.Views | src/Mjcheetham.SecureStorage/Windows/WindowsCredentialManager.cs:60-64 | it succeeds exactly when every entry's view does, giving one view per entry in order; otherwise it raises `ArgumentOutOfRangeException` |
| CredentialManager.ReadCredential | src/Mjcheetham.SecureStorage/Windows/WindowsCredentialManager.cs:162-175 | reading the record at the pointer gives its `View` under the rule, the exception included |
| CredentialManager.NormalizeFilter | src/Mjcheetham.SecureStorage/Windows/WindowsCredentialManager.cs:30-33 | null, "" and "*" become null, and any other filter is kept |
| CredentialManager.EnumerateResult | src/Mjcheetham.SecureStorage/Windows/WindowsCredentialManager.cs:25-73 | on success it is `Views` of the matching entries, so reading can still throw; not-found gives the empty list; any other error raises "Failed to enumerate items in store." with its code; every credential listed matches the filter |
| CredentialManager.ReadList | src/Mjcheetham.SecureStorage/Windows/WindowsCredentialManager.cs:60-64 | reading `count` pointers from the list gives `Views` of its entries, stopping at the first time that cannot be converted |
| CredentialManager.EnumerateWith | src/Mjcheetham.SecureStorage/Windows/WindowsCredentialManager.cs:41-72 | with given flags it answers `EnumerateResult`, and the list is freed |
| CredentialManager.EnumerateAsWritten | src/Mjcheetham.SecureStorage/Windows/WindowsCredentialManager.cs:25-73 | as written: the flags stay `EnumerateAll` whatever the filter, and times convert from the as-written tick count |
| CredentialManager.Enumerate | src/Mjcheetham.SecureStorage/Windows/WindowsCredentialManager.cs:25-73 | corrected: `EnumerateAll` only with no filter and on Vista or later, `None` otherwise, and times convert from the intended tick count |
| CredentialManager.FilterRejectedAsWritten | src/Mjcheetham.SecureStorage/Windows/WindowsCredentialManager.cs:28-39 | as written, every real filter makes `Enumerate` raise `ERROR_INVALID_FLAGS` |
| CredentialManager.EnumerateListsMatches | src/Mjcheetham.SecureStorage/Windows/WindowsCredentialManager.cs:25-73 | corrected, without a fault and with stored times `DateTime` accepts, it succeeds and lists exactly the stored credentials that match the filter, in creation order, each once |
| CredentialManager.EnumeratePresentDayThrowsAsWritten | src/Mjcheetham.SecureStorage/Windows/WindowsCredentialManager.cs:162-175 | as written, listing every credential raises `ArgumentOutOfRangeException` as soon as one was written at the present day |
| CredentialManager.ReadResult | src/Mjcheetham.SecureStorage/Windows/WindowsCredentialManager.cs:75-105 | a stored target gives its view when its time converts and raises `ArgumentOutOfRangeException` when it does not; a missing one gives null; any other error raises "Failed to read item from store." with its code |
| CredentialManager.Read | src/Mjcheetham.SecureStorage/Windows/WindowsCredentialManager.cs:75-105 | it answers `ReadResult` under the rule and frees the credential block |
| CredentialManager.WriteEffect | src/Mjcheetham.SecureStorage/Windows/WindowsCredentialManager.cs:107-140 | a null password raises `ArgumentNullException`; success stores a generic, local-machine credential with the UTF-16 password at the current time; failure changes nothing |
| CredentialManager.Write | src/Mjcheetham.SecureStorage/Windows/WindowsCredentialManager.cs:107-140 | the result and the new set are `WriteEffect`; a new target is appended to the creation order and an existing one keeps its place; a failure leaves the order; the password block is freed |
| CredentialManager.DeleteEffect | src/Mjcheetham.SecureStorage/Windows/WindowsCredentialManager.cs:142-160 | true and the target removed, false when it is missing, or an exception with the error code |
| CredentialManager.Delete | src/Mjcheetham.SecureStorage/Windows/WindowsCredentialManager.cs:142-160 | the result and the new set are `DeleteEffect`; a delete that answers true takes the target out of the creation order, and any other answer leaves it |
| CredentialManager.WriteThenRead | src/Mjcheetham.SecureStorage/Windows/WindowsCredentialManager.cs:107-140 | corrected: with the intended tick count and a clock in range, a written credential reads back with its target, user, password and comment, persisted on the local machine, at the time of writing |
| CredentialManager.PresentDayWriteUnreadableAsWritten | src/Mjcheetham.SecureStorage/Windows/WindowsCredentialManager.cs:75-105 | as written, a credential written at the present day makes `Read` of its target raise `ArgumentOutOfRangeException` |
| CredentialManager.WriteLeavesOtherTargets | src/Mjcheetham.SecureStorage/Windows/WindowsCredentialManager.cs:107-140 | under either rule, writing one target leaves what every other target reads unchanged |
| CredentialManager.DeleteThenRead | src/Mjcheetham.SecureStorage/Windows/WindowsCredentialManager.cs:142-160 | under either rule, after a delete that answered true, reading the target gives null |
| WindowsCredentialManager.ThrowOnError | src/Mjcheetham.SecureStorage/WindowsCredentialManager.cs:30-33 | it returns exactly for success; `ERROR_NOT_FOUND` raises `KeyNotFoundException` and any other code a plain exception |
| WindowsCredentialManager.GetResult | src/Mjcheetham.SecureStorage/WindowsCredentialManager.cs:28-47 | a stored key gives its user name and decoded password; null exactly when the read raises `KeyNotFoundException`; any other failure re-raises |
| WindowsCredentialManager.Get | src/Mjcheetham.SecureStorage/WindowsCredentialManager.cs:24-55 | it answers `GetResult` and frees the credential block |
| WindowsCredentialManager.AddOrUpdateEffect | src/Mjcheetham.SecureStorage/WindowsCredentialManager.cs:59-79 | a null password raises `ArgumentNullException`; success stores the user and UTF-16 password on the local machine without a comment; failure changes nothing |
| WindowsCredentialManager.AddOrUpdate | src/Mjcheetham.SecureStorage/WindowsCredentialManager.cs:57-88 | the result and the new set are `AddOrUpdateEffect`; a new key is appended to the creation order and an existing one keeps its place; a failure leaves the order; the CoTaskMem blob is freed |
| WindowsCredentialManager.RemoveEffect | src/Mjcheetham.SecureStorage/WindowsCredentialManager.cs:92-100 | true and the key removed, false when it is missing, or a plain exception |
| WindowsCredentialManager.Remove | src/Mjcheetham.SecureStorage/WindowsCredentialManager.cs:90-101 | the result and the new set are `RemoveEffect`; a remove that answers true takes the key out of the creation order, and any other answer leaves it |
| WindowsCredentialManager.AddOrUpdateThenGet | src/Mjcheetham.SecureStorage/WindowsCredentialManager.cs:24-88 | a credential added under a key is what `Get` of the key returns |
| WindowsCredentialManager.AddOrUpdateLeavesOtherKeys | src/Mjcheetham.SecureStorage/WindowsCredentialManager.cs:57-88 | adding under one key leaves what every other key reads unchanged |
| WindowsCredentialManager.RemoveThenGet | src/Mjcheetham.SecureStorage/WindowsCredentialManager.cs:90-101 | after a remove that answered true, `Get` of the key gives null |

## Left out

- Finalisers and `SafeHandle` reference counting are not modelled. A wrapper releases only when `Dispose` is called.
- `Enumerate` and `FindItems` are C# iterators. They are modelled eagerly: the whole sequence is computed at once, and an exception raised part way yields no element.
- `SecItemAdd` and `SecItemDelete` (used at `MacOS/Keychain.cs` lines 294 and 317) are not declared in `SecurityFramework.cs`. `DeleteItem` and `AddItem` take the OS status as a parameter.
- What `SecItemCopyMatching` finds is not modelled. Its status and result object are parameters.
- `PlatformUtils.EnsureMacOS` and `EnsureWindows` are left out, as are the `OpenDefault` and `Open` factories and the constructors that only call them.
- The unused `LibraryHandle` reads (`MacOS/MacOSKeychain.cs:398-399`) are left out, and so is the static initialiser's symbol lookup (`dlopen`, `dlsym`).
- `ReadSecItemAttributes`: the three decoded strings it computes and discards are not kept. Its result is modelled as pass or fail.
- `Debug.Assert(attrList.Count == 1)` is not modelled. The model keeps one attribute per list.
- `Environment.UserName`, `Environment.OSVersion` and the clock are parameters.
- Exception messages from `Win32Exception` (the OS text for a code) are not modelled. The exception keeps the code.
- `ArgumentException` parameter names are not modelled.
- A null key or target string (a `NullReferenceException` in the source) is not modelled. Keys and targets are `string`, not `Option<string>`.
- A null byte-array argument is not modelled. `MacOSKeychain.SetData` with null `data` raises `NullReferenceException` at `data.Length` in the source; in the model `data` is a `seq<byte>`.
- The Security framework enums (`SecProtocolType`, `SecAuthenticationType`, `SecKeychainAttrType`) are closed datatypes. A C# enum holds any value of its underlying type, and values without a name are not represented.
- `NativeMethods.Windows.cs` is not part of this model. `WindowsCredentialManager.ThrowOnError` takes its behaviour from the two callers: `KeyNotFoundException` for `ERROR_NOT_FOUND`, a plain exception otherwise. Its messages are not modelled.
- `Utf8StringConverter` is not part of this model. `MarshalManagedToNative` takes it to allocate the UTF-8 bytes and a NUL with `AllocHGlobal`, and `MarshalNativeToManaged` takes it to read up to the first NUL.
- The Credential Manager's filter syntax is simplified. A filter matches a target that starts with the text before its `*`, or equals the filter when it has none.
- `DateTime.FromFileTime` calendar arithmetic is not modelled. A `DateTime` carries its tick count and kind.
- Advapi32.CredentialSet.CredRead: always hands out a non-null `CredentialBlob`, an empty one included. If the OS gives NULL for an empty blob, `IntPtrExtensions.ToByteArray` raises `ArgumentNullException`, and the model then does not show `Read` and `Get` of an empty password failing.
- Advapi32.CredentialSet.CredEnumerate: places every blob at a non-null address, as `CredRead` does.
- KeychainServices.Vault.FindPassword: always hands out a non-null password block, an empty one included. If the OS gives NULL for an empty secret, `IntPtrExtensions.ToString` raises `ArgumentNullException`, and the model does not show that.
- KeychainServices.Vault.FindPassword: matches every attribute exactly. A NULL argument does not act as a wildcard (see "The native world").
- Keychain.AddThenFind: holds under exact attribute matching. With a NULL account or security domain the OS may return another matching item.
- CredentialManager.WriteLeavesOtherTargets: holds under exact target matching. Targets that differ only in case are one credential to the OS.
- WindowsCredentialManager.AddOrUpdateLeavesOtherKeys: holds under exact target matching. Keys that differ only in case are one credential to the OS.
- Advapi32.Matching: compares the filter prefix with regard to case. The Credential Manager does not.
- The CoreFoundation dictionaries compare keys by handle, not with `CFEqual` and `CFHash`. This agrees with the source because every key it uses is one of the framework's constant `kSecClass…`, `kSecAttr…`, `kSecReturn…` and `kSecMatch…` handles.
- The count from `CredEnumerate` and the attribute length are natural numbers. A count above `int.MaxValue` is not modelled.
- Lone UTF-16 surrogates in .NET strings are not modelled. A string is a sequence of Unicode scalar values.
- CoreFoundation objects are immutable apart from arrays and dictionaries, and their retain counts are not modelled. `owned` tracks only the references the library holds.
- Keychain.KeychainItem.SetText and the other setters state that the created string, data or number reference stays owned: the source never releases it, so each call leaks one reference.
- CFTypes.FromHandle states that one description string leaks on the failure path, rather than treating it as a finding.
- The `MacOS/MacOSKeychain.cs` password calls (lines 36-192) repeat `MacOS/Keychain.cs` lines 67-223 word for word. The `Keychain` members model both with the corrected UTF-8 lengths. The as-written lengths are modelled only in `KeychainServices.ArgumentAsWritten` and `MacOSKeychain.StoreAttributesAsWritten` and the lemmas about them.
- CFNumber.CreateHandleByte: uses the corrected number creation (`CFNumber.CreateHandleFreeing`), so it does not show the HGlobal value block the source leaks for each number (`CFNumber.CreateHandleLeaking`, see Findings).
- CFNumber.CreateHandleInt16: uses the corrected number creation (`CFNumber.CreateHandleFreeing`), so it does not show the HGlobal value block the source leaks for each number (`CFNumber.CreateHandleLeaking`, see Findings).
- CFNumber.CreateHandleInt32: uses the corrected number creation (`CFNumber.CreateHandleFreeing`), so it does not show the HGlobal value block the source leaks for each number (`CFNumber.CreateHandleLeaking`, see Findings).
- CFNumber.CreateHandleInt64: uses the corrected number creation (`CFNumber.CreateHandleFreeing`), so it does not show the HGlobal value block the source leaks for each number (`CFNumber.CreateHandleLeaking`, see Findings).
- CFTypes.NewNumberInt16: uses the corrected number creation (`CFNumber.CreateHandleFreeing`), so it does not show the HGlobal value block the source leaks for each number (`CFNumber.CreateHandleLeaking`, see Findings).
- CFTypes.NewNumberInt32: uses the corrected number creation (`CFNumber.CreateHandleFreeing`), so it does not show the HGlobal value block the source leaks for each number (`CFNumber.CreateHandleLeaking`, see Findings).
- CFTypes.NewNumberInt64: uses the corrected number creation (`CFNumber.CreateHandleFreeing`), so it does not show the HGlobal value block the source leaks for each number (`CFNumber.CreateHandleLeaking`, see Findings).
- Keychain.KeychainItem.SetPort: uses the corrected number creation (`CFNumber.CreateHandleFreeing`), so it does not show the HGlobal value block the source leaks for each number (`CFNumber.CreateHandleLeaking`, see Findings).
- SecItems.PutInt64: uses the corrected number creation (`CFNumber.CreateHandleFreeing`), so it does not show the HGlobal value block the source leaks for each number (`CFNumber.CreateHandleLeaking`, see Findings).
- SecItems.PutInt16: uses the corrected number creation (`CFNumber.CreateHandleFreeing`), so it does not show the HGlobal value block the source leaks for each number (`CFNumber.CreateHandleLeaking`, see Findings).
- SecItems.PutInt64Step: uses the corrected number creation (`CFNumber.CreateHandleFreeing`), so it does not show the HGlobal value block the source leaks for each number (`CFNumber.CreateHandleLeaking`, see Findings).
- SecItems.PutInt64Pair: uses the corrected number creation (`CFNumber.CreateHandleFreeing`), so it does not show the HGlobal value block the source leaks for each number (`CFNumber.CreateHandleLeaking`, see Findings).
- SecItems.AddInternetHead: uses the corrected number creation (`CFNumber.CreateHandleFreeing`), so it does not show the HGlobal value block the source leaks for each number (`CFNumber.CreateHandleLeaking`, see Findings).
- SecItems.AddInternetParameters: uses the corrected number creation (`CFNumber.CreateHandleFreeing`), so it does not show the HGlobal value block the source leaks for each number (`CFNumber.CreateHandleLeaking`, see Findings).
- SecItems.AddQueryParameters: uses the corrected number creation (`CFNumber.CreateHandleFreeing`), so it does not show the HGlobal value block the source leaks for each number (`CFNumber.CreateHandleLeaking`, see Findings).
- SecItems.ToCFDictionary: uses the corrected number creation (`CFNumber.CreateHandleFreeing`), so it does not show the HGlobal value block the source leaks for each number (`CFNumber.CreateHandleLeaking`, see Findings).
- SecItems.Search: uses the corrected number creation (`CFNumber.CreateHandleFreeing`), so it does not show the HGlobal value block the source leaks for each number (`CFNumber.CreateHandleLeaking`, see Findings).
- SecItems.FindSecItem: uses the corrected number creation (`CFNumber.CreateHandleFreeing`), so it does not show the HGlobal value block the source leaks for each number (`CFNumber.CreateHandleLeaking`, see Findings).
- Keychain.FindGenericPassword: names the item by the corrected UTF-8 byte counts. As written, strings whose UTF-8 forms agree on their first UTF-16-length bytes name the same item (`KeychainServices.ArgumentAsWrittenCollides`); for ASCII strings the two agree (`KeychainServices.ArgumentsAgreeOnAscii`).
- Keychain.FindInternetPassword: names the item by the corrected UTF-8 byte counts. As written, strings whose UTF-8 forms agree on their first UTF-16-length bytes name the same item (`KeychainServices.ArgumentAsWrittenCollides`); for ASCII strings the two agree (`KeychainServices.ArgumentsAgreeOnAscii`).
- Keychain.AddGenericPassword: names the item by the corrected UTF-8 byte counts. As written, strings whose UTF-8 forms agree on their first UTF-16-length bytes name the same item (`KeychainServices.ArgumentAsWrittenCollides`); for ASCII strings the two agree (`KeychainServices.ArgumentsAgreeOnAscii`).
- Keychain.AddInternetPassword: names the item by the corrected UTF-8 byte counts. As written, strings whose UTF-8 forms agree on their first UTF-16-length bytes name the same item (`KeychainServices.ArgumentAsWrittenCollides`); for ASCII strings the two agree (`KeychainServices.ArgumentsAgreeOnAscii`).
- MacOSKeychain.GetData: uses the corrected `StoreAttributes`. As written, the keys "é" and "è" reach the same item (`MacOSKeychain.KeysCollideAsWritten`); for ASCII keys the two agree (`MacOSKeychain.StoreAttributesAgreeOnAscii`).
- MacOSKeychain.SetData: uses the corrected `StoreAttributes`. As written, the keys "é" and "è" reach the same item (`MacOSKeychain.KeysCollideAsWritten`); for ASCII keys the two agree (`MacOSKeychain.StoreAttributesAgreeOnAscii`).
- MacOSKeychain.DeleteData: uses the corrected `StoreAttributes`. As written, the keys "é" and "è" reach the same item (`MacOSKeychain.KeysCollideAsWritten`); for ASCII keys the two agree (`MacOSKeychain.StoreAttributesAgreeOnAscii`).
- MacOSKeychain.SetLeavesOtherKeys: stated for the corrected lengths. As written it fails for colliding keys (`MacOSKeychain.SetOverwritesCollidingKeyAsWritten`) and holds for ASCII keys (`MacOSKeychain.SetLeavesOtherAsciiKeysAsWritten`).
- CredentialManager.Enumerate: states the intended tick count. What the source does instead is stated by `EnumerateAsWritten`, `EnumeratePresentDayThrowsAsWritten` and `PresentDayWriteUnreadableAsWritten`.
- CredentialManager.EnumerateListsMatches: states the intended tick count. What the source does instead is stated by `EnumerateAsWritten`, `EnumeratePresentDayThrowsAsWritten` and `PresentDayWriteUnreadableAsWritten`.
- CredentialManager.WriteThenRead: states the intended tick count. What the source does instead is stated by `EnumerateAsWritten`, `EnumeratePresentDayThrowsAsWritten` and `PresentDayWriteUnreadableAsWritten`.

## Findings

| source | as written | input that shows it | evidently intended | confidence | as-written member | corrected member |
|---|---|---|---|---|---|---|
| src/Mjcheetham.SecureStorage/Windows/FileTimeExtensions.cs:10 | `(long)high << 32 + low` parses as `high << (32 + low)` | `FILETIME{high 0, low 1}` gives 0; a present-day time gives a negative tick count | `((long)high << 32) + (uint)low` | high (not executed) | FileTimeExtensions.AsWrittenLosesLowHalf | FileTimeExtensions.TicksRoundTrip |
| src/Mjcheetham.SecureStorage/Windows/WindowsCredentialManager.cs:173 | `LastWritten` is converted from the as-written tick count, which `FromFileTimeUtc` rejects | reading a credential written at the present day raises `ArgumentOutOfRangeException` | convert `((long)high << 32) + (uint)low` | high (not executed) | CredentialManager.PresentDayWriteUnreadableAsWritten | CredentialManager.WriteThenRead |
| src/Mjcheetham.SecureStorage/MacOS/Keychain.cs:72 | the UTF-16 `Length` is passed as the UTF-8 byte count | service "é" (2 UTF-8 bytes, length 1) reaches the framework as [0xC3], the same as "è" | pass the UTF-8 byte count | high (not executed) | KeychainServices.ArgumentAsWrittenCollides | KeychainServices.ArgumentInjective |
| src/Mjcheetham.SecureStorage/MacOSKeychain.cs:29 | the same length mistake for the key and the user name | keys "é" and "è" read and write the same keychain item | pass the UTF-8 byte count | high (not executed) | MacOSKeychain.KeysCollideAsWritten | MacOSKeychain.StoreAttributesInjective |
| src/Mjcheetham.SecureStorage/MacOS/CFNumber.cs:36-41 | the `AllocHGlobal` value block is never freed | each `new CFNumber(5)` leaves one HGlobal block allocated | free the block after `CFNumberCreate` copies the value | high (not executed) | CFNumber.CreateHandleLeaking | CFNumber.CreateHandleFreeing |
| src/Mjcheetham.SecureStorage/MacOS/CFNumber.cs:110 | the value is read into a 64-bit `IntPtr`, then `ToInt32` is applied | the number -1 gives the slot 0xFFFFFFFF, and `ToInt32` raises `OverflowException` | read a 32-bit integer and give -1 | medium (not executed) | CFNumber.ToInt32MinusOneFails | CFNumber.Int32RoundTrip |
| src/Mjcheetham.SecureStorage/Windows/WindowsCredentialManager.cs:28-39 | `flags` starts as `EnumerateAll` and is never cleared for a real filter | `Enumerate("git:*")` calls `CredEnumerate` with a filter and `CRED_ENUMERATE_ALL_CREDENTIALS`, giving `ERROR_INVALID_FLAGS` | start from `None` and set `EnumerateAll` only with no filter | high (not executed) | CredentialManager.FilterRejectedAsWritten | CredentialManager.EnumerateListsMatches |

=== FILE: advapi32.dfy ===
/**
 * The Windows Credential Manager as the library reaches it through
 * advapi32 (`CredReadW`, `CredWriteW`, `CredDeleteW`, `CredEnumerateW`,
 * `CredFree`): the current user's set of generic credentials, keyed by
 * target name, and the blocks of unmanaged memory the read calls hand out.
 *
 * Each call reports success as a `bool` and leaves its failure code as the
 * thread's last Win32 error, returned here as `lastError`. A `fault` other
 * than `Win32Error.Success` makes the call fail with that code, standing for whatever
 * the OS may refuse (a locked store, no logon session, ...).
 */
module Advapi32 {
  import opened Numeric
  import opened Wrappers
  import opened NativeMemory
  import opened FileTimeExtensions
  import Win32Error
  import IntPtrExtensions

  /** `CredentialType.Generic`; the only type the library reads or writes. */
  const CredentialTypeGeneric: int32 := 1
  /** `CredentialPersist` values. */
  const PersistSession: int32 := 1
  const PersistLocalMachine: int32 := 2
  const PersistEnterprise: int32 := 3
  /** `CredentialEnumerateFlags` values. */
  const EnumerateNone: int32 := 0
  const EnumerateAll: int32 := 1
  /** `ERROR_INVALID_PARAMETER`, for a credential `CredWriteW` cannot store. */
  const InvalidParameter: int32 := 87

  const MaxInt32: int := 0x7FFF_FFFF

  /** A stored generic credential. */
  datatype Stored = Stored(userName: Option<string>, comment: Option<string>, blob: seq<byte>,
                           persist: int32, lastWritten: FileTime)

  /** The `CREDENTIALW` handed out for `target`, its blob at `blob`. */
  function Native(target: string, s: Stored, blob: Ptr): (r: Win32Credential)
    requires |s.blob| <= MaxInt32
    ensures r.targetName == Some(target) && r.credentialBlob == blob && r.credentialBlobSize == |s.blob|
  {
    Win32Credential(0, CredentialTypeGeneric, Some(target), s.comment, s.lastWritten,
                    |s.blob|, blob, s.persist, 0, Zero, None, s.userName)
  }

  /** At `p` sits the structure for `target`, its blob in the cells right after it. */
  ghost predicate CredentialAt(cells: map<Ptr, Cell>, p: Ptr, target: string, s: Stored) {
    0 < p && |s.blob| <= MaxInt32 &&
    p in cells && cells[p] == CredentialCell(Native(target, s, p + 1)) &&
    HasBytes(cells, p + 1, s.blob)
  }

  /** A structure and its blob stay where they are when none of their cells is written. */
  lemma CredentialAtFrame(before: map<Ptr, Cell>, after: map<Ptr, Cell>, p: Ptr, target: string, s: Stored)
    requires CredentialAt(before, p, target, s)
    requires forall q :: q in before && p <= q <= p + |s.blob| ==> q in after && after[q] == before[q]
    ensures CredentialAt(after, p, target, s)
  {
    forall i | 0 <= i < |s.blob|
      ensures p + 1 + i in after && after[p + 1 + i] == ByteCell(s.blob[i])
    {
      ByteAt(before, p + 1, s.blob, i);
    }
  }

  /**
   * The enumeration filter: "prefix*" takes the targets that start with
   * prefix, any other text the target of that name, and null every target.
   */
  predicate Matches(filter: Option<string>, target: string) {
    match filter
    case None => true
    case Some(f) => if |f| > 0 && f[|f| - 1] == '*' then f[..|f| - 1] <= target else f == target
  }

  predicate Distinct(s: seq<string>) {
    forall i, j :: 0 <= i < j < |s| ==> s[i] != s[j]
  }

  /** The targets of `order` the filter takes, in order. */
  function Matching(order: seq<string>, filter: Option<string>): (r: seq<string>)
    ensures forall t :: t in r <==> t in order && Matches(filter, t)
    ensures Distinct(order) ==> Distinct(r)
  {
    if order == [] then []
    else
      var rest := Matching(order[1..], filter);
      assert Distinct(order) ==> order[0] !in order[1..];
      if Matches(filter, order[0]) then [order[0]] + rest else rest
  }

  /** `order` without `t`. */
  function Remove(order: seq<string>, t: string): (r: seq<string>)
    ensures forall x :: x in r <==> x in order && x != t
    ensures Distinct(order) ==> Distinct(r)
  {
    if order == [] then []
    else
      var rest := Remove(order[1..], t);
      assert Distinct(order) ==> order[0] !in order[1..];
      if order[0] == t then rest else [order[0]] + rest
  }

  /** Each listed target with its credential. */
  function Entries(creds: map<string, Stored>, targets: seq<string>): (r: seq<(string, Stored)>)
    requires forall t :: t in targets ==> t in creds
    ensures |r| == |targets|
    ensures forall i :: 0 <= i < |targets| ==> r[i] == (targets[i], creds[targets[i]])
  {
    seq(|targets|, i requires 0 <= i < |targets| => (targets[i], creds[targets[i]]))
  }

  /** The cells the structures and blobs of `entries` take, one after the other. */
  function Footprint(entries: seq<(string, Stored)>): nat {
    if entries == [] then 0
    else Footprint(entries[..|entries| - 1]) + 1 + |entries[|entries| - 1].1.blob|
  }

  lemma {:induction false} FootprintPrefix(entries: seq<(string, Stored)>, i: nat)
    requires i < |entries|
    ensures Footprint(entries[..i + 1]) == Footprint(entries[..i]) + 1 + |entries[i].1.blob|
    ensures Footprint(entries[..i + 1]) <= Footprint(entries)
  {
    assert entries[..i + 1][..i] == entries[..i];
    if i + 1 < |entries| {
      var shorter := entries[..|entries| - 1];
      FootprintPrefix(shorter, i);
      assert shorter[..i + 1] == entries[..i + 1];
    } else {
      assert entries[..i + 1] == entries;
    }
  }

  /** Slot `i` of the pointer array at `list` points at the structure of `entry`. */
  ghost predicate SlotHolds(cells: map<Ptr, Cell>, list: Ptr, i: int, entry: (string, Stored)) {
    var slot := IntPtrExtensions.Slot(list, PointerSize, i);
    slot in cells && cells[slot].PtrCell? && CredentialAt(cells, cells[slot].p, entry.0, entry.1)
  }

  /** The array at `list` points at the structures of `entries`, in order. */
  ghost predicate ListAt(cells: map<Ptr, Cell>, list: Ptr, entries: seq<(string, Stored)>) {
    forall i :: 0 <= i < |entries| ==> SlotHolds(cells, list, i, entries[i])
  }

  /** What `CredEnumerateW` fails with, or `Win32Error.Success`. */
  function EnumerateError(order: seq<string>, filter: Option<string>, flags: int32, fault: int32): (r: int32)
    ensures r == Win32Error.Success ==> Matching(order, filter) != []
    ensures fault == Win32Error.Success && flags == EnumerateAll && filter.Some? ==> r == Win32Error.InvalidFlags
  {
    if fault != Win32Error.Success then fault
    else if flags != EnumerateNone && flags != EnumerateAll then Win32Error.InvalidFlags
    else if flags == EnumerateAll && filter.Some? then Win32Error.InvalidFlags
    else if Matching(order, filter) == [] then Win32Error.NotFound
    else Win32Error.Success
  }

  /** Writes one structure at `p` and its blob right after it, inside the block at `base`. */
  method WriteCredential(mem: Memory, ghost base: Ptr, p: Ptr, target: string, s: Stored)
    requires mem.Valid() && 0 < p && |s.blob| <= MaxInt32 && mem.Within(base, p, 1 + |s.blob|)
    modifies mem`cells
    ensures CredentialAt(mem.cells, p, target, s)
    ensures forall q :: q in old(mem.cells) && !(p <= q <= p + |s.blob|) ==> q in mem.cells && mem.cells[q] == old(mem.cells)[q]
  {
    mem.Write(base, p, CredentialCell(Native(target, s, p + 1)));
    mem.CopyIn(base, s.blob, p + 1);
  }

  /**
   * The first `i` entries are in place: their slots point at their
   * structures, which lie between `start` (the end of the pointer array)
   * and `offset`.
   */
  ghost predicate Placed(cells: map<Ptr, Cell>, list: Ptr, start: Ptr, offset: Ptr,
                         entries: seq<(string, Stored)>, i: nat)
    requires i <= |entries|
  {
    forall k :: 0 <= k < i ==>
      SlotHolds(cells, list, k, entries[k]) &&
      start <= cells[IntPtrExtensions.Slot(list, PointerSize, k)].p &&
      cells[IntPtrExtensions.Slot(list, PointerSize, k)].p + |entries[k].1.blob| < offset
  }

  /** Writes below `offset` other than slot `i` leave the first `i` entries in place. */
  lemma PlacedFrame(before: map<Ptr, Cell>, after: map<Ptr, Cell>, list: Ptr, start: Ptr, offset: Ptr,
                    entries: seq<(string, Stored)>, i: nat)
    requires i < |entries| && start == list + PointerSize * |entries|
    requires Placed(before, list, start, offset, entries, i)
    requires forall q :: q in before && q < offset && q != IntPtrExtensions.Slot(list, PointerSize, i) ==>
      q in after && after[q] == before[q]
    ensures Placed(after, list, start, offset, entries, i)
  {
    forall k | 0 <= k < i
      ensures SlotHolds(after, list, k, entries[k])
      ensures after[IntPtrExtensions.Slot(list, PointerSize, k)] == before[IntPtrExtensions.Slot(list, PointerSize, k)]
    {
      var slot := IntPtrExtensions.Slot(list, PointerSize, k);
      assert slot != IntPtrExtensions.Slot(list, PointerSize, i);
      var q := before[slot].p;
      CredentialAtFrame(before, after, q, entries[k].0, entries[k].1);
    }
  }

  /** Puts entry `i` in place: its slot, then its structure and blob at `offset`. */
  method PlaceEntry(mem: Memory, list: Ptr, start: Ptr, offset: Ptr, entries: seq<(string, Stored)>, i: nat)
    requires mem.Valid() && i < |entries| && start == list + PointerSize * |entries| && 0 < list
    requires start <= offset && |entries[i].1.blob| <= MaxInt32
    requires mem.Within(list, list, PointerSize * |entries|) && mem.Within(list, offset, 1 + |entries[i].1.blob|)
    requires Placed(mem.cells, list, start, offset, entries, i)
    modifies mem`cells
    ensures Placed(mem.cells, list, start, offset + 1 + |entries[i].1.blob|, entries, i + 1)
  {
    ghost var before := mem.cells;
    var slot := IntPtrExtensions.Slot(list, PointerSize, i);
    mem.Write(list, slot, PtrCell(offset));
    ghost var middle := mem.cells;
    WriteCredential(mem, list, offset, entries[i].0, entries[i].1);
    assert slot in mem.cells && mem.cells[slot] == PtrCell(offset);
    PlacedFrame(before, mem.cells, list, start, offset, entries, i);
  }

  /**
   * Lays out `entries` in the block at `list`: the pointer array first,
   * then each structure followed by its blob.
   */
  method FillList(mem: Memory, list: Ptr, entries: seq<(string, Stored)>)
    requires mem.Valid() && list in mem.allocs
    requires mem.allocs[list].size == PointerSize * |entries| + Footprint(entries)
    requires forall i :: 0 <= i < |entries| ==> |entries[i].1.blob| <= MaxInt32
    modifies mem`cells
    ensures ListAt(mem.cells, list, entries)
  {
    var n := |entries|;
    var start := list + PointerSize * n;
    var offset := start;
    var i := 0;
    while i < n
      invariant 0 <= i <= n
      invariant offset == start + Footprint(entries[..i])
      invariant Placed(mem.cells, list, start, offset, entries, i)
    {
      FootprintPrefix(entries, i);
      PlaceEntry(mem, list, start, offset, entries, i);
      offset := offset + 1 + |entries[i].1.blob|;
      i := i + 1;
    }
  }


  /** What `CredReadW` and `CredDeleteW` fail with, or `Win32Error.Success`. */
  function ReadError(creds: map<string, Stored>, target: string, credentialType: int32, fault: int32): (r: int32)
    ensures r == Win32Error.Success <==>
      fault == Win32Error.Success && credentialType == CredentialTypeGeneric && target in creds
    ensures fault == Win32Error.Success && target !in creds ==> r == Win32Error.NotFound
  {
    if fault != Win32Error.Success then fault
    else if credentialType != CredentialTypeGeneric || target !in creds then Win32Error.NotFound
    else Win32Error.Success
  }

  /** What `CredWriteW` fails with, or `Win32Error.Success`: a structure without a target cannot be stored. */
  function WriteError(credential: Win32Credential, fault: int32): (r: int32)
    ensures r == Win32Error.Success <==>
      fault == Win32Error.Success && credential.targetName.Some? &&
      credential.credentialType == CredentialTypeGeneric && credential.credentialBlobSize >= 0
  {
    if fault != Win32Error.Success then fault
    else if credential.targetName.None? || credential.credentialType != CredentialTypeGeneric ||
            credential.credentialBlobSize < 0 then InvalidParameter
    else Win32Error.Success
  }

  /** `order` lists every stored target once; blob sizes fit the structure's `int`. */
  ghost predicate Consistent(creds: map<string, Stored>, order: seq<string>) {
    (forall t :: t in creds <==> t in order) && Distinct(order) &&
    (forall t :: t in creds ==> |creds[t].blob| <= MaxInt32)
  }

  /** A new `CredentialApi` block holding the pointer array and the structures of `entries`. */
  method NewList(mem: Memory, entries: seq<(string, Stored)>) returns (list: Ptr)
    requires mem.Valid()
    requires forall i :: 0 <= i < |entries| ==> |entries[i].1.blob| <= MaxInt32
    modifies mem
    ensures mem.Valid()
    ensures list != Zero && list !in old(mem.allocs) && list in mem.allocs && mem.allocs[list].allocator == CredentialApi
    ensures mem.allocs == old(mem.allocs)[list := mem.allocs[list]]
    ensures ListAt(mem.cells, list, entries)
  {
    list := mem.Alloc(CredentialApi, PointerSize * |entries| + Footprint(entries));
    FillList(mem, list, entries);
  }

  /** The targets a filter takes from a consistent set are stored, with blobs `CredentialBlobSize` can count. */
  lemma MatchingStored(creds: map<string, Stored>, order: seq<string>, filter: Option<string>)
    requires Consistent(creds, order)
    ensures forall t :: t in Matching(order, filter) ==> t in creds
    ensures forall i :: 0 <= i < |Matching(order, filter)| ==> |creds[Matching(order, filter)[i]].blob| <= MaxInt32
  {
    var m := Matching(order, filter);
    forall i | 0 <= i < |m|
      ensures m[i] in creds
    {
      assert m[i] in m;
    }
  }

  class CredentialSet {
    /** The generic credentials, by target name. */
    var creds: map<string, Stored>
    /** The order `CredEnumerateW` lists them in. */
    var order: seq<string>

    ghost predicate Valid()
      reads this
    {
      Consistent(creds, order)
    }

    constructor ()
      ensures Valid() && creds == map[] && order == []
    {
      creds := map[];
      order := [];
    }

    /**
     * `CredReadW(target, type, 0, out credential)`: a new block holding the
     * credential's structure and its blob.
     */
    method CredRead(mem: Memory, target: string, credentialType: int32, fault: int32)
      returns (success: bool, lastError: int32, credential: Ptr)
      requires Valid() && mem.Valid()
      modifies mem
      ensures mem.Valid()
      ensures success <==> ReadError(creds, target, credentialType, fault) == Win32Error.Success
      ensures !success ==> lastError == ReadError(creds, target, credentialType, fault)
      ensures !success ==> credential == Zero && mem.allocs == old(mem.allocs)
      ensures success ==>
        credential != Zero && credential !in old(mem.allocs) &&
        mem.allocs == old(mem.allocs)[credential := Allocation(CredentialApi, 1 + |creds[target].blob|)] &&
        CredentialAt(mem.cells, credential, target, creds[target])
    {
      var error := ReadError(creds, target, credentialType, fault);
      if error != Win32Error.Success {
        return false, error, Zero;
      }
      var s := creds[target];
      credential := mem.Alloc(CredentialApi, 1 + |s.blob|);
      assert credential in mem.allocs;
      WriteCredential(mem, credential, credential, target, s);
      return true, Win32Error.Success, credential;
    }

    /**
     * `CredWriteW(ref credential, 0)`: the set holds the credential under its
     * target name from now on, replacing any credential of that name, with
     * the blob copied from unmanaged memory and `now` as its time of writing.
     * `blob` names the bytes at the structure's blob pointer.
     */
    method CredWrite(mem: Memory, credential: Win32Credential, flags: int32, fault: int32, now: FileTime,
                     ghost blob: seq<byte>)
      returns (success: bool, lastError: int32)
      requires Valid()
      requires credential.credentialBlobSize >= 0 ==>
        credential.credentialBlob != Zero && |blob| == credential.credentialBlobSize &&
        HasBytes(mem.cells, credential.credentialBlob, blob)
      modifies this
      ensures Valid()
      ensures success <==> WriteError(credential, fault) == Win32Error.Success
      ensures !success ==> lastError == WriteError(credential, fault) && creds == old(creds) && order == old(order)
      ensures success ==>
        creds == old(creds)[credential.targetName.value :=
                            Stored(credential.userName, credential.comment, blob, credential.persist, now)]
      ensures success ==>
        order == if credential.targetName.value in old(order) then old(order) else old(order) + [credential.targetName.value]
    {
      var error := WriteError(credential, fault);
      if error != Win32Error.Success {
        return false, error;
      }
      var bytes := IntPtrExtensions.ToByteArray(mem, credential.credentialBlob, credential.credentialBlobSize, blob);
      var target := credential.targetName.value;
      if target !in order {
        order := order + [target];
      }
      creds := creds[target := Stored(credential.userName, credential.comment, bytes.value, credential.persist, now)];
      return true, Win32Error.Success;
    }

    /** `CredDeleteW(target, type, 0)`: the credential is gone; every other one stays. */
    method CredDelete(target: string, credentialType: int32, fault: int32)
      returns (success: bool, lastError: int32)
      requires Valid()
      modifies this
      ensures Valid()
      ensures success <==> old(ReadError(creds, target, credentialType, fault)) == Win32Error.Success
      ensures !success ==>
        lastError == old(ReadError(creds, target, credentialType, fault)) && creds == old(creds) && order == old(order)
      ensures success ==> creds == old(creds) - {target} && order == Remove(old(order), target)
    {
      var error := ReadError(creds, target, credentialType, fault);
      if error != Win32Error.Success {
        return false, error;
      }
      creds := creds - {target};
      order := Remove(order, target);
      return true, Win32Error.Success;
    }

    /**
     * `CredEnumerateW(filter, flags, out count, out list)`: a new block
     * holding an array of `count` pointers to the structures of the
     * credentials the filter takes, in the set's order. Asking for every
     * credential while giving a filter is `Win32Error.InvalidFlags`; nothing to list is
     * `Win32Error.NotFound`.
     */
    method CredEnumerate(mem: Memory, filter: Option<string>, flags: int32, fault: int32)
      returns (success: bool, lastError: int32, count: nat, list: Ptr)
      requires Valid() && mem.Valid()
      modifies mem
      ensures mem.Valid()
      ensures success <==> EnumerateError(order, filter, flags, fault) == Win32Error.Success
      ensures !success ==> lastError == EnumerateError(order, filter, flags, fault)
      ensures !success ==> count == 0 && list == Zero && mem.allocs == old(mem.allocs)
      ensures success ==>
        count == |Matching(order, filter)| && list != Zero && list !in old(mem.allocs) &&
        list in mem.allocs && mem.allocs[list].allocator == CredentialApi &&
        mem.allocs == old(mem.allocs)[list := mem.allocs[list]] &&
        ListAt(mem.cells, list, Entries(creds, Matching(order, filter)))
    {
      var error := EnumerateError(order, filter, flags, fault);
      if error != Win32Error.Success {
        return false, error, 0, Zero;
      }
      MatchingStored(creds, order, filter);
      var entries := Entries(creds, Matching(order, filter));
      list := NewList(mem, entries);
      return true, Win32Error.Success, |entries|, list;
    }

    /** `CredFree(p)`: hands a block from `CredReadW` or `CredEnumerateW` back. */
    method CredFree(mem: Memory, p: Ptr)
      requires mem.Valid() && p in mem.allocs && mem.allocs[p].allocator == CredentialApi
      modifies mem
      ensures mem.Valid()
      ensures mem.allocs == old(mem.allocs) - {p}
    {
      mem.Free(p, CredentialApi);
    }
  }
}

=== FILE: cf_array.dfy ===
/** `CFArray`: building a CoreFoundation array from wrappers, and reading one back. */
module CFArray {
  import opened Numeric
  import opened Wrappers
  import opened Exceptions
  import opened CoreFoundation
  import opened CFTypes

  /** `new CFArray(capacity)`: an owned wrapper around a new empty array. */
  method New(heap: CFHeap, capacity: int) returns (w: CFType)
    requires heap.Valid()
    modifies heap
    ensures heap.Valid() && fresh(w)
    ensures NewOwned(w, ArrayKind, ArrayObj([]), heap, old(heap.objects), old(heap.owned))
  {
    w := new CFType(ArrayKind, true);
    var h := heap.ArrayCreateMutable(capacity);
    w.SetHandle(h);
  }

  /** The handles of a sequence of wrappers, in order. */
  function Handles(data: seq<CFType>): (r: seq<Handle>)
    reads set i | 0 <= i < |data| :: data[i]
    ensures |r| == |data| && forall i :: 0 <= i < |data| ==> r[i] == data[i].handle
  {
    if data == [] then [] else [data[0].handle] + Handles(data[1..])
  }

  /**
   * `CFArray.CreateHandle(data)`: a new array holding the handle of every
   * wrapper, in input order (each must name a live object, as
   * `CFArrayAppendValue` retains it). The caller owns the array.
   */
  method CreateHandle(heap: CFHeap, data: seq<CFType>) returns (h: Handle)
    requires heap.Valid()
    requires forall i :: 0 <= i < |data| ==> data[i].handle in heap.objects
    modifies heap
    ensures heap.Valid()
    ensures h != Null && h !in old(heap.objects)
    ensures heap.objects == old(heap.objects)[h := ArrayObj(old(Handles(data)))]
    ensures heap.owned == old(heap.owned) + multiset{h}
  {
    ghost var handles := Handles(data);
    ghost var base := heap.objects;
    assert forall k :: 0 <= k < |data| ==> handles[k] in base;
    h := heap.ArrayCreateMutable(|data|);
    var i := 0;
    while i < |data|
      invariant 0 <= i <= |data|
      invariant heap.Valid() && h !in base
      invariant heap.objects == base[h := ArrayObj(handles[..i])]
      invariant heap.owned == old(heap.owned) + multiset{h}
      invariant forall k :: 0 <= k < |data| ==> data[k].handle == handles[k]
    {
      assert handles[..i + 1] == handles[..i] + [handles[i]];
      AppendHandle(heap, h, data[i].handle, base, handles[..i]);
      i := i + 1;
    }
    assert handles[..|data|] == handles;
  }

  /** One step of `CreateHandle`: the array at `h`, the only change from `base`, gets one more element. */
  method AppendHandle(heap: CFHeap, h: Handle, value: Handle,
                      ghost base: map<Handle, CFObject>, ghost prefix: seq<Handle>)
    requires heap.Valid() && value in base && heap.objects == base[h := ArrayObj(prefix)]
    modifies heap`objects
    ensures heap.Valid() && heap.objects == base[h := ArrayObj(prefix + [value])]
  {
    heap.ArrayAppendValue(h, value);
    ReplaceTwice(base, h, ArrayObj(prefix), ArrayObj(prefix + [value]));
  }

  /** Every element of the array at `h` has a registered wrapper class. */
  ghost predicate AllRegistered(heap: CFHeap, h: Handle)
    reads heap
    requires h in heap.objects && heap.objects[h].ArrayObj? && AllWellformed(heap.objects)
  {
    forall i :: 0 <= i < |heap.objects[h].items| ==> Registered(TypeID(heap.objects[heap.objects[h].items[i]])).Some?
  }

  /**
   * `CFArray.ToArray(handle)`: one borrowed wrapper per element, wrapping the
   * element at the same index. An element of an unregistered type fails the
   * whole conversion, as `FromHandle` throws; `describe` gives the system's
   * name of a type id for that message.
   */
  method ToArray(heap: CFHeap, handle: Handle, describe: uint32 -> string)
    returns (r: Result<seq<CFType>, Exception>)
    requires heap.Valid() && handle in heap.objects && heap.objects[handle].ArrayObj?
    modifies heap
    ensures heap.Valid()
    ensures r.Success? <==> old(AllRegistered(heap, handle))
    ensures r.Success? ==> heap.objects == old(heap.objects) && heap.owned == old(heap.owned)
    ensures r.Success? ==> |r.value| == |old(heap.objects[handle].items)|
    ensures r.Success? ==> forall i :: 0 <= i < |r.value| ==>
      fresh(r.value[i]) && r.value[i].handle == heap.objects[handle].items[i] &&
      !r.value[i].ownsHandle && !r.value[i].closed && r.value[i].Refers(heap)
    ensures r.Failure? ==> r.error.PlainException?
    ensures r.Failure? ==> forall h :: h in old(heap.objects) ==> h in heap.objects && heap.objects[h] == old(heap.objects[h])
  {
    var count := heap.ArrayGetCount(handle);
    ghost var items := heap.objects[handle].items;
    var wrappers: seq<CFType> := [];
    var i := 0;
    while i < count
      invariant 0 <= i <= count
      invariant heap.Valid() && heap.objects == old(heap.objects) && heap.owned == old(heap.owned)
      invariant |wrappers| == i
      invariant forall k :: 0 <= k < i ==> Registered(TypeID(heap.objects[items[k]])).Some?
      invariant forall k :: 0 <= k < i ==>
        fresh(wrappers[k]) && wrappers[k].handle == items[k] && !wrappers[k].ownsHandle && !wrappers[k].closed && wrappers[k].Refers(heap)
    {
      var valuePtr := heap.ArrayGetValueAtIndex(handle, i);
      var element := FromHandle(heap, valuePtr, false, describe(heap.GetTypeID(valuePtr)));
      if element.Failure? {
        return Failure(element.error);
      }
      wrappers := wrappers + [element.value];
      i := i + 1;
    }
    return Success(wrappers);
  }
}

=== FILE: cf_data.dfy ===
/**
 * `CFData`'s conversions between managed byte arrays and CoreFoundation
 * data objects, on handles.
 */
module CFData {
  import opened Numeric
  import opened Wrappers
  import opened CoreFoundation

  /** `CFData.CreateHandle(data)`: passes `data` and `data.Length`, so the new object holds all of `data`. */
  method CreateHandle(heap: CFHeap, data: seq<byte>) returns (h: Handle)
    requires heap.Valid()
    modifies heap
    ensures heap.Valid()
    ensures h != Null && h !in old(heap.objects)
    ensures heap.objects == old(heap.objects)[h := DataObj(data)]
    ensures heap.owned == old(heap.owned) + multiset{h}
  {
    assert data[..|data|] == data;
    h := heap.DataCreate(data, |data|);
  }

  /**
   * `CFData.ToArray(handle)`: null for a null handle; otherwise a new array
   * of `CFDataGetLength` bytes filled by `Marshal.Copy` from the data's byte
   * pointer, that is, a copy of the data's bytes.
   */
  method ToArray(heap: CFHeap, handle: Handle) returns (r: Option<seq<byte>>)
    requires heap.Valid()
    requires handle != Null ==> handle in heap.objects && heap.objects[handle].DataObj?
    ensures handle == Null <==> r.None?
    ensures handle != Null ==> r == Some(heap.objects[handle].bytes)
  {
    if handle == Null {
      return None;
    }
    var length := heap.DataGetLength(handle);
    var buffer := new byte[length](_ => 0);
    // CFDataGetBytePtr: the bytes are read through the data object itself.
    var ptr := handle;
    var i := 0;
    while i < buffer.Length
      invariant 0 <= i <= buffer.Length
      invariant buffer[..i] == heap.objects[handle].bytes[..i]
    {
      buffer[i] := heap.DataByteAt(ptr, i);
      i := i + 1;
    }
    assert buffer[..] == buffer[..i];
    assert heap.objects[handle].bytes[..i] == heap.objects[handle].bytes;
    return Some(buffer[..]);
  }

  /** `CFData.Length`: 0 for an invalid (null) handle, else the byte count. */
  function Length(heap: CFHeap, handle: Handle): (r: int)
    reads heap
    requires handle != Null ==> handle in heap.objects && heap.objects[handle].DataObj?
    ensures handle == Null ==> r == 0
    ensures handle != Null ==> r == |heap.objects[handle].bytes|
  {
    if handle == Null then 0 else heap.DataGetLength(handle)
  }
}

=== FILE: cf_dictionary.dfy ===
/**
 * `CFDictionary`: the `IDictionary<IntPtr, IntPtr>` view of a mutable
 * CoreFoundation dictionary. Lookups and updates go straight to the native
 * dictionary; removal, clearing, copying and enumeration are not
 * implemented and always throw.
 */
module CFDictionary {
  import opened Numeric
  import opened Wrappers
  import opened Exceptions
  import opened Unicode
  import opened CoreFoundation
  import opened CFTypes
  import CFString

  /** The wrapper's handle names a dictionary. */
  ghost predicate IsDictionary(heap: CFHeap, dict: CFType)
    reads heap, dict
  {
    dict.handle in heap.objects && heap.objects[dict.handle].DictionaryObj?
  }

  /** `new CFDictionary(capacity)`: an owned wrapper around a new empty dictionary. */
  method New(heap: CFHeap, capacity: int) returns (w: CFType)
    requires heap.Valid()
    modifies heap
    ensures heap.Valid() && fresh(w) && IsDictionary(heap, w)
    ensures NewOwned(w, DictionaryKind, DictionaryObj(map[], []), heap, old(heap.objects), old(heap.owned))
  {
    w := new CFType(DictionaryKind, true);
    var h := heap.DictionaryCreateMutable(capacity);
    w.SetHandle(h);
  }

  /**
   * `new CFDictionary(IDictionary)`: a new owned dictionary holding every pair
   * of `source`. `order` is the order in which the managed dictionary
   * enumerates its keys; the native dictionary keeps its keys in that order.
   */
  method FromDictionary(heap: CFHeap, source: map<Handle, Handle>, order: seq<Handle>) returns (w: CFType)
    requires heap.Valid()
    requires forall i, j :: 0 <= i < j < |order| ==> order[i] != order[j]
    requires forall k :: k in source <==> k in order
    requires forall k :: k in source ==> k in heap.objects && source[k] in heap.objects
    modifies heap
    ensures heap.Valid() && fresh(w) && IsDictionary(heap, w)
    ensures NewOwned(w, DictionaryKind, DictionaryObj(source, order), heap, old(heap.objects), old(heap.owned))
  {
    w := New(heap, |order|);
    ghost var d := w.handle;
    ghost var built: map<Handle, Handle> := map[];
    var i := 0;
    while i < |order|
      invariant 0 <= i <= |order| && w.handle == d
      invariant w.kind == DictionaryKind && w.ownsHandle && !w.closed && d != Null
      invariant heap.Valid() && d !in old(heap.objects)
      invariant heap.owned == old(heap.owned) + multiset{d}
      invariant forall k :: k in built <==> k in order[..i]
      invariant forall k :: k in built ==> k in source && built[k] == source[k]
      invariant heap.objects == old(heap.objects)[d := DictionaryObj(built, order[..i])]
    {
      var key := order[i];
      NextKeyIsNew(order, i);
      AddPair(heap, w, key, source[key], old(heap.objects), built, order[..i]);
      built := built[key := source[key]];
      i := i + 1;
    }
    assert order[..|order|] == order;
    SameEntries(built, source, order);
  }

  /** One step of `FromDictionary`: the dictionary, the only change from `base`, gets one more key. */
  method AddPair(heap: CFHeap, dict: CFType, key: Handle, value: Handle, ghost base: map<Handle, CFObject>,
                 ghost built: map<Handle, Handle>, ghost prefix: seq<Handle>)
    requires heap.Valid() && key in base && value in base && key !in built
    requires heap.objects == base[dict.handle := DictionaryObj(built, prefix)]
    modifies heap`objects
    ensures heap.Valid()
    ensures heap.objects == base[dict.handle := DictionaryObj(built[key := value], prefix + [key])]
  {
    Add(heap, dict, key, value);
    ReplaceTwice(base, dict.handle, DictionaryObj(built, prefix), DictionaryObj(built[key := value], prefix + [key]));
  }

  /** A map with the keys of `order` that agrees with `source`, whose keys are those of `order`, is `source`. */
  lemma SameEntries(built: map<Handle, Handle>, source: map<Handle, Handle>, order: seq<Handle>)
    requires forall k :: k in built <==> k in order
    requires forall k :: k in source <==> k in order
    requires forall k :: k in built ==> built[k] == source[k]
    ensures built == source
  {
    forall k
      ensures k in built.Keys <==> k in source.Keys
    {
      assert k in built <==> k in order;
    }
    assert built.Keys == source.Keys;
    assert forall k :: k in built ==> built[k] == source[k];
  }

  /** The next key of a repeat-free order is not among the ones before it. */
  lemma NextKeyIsNew(order: seq<Handle>, i: int)
    requires forall i, j :: 0 <= i < j < |order| ==> order[i] != order[j]
    requires 0 <= i < |order|
    ensures order[i] !in order[..i]
    ensures order[..i + 1] == order[..i] + [order[i]]
  {
    forall j | 0 <= j < i
      ensures order[..i][j] != order[i]
    {
      assert order[..i][j] == order[j];
    }
  }

  // ---------------------------------------------------------------- unimplemented members

  /** `GetEnumerator()`: not implemented. */
  function GetEnumerator(): (r: Result<seq<(Handle, Handle)>, Exception>)
    ensures r.Failure? && r.error == NotImplementedException
  {
    Failure(NotImplementedException)
  }

  /** `Clear()`: not implemented. */
  function Clear(): (r: Outcome<Exception>)
    ensures r.Fail? && r.error == NotImplementedException
  {
    Fail(NotImplementedException)
  }

  /** `CopyTo(array, arrayIndex)`: not implemented. */
  function CopyTo(target: seq<(Handle, Handle)>, arrayIndex: int): (r: Outcome<Exception>)
    ensures r.Fail? && r.error == NotImplementedException
  {
    Fail(NotImplementedException)
  }

  /** `Remove(KeyValuePair)`: not implemented, whatever the pair. */
  function RemovePair(item: (Handle, Handle)): (r: Result<bool, Exception>)
    ensures r.Failure? && r.error == NotImplementedException
  {
    Failure(NotImplementedException)
  }

  /**
   * `Remove(key)`, the `IDictionary` overload beside the `ICollection` one
   * that `RemovePair` models: each is a separate stub in the source, and
   * neither is implemented, whether or not the key is present.
   */
  function Remove(key: Handle): (r: Result<bool, Exception>)
    ensures r.Failure? && r.error == NotImplementedException
  {
    Failure(NotImplementedException)
  }

  // ---------------------------------------------------------------- queries

  /** A sequence without repeats has as many distinct elements as entries. */
  lemma {:induction false} DistinctSetSize(s: seq<Handle>)
    requires forall i, j :: 0 <= i < j < |s| ==> s[i] != s[j]
    ensures |set k | k in s| == |s|
  {
    if s != [] {
      var t := s[1..];
      assert forall i, j :: 0 <= i < j < |t| ==> t[i] != t[j] by {
        forall i, j | 0 <= i < j < |t|
          ensures t[i] != t[j]
        {
          assert t[i] == s[i + 1] && t[j] == s[j + 1];
        }
      }
      DistinctSetSize(t);
      assert s[0] !in t by {
        forall i | 0 <= i < |t|
          ensures t[i] != s[0]
        {
          assert t[i] == s[i + 1];
        }
      }
      assert (set k | k in s) == (set k | k in t) + {s[0]} by {
        assert s == [s[0]] + t;
      }
    }
  }

  /** `Count` (`CFDictionaryGetCount`): the number of keys in the dictionary. */
  function Count(heap: CFHeap, dict: CFType): (r: int)
    reads heap, dict
    requires heap.Valid() && IsDictionary(heap, dict)
    ensures r == |heap.objects[dict.handle].values|
  {
    var h := dict.handle;
    var d := heap.objects[h];
    assert Wellformed(d, heap.objects);
    DistinctSetSize(d.order);
    assert forall k :: k in d.values.Keys <==> k in (set k | k in d.order);
    assert d.values.Keys == set k | k in d.order;
    heap.DictionaryGetCount(dict.handle)
  }

  /** `ContainsKey(key)` (`CFDictionaryContainsKey`). */
  function ContainsKey(heap: CFHeap, dict: CFType, key: Handle): (r: bool)
    reads heap, dict
    requires IsDictionary(heap, dict)
    ensures r <==> key in heap.objects[dict.handle].values
  {
    heap.DictionaryContainsKey(dict.handle, key)
  }

  /** `TryGetValue(key, out value)`: the value when the key is present, otherwise false and zero. */
  function TryGetValue(heap: CFHeap, dict: CFType, key: Handle): (r: (bool, Handle))
    reads heap, dict
    requires IsDictionary(heap, dict)
    ensures r.0 <==> ContainsKey(heap, dict, key)
    ensures r.0 ==> r.1 == heap.objects[dict.handle].values[key]
    ensures !r.0 ==> r.1 == Null
  {
    if ContainsKey(heap, dict, key) then (true, heap.DictionaryGetValue(dict.handle, key)) else (false, Null)
  }

  /** `Contains(pair)`: the key is present and maps to exactly that value. */
  function Contains(heap: CFHeap, dict: CFType, item: (Handle, Handle)): (r: bool)
    reads heap, dict
    requires IsDictionary(heap, dict)
    ensures r <==> item.0 in heap.objects[dict.handle].values && heap.objects[dict.handle].values[item.0] == item.1
  {
    var (found, value) := TryGetValue(heap, dict, item.0);
    found && value == item.1
  }

  /** The indexer's getter (`CFDictionaryGetValue`): null for an absent key. */
  function Get(heap: CFHeap, dict: CFType, key: Handle): (r: Handle)
    reads heap, dict
    requires IsDictionary(heap, dict)
    ensures key in heap.objects[dict.handle].values ==> r == heap.objects[dict.handle].values[key]
    ensures key !in heap.objects[dict.handle].values ==> r == Null
  {
    heap.DictionaryGetValue(dict.handle, key)
  }

  /**
   * In a well-formed heap every stored value is a live object, so the getter
   * answers null exactly when `ContainsKey` is false and agrees with
   * `TryGetValue` otherwise.
   */
  lemma GetNullIffAbsent(heap: CFHeap, dict: CFType, key: Handle)
    requires heap.Valid() && IsDictionary(heap, dict)
    ensures Get(heap, dict, key) == Null <==> !ContainsKey(heap, dict, key)
    ensures TryGetValue(heap, dict, key) == (ContainsKey(heap, dict, key), Get(heap, dict, key))
  {
    var h := dict.handle;
    var d := heap.objects[h];
    assert Wellformed(d, heap.objects);
    if key in d.values {
      assert d.values[key] in heap.objects;
    }
  }

  /** `Keys`: `Count` keys, in the dictionary's order, each key once. */
  method Keys(heap: CFHeap, dict: CFType) returns (r: seq<Handle>)
    requires heap.Valid() && IsDictionary(heap, dict)
    ensures r == heap.objects[dict.handle].order
    ensures |r| == Count(heap, dict)
    ensures forall k :: k in r <==> ContainsKey(heap, dict, k)
    ensures forall i, j :: 0 <= i < j < |r| ==> r[i] != r[j]
  {
    var count := Count(heap, dict);
    var keys := new Handle[count];
    var values := new Handle[count];
    var h := dict.handle;
    assert Wellformed(heap.objects[h], heap.objects);
    heap.DictionaryGetKeysAndValues(dict.handle, keys, values);
    assert keys[..] == keys[..count];
    return keys[..];
  }

  /** `Values`: `Count` values, the value of the i-th key at index i. */
  method Values(heap: CFHeap, dict: CFType) returns (r: seq<Handle>)
    requires heap.Valid() && IsDictionary(heap, dict)
    ensures |r| == Count(heap, dict) == |heap.objects[dict.handle].order|
    ensures forall i :: 0 <= i < |r| ==>
      heap.objects[dict.handle].order[i] in heap.objects[dict.handle].values &&
      r[i] == heap.objects[dict.handle].values[heap.objects[dict.handle].order[i]]
  {
    var count := Count(heap, dict);
    var keys := new Handle[count];
    var values := new Handle[count];
    var h := dict.handle;
    ghost var o := heap.objects[h];
    assert Wellformed(o, heap.objects);
    assert forall k :: k in o.values <==> k in o.order;
    forall i | 0 <= i < count
      ensures o.order[i] in o.values
    {
      assert o.order[i] in o.order;
    }
    heap.DictionaryGetKeysAndValues(dict.handle, keys, values);
    assert values[..] == values[..count];
    return values[..];
  }

  // ---------------------------------------------------------------- updates

  /** `Add(pair)` and `Add(key, value)` (`CFDictionaryAddValue`): a present key keeps its value. */
  method Add(heap: CFHeap, dict: CFType, key: Handle, value: Handle)
    requires heap.Valid() && IsDictionary(heap, dict) && key in heap.objects && value in heap.objects
    modifies heap`objects
    ensures heap.Valid() && IsDictionary(heap, dict)
    ensures heap.objects == old(heap.objects)[dict.handle := DictionaryAdd(old(heap.objects[dict.handle]), key, value)]
  {
    heap.DictionaryAddValue(dict.handle, key, value);
  }

  /** `Add(key, SafeHandle)`: adds the wrapper's raw handle. */
  method AddHandle(heap: CFHeap, dict: CFType, key: Handle, value: CFType)
    requires heap.Valid() && IsDictionary(heap, dict) && key in heap.objects && value.handle in heap.objects
    modifies heap`objects
    ensures heap.Valid() && IsDictionary(heap, dict)
    ensures heap.objects == old(heap.objects)[dict.handle := DictionaryAdd(old(heap.objects[dict.handle]), key, value.handle)]
  {
    Add(heap, dict, key, value.handle);
  }

  /** The indexer's setter and `SetValue(key, value)` (`CFDictionarySetValue`). */
  method SetValue(heap: CFHeap, dict: CFType, key: Handle, value: Handle)
    requires heap.Valid() && IsDictionary(heap, dict) && key in heap.objects && value in heap.objects
    modifies heap`objects
    ensures heap.Valid() && IsDictionary(heap, dict)
    ensures heap.objects == old(heap.objects)[dict.handle := DictionarySet(old(heap.objects[dict.handle]), key, value)]
  {
    heap.DictionarySetValue(dict.handle, key, value);
  }

  /** `SetValue(key, SafeHandle)`: stores the wrapper's raw handle. */
  method SetValueHandle(heap: CFHeap, dict: CFType, key: Handle, value: CFType)
    requires heap.Valid() && IsDictionary(heap, dict) && key in heap.objects && value.handle in heap.objects
    modifies heap`objects
    ensures heap.Valid() && IsDictionary(heap, dict)
    ensures heap.objects == old(heap.objects)[dict.handle := DictionarySet(old(heap.objects[dict.handle]), key, value.handle)]
  {
    SetValue(heap, dict, key, value.handle);
  }

  /** After `SetValue` the key reads back the new value and every other key is untouched. */
  lemma SetThenGet(d: CFObject, key: Handle, value: Handle, other: Handle)
    requires d.DictionaryObj?
    ensures DictionarySet(d, key, value).values[key] == value
    ensures other != key ==> (other in DictionarySet(d, key, value).values <==> other in d.values)
    ensures other != key && other in d.values ==> DictionarySet(d, key, value).values[other] == d.values[other]
  {
  }

  /** `Add` stores a new key's value and never overwrites a present one. */
  lemma AddThenGet(d: CFObject, key: Handle, value: Handle)
    requires d.DictionaryObj?
    ensures key in DictionaryAdd(d, key, value).values
    ensures DictionaryAdd(d, key, value).values[key] == if key in d.values then d.values[key] else value
  {
  }

  // ---------------------------------------------------------------- strings

  /** What `GetString(key)` reads from the dictionary `d` of the heap `objects`. */
  ghost function StringAt(objects: map<Handle, CFObject>, d: Handle, key: Handle): Option<string>
    requires d in objects && objects[d].DictionaryObj?
  {
    if key in objects[d].values && objects[d].values[key] in objects && objects[objects[d].values[key]].StringObj?
    then Some(PrefixBeforeNul(objects[objects[d].values[key]].text))
    else None
  }

  /** `GetString(key)`: null for an absent key, otherwise the string stored under it. */
  method GetString(heap: CFHeap, dict: CFType, key: Handle) returns (r: Option<string>)
    requires heap.Valid() && IsDictionary(heap, dict)
    requires key in heap.objects[dict.handle].values ==>
      heap.objects[dict.handle].values[key] in heap.objects && heap.objects[heap.objects[dict.handle].values[key]].StringObj?
    ensures r.None? <==> !ContainsKey(heap, dict, key)
    ensures r == StringAt(heap.objects, dict.handle, key)
  {
    GetNullIffAbsent(heap, dict, key);
    var (found, ptr) := TryGetValue(heap, dict, key);
    if found {
      r := CFString.ToString(heap, ptr);
    } else {
      r := None;
    }
  }

  /**
   * `SetString(key, value)`: null calls the unimplemented `Remove` and so
   * fails with nothing changed; otherwise a new string is stored under the
   * key. The reference `CFString.CreateHandle` returned is never released,
   * so `stored` stays in `owned` besides the dictionary's own retain.
   */
  method SetString(heap: CFHeap, dict: CFType, key: Handle, value: Option<string>)
    returns (r: Outcome<Exception>, ghost stored: Handle)
    requires heap.Valid() && IsDictionary(heap, dict) && key in heap.objects
    modifies heap
    ensures heap.Valid() && IsDictionary(heap, dict)
    ensures value.None? ==> r == Fail(NotImplementedException)
    ensures value.None? ==> heap.objects == old(heap.objects) && heap.owned == old(heap.owned)
    ensures value.Some? ==> r == Pass && stored != Null && stored !in old(heap.objects)
    ensures value.Some? ==>
      heap.objects == old(heap.objects)[stored := StringObj(value.value)][dict.handle := DictionarySet(old(heap.objects[dict.handle]), key, stored)]
    ensures value.Some? ==> heap.owned == old(heap.owned) + multiset{stored}
  {
    if value.None? {
      var removed := Remove(key);
      return Fail(removed.error), Null;
    }
    var h := CFString.CreateHandle(heap, value.value);
    stored := h;
    SetValue(heap, dict, key, h);
    r := Pass;
  }

  /**
   * `SetString(key, s)` followed by `GetString(key)` gives `s` up to its first
   * U+0000, and leaves what every other key reads unchanged.
   */
  lemma SetStringThenGetString(objects: map<Handle, CFObject>, d: Handle, key: Handle, stored: Handle, s: string, other: Handle)
    requires AllWellformed(objects) && d in objects && objects[d].DictionaryObj? && stored !in objects
    ensures var after := objects[stored := StringObj(s)][d := DictionarySet(objects[d], key, stored)];
      StringAt(after, d, key) == Some(PrefixBeforeNul(s)) &&
      (other != key ==> StringAt(after, d, other) == StringAt(objects, d, other))
  {
    var after := objects[stored := StringObj(s)][d := DictionarySet(objects[d], key, stored)];
    assert d != stored;
    if other != key && other in objects[d].values {
      assert Wellformed(objects[d], objects);
      var v := objects[d].values[other];
      assert v in objects && v != stored;
      if v == d {
        assert StringAt(objects, d, other) == None;
      }
    }
  }
}

=== FILE: cf_number.dfy ===
/**
 * `CFNumber`'s conversions, on handles: creating a number from a value
 * written into a scratch block of unmanaged memory, and reading a number
 * back at a requested width.
 */
module CFNumber {
  import opened Numeric
  import opened Wrappers
  import opened Exceptions
  import opened NativeMemory
  import opened CoreFoundation

  /** `IntPtr.ToInt32()` on a 64-bit host: a checked narrowing. */
  function IntPtrToInt32(p: int64): (r: Result<int32, Exception>)
    ensures r.Success? <==> -0x8000_0000 <= p < 0x8000_0000
    ensures r.Success? ==> r.value == p
    ensures r.Failure? ==> r.error == OverflowException
  {
    if -0x8000_0000 <= p < 0x8000_0000 then Success(p) else Failure(OverflowException)
  }

  /** The C `char` (signed on macOS) with the bit pattern `b`. */
  function SignedChar(b: byte): (r: int)
    ensures -0x80 <= r < 0x80 && WrapByte(r) == b
  {
    if b < 0x80 then b else b - 0x100
  }

  /**
   * `CreateValuePointer(write, value)`: a fresh `AllocHGlobal` block of the
   * value's size holding the value. Nothing here frees it.
   */
  method CreateValuePointer(mem: Memory, value: Cell, size: nat) returns (ptr: Ptr)
    requires mem.Valid() && size >= 1
    modifies mem
    ensures mem.Valid()
    ensures ptr != Zero && ptr !in old(mem.allocs)
    ensures mem.allocs == old(mem.allocs)[ptr := Allocation(HGlobal, size)]
    ensures mem.cells == old(mem.cells)[ptr := value]
  {
    ptr := mem.Alloc(HGlobal, size);
    mem.Write(ptr, ptr, value);
  }

  /**
   * The shape shared by the four `CreateHandle` overloads, as written:
   * `CFNumberCreate(default, type, CreateValuePointer(write, value))`. The
   * scratch block is still allocated afterwards and its address is lost.
   */
  method CreateHandleLeaking(heap: CFHeap, mem: Memory, numberType: CFNumberType, value: Cell, size: nat)
    returns (h: Handle, ghost valuePtr: Ptr)
    requires heap.Valid() && mem.Valid() && size >= 1
    requires NumberFromCell(numberType, value).Some?
    modifies heap, mem
    ensures heap.Valid() && mem.Valid()
    ensures h != Null && h !in old(heap.objects)
    ensures heap.objects == old(heap.objects)[h := NumberObj(numberType, NumberFromCell(numberType, value).value)]
    ensures heap.owned == old(heap.owned) + multiset{h}
    ensures valuePtr !in old(mem.allocs) && mem.allocs == old(mem.allocs)[valuePtr := Allocation(HGlobal, size)]
  {
    var ptr := CreateValuePointer(mem, value, size);
    h := heap.NumberCreate(numberType, mem, ptr);
    valuePtr := ptr;
  }

  /**
   * The same creation with the scratch block handed back to `FreeHGlobal`
   * once `CFNumberCreate` has copied the value: the allocation table is as
   * it was before.
   */
  method CreateHandleFreeing(heap: CFHeap, mem: Memory, numberType: CFNumberType, value: Cell, size: nat)
    returns (h: Handle)
    requires heap.Valid() && mem.Valid() && size >= 1
    requires NumberFromCell(numberType, value).Some?
    modifies heap, mem
    ensures heap.Valid() && mem.Valid()
    ensures h != Null && h !in old(heap.objects)
    ensures heap.objects == old(heap.objects)[h := NumberObj(numberType, NumberFromCell(numberType, value).value)]
    ensures heap.owned == old(heap.owned) + multiset{h}
    ensures mem.allocs == old(mem.allocs)
  {
    var valuePtr := CreateValuePointer(mem, value, size);
    h := heap.NumberCreate(numberType, mem, valuePtr);
    mem.Free(valuePtr, HGlobal);
  }

  /** `CreateHandle(byte)`: a `CharType` number, so bytes from 0x80 up are stored negative. */
  method CreateHandleByte(heap: CFHeap, mem: Memory, value: byte) returns (h: Handle)
    requires heap.Valid() && mem.Valid()
    modifies heap, mem
    ensures heap.Valid() && mem.Valid()
    ensures h != Null && h !in old(heap.objects)
    ensures heap.objects == old(heap.objects)[h := NumberObj(CharType, SignedChar(value))]
    ensures heap.owned == old(heap.owned) + multiset{h}
    ensures mem.allocs == old(mem.allocs)
  {
    h := CreateHandleFreeing(heap, mem, CharType, ByteCell(value), 1);
  }

  /** `CreateHandle(short)`: a `ShortType` number holding `value`. */
  method CreateHandleInt16(heap: CFHeap, mem: Memory, value: int16) returns (h: Handle)
    requires heap.Valid() && mem.Valid()
    modifies heap, mem
    ensures heap.Valid() && mem.Valid()
    ensures h != Null && h !in old(heap.objects)
    ensures heap.objects == old(heap.objects)[h := NumberObj(ShortType, value)]
    ensures heap.owned == old(heap.owned) + multiset{h}
    ensures mem.allocs == old(mem.allocs)
  {
    h := CreateHandleFreeing(heap, mem, ShortType, Int16Cell(value), 2);
  }

  /** `CreateHandle(int)`: an `IntType` number holding `value`. */
  method CreateHandleInt32(heap: CFHeap, mem: Memory, value: int32) returns (h: Handle)
    requires heap.Valid() && mem.Valid()
    modifies heap, mem
    ensures heap.Valid() && mem.Valid()
    ensures h != Null && h !in old(heap.objects)
    ensures heap.objects == old(heap.objects)[h := NumberObj(IntType, value)]
    ensures heap.owned == old(heap.owned) + multiset{h}
    ensures mem.allocs == old(mem.allocs)
  {
    h := CreateHandleFreeing(heap, mem, IntType, Int32Cell(value), 4);
  }

  /** `CreateHandle(long)`: a `LongType` number holding `value`. */
  method CreateHandleInt64(heap: CFHeap, mem: Memory, value: int64) returns (h: Handle)
    requires heap.Valid() && mem.Valid()
    modifies heap, mem
    ensures heap.Valid() && mem.Valid()
    ensures h != Null && h !in old(heap.objects)
    ensures heap.objects == old(heap.objects)[h := NumberObj(LongType, value)]
    ensures heap.owned == old(heap.owned) + multiset{h}
    ensures mem.allocs == old(mem.allocs)
  {
    h := CreateHandleFreeing(heap, mem, LongType, Int64Cell(value), 8);
  }

  /** A handle `CFNumberGetValue` may be called on. */
  ghost predicate IsNumber(heap: CFHeap, handle: Handle)
    reads heap
  {
    handle in heap.objects && heap.objects[handle].NumberObj?
  }

  /**
   * `CFNumber.ToInt8(handle)`: reads at `SInt8Type`; a value that does not
   * fit gives 0, one that does comes back as its low byte. The pointer holds
   * at most 8 bits, so its checked narrowing to 32 bits cannot fail.
   */
  function ToInt8(heap: CFHeap, handle: Handle): (r: byte)
    reads heap
    requires IsNumber(heap, handle)
    ensures SInt8Type.Fits(heap.objects[handle].value) ==> r == WrapByte(heap.objects[handle].value)
    ensures !SInt8Type.Fits(heap.objects[handle].value) ==> r == 0
  {
    var (ok, valuePtr) := heap.NumberGetValue(handle, SInt8Type);
    if ok then WrapByte(IntPtrToInt32(valuePtr).value) else 0
  }

  /**
   * `CFNumber.ToInt16(handle)`: reads at `SInt16Type`, narrows the pointer
   * to 32 bits (it holds at most 16, so this cannot fail) and then casts to
   * `short`; a value that does not fit gives 0.
   */
  function ToInt16(heap: CFHeap, handle: Handle): (r: int16)
    reads heap
    requires IsNumber(heap, handle)
    ensures SInt16Type.Fits(heap.objects[handle].value) ==> r == heap.objects[handle].value
    ensures !SInt16Type.Fits(heap.objects[handle].value) ==> r == 0
  {
    var (ok, valuePtr) := heap.NumberGetValue(handle, SInt16Type);
    if ok then WrapInt16(IntPtrToInt32(valuePtr).value) else 0
  }

  /**
   * `CFNumber.ToInt32(handle)`, as written: reads at `SInt32Type` and
   * narrows the pointer with the checked `IntPtr.ToInt32()`. The pointer
   * holds the value's 32 bits zero-extended, so every negative value fails
   * with `OverflowException`.
   */
  function ToInt32(heap: CFHeap, handle: Handle): (r: Result<int32, Exception>)
    reads heap
    requires IsNumber(heap, handle)
    ensures SInt32Type.Fits(heap.objects[handle].value) && heap.objects[handle].value >= 0 ==>
      r == Success(heap.objects[handle].value)
    ensures SInt32Type.Fits(heap.objects[handle].value) && heap.objects[handle].value < 0 ==>
      r == Failure(OverflowException)
    ensures !SInt32Type.Fits(heap.objects[handle].value) ==> r == Success(0)
  {
    var (ok, valuePtr) := heap.NumberGetValue(handle, SInt32Type);
    if ok then IntPtrToInt32(valuePtr) else Success(0)
  }

  /**
   * `ToInt32` reading the low 32 bits of the pointer as a signed value, as
   * `ToInt8` and `ToInt16` do with their casts: every value that fits comes
   * back unchanged.
   */
  function ToInt32Corrected(heap: CFHeap, handle: Handle): (r: Result<int32, Exception>)
    reads heap
    requires IsNumber(heap, handle)
    ensures SInt32Type.Fits(heap.objects[handle].value) ==> r == Success(heap.objects[handle].value)
    ensures !SInt32Type.Fits(heap.objects[handle].value) ==> r == Success(0)
  {
    var (ok, valuePtr) := heap.NumberGetValue(handle, SInt32Type);
    if ok then Success(WrapInt32(valuePtr)) else Success(0)
  }

  /** `CFNumber.ToInt64(handle)`: reads at `SInt64Type`; a value that does not fit gives 0. */
  function ToInt64(heap: CFHeap, handle: Handle): (r: Result<int64, Exception>)
    reads heap
    requires IsNumber(heap, handle)
    ensures SInt64Type.Fits(heap.objects[handle].value) ==> r == Success(heap.objects[handle].value)
    ensures !SInt64Type.Fits(heap.objects[handle].value) ==> r == Success(0)
  {
    var (ok, valuePtr) := heap.NumberGetValue(handle, SInt64Type);
    if ok then Success(valuePtr) else Success(0)
  }

  /** A byte stored by `CreateHandle(byte)` reads back unchanged through `ToInt8`. */
  lemma ByteRoundTrip(heap: CFHeap, handle: Handle, value: byte)
    requires handle in heap.objects && heap.objects[handle] == NumberObj(CharType, SignedChar(value))
    ensures ToInt8(heap, handle) == value
  {
  }

  /** A `short` stored by `CreateHandle(short)` reads back unchanged through `ToInt16`. */
  lemma Int16RoundTrip(heap: CFHeap, handle: Handle, value: int16)
    requires handle in heap.objects && heap.objects[handle] == NumberObj(ShortType, value)
    ensures ToInt16(heap, handle) == value
  {
  }

  /** A `long` stored by `CreateHandle(long)` reads back unchanged through `ToInt64`. */
  lemma Int64RoundTrip(heap: CFHeap, handle: Handle, value: int64)
    requires handle in heap.objects && heap.objects[handle] == NumberObj(LongType, value)
    ensures ToInt64(heap, handle) == Success(value)
  {
  }

  /** With the corrected narrowing, an `int` stored by `CreateHandle(int)` reads back unchanged. */
  lemma Int32RoundTrip(heap: CFHeap, handle: Handle, value: int32)
    requires handle in heap.objects && heap.objects[handle] == NumberObj(IntType, value)
    ensures ToInt32Corrected(heap, handle) == Success(value)
  {
  }

  /** As written, `CreateHandle(-1)` read back through `ToInt32` fails instead of giving -1. */
  lemma ToInt32MinusOneFails(heap: CFHeap, handle: Handle)
    requires handle in heap.objects && heap.objects[handle] == NumberObj(IntType, -1)
    ensures heap.NumberGetValue(handle, SInt32Type) == (true, 0xFFFF_FFFF)
    ensures ToInt32(heap, handle) == Failure(OverflowException)
  {
  }
}

=== FILE: cf_string.dfy ===
/**
 * `CFString`'s conversions between managed strings and CoreFoundation
 * strings. They work on handles; the wrapper class is in `CFTypes`.
 */
module CFString {
  import opened Numeric
  import opened Wrappers
  import opened Unicode
  import opened CoreFoundation

  /**
   * `CFString.CreateHandle(str)`: the UTF-8 bytes of `str` and their count
   * are handed to `CFStringCreateWithBytes`, so the new object holds `str`.
   */
  method CreateHandle(heap: CFHeap, str: string) returns (h: Handle)
    requires heap.Valid()
    modifies heap
    ensures heap.Valid()
    ensures h != Null && h !in old(heap.objects)
    ensures heap.objects == old(heap.objects)[h := StringObj(str)]
    ensures heap.owned == old(heap.owned) + multiset{h}
  {
    var bytes := Utf8Encode(str);
    assert bytes[..|bytes|] == bytes;
    EncodingIsUtf8(str);
    Utf8RoundTrip(str);
    h := heap.StringCreateWithBytes(bytes, |bytes|);
  }

  /**
   * `CFString.ToString(ptr)`: null for a null handle; otherwise the string's
   * UTF-8 form is copied into a zeroed buffer one byte longer than the
   * largest UTF-8 size of its UTF-16 length, and the bytes before the first
   * zero are decoded. The buffer is always large enough, so the result is the
   * text up to its first U+0000.
   */
  method ToString(heap: CFHeap, ptr: Handle) returns (r: Option<string>)
    requires heap.Valid()
    requires ptr != Null ==> ptr in heap.objects && heap.objects[ptr].StringObj?
    ensures ptr == Null <==> r.None?
    ensures ptr != Null ==> r == Some(PrefixBeforeNul(heap.objects[ptr].text))
  {
    if ptr == Null {
      return None;
    }
    var length := heap.StringGetLength(ptr);
    var maxSize := heap.StringGetMaximumSizeForEncoding(length) + 1;
    var buffer := new byte[maxSize](_ => 0);
    ghost var text := heap.objects[ptr].text;
    Utf16LengthBounds(text);
    var ok := heap.StringGetCString(ptr, buffer, maxSize);
    if ok {
      ghost var terminated := Utf8Encode(text) + [0];
      assert buffer[..] == terminated + buffer[|terminated|..];
      TerminatedDecodes(text, buffer[|terminated|..]);
      var end := IndexOfZero(buffer[..]);
      return Some(Utf8Decode(buffer[..end]));
    }
    return None;
  }

  /** A zero-terminated UTF-8 copy of `text`, whatever follows it, decodes up to its first zero to the text before its first U+0000. */
  lemma TerminatedDecodes(text: string, rest: seq<byte>)
    ensures var b := Utf8Encode(text) + [0] + rest;
      0 <= IndexOfZero(b) && Utf8Decode(b[..IndexOfZero(b)]) == PrefixBeforeNul(text)
  {
    var terminated := Utf8Encode(text) + [0];
    FirstZeroIsFirstNul(text);
    IndexOfZeroPrefix(terminated, rest);
    var end := IndexOfZero(terminated + rest);
    assert (terminated + rest)[..end] == terminated[..end];
    Utf8RoundTrip(PrefixBeforeNul(text));
  }

  /** A string without U+0000 comes back whole. */
  lemma {:induction false} ToStringWhole(text: string)
    requires '\0' !in text
    ensures PrefixBeforeNul(text) == text
  {
    if text != [] {
      assert text[0] in text;
      assert '\0' !in text[1..] by {
        forall i | 0 <= i < |text[1..]|
          ensures text[1..][i] != '\0'
        {
          assert text[1..][i] == text[i + 1];
        }
      }
      ToStringWhole(text[1..]);
    }
  }

  /** `CFString.Length`: 0 for an invalid (null) handle, else the UTF-16 length. */
  function Length(heap: CFHeap, handle: Handle): (r: int)
    reads heap
    requires handle != Null ==> handle in heap.objects && heap.objects[handle].StringObj?
    ensures handle == Null ==> r == 0
    ensures handle != Null ==> r == Utf16Length(heap.objects[handle].text) && r <= |Utf8Encode(heap.objects[handle].text)|
  {
    Utf16LengthBounds(if handle == Null then [] else heap.objects[handle].text);
    if handle == Null then 0 else heap.StringGetLength(handle)
  }
}

=== FILE: cf_types.dfy ===
/**
 * `CFType`, the `SafeHandle` every CoreFoundation wrapper derives from, and
 * the construction of wrappers: from a handle by type-id dispatch
 * (`FromHandle`), or around a newly created object the wrapper owns.
 *
 * The five wrapper classes differ only in which object they expect, so one
 * class carries that as `kind`; the conversions each class adds live in the
 * `CFString`, `CFData`, `CFNumber`, `CFArray` and `CFDictionary` modules.
 */
module CFTypes {
  import opened Numeric
  import opened Wrappers
  import opened Exceptions
  import opened Decimal
  import opened Unicode
  import opened NativeMemory
  import opened CoreFoundation
  import CFString
  import CFData
  import CFNumber

  /** The wrapper classes registered in `TypeCtorFuncs`. */
  datatype CFKind = ArrayKind | DataKind | DictionaryKind | NumberKind | StringKind

  /** The type id each wrapper class is registered under. */
  function KindTypeID(k: CFKind): uint32 {
    match k
    case ArrayKind => ArrayTypeID
    case DataKind => DataTypeID
    case DictionaryKind => DictionaryTypeID
    case NumberKind => NumberTypeID
    case StringKind => StringTypeID
  }

  /** The `TypeCtorFuncs` lookup: the wrapper class registered for a type id. */
  function Registered(typeId: uint32): (r: Option<CFKind>)
    ensures r.Some? ==> KindTypeID(r.value) == typeId
  {
    if typeId == ArrayTypeID then Some(ArrayKind)
    else if typeId == DataTypeID then Some(DataKind)
    else if typeId == DictionaryTypeID then Some(DictionaryKind)
    else if typeId == NumberTypeID then Some(NumberKind)
    else if typeId == StringTypeID then Some(StringKind)
    else None
  }

  /**
   * Exactly five type ids are registered, one per wrapper class; booleans,
   * keychain items and everything else are not.
   */
  lemma RegisteredExactlyFive(typeId: uint32)
    ensures Registered(typeId).Some? <==>
      typeId == ArrayTypeID || typeId == DataTypeID || typeId == DictionaryTypeID ||
      typeId == NumberTypeID || typeId == StringTypeID
    ensures Registered(BooleanTypeID).None? && Registered(KeychainItemTypeID).None?
    ensures forall k :: Registered(KindTypeID(k)) == Some(k)
  {
    forall k
      ensures Registered(KindTypeID(k)) == Some(k)
    {
      match k
      case ArrayKind =>
      case DataKind =>
      case DictionaryKind =>
      case NumberKind =>
      case StringKind =>
    }
  }

  /** The object a wrapper of kind `k` stands for. */
  predicate OfKind(o: CFObject, k: CFKind) {
    match k
    case ArrayKind => o.ArrayObj?
    case DataKind => o.DataObj?
    case DictionaryKind => o.DictionaryObj?
    case NumberKind => o.NumberObj?
    case StringKind => o.StringObj?
  }

  /** The wrapper class a well-formed object's type id selects is the one made for that object. */
  lemma RegisteredKindFits(o: CFObject, objects: map<Handle, CFObject>)
    requires Wellformed(o, objects)
    ensures Registered(TypeID(o)).Some? ==> OfKind(o, Registered(TypeID(o)).value)
    ensures Registered(TypeID(o)).None? <==> o.BooleanObj? || o.KeychainItemObj? || o.OtherObj?
  {
  }

  class CFType {
    /** The wrapped `CFTypeRef` (`SafeHandle.handle`). */
    var handle: Handle
    /** Whether disposing the wrapper gives a reference back. */
    const ownsHandle: bool
    /** Which wrapper class this is. */
    const kind: CFKind
    /** `SafeHandle.IsClosed`. */
    var closed: bool

    /** `CFType(bool ownsHandle)`: no handle yet, and the ownership flag as given. */
    constructor (kind: CFKind, ownsHandle: bool)
      ensures this.kind == kind && this.ownsHandle == ownsHandle
      ensures handle == Null && IsInvalid() && !closed
    {
      this.kind := kind;
      this.ownsHandle := ownsHandle;
      handle := Null;
      closed := false;
    }

    /** `SafeHandle.SetHandle`. */
    method SetHandle(h: Handle)
      modifies this`handle
      ensures handle == h
    {
      handle := h;
    }

    /** `IsInvalid`: the handle is zero. */
    predicate IsInvalid()
      reads this
    {
      handle == Null
    }

    /** Disposing now would call `ReleaseHandle`. */
    predicate WillRelease()
      reads this
    {
      !closed && ownsHandle && !IsInvalid()
    }

    /** The handle is null or names an object of the wrapper's kind. */
    ghost predicate Refers(heap: CFHeap)
      reads this, heap
    {
      handle != Null ==> handle in heap.objects && OfKind(heap.objects[handle], kind)
    }

    /** `ReleaseHandle`: one `CFRelease` of the handle, reported as success. */
    method ReleaseHandle(heap: CFHeap) returns (r: bool)
      requires heap.Valid() && handle in heap.owned
      modifies heap`owned
      ensures heap.Valid() && r
      ensures heap.owned == old(heap.owned) - multiset{handle}
    {
      heap.Release(handle);
      return true;
    }

    /**
     * `SafeHandle.Dispose`: the first call on an owned, valid wrapper gives its
     * reference back; every other call changes nothing but the closed flag.
     */
    method Dispose(heap: CFHeap)
      requires heap.Valid()
      requires WillRelease() ==> handle in heap.owned
      modifies this`closed, heap`owned
      ensures heap.Valid() && closed
      ensures old(WillRelease()) ==> heap.owned == old(heap.owned) - multiset{handle}
      ensures !old(WillRelease()) ==> heap.owned == old(heap.owned)
    {
      if WillRelease() {
        var _ := ReleaseHandle(heap);
      }
      closed := true;
    }
  }

  /** The `(IntPtr handle, bool ownsHandle)` constructor every wrapper class has. */
  method Wrap(kind: CFKind, h: Handle, ownsHandle: bool) returns (w: CFType)
    ensures fresh(w)
    ensures w.kind == kind && w.handle == h && w.ownsHandle == ownsHandle && !w.closed
  {
    w := new CFType(kind, ownsHandle);
    w.SetHandle(h);
  }

  /**
   * `CFType.FromHandle(cf, ownsHandle)`: a registered type id gets its wrapper
   * class around the same handle with the same ownership, and the heap is
   * left alone. Any other id fails with the id and the system's name for it
   * (`description`) in the message; the name string fetched for the message
   * is never released.
   */
  method FromHandle(heap: CFHeap, cf: Handle, ownsHandle: bool, description: string)
    returns (r: Result<CFType, Exception>)
    requires heap.Valid() && cf in heap.objects
    modifies heap
    ensures heap.Valid()
    ensures r.Success? <==> Registered(TypeID(old(heap.objects[cf]))).Some?
    ensures r.Success? ==> fresh(r.value) && r.value.handle == cf && r.value.ownsHandle == ownsHandle && !r.value.closed
    ensures r.Success? ==> r.value.kind == Registered(TypeID(old(heap.objects[cf]))).value && r.value.Refers(heap)
    ensures r.Success? ==> heap.objects == old(heap.objects) && heap.owned == old(heap.owned)
    ensures r.Failure? ==> r.error == PlainException(
      "Unknown CFTypeID " + NatToString(TypeID(old(heap.objects[cf]))) + " (" + PrefixBeforeNul(description) + ")")
    ensures r.Failure? ==> forall h :: h in old(heap.objects) ==> h in heap.objects && heap.objects[h] == old(heap.objects[h])
    ensures r.Failure? ==> old(heap.owned) <= heap.owned && |heap.owned| == |old(heap.owned)| + 1
  {
    RegisteredKindFits(heap.objects[cf], heap.objects);
    var typeId := heap.GetTypeID(cf);
    var ctor := Registered(typeId);
    if ctor.Some? {
      var w := Wrap(ctor.value, cf, ownsHandle);
      return Success(w);
    }
    var nameHandle := heap.CopyTypeIDDescription(typeId, description);
    var typeName := CFString.ToString(heap, nameHandle);
    return Failure(PlainException("Unknown CFTypeID " + NatToString(typeId) + " (" + typeName.GetOr("") + ")"));
  }

  // ---------------------------------------------------------------- owned wrappers

  /** `w` is a fresh owned wrapper of `kind` around a new object `o`, holding the one new reference. */
  ghost predicate NewOwned(w: CFType, kind: CFKind, o: CFObject, heap: CFHeap,
                           objects0: map<Handle, CFObject>, owned0: multiset<Handle>)
    reads w, heap
  {
    w.kind == kind && w.ownsHandle && !w.closed && w.handle != Null && w.handle !in objects0 &&
    heap.objects == objects0[w.handle := o] && heap.owned == owned0 + multiset{w.handle}
  }

  /** `new CFString(str)`. */
  method NewString(heap: CFHeap, str: string) returns (w: CFType)
    requires heap.Valid()
    modifies heap
    ensures heap.Valid() && fresh(w)
    ensures NewOwned(w, StringKind, StringObj(str), heap, old(heap.objects), old(heap.owned))
  {
    w := new CFType(StringKind, true);
    var h := CFString.CreateHandle(heap, str);
    w.SetHandle(h);
  }

  /** `new CFData(data)`. */
  method NewData(heap: CFHeap, data: seq<byte>) returns (w: CFType)
    requires heap.Valid()
    modifies heap
    ensures heap.Valid() && fresh(w)
    ensures NewOwned(w, DataKind, DataObj(data), heap, old(heap.objects), old(heap.owned))
  {
    var h := CFData.CreateHandle(heap, data);
    w := Wrap(DataKind, h, true);
  }

  /** `new CFData()`: owned empty data. */
  method NewEmptyData(heap: CFHeap) returns (w: CFType)
    requires heap.Valid()
    modifies heap
    ensures heap.Valid() && fresh(w)
    ensures NewOwned(w, DataKind, DataObj([]), heap, old(heap.objects), old(heap.owned))
  {
    w := NewData(heap, []);
  }

  /** `new CFNumber(byte)`: a `char` number holding the byte's signed reading. */
  method NewNumberByte(heap: CFHeap, mem: Memory, value: byte) returns (w: CFType)
    requires heap.Valid() && mem.Valid()
    modifies heap, mem
    ensures heap.Valid() && mem.Valid() && fresh(w)
    ensures NewOwned(w, NumberKind, NumberObj(CharType, CFNumber.SignedChar(value)), heap, old(heap.objects), old(heap.owned))
  {
    var h := CFNumber.CreateHandleByte(heap, mem, value);
    w := Wrap(NumberKind, h, true);
  }

  /** `new CFNumber(short)`. */
  method NewNumberInt16(heap: CFHeap, mem: Memory, value: int16) returns (w: CFType)
    requires heap.Valid() && mem.Valid()
    modifies heap, mem
    ensures heap.Valid() && mem.Valid() && fresh(w)
    ensures NewOwned(w, NumberKind, NumberObj(ShortType, value), heap, old(heap.objects), old(heap.owned))
    ensures mem.allocs == old(mem.allocs)
  {
    var h := CFNumber.CreateHandleInt16(heap, mem, value);
    w := Wrap(NumberKind, h, true);
  }

  /** `new CFNumber(int)`. */
  method NewNumberInt32(heap: CFHeap, mem: Memory, value: int32) returns (w: CFType)
    requires heap.Valid() && mem.Valid()
    modifies heap, mem
    ensures heap.Valid() && mem.Valid() && fresh(w)
    ensures NewOwned(w, NumberKind, NumberObj(IntType, value), heap, old(heap.objects), old(heap.owned))
    ensures mem.allocs == old(mem.allocs)
  {
    var h := CFNumber.CreateHandleInt32(heap, mem, value);
    w := Wrap(NumberKind, h, true);
  }

  /** `new CFNumber(long)`. */
  method NewNumberInt64(heap: CFHeap, mem: Memory, value: int64) returns (w: CFType)
    requires heap.Valid() && mem.Valid()
    modifies heap, mem
    ensures heap.Valid() && mem.Valid() && fresh(w)
    ensures NewOwned(w, NumberKind, NumberObj(LongType, value), heap, old(heap.objects), old(heap.owned))
    ensures mem.allocs == old(mem.allocs)
  {
    var h := CFNumber.CreateHandleInt64(heap, mem, value);
    w := Wrap(NumberKind, h, true);
  }

  /** `new CFNumber(type, valuePtr)`: owned, holding the value stored at `valuePtr`. */
  method NewNumberFromPointer(heap: CFHeap, mem: Memory, numberType: CFNumberType, valuePtr: Ptr) returns (w: CFType)
    requires heap.Valid() && valuePtr in mem.cells && NumberFromCell(numberType, mem.cells[valuePtr]).Some?
    modifies heap
    ensures heap.Valid() && fresh(w)
    ensures NewOwned(w, NumberKind, NumberObj(numberType, NumberFromCell(numberType, mem.cells[valuePtr]).value),
                     heap, old(heap.objects), old(heap.owned))
  {
    w := new CFType(NumberKind, true);
    var h := heap.NumberCreate(numberType, mem, valuePtr);
    w.SetHandle(h);
  }
}

=== FILE: core_foundation.dfy ===
/**
 * The CoreFoundation heap as the wrappers see it: handles naming objects,
 * object contents, and a ghost multiset of the references the library holds
 * and must give back with `CFRelease`.
 *
 * Objects are never removed: a released object simply stops being counted in
 * `owned`, so the multiset is what makes "released exactly once" checkable.
 * Containers keep handles of objects that are already in the heap.
 * The Security framework's key constants and the two `kCFBoolean` values are
 * installed at fixed handles and never change.
 */
module CoreFoundation {
  import opened Numeric
  import opened Wrappers
  import opened Unicode
  import opened NativeMemory

  /** A `CFTypeRef`; `Null` is `IntPtr.Zero`. */
  type Handle = int

  const Null: Handle := 0

  /** The integer `CFNumberType`s the library uses, with their enum values. */
  datatype CFNumberType =
    | SInt8Type | SInt16Type | SInt32Type | SInt64Type
    | CharType | ShortType | IntType | LongType
  {
    function Value(): int32 {
      match this
      case SInt8Type => 1
      case SInt16Type => 2
      case SInt32Type => 3
      case SInt64Type => 4
      case CharType => 7
      case ShortType => 8
      case IntType => 9
      case LongType => 10
    }

    /** The width of the C type in bits (`long` is 64 bits on macOS). */
    function Bits(): nat {
      match this
      case SInt8Type => 8
      case CharType => 8
      case SInt16Type => 16
      case ShortType => 16
      case SInt32Type => 32
      case IntType => 32
      case SInt64Type => 64
      case LongType => 64
    }

    /** `2^Bits()`. */
    function Modulus(): int {
      match Bits()
      case 8 => 0x100
      case 16 => 0x1_0000
      case 32 => 0x1_0000_0000
      case _ => 0x1_0000_0000_0000_0000
    }

    /** The value range of the signed C type. */
    predicate Fits(v: int) {
      -(Modulus() / 2) <= v < Modulus() / 2
    }
  }

  /** `CFTypeID`s of the kinds the model distinguishes (opaque distinct values). */
  const StringTypeID: uint32 := 7
  const DictionaryTypeID: uint32 := 18
  const ArrayTypeID: uint32 := 19
  const DataTypeID: uint32 := 20
  const BooleanTypeID: uint32 := 21
  const NumberTypeID: uint32 := 22
  const KeychainItemTypeID: uint32 := 58

  predicate IsKnownTypeID(t: uint32) {
    t == StringTypeID || t == DictionaryTypeID || t == ArrayTypeID || t == DataTypeID
    || t == BooleanTypeID || t == NumberTypeID || t == KeychainItemTypeID
  }

  /** What a handle refers to. */
  datatype CFObject =
    | StringObj(text: string)
    | DataObj(bytes: seq<byte>)
    | NumberObj(numberType: CFNumberType, value: int)
    | BooleanObj(b: bool)
    | ArrayObj(items: seq<Handle>)
      /** A mutable dictionary: key handle to value handle, keys in insertion order. */
    | DictionaryObj(values: map<Handle, Handle>, order: seq<Handle>)
    | KeychainItemObj(itemId: nat)
      /** Any other kind of object (a date, say), known only by its type id. */
    | OtherObj(typeId: uint32)

  /** `CFGetTypeID`. */
  function TypeID(o: CFObject): uint32 {
    match o
    case StringObj(_) => StringTypeID
    case DataObj(_) => DataTypeID
    case NumberObj(_, _) => NumberTypeID
    case BooleanObj(_) => BooleanTypeID
    case ArrayObj(_) => ArrayTypeID
    case DictionaryObj(_, _) => DictionaryTypeID
    case KeychainItemObj(_) => KeychainItemTypeID
    case OtherObj(t) => t
  }

  /** An object whose handles all name objects of `objects`, and a dictionary whose order lists its keys once each. */
  ghost predicate Wellformed(o: CFObject, objects: map<Handle, CFObject>) {
    match o
    case ArrayObj(items) => forall i :: 0 <= i < |items| ==> items[i] in objects
    case DictionaryObj(values, order) =>
      (forall i, j :: 0 <= i < j < |order| ==> order[i] != order[j]) &&
      (forall k :: k in values <==> k in order) &&
      (forall k :: k in values ==> k in objects && values[k] in objects)
    case OtherObj(t) => !IsKnownTypeID(t)
    case _ => true
  }

  ghost predicate AllWellformed(objects: map<Handle, CFObject>) {
    forall h :: h in objects ==> Wellformed(objects[h], objects)
  }

  lemma WellformedMonotone(o: CFObject, a: map<Handle, CFObject>, b: map<Handle, CFObject>)
    requires a.Keys <= b.Keys && Wellformed(o, a)
    ensures Wellformed(o, b)
  {
  }

  /** Releasing a reference taken after `owned` gives `owned` back. */
  lemma ReleaseUndoesTake(owned: multiset<Handle>, h: Handle)
    ensures owned + multiset{h} - multiset{h} == owned
  {
  }

  /** Replacing the same object twice is replacing it once, with the second object. */
  lemma ReplaceTwice(objects: map<Handle, CFObject>, h: Handle, a: CFObject, b: CFObject)
    ensures objects[h := a][h := b] == objects[h := b]
  {
  }

  /** Replacing one object by a well-formed one keeps the heap well-formed. */
  lemma UpdateWellformed(objects: map<Handle, CFObject>, h: Handle, o: CFObject)
    requires AllWellformed(objects) && h in objects && Wellformed(o, objects)
    ensures AllWellformed(objects[h := o])
  {
    var b := objects[h := o];
    forall g | g in b
      ensures Wellformed(b[g], b)
    {
      if g == h {
        WellformedMonotone(o, objects, b);
      } else {
        WellformedMonotone(objects[g], objects, b);
      }
    }
  }

  /** Adding a well-formed object at a fresh handle keeps the heap well-formed. */
  lemma ExtendWellformed(objects: map<Handle, CFObject>, h: Handle, o: CFObject)
    requires AllWellformed(objects) && h !in objects && Wellformed(o, objects)
    ensures AllWellformed(objects[h := o])
  {
    var b := objects[h := o];
    forall g | g in b
      ensures Wellformed(b[g], b)
    {
      if g == h {
        WellformedMonotone(o, objects, b);
      } else {
        WellformedMonotone(objects[g], objects, b);
      }
    }
  }

  // ---------------------------------------------------------------- dictionaries

  /** `CFDictionaryAddValue`: an existing key keeps its value. */
  function DictionaryAdd(d: CFObject, key: Handle, value: Handle): (r: CFObject)
    requires d.DictionaryObj?
    ensures r.DictionaryObj?
    ensures key in d.values ==> r == d
    ensures key !in d.values ==> r.values == d.values[key := value] && r.order == d.order + [key]
  {
    if key in d.values then d else DictionaryObj(d.values[key := value], d.order + [key])
  }

  /** `CFDictionarySetValue`: the key maps to `value` afterwards; a new key goes last. */
  function DictionarySet(d: CFObject, key: Handle, value: Handle): (r: CFObject)
    requires d.DictionaryObj?
    ensures r.DictionaryObj? && r.values == d.values[key := value]
    ensures r.order == if key in d.values then d.order else d.order + [key]
  {
    DictionaryObj(d.values[key := value], if key in d.values then d.order else d.order + [key])
  }

  /** Both updates keep a dictionary well-formed when key and value are live objects. */
  lemma DictionaryUpdateWellformed(d: CFObject, key: Handle, value: Handle, objects: map<Handle, CFObject>)
    requires d.DictionaryObj? && Wellformed(d, objects) && key in objects && value in objects
    ensures Wellformed(DictionaryAdd(d, key, value), objects)
    ensures Wellformed(DictionarySet(d, key, value), objects)
  {
    var order' := d.order + [key];
    if key !in d.values {
      assert key !in d.order;
      forall i, j | 0 <= i < j < |order'|
        ensures order'[i] != order'[j]
      {
        if j == |d.order| {
          assert order'[i] == d.order[i];
        } else {
          assert order'[i] == d.order[i] && order'[j] == d.order[j];
        }
      }
    }
  }

  /** `CFDictionaryGetCount` grows by one exactly when a new key is stored. */
  lemma DictionaryCount(d: CFObject, key: Handle, value: Handle)
    requires d.DictionaryObj?
    ensures |DictionarySet(d, key, value).order| == |d.order| + (if key in d.values then 0 else 1)
    ensures |DictionaryAdd(d, key, value).order| == |d.order| + (if key in d.values then 0 else 1)
  {
  }

  /** The values of a dictionary, in the order of its keys. */
  function ValuesInOrder(d: CFObject): (r: seq<Handle>)
    requires d.DictionaryObj?
    ensures |r| == |d.order|
    ensures forall i :: 0 <= i < |r| && d.order[i] in d.values ==> r[i] == d.values[d.order[i]]
  {
    seq(|d.order|, i requires 0 <= i < |d.order| => if d.order[i] in d.values then d.values[d.order[i]] else Null)
  }

  // ---------------------------------------------------------------- numbers and text

  /** The number `CFNumberCreate(type, p)` reads from the cell at `p`, if the cell has the type's width. */
  function NumberFromCell(numberType: CFNumberType, c: Cell): (r: Option<int>)
    ensures r.Some? ==> numberType.Fits(r.value)
  {
    match c
    case ByteCell(b) =>
      if numberType.Bits() == 8 then Some(if b < 0x80 then b else b - 0x100) else None
    case Int16Cell(s) => if numberType.Bits() == 16 then Some(s) else None
    case Int32Cell(i) => if numberType.Bits() == 32 then Some(i) else None
    case Int64Cell(l) => if numberType.Bits() == 64 then Some(l) else None
    case _ => None
  }

  /**
   * The `IntPtr` that `CFNumberGetValue(number, type, out IntPtr)` leaves:
   * the value's low `Bits()` bits written over a zeroed 64-bit slot, so a
   * narrower negative value reads back as a large positive pointer.
   */
  function OutValue(numberType: CFNumberType, v: int): (r: int64)
    ensures numberType.Bits() < 64 ==> 0 <= r < numberType.Modulus()
    ensures numberType.Fits(v) ==> r == if numberType.Bits() == 64 || v >= 0 then v else v + numberType.Modulus()
  {
    match numberType.Bits()
    case 8 => v % 0x100
    case 16 => v % 0x1_0000
    case 32 => v % 0x1_0000_0000
    case _ => WrapInt64(v)
  }

  /** Bytes that are the UTF-8 encoding of some text. */
  predicate IsUtf8(b: seq<byte>) {
    Utf8Encode(Utf8Decode(b)) == b
  }

  lemma EncodingIsUtf8(s: string)
    ensures IsUtf8(Utf8Encode(s))
  {
    Utf8RoundTrip(s);
  }

  // ---------------------------------------------------------------- constants

  const kCFBooleanTrue: Handle := 1
  const kCFBooleanFalse: Handle := 2
  /** `SecurityFramework.kSecMatchLimitOne`, the number 1. */
  const kSecMatchLimitOne: Handle := 3
  /** `SecurityFramework.kSecMatchLimitAll`, the number -1. */
  const kSecMatchLimitAll: Handle := 4
  const kSecClass: Handle := 5
  const kSecMatchLimit: Handle := 6
  const kSecReturnData: Handle := 7
  const kSecReturnAttributes: Handle := 8
  const kSecClassGenericPassword: Handle := 9
  const kSecClassInternetPassword: Handle := 10
  const kSecAttrAccount: Handle := 11
  const kSecAttrService: Handle := 12
  const kSecAttrLabel: Handle := 13
  const kSecAttrServer: Handle := 14
  const kSecAttrProtocol: Handle := 15
  const kSecAttrAuthenticationType: Handle := 16
  const kSecAttrPort: Handle := 17
  const kSecAttrPath: Handle := 18
  const kSecValueData: Handle := 19
  const LastConstant: Handle := 19

  /** The symbol behind each Security framework key; the strings stand for contents the model does not fix. */
  function KeyName(h: Handle): string
    requires kSecClass <= h <= LastConstant
  {
    if h == kSecClass then "kSecClass"
    else if h == kSecMatchLimit then "kSecMatchLimit"
    else if h == kSecReturnData then "kSecReturnData"
    else if h == kSecReturnAttributes then "kSecReturnAttributes"
    else if h == kSecClassGenericPassword then "kSecClassGenericPassword"
    else if h == kSecClassInternetPassword then "kSecClassInternetPassword"
    else if h == kSecAttrAccount then "kSecAttrAccount"
    else if h == kSecAttrService then "kSecAttrService"
    else if h == kSecAttrLabel then "kSecAttrLabel"
    else if h == kSecAttrServer then "kSecAttrServer"
    else if h == kSecAttrProtocol then "kSecAttrProtocol"
    else if h == kSecAttrAuthenticationType then "kSecAttrAuthenticationType"
    else if h == kSecAttrPort then "kSecAttrPort"
    else if h == kSecAttrPath then "kSecAttrPath"
    else "kSecValueData"
  }

  function ConstantObject(h: Handle): CFObject
    requires 1 <= h <= LastConstant
  {
    if h == kCFBooleanTrue then BooleanObj(true)
    else if h == kCFBooleanFalse then BooleanObj(false)
    else if h == kSecMatchLimitOne then NumberObj(IntType, 1)
    else if h == kSecMatchLimitAll then NumberObj(IntType, -1)
    else StringObj(KeyName(h))
  }

  /** The heap: objects by handle, and the references the library owns. */
  class CFHeap {
    var objects: map<Handle, CFObject>
    /** One entry per +1 reference the library holds and must release. */
    ghost var owned: multiset<Handle>
    /** The first handle never handed out. */
    var next: Handle

    ghost predicate Valid()
      reads this
    {
      LastConstant < next &&
      (forall h :: 1 <= h <= LastConstant ==> h in objects && objects[h] == ConstantObject(h)) &&
      (forall h :: h in objects ==> 0 < h < next) &&
      AllWellformed(objects) &&
      (forall h :: h in owned ==> h in objects)
    }

    constructor ()
      ensures Valid() && owned == multiset{}
      ensures forall h :: h in objects <==> 1 <= h <= LastConstant
    {
      objects := map h | 1 <= h <= LastConstant :: ConstantObject(h);
      owned := multiset{};
      next := LastConstant + 1;
    }

    // -------------------------------------------------------------- reads

    /** `CFGetTypeID`. */
    function GetTypeID(h: Handle): uint32
      reads this
      requires h in objects
    {
      TypeID(objects[h])
    }

    /** `CFStringGetLength`: the length in UTF-16 code units. */
    function StringGetLength(h: Handle): int
      reads this
      requires h in objects && objects[h].StringObj?
    {
      Utf16Length(objects[h].text)
    }

    /** `CFDataGetLength`. */
    function DataGetLength(h: Handle): int
      reads this
      requires h in objects && objects[h].DataObj?
    {
      |objects[h].bytes|
    }

    /** Byte `i` behind `CFDataGetBytePtr(h)`. */
    function DataByteAt(h: Handle, i: int): byte
      reads this
      requires h in objects && objects[h].DataObj? && 0 <= i < |objects[h].bytes|
    {
      objects[h].bytes[i]
    }

    /** `CFNumberGetType`. */
    function NumberGetType(h: Handle): CFNumberType
      reads this
      requires h in objects && objects[h].NumberObj?
    {
      objects[h].numberType
    }

    /**
     * `CFNumberGetValue(h, type, out valuePtr)`: true when the number fits the
     * requested type without loss, and the out slot as it is left.
     */
    function NumberGetValue(h: Handle, numberType: CFNumberType): (bool, int64)
      reads this
      requires h in objects && objects[h].NumberObj?
    {
      (numberType.Fits(objects[h].value), OutValue(numberType, objects[h].value))
    }

    /** `CFArrayGetCount`. */
    function ArrayGetCount(h: Handle): int
      reads this
      requires h in objects && objects[h].ArrayObj?
    {
      |objects[h].items|
    }

    /** `CFArrayGetValueAtIndex`. */
    function ArrayGetValueAtIndex(h: Handle, i: int): Handle
      reads this
      requires h in objects && objects[h].ArrayObj? && 0 <= i < |objects[h].items|
    {
      objects[h].items[i]
    }

    /** `CFDictionaryGetCount`. */
    function DictionaryGetCount(h: Handle): int
      reads this
      requires h in objects && objects[h].DictionaryObj?
    {
      |objects[h].order|
    }

    /**
     * `CFDictionaryContainsKey`. CoreFoundation compares keys with `CFEqual`
     * and `CFHash`; comparing handles agrees with that because every key the
     * library uses is one of the framework's constant key handles.
     */
    function DictionaryContainsKey(h: Handle, key: Handle): bool
      reads this
      requires h in objects && objects[h].DictionaryObj?
    {
      key in objects[h].values
    }

    /** `CFDictionaryGetValue`: NULL when the key is absent. */
    function DictionaryGetValue(h: Handle, key: Handle): Handle
      reads this
      requires h in objects && objects[h].DictionaryObj?
    {
      if key in objects[h].values then objects[h].values[key] else Null
    }

    // -------------------------------------------------------------- creation

    /** A new object with one reference, owned by the caller. */
    method Create(o: CFObject) returns (h: Handle)
      requires Valid() && Wellformed(o, objects)
      modifies this
      ensures Valid()
      ensures h !in old(objects) && h != Null
      ensures objects == old(objects)[h := o]
      ensures owned == old(owned) + multiset{h}
    {
      h := next;
      ExtendWellformed(objects, h, o);
      objects := objects[h := o];
      owned := owned + multiset{h};
      next := next + 1;
    }

    /** `CFRelease`: gives back one reference the library holds. */
    method Release(h: Handle)
      requires Valid() && h in owned
      modifies this`owned
      ensures Valid()
      ensures owned == old(owned) - multiset{h}
    {
      owned := owned - multiset{h};
    }

    /** `CFCopyTypeIDDescription`: the system's name for a type id, as a new string. */
    method CopyTypeIDDescription(typeId: uint32, description: string) returns (h: Handle)
      requires Valid()
      modifies this
      ensures Valid()
      ensures h !in old(objects) && h != Null
      ensures objects == old(objects)[h := StringObj(description)]
      ensures owned == old(owned) + multiset{h}
    {
      h := Create(StringObj(description));
    }

    /**
     * `CFStringCreateWithBytes(default, bytes, numBytes, UTF8, false)`: a new
     * string, or NULL when the bytes are not UTF-8.
     */
    method StringCreateWithBytes(bytes: seq<byte>, numBytes: int) returns (h: Handle)
      requires Valid() && 0 <= numBytes <= |bytes|
      modifies this
      ensures Valid()
      ensures h == Null <==> !IsUtf8(bytes[..numBytes])
      ensures h == Null ==> objects == old(objects) && owned == old(owned)
      ensures h != Null ==> h !in old(objects) && owned == old(owned) + multiset{h}
      ensures h != Null ==> objects == old(objects)[h := StringObj(Utf8Decode(bytes[..numBytes]))]
    {
      if IsUtf8(bytes[..numBytes]) {
        h := Create(StringObj(Utf8Decode(bytes[..numBytes])));
      } else {
        h := Null;
      }
    }

    /** `CFStringGetMaximumSizeForEncoding(length, UTF8)`: three bytes per UTF-16 unit. */
    function StringGetMaximumSizeForEncoding(length: int): int {
      3 * length
    }

    /**
     * `CFStringGetCString(h, buffer, bufferSize, UTF8)`: when the UTF-8 text
     * and its terminator fit, writes them at the start of the buffer and
     * answers true; otherwise answers false and leaves the buffer alone.
     */
    method StringGetCString(h: Handle, buffer: array<byte>, bufferSize: int) returns (ok: bool)
      requires Valid() && h in objects && objects[h].StringObj?
      requires bufferSize == buffer.Length
      modifies buffer
      ensures ok <==> |Utf8Encode(objects[h].text)| + 1 <= bufferSize
      ensures ok ==> buffer[..|Utf8Encode(objects[h].text)| + 1] == Utf8Encode(objects[h].text) + [0]
      ensures ok ==> buffer[|Utf8Encode(objects[h].text)| + 1..] == old(buffer[|Utf8Encode(objects[h].text)| + 1..])
      ensures !ok ==> buffer[..] == old(buffer[..])
    {
      var encoded := Utf8Encode(objects[h].text) + [0];
      if |encoded| > bufferSize {
        return false;
      }
      var i := 0;
      while i < |encoded|
        invariant 0 <= i <= |encoded|
        invariant buffer[..i] == encoded[..i]
        invariant buffer[|encoded|..] == old(buffer[|encoded|..])
      {
        buffer[i] := encoded[i];
        i := i + 1;
      }
      return true;
    }

    /** `CFDataCreate(default, bytes, length)`: a new data object holding the first `length` bytes. */
    method DataCreate(bytes: seq<byte>, length: int) returns (h: Handle)
      requires Valid() && 0 <= length <= |bytes|
      modifies this
      ensures Valid()
      ensures h !in old(objects) && h != Null
      ensures objects == old(objects)[h := DataObj(bytes[..length])]
      ensures owned == old(owned) + multiset{h}
    {
      h := Create(DataObj(bytes[..length]));
    }

    /**
     * `CFNumberCreate(default, type, valuePtr)`: a new number holding the
     * value stored at `valuePtr`, read as the signed C type of `numberType`.
     */
    method NumberCreate(numberType: CFNumberType, mem: Memory, valuePtr: Ptr) returns (h: Handle)
      requires Valid() && valuePtr in mem.cells && NumberFromCell(numberType, mem.cells[valuePtr]).Some?
      modifies this
      ensures Valid()
      ensures h !in old(objects) && h != Null
      ensures objects == old(objects)[h := NumberObj(numberType, NumberFromCell(numberType, mem.cells[valuePtr]).value)]
      ensures owned == old(owned) + multiset{h}
    {
      h := Create(NumberObj(numberType, NumberFromCell(numberType, mem.cells[valuePtr]).value));
    }

    /** `CFArrayCreateMutable`: a new empty array (the capacity is only a hint). */
    method ArrayCreateMutable(capacity: int) returns (h: Handle)
      requires Valid()
      modifies this
      ensures Valid()
      ensures h !in old(objects) && h != Null
      ensures objects == old(objects)[h := ArrayObj([])]
      ensures owned == old(owned) + multiset{h}
    {
      h := Create(ArrayObj([]));
    }

    /** `CFArrayAppendValue`. */
    method ArrayAppendValue(a: Handle, value: Handle)
      requires Valid() && a in objects && objects[a].ArrayObj? && value in objects
      modifies this`objects
      ensures Valid()
      ensures objects == old(objects)[a := ArrayObj(old(objects[a].items) + [value])]
    {
      var o := ArrayObj(objects[a].items + [value]);
      UpdateWellformed(objects, a, o);
      objects := objects[a := o];
    }

    /** `CFDictionaryCreateMutable` with the CFType callbacks: a new empty dictionary. */
    method DictionaryCreateMutable(capacity: int) returns (h: Handle)
      requires Valid()
      modifies this
      ensures Valid()
      ensures h !in old(objects) && h != Null
      ensures objects == old(objects)[h := DictionaryObj(map[], [])]
      ensures owned == old(owned) + multiset{h}
    {
      h := Create(DictionaryObj(map[], []));
    }

    /** `CFDictionaryAddValue`. */
    method DictionaryAddValue(d: Handle, key: Handle, value: Handle)
      requires Valid() && d in objects && objects[d].DictionaryObj? && key in objects && value in objects
      modifies this`objects
      ensures Valid()
      ensures objects == old(objects)[d := DictionaryAdd(old(objects[d]), key, value)]
    {
      var o := DictionaryAdd(objects[d], key, value);
      DictionaryUpdateWellformed(objects[d], key, value, objects);
      UpdateWellformed(objects, d, o);
      objects := objects[d := o];
    }

    /** `CFDictionarySetValue`. */
    method DictionarySetValue(d: Handle, key: Handle, value: Handle)
      requires Valid() && d in objects && objects[d].DictionaryObj? && key in objects && value in objects
      modifies this`objects
      ensures Valid()
      ensures objects == old(objects)[d := DictionarySet(old(objects[d]), key, value)]
    {
      var o := DictionarySet(objects[d], key, value);
      DictionaryUpdateWellformed(objects[d], key, value, objects);
      UpdateWellformed(objects, d, o);
      objects := objects[d := o];
    }

    /**
     * `CFDictionaryGetKeysAndValues(d, keys, values)`: the keys in order, and
     * the value of each key at the same index, written at the start of the
     * two arrays.
     */
    method DictionaryGetKeysAndValues(d: Handle, keys: array<Handle>, values: array<Handle>)
      requires Valid() && d in objects && objects[d].DictionaryObj?
      requires keys != values && keys.Length >= |objects[d].order| && values.Length >= |objects[d].order|
      modifies keys, values
      ensures keys[..|objects[d].order|] == objects[d].order
      ensures values[..|objects[d].order|] == ValuesInOrder(objects[d])
      ensures keys[|objects[d].order|..] == old(keys[|objects[d].order|..])
      ensures values[|objects[d].order|..] == old(values[|objects[d].order|..])
    {
      var dict := objects[d];
      var vs := ValuesInOrder(dict);
      var n := |dict.order|;
      var i := 0;
      while i < n
        invariant 0 <= i <= n
        invariant keys[..i] == dict.order[..i] && values[..i] == vs[..i]
        invariant keys[n..] == old(keys[n..]) && values[n..] == old(values[n..])
      {
        keys[i] := dict.order[i];
        values[i] := vs[i];
        i := i + 1;
      }
    }
  }
}

=== FILE: credential_manager.dfy ===
/**
 * `WindowsCredentialManager` of the `Windows` namespace: reading, writing,
 * deleting and enumerating the current user's generic credentials. Every
 * block the credential API hands out is given back with `CredFree`, and the
 * password blob the library allocates with `FreeHGlobal`, whichever way the
 * call ends.
 *
 * What each operation answers and leaves in the credential set is a function
 * of the set before it (`ReadResult`, `WriteEffect`, `DeleteEffect`,
 * `EnumerateResult`). Passwords are stored as their UTF-16 bytes and read
 * back with the same encoding. A credential's time of writing is converted
 * with `ToDateTimeUtc`, which throws for a tick count `DateTime` does not
 * accept; the read paths take a `TickRule` saying whether that tick count is
 * the one the source computes (`AsWritten`) or the intended one.
 */
module CredentialManager {
  import opened Numeric
  import opened Wrappers
  import opened Exceptions
  import opened Unicode
  import opened NativeMemory
  import opened FileTimeExtensions
  import opened Advapi32
  import Win32Error
  import IntPtrExtensions

  const EnumerateFailedMessage := "Failed to enumerate items in store."
  const ReadFailedMessage := "Failed to read item from store."
  const WriteFailedMessage := "Failed to write item to store."

  /**
   * `WindowsCredential`, with null strings as `None`; `lastWritten` is `None`
   * for `default(DateTime)`, the value of a credential built by its
   * constructor.
   */
  datatype WindowsCredential = WindowsCredential(
    targetName: Option<string>,
    userName: Option<string>,
    password: Option<string>,
    comment: Option<string>,
    persist: int32,
    lastWritten: Option<DateTime>)

  /**
   * What `ReadCredential` makes of the stored credential of `target`: the
   * conversion of its time of writing throws when the tick count is out of
   * range; otherwise every field comes from the record.
   */
  function View(rule: TickRule, target: string, s: Stored): (r: Result<WindowsCredential, Exception>)
    ensures r.Success? <==> 0 <= TicksBy(rule, s.lastWritten) <= MaxFileTime
    ensures r.Failure? ==> r.error == ArgumentOutOfRangeException
    ensures r.Success? ==>
      r.value.targetName == Some(target) && r.value.userName == s.userName && r.value.comment == s.comment &&
      r.value.persist == s.persist && r.value.password == Some(Utf16Decode(s.blob)) &&
      r.value.lastWritten == Some(FromFileTimeUtc(TicksBy(rule, s.lastWritten)))
    ensures r.Success? && rule.Intended? ==> FromTicks(r.value.lastWritten.value.fileTime) == s.lastWritten
  {
    var lastWritten := ToDateTimeUtcBy(rule, s.lastWritten);
    if lastWritten.Failure? then Failure(lastWritten.error)
    else Success(WindowsCredential(Some(target), s.userName, Some(Utf16Decode(s.blob)), s.comment, s.persist,
                                   Some(lastWritten.value)))
  }

  /**
   * Each entry as `ReadCredential` reads it, in order; the first entry whose
   * time cannot be converted makes the whole listing throw.
   */
  function Views(rule: TickRule, entries: seq<(string, Stored)>): (r: Result<seq<WindowsCredential>, Exception>)
    ensures r.Success? <==> forall i :: 0 <= i < |entries| ==> View(rule, entries[i].0, entries[i].1).Success?
    ensures r.Success? ==> |r.value| == |entries|
    ensures r.Success? ==> forall i :: 0 <= i < |entries| ==> r.value[i] == View(rule, entries[i].0, entries[i].1).value
    ensures r.Failure? ==> r.error == ArgumentOutOfRangeException
  {
    if entries == [] then Success([])
    else
      var n := |entries| - 1;
      var front := Views(rule, entries[..n]);
      var last := View(rule, entries[n].0, entries[n].1);
      if front.Failure? then front
      else if last.Failure? then Failure(last.error)
      else Success(front.value + [last.value])
  }

  /** One more entry read: `Views` of a prefix grows by the next view. */
  lemma ViewsExtend(rule: TickRule, entries: seq<(string, Stored)>, i: nat, prefix: seq<WindowsCredential>)
    requires i < |entries| && Views(rule, entries[..i]) == Success(prefix)
    requires View(rule, entries[i].0, entries[i].1).Success?
    ensures Views(rule, entries[..i + 1]) == Success(prefix + [View(rule, entries[i].0, entries[i].1).value])
  {
    assert entries[..i + 1][..i] == entries[..i];
  }

  /** A view that throws makes the whole listing throw. */
  lemma ViewsFailAt(rule: TickRule, entries: seq<(string, Stored)>, i: nat)
    requires i < |entries| && View(rule, entries[i].0, entries[i].1).Failure?
    ensures Views(rule, entries) == Failure(ArgumentOutOfRangeException)
  {
  }

  /**
   * With every stored time in range, the intended views of the targets
   * succeed and carry the targets, in order.
   */
  lemma ViewsOfDatable(creds: map<string, Stored>, targets: seq<string>)
    requires (forall t :: t in targets ==> t in creds) && Datable(Intended, creds)
    ensures var r := Views(Intended, Entries(creds, targets));
      r.Success? && |r.value| == |targets| && forall i :: 0 <= i < |targets| ==> r.value[i].targetName == Some(targets[i])
  {
    var entries := Entries(creds, targets);
    forall i | 0 <= i < |entries|
      ensures View(Intended, entries[i].0, entries[i].1).Success?
    {
      assert targets[i] in targets;
    }
  }

  /**
   * `ReadCredential(ptr)`: the structure at `ptr`, its blob copied out and
   * decoded as UTF-16, its time of writing converted. `target` and `s` name
   * what the structure describes.
   */
  method ReadCredential(rule: TickRule, mem: Memory, ptr: Ptr, ghost target: string, ghost s: Stored)
    returns (r: Result<WindowsCredential, Exception>)
    requires CredentialAt(mem.cells, ptr, target, s)
    ensures r == View(rule, target, s)
  {
    var credential := mem.cells[ptr].credential;
    var passwordBytes := IntPtrExtensions.ToByteArray(mem, credential.credentialBlob, credential.credentialBlobSize, s.blob);
    var password := Utf16Decode(passwordBytes.value);
    var lastWritten := ToDateTimeUtcBy(rule, credential.lastWritten);
    if lastWritten.Failure? {
      return Failure(lastWritten.error);
    }
    r := Success(WindowsCredential(credential.targetName, credential.userName, Some(password), credential.comment,
                                   credential.persist, Some(lastWritten.value)));
  }

  /** A null, empty or "*" filter means every credential: it is passed as null. */
  function NormalizeFilter(filter: Option<string>): (r: Option<string>)
    ensures r.None? <==> filter.None? || filter == Some("") || filter == Some("*")
    ensures r.Some? ==> r == filter
  {
    if filter.None? || filter == Some("") || filter == Some("*") then None else filter
  }

  /** The enumeration flags as written: `EnumerateAll` on every path. */
  function FlagsAsWritten(filter: Option<string>, osMajorVersion: int): int32 {
    EnumerateAll
  }

  /**
   * The evidently intended flags: `EnumerateAll` only for "every credential"
   * on Vista and later, no flags otherwise.
   */
  function Flags(filter: Option<string>, osMajorVersion: int): int32 {
    if NormalizeFilter(filter).None? && osMajorVersion > 5 then EnumerateAll else EnumerateNone
  }

  /**
   * What an enumeration with `filter` and `flags` yields: each credential the
   * filter takes, in the set's order; nothing when there is none; the
   * exception of the failing status otherwise. Reading the credentials can
   * still throw, as `Views` does.
   */
  function EnumerateResult(rule: TickRule, creds: map<string, Stored>, order: seq<string>, filter: Option<string>,
                           flags: int32, fault: int32)
    : (r: Result<seq<WindowsCredential>, Exception>)
    requires forall t :: t in order ==> t in creds
    ensures EnumerateError(order, filter, flags, fault) == Win32Error.Success ==>
      r == Views(rule, Entries(creds, Matching(order, filter)))
    ensures EnumerateError(order, filter, flags, fault) == Win32Error.NotFound ==> r == Success([])
    ensures EnumerateError(order, filter, flags, fault) !in {Win32Error.Success, Win32Error.NotFound} ==>
      r == Failure(Win32InteropException(EnumerateFailedMessage, EnumerateError(order, filter, flags, fault)))
    ensures r.Success? ==> forall c :: c in r.value ==> c.targetName.Some? && Matches(filter, c.targetName.value)
  {
    var error := EnumerateError(order, filter, flags, fault);
    if error == Win32Error.Success then Views(rule, Entries(creds, Matching(order, filter)))
    else if error == Win32Error.NotFound then Success([])
    else Failure(Win32InteropException(EnumerateFailedMessage, error))
  }

  /** Reads the `count` structures the array at `list` points at, in order, up to the first that throws. */
  method ReadList(rule: TickRule, mem: Memory, list: Ptr, count: nat, ghost entries: seq<(string, Stored)>)
    returns (r: Result<seq<WindowsCredential>, Exception>)
    requires |entries| == count && ListAt(mem.cells, list, entries)
    ensures r == Views(rule, entries)
  {
    var credentials := [];
    var i := 0;
    while i < count
      invariant 0 <= i <= count
      invariant Views(rule, entries[..i]) == Success(credentials)
    {
      assert SlotHolds(mem.cells, list, i, entries[i]);
      var ptr := mem.cells[IntPtrExtensions.Slot(list, PointerSize, i)].p;
      var credential := ReadCredential(rule, mem, ptr, entries[i].0, entries[i].1);
      if credential.Failure? {
        ViewsFailAt(rule, entries, i);
        return Failure(credential.error);
      }
      ViewsExtend(rule, entries, i, credentials);
      credentials := credentials + [credential.value];
      i := i + 1;
    }
    assert entries[..count] == entries;
    return Success(credentials);
  }

  /**
   * The body of `Enumerate` once the filter and flags are chosen: one
   * `CredEnumerateW` call, each listed structure read, the list freed once.
   */
  method EnumerateWith(rule: TickRule, store: CredentialSet, mem: Memory, filter: Option<string>, flags: int32, fault: int32)
    returns (r: Result<seq<WindowsCredential>, Exception>)
    requires store.Valid() && mem.Valid()
    modifies mem
    ensures mem.Valid()
    ensures r == EnumerateResult(rule, store.creds, store.order, filter, flags, fault)
    ensures mem.allocs == old(mem.allocs)
  {
    var success, lastError, count, listPtr := store.CredEnumerate(mem, filter, flags, fault);
    var result := Win32Error.GetLastError(success, lastError);
    if result == Win32Error.Success {
      r := ReadList(rule, mem, listPtr, count, Entries(store.creds, Matching(store.order, filter)));
    } else if result == Win32Error.NotFound {
      r := Success([]);
    } else {
      r := Failure(Win32Error.ThrowIfError(result, EnumerateFailedMessage).error);
    }
    if listPtr != Zero {
      ghost var block := mem.allocs[listPtr];
      store.CredFree(mem, listPtr);
      FreeUndoesAlloc(old(mem.allocs), listPtr, block);
    }
  }

  /**
   * `Enumerate(filter)` as written: the flags ask for every credential even
   * when a filter is given, which the credential API refuses, and each time
   * of writing is converted from the as-written tick count.
   */
  method EnumerateAsWritten(store: CredentialSet, mem: Memory, filter: Option<string>, osMajorVersion: int, fault: int32)
    returns (r: Result<seq<WindowsCredential>, Exception>)
    requires store.Valid() && mem.Valid()
    modifies mem
    ensures mem.Valid()
    ensures r == EnumerateResult(AsWritten, store.creds, store.order, NormalizeFilter(filter), FlagsAsWritten(filter, osMajorVersion), fault)
    ensures mem.allocs == old(mem.allocs)
  {
    r := EnumerateWith(AsWritten, store, mem, NormalizeFilter(filter), FlagsAsWritten(filter, osMajorVersion), fault);
  }

  /** `Enumerate(filter)` with the evidently intended flags and tick count. */
  method Enumerate(store: CredentialSet, mem: Memory, filter: Option<string>, osMajorVersion: int, fault: int32)
    returns (r: Result<seq<WindowsCredential>, Exception>)
    requires store.Valid() && mem.Valid()
    modifies mem
    ensures mem.Valid()
    ensures r == EnumerateResult(Intended, store.creds, store.order, NormalizeFilter(filter), Flags(filter, osMajorVersion), fault)
    ensures mem.allocs == old(mem.allocs)
  {
    r := EnumerateWith(Intended, store, mem, NormalizeFilter(filter), Flags(filter, osMajorVersion), fault);
  }

  /**
   * As written, any real filter makes `Enumerate` fail with
   * `ERROR_INVALID_FLAGS`, whatever the set holds.
   */
  lemma FilterRejectedAsWritten(creds: map<string, Stored>, order: seq<string>, filter: Option<string>, osMajorVersion: int)
    requires forall t :: t in order ==> t in creds
    requires filter.Some? && filter != Some("") && filter != Some("*")
    ensures EnumerateResult(AsWritten, creds, order, NormalizeFilter(filter), FlagsAsWritten(filter, osMajorVersion), Win32Error.Success)
         == Failure(Win32InteropException(EnumerateFailedMessage, Win32Error.InvalidFlags))
  {
  }

  /** Every stored time of writing converts under `rule`. */
  ghost predicate Datable(rule: TickRule, creds: map<string, Stored>) {
    forall t :: t in creds ==> 0 <= TicksBy(rule, creds[t].lastWritten) <= MaxFileTime
  }

  /**
   * A listing that carries the matching targets in order names each stored
   * credential the filter takes, and no target twice.
   */
  lemma ListsMatching(creds: map<string, Stored>, order: seq<string>, f: Option<string>, listed: seq<WindowsCredential>)
    requires Consistent(creds, order)
    requires |listed| == |Matching(order, f)|
    requires forall i :: 0 <= i < |listed| ==> listed[i].targetName == Some(Matching(order, f)[i])
    ensures forall t :: t in creds && Matches(f, t) <==> exists i :: 0 <= i < |listed| && listed[i].targetName == Some(t)
    ensures forall i, j :: 0 <= i < j < |listed| ==> listed[i].targetName != listed[j].targetName
  {
    var m := Matching(order, f);
    forall t | t in creds && Matches(f, t)
      ensures exists i :: 0 <= i < |listed| && listed[i].targetName == Some(t)
    {
      var i :| 0 <= i < |m| && m[i] == t;
      assert listed[i].targetName == Some(t);
    }
  }

  /**
   * With the intended flags and tick count, and stored times `DateTime`
   * accepts, enumeration lists each credential the filter takes exactly
   * once, in the set's order, and nothing else.
   */
  lemma EnumerateListsMatches(creds: map<string, Stored>, order: seq<string>, filter: Option<string>, osMajorVersion: int)
    requires Consistent(creds, order) && Datable(Intended, creds)
    ensures var r := EnumerateResult(Intended, creds, order, NormalizeFilter(filter), Flags(filter, osMajorVersion), Win32Error.Success);
      var m := Matching(order, NormalizeFilter(filter));
      r.Success? && |r.value| == |m| &&
      (forall i :: 0 <= i < |m| ==> r.value[i].targetName == Some(m[i])) &&
      (forall t :: t in creds && Matches(NormalizeFilter(filter), t) <==>
         exists i :: 0 <= i < |r.value| && r.value[i].targetName == Some(t)) &&
      (forall i, j :: 0 <= i < j < |r.value| ==> r.value[i].targetName != r.value[j].targetName)
  {
    var f := NormalizeFilter(filter);
    var m := Matching(order, f);
    ViewsOfDatable(creds, m);
    var r := EnumerateResult(Intended, creds, order, f, Flags(filter, osMajorVersion), Win32Error.Success);
    assert r == Views(Intended, Entries(creds, m));
    ListsMatching(creds, order, f, r.value);
  }

  /**
   * As written, listing every credential throws as soon as one of them was
   * written at the present day, whatever the others are.
   */
  lemma EnumeratePresentDayThrowsAsWritten(creds: map<string, Stored>, order: seq<string>, target: string, osMajorVersion: int)
    requires Consistent(creds, order) && target in creds && creds[target].lastWritten == PresentDay
    ensures EnumerateResult(AsWritten, creds, order, NormalizeFilter(None), FlagsAsWritten(None, osMajorVersion), Win32Error.Success)
         == Failure(ArgumentOutOfRangeException)
  {
    AsWrittenPresentDayThrows();
    var m := Matching(order, None);
    assert target in m;
    var i :| 0 <= i < |m| && m[i] == target;
    assert !View(AsWritten, Entries(creds, m)[i].0, Entries(creds, m)[i].1).Success?;
  }

  /**
   * What `Read` answers: the credential when it is stored and its time
   * converts, `ArgumentOutOfRangeException` when it does not, null when the
   * API reports it not found, the exception of any other failure.
   */
  function ReadResult(rule: TickRule, creds: map<string, Stored>, target: string, fault: int32)
    : (r: Result<Option<WindowsCredential>, Exception>)
    ensures r.Success? && r.value.Some? <==>
      fault == Win32Error.Success && target in creds && View(rule, target, creds[target]).Success?
    ensures r.Success? && r.value.Some? ==> r.value.value == View(rule, target, creds[target]).value
    ensures r == Success(None) <==> fault == Win32Error.NotFound || (fault == Win32Error.Success && target !in creds)
    ensures r.Failure? && fault == Win32Error.Success ==> r.error == ArgumentOutOfRangeException
    ensures r.Failure? && fault != Win32Error.Success ==> r.error == Win32InteropException(ReadFailedMessage, fault)
  {
    var error := ReadError(creds, target, CredentialTypeGeneric, fault);
    if error == Win32Error.Success then
      var view := View(rule, target, creds[target]);
      if view.Success? then Success(Some(view.value)) else Failure(view.error)
    else if error == Win32Error.NotFound then Success(None)
    else Failure(Win32InteropException(ReadFailedMessage, error))
  }

  /** `Read(targetName)`; the block `CredReadW` hands out is freed on every path. */
  method Read(rule: TickRule, store: CredentialSet, mem: Memory, targetName: string, fault: int32)
    returns (r: Result<Option<WindowsCredential>, Exception>)
    requires store.Valid() && mem.Valid()
    modifies mem
    ensures mem.Valid()
    ensures r == ReadResult(rule, store.creds, targetName, fault)
    ensures mem.allocs == old(mem.allocs)
  {
    var success, lastError, credPtr := store.CredRead(mem, targetName, CredentialTypeGeneric, fault);
    var result := Win32Error.GetLastError(success, lastError);
    if result == Win32Error.Success {
      var credential := ReadCredential(rule, mem, credPtr, targetName, store.creds[targetName]);
      if credential.Success? {
        r := Success(Some(credential.value));
      } else {
        r := Failure(credential.error);
      }
    } else if result == Win32Error.NotFound {
      r := Success(None);
    } else {
      r := Failure(Win32Error.ThrowIfError(result, ReadFailedMessage).error);
    }
    if credPtr != Zero {
      store.CredFree(mem, credPtr);
    }
  }

  /**
   * What `Write` answers and leaves in the set: a null password fails before
   * anything is allocated; otherwise the credential is stored under its
   * target as a generic credential persisted on the local machine, its
   * password as UTF-16 bytes, `now` as its time of writing.
   */
  function WriteEffect(creds: map<string, Stored>, credential: WindowsCredential, fault: int32, now: FileTime)
    : (r: (Outcome<Exception>, map<string, Stored>))
    ensures r.0.Pass? <==> credential.password.Some? && fault == Win32Error.Success && credential.targetName.Some?
    ensures credential.password.None? ==> r.0 == Fail(ArgumentNullException)
    ensures r.0.Fail? ==> r.1 == creds
    ensures r.0.Pass? ==>
      r.1 == creds[credential.targetName.value :=
                   Stored(credential.userName, credential.comment, Utf16Encode(credential.password.value),
                          PersistLocalMachine, now)]
  {
    if credential.password.None? then (Fail(ArgumentNullException), creds)
    else
      var error := if fault != Win32Error.Success then fault
                   else if credential.targetName.None? then InvalidParameter
                   else Win32Error.Success;
      if error != Win32Error.Success then (Fail(Win32InteropException(WriteFailedMessage, error)), creds)
      else (Pass, creds[credential.targetName.value :=
                        Stored(credential.userName, credential.comment, Utf16Encode(credential.password.value),
                               PersistLocalMachine, now)])
  }

  /**
   * `Write(credential)`: the password blob is allocated with `AllocHGlobal`,
   * filled, passed to `CredWriteW` and freed again on every path.
   */
  method Write(store: CredentialSet, mem: Memory, credential: WindowsCredential, fault: int32, now: FileTime)
    returns (r: Outcome<Exception>)
    requires store.Valid() && mem.Valid()
    requires credential.password.Some? ==> |Utf16Encode(credential.password.value)| <= MaxInt32
    modifies store, mem
    ensures store.Valid() && mem.Valid()
    ensures (r, store.creds) == WriteEffect(old(store.creds), credential, fault, now)
    ensures r.Fail? ==> store.order == old(store.order)
    ensures r.Pass? ==>
      store.order == if credential.targetName.value in old(store.order) then old(store.order) else old(store.order) + [credential.targetName.value]
    ensures mem.allocs == old(mem.allocs)
  {
    if credential.password.None? {
      return Fail(ArgumentNullException);
    }
    var passwordBytes := Utf16Encode(credential.password.value);
    var blob := mem.Alloc(HGlobal, |passwordBytes|);
    var w32Credential := Win32Credential(0, CredentialTypeGeneric, credential.targetName, credential.comment,
                                         FileTime(0, 0), |passwordBytes|, blob, PersistLocalMachine, 0, Zero, None,
                                         credential.userName);
    mem.CopyIn(blob, passwordBytes, blob);
    var success, lastError := store.CredWrite(mem, w32Credential, 0, fault, now, passwordBytes);
    var result := Win32Error.GetLastError(success, lastError);
    r := Win32Error.ThrowIfError(result, WriteFailedMessage);
    if blob != Zero {
      mem.Free(blob, HGlobal);
    }
  }

  /**
   * What `Delete` answers and leaves in the set: true and the credential
   * gone, false when the API reports it not found, the exception of any
   * other failure.
   */
  function DeleteEffect(creds: map<string, Stored>, target: string, fault: int32)
    : (r: (Result<bool, Exception>, map<string, Stored>))
    ensures r.0 == Success(true) <==> fault == Win32Error.Success && target in creds
    ensures r.0 == Success(false) <==> fault == Win32Error.NotFound || (fault == Win32Error.Success && target !in creds)
    ensures r.0.Failure? ==> r.0.error == Win32InteropException(Win32Error.UnknownErrorMessage, fault)
    ensures r.1 == if r.0 == Success(true) then creds - {target} else creds
  {
    var error := ReadError(creds, target, CredentialTypeGeneric, fault);
    if error == Win32Error.Success then (Success(true), creds - {target})
    else if error == Win32Error.NotFound then (Success(false), creds)
    else (Failure(Win32InteropException(Win32Error.UnknownErrorMessage, error)), creds)
  }

  /** `Delete(targetName)`. */
  method Delete(store: CredentialSet, targetName: string, fault: int32) returns (r: Result<bool, Exception>)
    requires store.Valid()
    modifies store
    ensures store.Valid()
    ensures (r, store.creds) == DeleteEffect(old(store.creds), targetName, fault)
    ensures store.order == if r == Success(true) then Remove(old(store.order), targetName) else old(store.order)
  {
    var success, lastError := store.CredDelete(targetName, CredentialTypeGeneric, fault);
    var result := Win32Error.GetLastError(success, lastError);
    if result == Win32Error.Success {
      r := Success(true);
    } else if result == Win32Error.NotFound {
      r := Success(false);
    } else {
      r := Failure(Win32Error.ThrowIfError(result, Win32Error.UnknownErrorMessage).error);
    }
  }

  /**
   * A credential written and read back by its target, with the intended tick
   * count and a clock `DateTime` accepts, has the user name, password and
   * comment that were written, persisted on the local machine, at the time
   * of writing.
   */
  lemma WriteThenRead(creds: map<string, Stored>, credential: WindowsCredential, fault: int32, now: FileTime)
    requires WriteEffect(creds, credential, fault, now).0.Pass?
    requires 0 <= Ticks(now) <= MaxFileTime
    ensures var r := ReadResult(Intended, WriteEffect(creds, credential, fault, now).1, credential.targetName.value, Win32Error.Success);
      r.Success? && r.value.Some? &&
      r.value.value.targetName == credential.targetName &&
      r.value.value.userName == credential.userName &&
      r.value.value.password == credential.password &&
      r.value.value.comment == credential.comment &&
      r.value.value.persist == PersistLocalMachine &&
      r.value.value.lastWritten == Some(FromFileTimeUtc(Ticks(now)))
  {
    Utf16RoundTrip(credential.password.value);
  }

  /**
   * As written, a credential written at the present day cannot be read back:
   * `Read` raises `ArgumentOutOfRangeException`.
   */
  lemma PresentDayWriteUnreadableAsWritten(creds: map<string, Stored>, credential: WindowsCredential, fault: int32)
    requires WriteEffect(creds, credential, fault, PresentDay).0.Pass?
    ensures ReadResult(AsWritten, WriteEffect(creds, credential, fault, PresentDay).1, credential.targetName.value,
                       Win32Error.Success) == Failure(ArgumentOutOfRangeException)
  {
    AsWrittenPresentDayThrows();
  }

  /** Writing one target leaves what every other target reads unchanged. */
  lemma WriteLeavesOtherTargets(rule: TickRule, creds: map<string, Stored>, credential: WindowsCredential, fault: int32,
                                now: FileTime, other: string, readFault: int32)
    requires credential.targetName != Some(other)
    ensures ReadResult(rule, WriteEffect(creds, credential, fault, now).1, other, readFault) == ReadResult(rule, creds, other, readFault)
  {
  }

  /** After a delete that reports true, reading the target gives null. */
  lemma DeleteThenRead(rule: TickRule, creds: map<string, Stored>, target: string, fault: int32)
    requires DeleteEffect(creds, target, fault).0 == Success(true)
    ensures ReadResult(rule, DeleteEffect(creds, target, fault).1, target, Win32Error.Success) == Success(None)
  {
  }
}

=== FILE: decimal.dfy ===
/**
 * Decimal rendering of an `int`, as C# string interpolation (`$"{error}"`)
 * writes it: an optional '-' followed by the digits, without leading zeros.
 */
module Decimal {

  predicate IsDigit(c: char) {
    '0' <= c <= '9'
  }

  predicate AllDigits(s: string) {
    forall i :: 0 <= i < |s| ==> IsDigit(s[i])
  }

  function DigitChar(d: nat): (c: char)
    requires d < 10
    ensures IsDigit(c) && (c as int) - ('0' as int) == d
  {
    ('0' as int + d) as char
  }

  /** The digits of `n`, most significant first. */
  function NatToString(n: nat): (r: string)
    ensures |r| >= 1
    ensures AllDigits(r)
    ensures r[0] == '0' ==> n == 0
  {
    if n < 10 then [DigitChar(n)] else NatToString(n / 10) + [DigitChar(n % 10)]
  }

  /** `int.ToString()` in the invariant culture. */
  function IntToString(n: int): (r: string)
    ensures |r| >= 1
  {
    if n < 0 then "-" + NatToString(-n) else NatToString(n)
  }

  /** The value of a string of decimal digits. */
  function DigitsValue(s: string): nat
    requires AllDigits(s)
  {
    if s == [] then 0 else 10 * DigitsValue(s[..|s| - 1]) + ((s[|s| - 1] as int) - ('0' as int))
  }

  /** Reads back what `IntToString` writes. */
  function ParseInt(s: string): int
    requires |s| >= 1
    requires AllDigits(s) || (s[0] == '-' && AllDigits(s[1..]))
  {
    if s[0] == '-' then 0 - DigitsValue(s[1..]) else DigitsValue(s)
  }

  lemma {:induction false} NatToStringValue(n: nat)
    ensures DigitsValue(NatToString(n)) == n
  {
    if n >= 10 {
      var r := NatToString(n);
      assert r[..|r| - 1] == NatToString(n / 10);
      NatToStringValue(n / 10);
    }
  }

  /** Parsing the rendering of any integer gives the integer back. */
  lemma IntToStringRoundTrip(n: int)
    ensures var s := IntToString(n); (AllDigits(s) || (s[0] == '-' && AllDigits(s[1..]))) && ParseInt(s) == n
  {
    if n < 0 {
      var s := IntToString(n);
      assert s[1..] == NatToString(-n);
      NatToStringValue(-n);
    } else {
      NatToStringValue(n);
    }
  }

  /** Different integers render differently. */
  lemma IntToStringInjective(a: int, b: int)
    requires IntToString(a) == IntToString(b)
    ensures a == b
  {
    IntToStringRoundTrip(a);
    IntToStringRoundTrip(b);
  }
}

=== FILE: exceptions.dfy ===
/**
 * The exceptions the library throws, as values. A C# `throw` in the model
 * is a `Failure`/`Fail` carrying one of these.
 */
module Exceptions {
  import opened Numeric

  datatype Exception =
    /** `System.Exception(message)`. */
    | PlainException(message: string)
    /** `ArgumentException(message)`. */
    | ArgumentException(message: string)
    /** `ArgumentOutOfRangeException`, raised by `BitConverter` on an empty array. */
    | ArgumentOutOfRangeException
    /** `ArgumentNullException`, raised by `Encoding.GetBytes(null)`. */
    | ArgumentNullException
    /** `KeyNotFoundException(message)`. */
    | KeyNotFoundException(message: string)
    /** `InvalidOperationException(message)`. */
    | InvalidOperationException(message: string)
    /** `NotImplementedException()`. */
    | NotImplementedException
    /** `MarshalDirectiveException(message)`. */
    | MarshalDirectiveException(message: string)
    /** `OverflowException`, raised by a checked narrowing such as `IntPtr.ToInt32()`. */
    | OverflowException
    /** `InteropException(message, code)` for a Security framework result code. */
    | InteropException(message: string, code: int32)
    /** `InteropException(message, new Win32Exception(code))`. */
    | Win32InteropException(message: string, win32Code: int32)
}

=== FILE: file_time.dfy ===
/**
 * FILETIME to tick-count conversion (FileTimeExtensions.cs). `ToDateTime`
 * and `ToDateTimeUtc` compute the same 64-bit value `ft` from the two
 * 32-bit halves and hand it to `DateTime.FromFileTime[Utc]`.
 *
 * As written, `(long)high << 32 + low` parses as `(long)high << (32 + low)`:
 * the `int` sum wraps, the shift uses its low six bits, and `high` is
 * sign-extended. `TicksAsWritten` is that expression; `Ticks` is the
 * evidently intended `((long)(uint)high << 32) | (uint)low`, which the rest
 * of the model uses.
 */
module FileTimeExtensions {
  import opened Numeric
  import opened Wrappers
  import opened Exceptions

  /** `System.Runtime.InteropServices.ComTypes.FILETIME`: two signed 32-bit halves. */
  datatype FileTime = FileTime(dwLowDateTime: int32, dwHighDateTime: int32)

  /** What the conversion hands to `DateTime`; the calendar arithmetic is not modelled. */
  datatype DateTime = FromFileTime(fileTime: int64) | FromFileTimeUtc(fileTime: int64)

  function Pow2(n: nat): (r: nat)
    ensures r >= 1
  {
    if n == 0 then 1 else 2 * Pow2(n - 1)
  }

  /** C#'s `long << int`: the count is masked to its low six bits, the product wraps. */
  function ShiftLeftInt64(x: int64, count: int32): (r: int64)
    ensures count % 64 == 0 ==> r == x
    ensures x == 0 ==> r == 0
  {
    WrapInt64(x * Pow2(count % 64))
  }

  /** The tick value exactly as the source computes it. */
  function TicksAsWritten(ft: FileTime): (r: int64)
    ensures ft.dwHighDateTime == 0 ==> r == 0
  {
    ShiftLeftInt64(ft.dwHighDateTime, WrapInt32(32 + ft.dwLowDateTime))
  }

  /** The largest tick count `DateTime` accepts: the last tick of the year 9999. */
  const MaxFileTime: int := 2650467743999999999

  /**
   * `DateTime.FromFileTimeUtc(t)` (`utc`) or `DateTime.FromFileTime(t)`:
   * `ArgumentOutOfRangeException` for a negative count or one past the year 9999.
   */
  function FromFileTimeChecked(t: int64, utc: bool): (r: Result<DateTime, Exception>)
    ensures r.Success? <==> 0 <= t <= MaxFileTime
    ensures r.Success? ==> r.value.fileTime == t && (r.value.FromFileTimeUtc? <==> utc)
    ensures r.Failure? ==> r.error == ArgumentOutOfRangeException
  {
    if t < 0 || t > MaxFileTime then Failure(ArgumentOutOfRangeException)
    else if utc then Success(FromFileTimeUtc(t))
    else Success(FromFileTime(t))
  }

  /** `ToDateTime` as written. */
  function ToDateTime(ft: FileTime): Result<DateTime, Exception> {
    FromFileTimeChecked(TicksAsWritten(ft), false)
  }

  /**
   * `ToDateTimeUtc` as written: the same tick value as `ToDateTime`, so both
   * fail together, with `ArgumentOutOfRangeException` whenever the
   * as-written value is negative or too large.
   */
  function ToDateTimeUtc(ft: FileTime): (r: Result<DateTime, Exception>)
    ensures r.Success? <==> 0 <= TicksAsWritten(ft) <= MaxFileTime
    ensures r.Success? ==> r == Success(FromFileTimeUtc(TicksAsWritten(ft)))
    ensures r.Failure? ==> r.error == ArgumentOutOfRangeException
    ensures r.Success? <==> ToDateTime(ft).Success?
    ensures r.Success? ==> r.value.fileTime == ToDateTime(ft).value.fileTime
  {
    FromFileTimeChecked(TicksAsWritten(ft), true)
  }

  /**
   * The shift count is `(low + 32) mod 64`: the wrap of the `int` sum does not
   * change its low six bits.
   */
  lemma AsWrittenShiftCount(ft: FileTime)
    ensures TicksAsWritten(ft) == WrapInt64(ft.dwHighDateTime * Pow2((ft.dwLowDateTime + 32) % 64))
  {
    var x := 32 + ft.dwLowDateTime;
    var w := WrapInt32(x);
    var k := (w - x) / TwoTo32;
    assert w == x + TwoTo32 * k;
    assert TwoTo32 * k == 64 * (0x400_0000 * k);
    ModAddMultiple64(x, 0x400_0000 * k);
  }

  lemma {:induction false} ModAddMultiple64(x: int, k: int)
    ensures (x + 64 * k) % 64 == x % 64
    decreases if k < 0 then -k else k
  {
    if k > 0 {
      ModAddMultiple64(x, k - 1);
    } else if k < 0 {
      ModAddMultiple64(x, k + 1);
    }
  }

  lemma Pow2Of32()
    ensures Pow2(32) == TwoTo32
  {
    assert Pow2(8) == 0x100;
    assert Pow2(16) == 0x1_0000 by { Pow2Add(8, 8); }
    Pow2Add(16, 16);
  }

  lemma {:induction false} Pow2Add(a: nat, b: nat)
    ensures Pow2(a + b) == Pow2(a) * Pow2(b)
  {
    if a > 0 {
      Pow2Add(a - 1, b);
    }
  }

  /** The evidently intended tick value: `high` and `low` as the upper and lower unsigned halves. */
  function Ticks(ft: FileTime): (r: int64)
    ensures r % TwoTo64 == AsUInt32(ft.dwHighDateTime) * TwoTo32 + AsUInt32(ft.dwLowDateTime)
    ensures ft.dwHighDateTime >= 0 ==> r == ft.dwHighDateTime * TwoTo32 + AsUInt32(ft.dwLowDateTime)
  {
    WrapInt64(AsUInt32(ft.dwHighDateTime) * TwoTo32 + AsUInt32(ft.dwLowDateTime))
  }

  /** Splits a tick value back into its two halves. */
  function FromTicks(t: int64): FileTime {
    var u := t % TwoTo64;
    FileTime(WrapInt32(u % TwoTo32), WrapInt32(u / TwoTo32))
  }

  lemma WrapAsUInt32(x: int32)
    ensures WrapInt32(AsUInt32(x)) == x
  {
  }

  /** The intended conversion loses nothing: the halves come back. */
  lemma TicksRoundTrip(ft: FileTime)
    ensures FromTicks(Ticks(ft)) == ft
  {
    var h := AsUInt32(ft.dwHighDateTime);
    var l := AsUInt32(ft.dwLowDateTime);
    var u := Ticks(ft) % TwoTo64;
    assert u == h * TwoTo32 + l;
    assert u / TwoTo32 == h && u % TwoTo32 == l;
    WrapAsUInt32(ft.dwHighDateTime);
    WrapAsUInt32(ft.dwLowDateTime);
  }

  /** Different FILETIMEs give different intended tick values. */
  lemma TicksInjective(a: FileTime, b: FileTime)
    requires Ticks(a) == Ticks(b)
    ensures a == b
  {
    TicksRoundTrip(a);
    TicksRoundTrip(b);
  }

  /** Whenever the low half is zero the written expression agrees with the intended one. */
  lemma AsWrittenAgreesWhenLowIsZero(ft: FileTime)
    requires ft.dwLowDateTime == 0
    ensures TicksAsWritten(ft) == Ticks(ft)
  {
    var h := ft.dwHighDateTime;
    assert WrapInt32(32 + 0) == 32;
    ShiftBy32(h);
    assert Ticks(ft) == WrapInt64(AsUInt32(h) * TwoTo32);
    if h < 0 {
      WidenNegative(h);
      WrapInt64Periodic(h * TwoTo32);
    }
  }

  lemma ShiftBy32(h: int32)
    ensures ShiftLeftInt64(h, 32) == WrapInt64(h * TwoTo32)
  {
    Pow2Of32();
  }

  lemma WidenNegative(h: int32)
    requires h < 0
    ensures AsUInt32(h) * TwoTo32 == h * TwoTo32 + TwoTo64
  {
  }

  lemma WrapInt64Periodic(x: int)
    ensures WrapInt64(x + TwoTo64) == WrapInt64(x)
  {
  }

  /**
   * Counterexample: the FILETIME one tick after the epoch converts to 0, and
   * so does every FILETIME whose high half is zero, whatever its low half.
   */
  lemma AsWrittenLosesLowHalf()
    ensures TicksAsWritten(FileTime(1, 0)) == 0
    ensures Ticks(FileTime(1, 0)) == 1
    ensures forall low: int32 :: TicksAsWritten(FileTime(low, 0)) == 0
  {
  }

  /**
   * Counterexample with a present-day date: for high 0x01D6A000 and low 8 the
   * written expression shifts by 40 and wraps to a negative tick count.
   */
  lemma AsWrittenWrapsPresentDay()
    ensures Ticks(FileTime(8, 0x01D6A000)) == 132469160914452488
    ensures TicksAsWritten(FileTime(8, 0x01D6A000)) == -2981382953319268352
  {
    var ft := FileTime(8, 0x01D6A000);
    assert WrapInt32(32 + 8) == 40;
    assert TicksAsWritten(ft) == ShiftLeftInt64(0x01D6A000, 40);
    ShiftBy40();
    WrapPresentDay();
    assert Ticks(ft) == WrapInt64(0x01D6A000 * TwoTo32 + 8);
  }

  lemma Pow2Of40()
    ensures Pow2(40) == 0x100_0000_0000
  {
    Pow2Add(32, 8);
    Pow2Of32();
    assert Pow2(8) == 0x100;
  }

  lemma ShiftBy40()
    ensures ShiftLeftInt64(0x01D6A000, 40) == WrapInt64(0x1_D6A0_0000_0000_0000)
  {
    assert 40 % 64 == 40;
    Pow2Of40();
  }

  lemma WrapPresentDay()
    ensures WrapInt64(0x1_D6A0_0000_0000_0000) == -2981382953319268352
  {
    assert 0x1_D6A0_0000_0000_0000 % TwoTo64 == 0xD6A0_0000_0000_0000;
  }

  /** Which tick value a conversion uses: the expression as written, or the intended one. */
  datatype TickRule = AsWritten | Intended

  function TicksBy(rule: TickRule, ft: FileTime): int64 {
    if rule.AsWritten? then TicksAsWritten(ft) else Ticks(ft)
  }

  /**
   * `ToDateTimeUtc` under `rule`. As written it is `ToDateTimeUtc`; with the
   * intended ticks a time it accepts gives back the FILETIME it came from.
   */
  function ToDateTimeUtcBy(rule: TickRule, ft: FileTime): (r: Result<DateTime, Exception>)
    ensures rule.AsWritten? ==> r == ToDateTimeUtc(ft)
    ensures r.Success? <==> 0 <= TicksBy(rule, ft) <= MaxFileTime
    ensures r.Success? ==> r == Success(FromFileTimeUtc(TicksBy(rule, ft)))
    ensures r.Success? && rule.Intended? ==> FromTicks(r.value.fileTime) == ft
    ensures r.Failure? ==> r.error == ArgumentOutOfRangeException
  {
    TicksRoundTrip(ft);
    FromFileTimeChecked(TicksBy(rule, ft), true)
  }

  /**
   * The present-day FILETIME of `AsWrittenWrapsPresentDay` cannot be
   * converted as written, while the intended conversion accepts it.
   */
  lemma AsWrittenPresentDayThrows()
    ensures ToDateTimeUtc(PresentDay) == Failure(ArgumentOutOfRangeException)
    ensures ToDateTimeUtcBy(Intended, PresentDay) == Success(FromFileTimeUtc(132469160914452488))
  {
    AsWrittenWrapsPresentDay();
  }

  /** A FILETIME of 2020 (high 0x01D6A000, low 8). */
  const PresentDay := FileTime(8, 0x01D6A000)
}

=== FILE: four_char_code.dfy ===
/**
 * Four-character codes: a `uint` whose four bytes, most significant first,
 * spell an ASCII tag such as "ftp " or "svce".
 */
module FourCharCode {
  import opened Numeric
  import opened Unicode
  import opened Wrappers
  import opened Exceptions

  /**
   * `BitConverter.ToUInt32(code, 0)`: the first four bytes read little-endian.
   * Fails on an empty array (out of range) or one shorter than four bytes.
   */
  function ToUInt32Bytes(code: seq<byte>): (r: Result<uint32, Exception>)
    ensures r.Success? <==> |code| >= 4
    ensures r.Success? ==> LittleEndianBytes(r.value) == code[..4]
    ensures |code| == 0 ==> r == Failure(ArgumentOutOfRangeException)
  {
    if |code| == 0 then Failure(ArgumentOutOfRangeException)
    else if |code| < 4 then Failure(ArgumentException("Destination array is not long enough to copy all the items in the collection."))
    else
      LittleEndianInverse(code[..4]);
      Success(FromLittleEndian(code))
  }

  /** `ToUInt32(string)`: the UTF-8 bytes reversed, then read little-endian. */
  function ToUInt32(code: string): Result<uint32, Exception> {
    ToUInt32Bytes(Reverse(Utf8Encode(code)))
  }

  /** `ToString(byte[])`: UTF-8 decoding. */
  function ToStringBytes(code: seq<byte>): string {
    Utf8Decode(code)
  }

  /** `ToString(uint)`: the code's bytes most significant first, UTF-8 decoded. */
  function ToString(code: uint32): string {
    ToStringBytes(Reverse(LittleEndianBytes(code)))
  }

  /** `ToBytes(string)`: the UTF-8 bytes reversed. */
  function ToBytes(code: string): seq<byte> {
    Reverse(Utf8Encode(code))
  }

  /** `ToBytes(uint)`: the `BitConverter` bytes reversed. */
  function ToBytesOfCode(code: uint32): seq<byte> {
    Reverse(LittleEndianBytes(code))
  }

  /** The big-endian value of four bytes: the first byte is the most significant. */
  function BigEndianValue(b: seq<byte>): int
    requires |b| == 4
  {
    0x100_0000 * (b[0] as int) + 0x1_0000 * (b[1] as int) + 0x100 * (b[2] as int) + (b[3] as int)
  }

  /** The value of a four-character ASCII tag. */
  function TagValue(tag: string): int
    requires |tag| == 4
  {
    0x100_0000 * (tag[0] as int) + 0x1_0000 * (tag[1] as int) + 0x100 * (tag[2] as int) + (tag[3] as int)
  }

  /** `ToBytes(uint)` lists the bytes most significant first. */
  lemma ToBytesOfCodeIsBigEndian(code: uint32)
    ensures |ToBytesOfCode(code)| == 4
    ensures BigEndianValue(ToBytesOfCode(code)) == code
  {
    var b := ToBytesOfCode(code);
    var le := LittleEndianBytes(code);
    assert b[0] == le[3] && b[1] == le[2] && b[2] == le[1] && b[3] == le[0];
    LittleEndianRoundTrip(code);
    assert BigEndianValue(b) == FromLittleEndian(le) as int;
  }

  /** Reading reversed bytes little-endian reads the last four bytes big-endian. */
  lemma ReversedReadsLastFourBytes(u: seq<byte>)
    requires |u| >= 4
    ensures ToUInt32Bytes(Reverse(u)) == Success(BigEndianValue(u[|u| - 4..]) as uint32)
  {
    var rb := Reverse(u);
    assert rb[0] == u[|u| - 1] && rb[1] == u[|u| - 2] && rb[2] == u[|u| - 3] && rb[3] == u[|u| - 4];
    assert FromLittleEndian(rb) == BigEndianValue(u[|u| - 4..]);
  }

  /**
   * `ToUInt32(string)` fails exactly when the UTF-8 encoding is shorter than
   * four bytes; otherwise only its last four bytes count, read big-endian.
   */
  lemma ToUInt32ReadsLastFourBytes(code: string)
    ensures var u := Utf8Encode(code);
      ToUInt32(code).Success? <==> |u| >= 4
    ensures var u := Utf8Encode(code);
      |u| >= 4 ==> ToUInt32(code) == Success(BigEndianValue(u[|u| - 4..]) as uint32)
  {
    var u := Utf8Encode(code);
    assert ToUInt32(code) == ToUInt32Bytes(Reverse(u));
    if |u| >= 4 {
      ReversedReadsLastFourBytes(u);
    }
  }

  /** A four-character ASCII tag converts to its big-endian value. */
  lemma ToUInt32OfTag(tag: string)
    requires |tag| == 4 && IsAscii(tag)
    ensures ToUInt32(tag) == Success(TagValue(tag) as uint32)
  {
    Utf8EncodeAscii(tag);
    ToUInt32ReadsLastFourBytes(tag);
    var u := Utf8Encode(tag);
    assert u[|u| - 4..] == u;
  }

  /** Round trip: a four-character ASCII tag survives `ToUInt32` then `ToString`. */
  lemma TagRoundTrip(tag: string)
    requires |tag| == 4 && IsAscii(tag)
    ensures ToUInt32(tag).Success? && ToString(ToUInt32(tag).value) == tag
  {
    ToUInt32OfTag(tag);
    var code := TagValue(tag) as uint32;
    var b := ToBytesOfCode(code);
    ToBytesOfCodeIsBigEndian(code);
    Utf8EncodeAscii(tag);
    var u := Utf8Encode(tag);
    LittleEndianInverse(Reverse(u));
    assert LittleEndianBytes(code) == Reverse(u) by {
      ToUInt32ReadsLastFourBytes(tag);
      assert u[|u| - 4..] == u;
      assert FromLittleEndian(Reverse(u)) == code;
    }
    ReverseReverse(u);
    assert b == u;
    Utf8RoundTrip(tag);
  }

  /** Round trip: a code whose four bytes are ASCII survives `ToString` then `ToUInt32`. */
  lemma CodeRoundTrip(code: uint32)
    requires forall i :: 0 <= i < 4 ==> ToBytesOfCode(code)[i] < 0x80
    ensures ToUInt32(ToString(code)) == Success(code)
  {
    var b := ToBytesOfCode(code);
    ToBytesOfCodeIsBigEndian(code);
    Utf8DecodeAscii(b);
    var s := Utf8Decode(b);
    assert IsAscii(s);
    ToUInt32OfTag(s);
    assert TagValue(s) == BigEndianValue(b);
  }
}

=== FILE: intptr_extensions.dfy ===
/**
 * `IntPtrExtensions`: reading structures and bytes out of unmanaged memory.
 * A structure type is given by the function that recognises its cell
 * (`Marshal.PtrToStructure<T>` succeeds on it) and by its size.
 */
module IntPtrExtensions {
  import opened Numeric
  import opened Wrappers
  import opened Exceptions
  import opened Unicode
  import opened NativeMemory

  /** The address of element `i` of an array of `sizeT`-byte structures at `ptr`. */
  function Slot(ptr: Ptr, sizeT: nat, i: int): Ptr {
    ptr + sizeT * i
  }

  /** The cell at `p` holds a `T`, as `decode` reads it. */
  predicate Decodes<T>(cells: map<Ptr, Cell>, p: Ptr, decode: Cell -> Option<T>) {
    p in cells && decode(cells[p]).Some?
  }

  /** `ptr.Dereference<T>()`: the one structure stored at `ptr`. */
  method Dereference<T>(mem: Memory, ptr: Ptr, decode: Cell -> Option<T>) returns (r: T)
    requires Decodes(mem.cells, ptr, decode)
    ensures Some(r) == decode(mem.cells[ptr])
  {
    r := decode(mem.cells[ptr]).value;
  }

  /**
   * `ptr.ToStructureArray<T>(length)`: element `i` is the structure at
   * `ptr + i * SizeOf<T>()`, for every `i` below `length`, in order. A negative
   * length fails as `new T[length]` does.
   */
  method ToStructureArray<T>(mem: Memory, ptr: Ptr, length: int, sizeT: nat, decode: Cell -> Option<T>)
    returns (r: Result<seq<T>, Exception>)
    requires forall i :: 0 <= i < length ==> Decodes(mem.cells, Slot(ptr, sizeT, i), decode)
    ensures length < 0 <==> r.Failure?
    ensures r.Failure? ==> r.error == OverflowException
    ensures r.Success? ==> |r.value| == length
    ensures r.Success? ==> forall i :: 0 <= i < length ==>
      Decodes(mem.cells, Slot(ptr, sizeT, i), decode) && Some(r.value[i]) == decode(mem.cells[Slot(ptr, sizeT, i)])
  {
    if length < 0 {
      return Failure(OverflowException);
    }
    var structures: seq<T> := [];
    var i := 0;
    while i < length
      invariant 0 <= i <= length
      invariant |structures| == i
      invariant forall k :: 0 <= k < i ==>
        Decodes(mem.cells, Slot(ptr, sizeT, k), decode) && Some(structures[k]) == decode(mem.cells[Slot(ptr, sizeT, k)])
    {
      var structPtr := Slot(ptr, sizeT, i);
      var s := Dereference(mem, structPtr, decode);
      structures := structures + [s];
      i := i + 1;
    }
    return Success(structures);
  }

  /**
   * `ptr.ToByteArray(length)`: exactly `length` bytes copied from `ptr`
   * onward. `bytes` names what is stored there; the copy reads nothing else.
   * A negative length fails when the array is made, and `Marshal.Copy`
   * refuses the null pointer whatever the length.
   */
  method ToByteArray(mem: Memory, ptr: Ptr, length: int, ghost bytes: seq<byte>)
    returns (r: Result<seq<byte>, Exception>)
    requires length >= 0 && ptr != Zero ==> |bytes| == length && HasBytes(mem.cells, ptr, bytes)
    ensures r.Success? <==> length >= 0 && ptr != Zero
    ensures length < 0 ==> r == Failure(OverflowException)
    ensures length >= 0 && ptr == Zero ==> r == Failure(ArgumentNullException)
    ensures r.Success? ==> r.value == bytes
  {
    if length < 0 {
      return Failure(OverflowException);
    }
    if ptr == Zero {
      return Failure(ArgumentNullException);
    }
    var destination := new byte[length];
    var i := 0;
    while i < length
      invariant 0 <= i <= length
      invariant destination[..i] == bytes[..i]
    {
      ByteAt(mem.cells, ptr, bytes, i);
      destination[i] := mem.cells[ptr + i].b;
      i := i + 1;
    }
    assert destination[..] == bytes;
    return Success(destination[..]);
  }

  /** `ptr.ToString(length, encoding)`: the copied bytes, decoded. */
  method ToString(mem: Memory, ptr: Ptr, length: int, encoding: Encoding, ghost bytes: seq<byte>)
    returns (r: Result<string, Exception>)
    requires length >= 0 && ptr != Zero ==> |bytes| == length && HasBytes(mem.cells, ptr, bytes)
    ensures r.Success? <==> length >= 0 && ptr != Zero
    ensures length < 0 ==> r == Failure(OverflowException)
    ensures length >= 0 && ptr == Zero ==> r == Failure(ArgumentNullException)
    ensures r.Success? ==> r.value == GetString(encoding, bytes)
  {
    var data := ToByteArray(mem, ptr, length, bytes);
    if data.Failure? {
      return Failure(data.error);
    }
    return Success(GetString(encoding, data.value));
  }
}

=== FILE: keychain.dfy ===
/**
 * `Keychain`, the object-style keychain API: looking up and adding generic
 * and internet passwords of the default keychain, and finding, deleting and
 * adding items described by a `KeychainItem`, a CoreFoundation dictionary
 * of item attributes.
 *
 * Every native reference a password call receives (the content block, the
 * item reference) is handed back before the call returns, whichever way it
 * ends. String arguments reach the framework as their whole UTF-8 form
 * (`Argument`); what the code as written passes instead is
 * `KeychainServices.ArgumentAsWritten`.
 */
module Keychain {
  import opened Numeric
  import opened Wrappers
  import opened Exceptions
  import opened Unicode
  import opened NativeMemory
  import opened CoreFoundation
  import opened CFTypes
  import opened KeychainServices
  import SecurityFramework
  import FourCharCode
  import StringExtensions
  import IntPtrExtensions
  import CFString
  import CFData
  import CFNumber
  import CFArray
  import CFDictionary

  /** The exception `ThrowIfError` raises for a code other than `OK`. */
  function Throw(code: int32): (e: Exception)
    requires code != OK
    ensures e.InteropException? && e.code == code
  {
    SecurityFramework.ThrowIfError(code, SecurityFramework.UnknownErrorMessage).error
  }

  // ---------------------------------------------------------------- passwords

  /** The attributes `FindGenericPassword` / `AddGenericPassword` pass. */
  function GenericArguments(service: Option<string>, account: Option<string>): ItemAttributes {
    GenericAttributes(Argument(service), Argument(account))
  }

  /**
   * The attributes `FindInternetPassword` / `AddInternetPassword` pass: no
   * security domain, and the authentication type `Default`.
   */
  function InternetArguments(server: Option<string>, account: Option<string>, path: Option<string>,
                             port: uint16, protocol: SecurityFramework.SecProtocolType): ItemAttributes {
    InternetAttributes(Argument(server), Passed(None, 0), Argument(account), Argument(path), port,
                       protocol.Value(), SecurityFramework.SecAuthenticationType.Default.Value())
  }

  /**
   * The answer to a password lookup: the stored bytes decoded as UTF-8 when
   * the item exists, null when the keychain reports it missing, and the
   * exception for every other failure.
   */
  function PasswordLookup(items: map<ItemAttributes, Entry>, attrs: ItemAttributes, fault: int32)
    : (r: Result<Option<string>, Exception>)
    ensures r.Failure? <==> fault != OK && fault != ErrorSecItemNotFound
    ensures r.Failure? ==> r.error == Throw(fault)
    ensures r == Success(None) <==> fault == ErrorSecItemNotFound || (fault == OK && attrs !in items)
    ensures fault == OK && attrs in items ==> r == Success(Some(Utf8Decode(items[attrs].data)))
  {
    if fault == OK && attrs in items then Success(Some(GetString(UTF8, items[attrs].data)))
    else if fault == OK || fault == ErrorSecItemNotFound then Success(None)
    else Failure(Throw(fault))
  }

  /**
   * The body both lookups share: the find call, the switch on its result,
   * and the `finally` block that frees the content and releases the item
   * reference whenever they were handed out.
   */
  method FindPassword(vault: Vault, heap: CFHeap, mem: Memory, attrs: ItemAttributes, fault: int32)
    returns (r: Result<Option<string>, Exception>)
    requires vault.Valid() && heap.Valid() && mem.Valid()
    modifies heap, mem
    ensures heap.Valid() && mem.Valid()
    ensures r == PasswordLookup(vault.items, attrs, fault)
    ensures heap.owned == old(heap.owned) && mem.allocs == old(mem.allocs)
  {
    var findResult, passwordLength, passwordData, itemRef := vault.FindPassword(heap, mem, attrs, fault);
    if findResult == OK {
      var text := IntPtrExtensions.ToString(mem, passwordData, passwordLength, UTF8, vault.items[attrs].data);
      r := Success(Some(text.value));
    } else if findResult == ErrorSecItemNotFound {
      r := Success(None);
    } else {
      r := Failure(Throw(findResult));
    }
    if passwordData != Zero {
      ghost var block := mem.allocs[passwordData];
      var _ := vault.FreeContent(mem, passwordData);
      FreeUndoesAlloc(old(mem.allocs), passwordData, block);
    }
    if itemRef != Null {
      heap.Release(itemRef);
      ReleaseUndoesTake(old(heap.owned), itemRef);
    }
  }

  /** `FindGenericPassword(service, account)`. */
  method FindGenericPassword(vault: Vault, heap: CFHeap, mem: Memory,
                             service: Option<string>, account: Option<string>, fault: int32)
    returns (r: Result<Option<string>, Exception>)
    requires vault.Valid() && heap.Valid() && mem.Valid()
    modifies heap, mem
    ensures heap.Valid() && mem.Valid()
    ensures r == PasswordLookup(vault.items, GenericArguments(service, account), fault)
    ensures heap.owned == old(heap.owned) && mem.allocs == old(mem.allocs)
  {
    r := FindPassword(vault, heap, mem, GenericArguments(service, account), fault);
  }

  /** `FindInternetPassword(server, account, path, port, protocol)`. */
  method FindInternetPassword(vault: Vault, heap: CFHeap, mem: Memory,
                              server: Option<string>, account: Option<string>, path: Option<string>,
                              port: uint16, protocol: SecurityFramework.SecProtocolType, fault: int32)
    returns (r: Result<Option<string>, Exception>)
    requires vault.Valid() && heap.Valid() && mem.Valid()
    modifies heap, mem
    ensures heap.Valid() && mem.Valid()
    ensures r == PasswordLookup(vault.items, InternetArguments(server, account, path, port, protocol), fault)
    ensures heap.owned == old(heap.owned) && mem.allocs == old(mem.allocs)
  {
    r := FindPassword(vault, heap, mem, InternetArguments(server, account, path, port, protocol), fault);
  }

  /** What adding a password answers: the fault, a duplicate, or success. */
  function AddOutcome(items: map<ItemAttributes, Entry>, attrs: ItemAttributes, fault: int32): (r: Outcome<Exception>)
    ensures r.Pass? <==> fault == OK && attrs !in items
    ensures fault != OK ==> r == Fail(Throw(fault))
    ensures fault == OK && attrs in items ==> r == Fail(Throw(ErrorSecDuplicateItem))
  {
    if fault != OK then Fail(Throw(fault))
    else if attrs in items then Fail(Throw(ErrorSecDuplicateItem))
    else Pass
  }

  /**
   * The body both adds share: the password's UTF-8 bytes (none for null)
   * stored under `attrs`, the error check, and the release of the new item
   * reference in `finally`.
   */
  method AddPassword(vault: Vault, heap: CFHeap, attrs: ItemAttributes, password: Option<string>, fault: int32)
    returns (r: Outcome<Exception>)
    requires vault.Valid() && heap.Valid()
    modifies vault, heap
    ensures vault.Valid() && heap.Valid()
    ensures r == AddOutcome(old(vault.items), attrs, fault)
    ensures r.Pass? ==> vault.items == old(vault.items)[attrs := Entry(old(vault.nextId), StringExtensions.ToByteArray(password, UTF8))]
    ensures r.Fail? ==> vault.items == old(vault.items)
    ensures heap.owned == old(heap.owned)
  {
    var passwordData := StringExtensions.ToByteArray(password, UTF8);
    var addResult, itemRef := vault.AddPassword(heap, attrs, passwordData, fault);
    r := SecurityFramework.ThrowIfError(addResult, SecurityFramework.UnknownErrorMessage);
    if itemRef != Null {
      heap.Release(itemRef);
    }
  }

  /** `AddGenericPassword(service, account, password)`. */
  method AddGenericPassword(vault: Vault, heap: CFHeap, service: Option<string>, account: Option<string>,
                            password: Option<string>, fault: int32)
    returns (r: Outcome<Exception>)
    requires vault.Valid() && heap.Valid()
    modifies vault, heap
    ensures vault.Valid() && heap.Valid()
    ensures r == AddOutcome(old(vault.items), GenericArguments(service, account), fault)
    ensures r.Pass? ==>
      vault.items == old(vault.items)[GenericArguments(service, account) := Entry(old(vault.nextId), StringExtensions.ToByteArray(password, UTF8))]
    ensures r.Fail? ==> vault.items == old(vault.items)
    ensures heap.owned == old(heap.owned)
  {
    r := AddPassword(vault, heap, GenericArguments(service, account), password, fault);
  }

  /** `AddInternetPassword(server, account, path, port, protocol, password)`. */
  method AddInternetPassword(vault: Vault, heap: CFHeap, server: Option<string>, account: Option<string>,
                             path: Option<string>, port: uint16, protocol: SecurityFramework.SecProtocolType,
                             password: Option<string>, fault: int32)
    returns (r: Outcome<Exception>)
    requires vault.Valid() && heap.Valid()
    modifies vault, heap
    ensures vault.Valid() && heap.Valid()
    ensures r == AddOutcome(old(vault.items), InternetArguments(server, account, path, port, protocol), fault)
    ensures r.Pass? ==> vault.items == old(vault.items)[InternetArguments(server, account, path, port, protocol) :=
      Entry(old(vault.nextId), StringExtensions.ToByteArray(password, UTF8))]
    ensures r.Fail? ==> vault.items == old(vault.items)
    ensures heap.owned == old(heap.owned)
  {
    r := AddPassword(vault, heap, InternetArguments(server, account, path, port, protocol), password, fault);
  }

  /**
   * A password added and then looked up with the same arguments comes back
   * as it was given (null comes back as the empty string).
   */
  lemma AddThenFind(items: map<ItemAttributes, Entry>, attrs: ItemAttributes, id: nat, password: Option<string>)
    ensures PasswordLookup(items[attrs := Entry(id, StringExtensions.ToByteArray(password, UTF8))], attrs, OK)
      == Success(Some(password.GetOr("")))
  {
    StringExtensions.ToByteArrayRoundTrip(password, UTF8);
  }

  /**
   * Lookups with different services, or different accounts, never reach
   * the same item: distinct arguments are distinct attributes.
   */
  lemma GenericArgumentsInjective(s1: Option<string>, a1: Option<string>, s2: Option<string>, a2: Option<string>)
    requires GenericArguments(s1, a1) == GenericArguments(s2, a2)
    ensures s1.GetOr("") == s2.GetOr("") && a1.GetOr("") == a2.GetOr("")
  {
    ArgumentInjective(s1, s2);
    ArgumentInjective(a1, a2);
  }

  // ---------------------------------------------------------------- item dictionaries

  /** `KeychainItemType`, with any value outside the enum kept as `UndefinedType`. */
  datatype KeychainItemType = GenericPassword | InternetPassword | UndefinedType(value: int32)

  /** The `kSecClass` constant of each item type. */
  function ClassHandle(t: KeychainItemType): (h: Handle)
    requires !t.UndefinedType?
    ensures h == kSecClassGenericPassword || h == kSecClassInternetPassword
  {
    if t.GenericPassword? then kSecClassGenericPassword else kSecClassInternetPassword
  }

  /** The message of a parameterless `InvalidOperationException`. */
  const InvalidOperationMessage := "Operation is not valid due to the current state of the object."

  /** The five string attributes an item exposes. */
  datatype StringAttribute = Account | Label | Service | Server | Path {
    /** The dictionary key the attribute is stored under. */
    function Key(): Handle {
      match this
      case Account => kSecAttrAccount
      case Label => kSecAttrLabel
      case Service => kSecAttrService
      case Server => kSecAttrServer
      case Path => kSecAttrPath
    }
  }

  /** The object stored under `key` in the dictionary `d`, if any. */
  ghost function ValueObject(objects: map<Handle, CFObject>, d: Handle, key: Handle): Option<CFObject>
    requires d in objects && objects[d].DictionaryObj?
  {
    if key in objects[d].values && objects[d].values[key] in objects
    then Some(objects[objects[d].values[key]])
    else None
  }

  /** What the `Type` getter reads: the class constant under `kSecClass`, by identity. */
  ghost function TypeAt(objects: map<Handle, CFObject>, d: Handle): Result<KeychainItemType, Exception>
    requires d in objects && objects[d].DictionaryObj?
  {
    var value := if kSecClass in objects[d].values then objects[d].values[kSecClass] else Null;
    if value == kSecClassGenericPassword then Success(GenericPassword)
    else if value == kSecClassInternetPassword then Success(InternetPassword)
    else Failure(InvalidOperationException(InvalidOperationMessage))
  }

  /** A string value, up to its first U+0000 (what `CFString.ToString` gives). */
  function TextOf(o: Option<CFObject>): Option<string> {
    if o.Some? && o.value.StringObj? then Some(PrefixBeforeNul(o.value.text)) else None
  }

  /** A four-character code stored as a string, read back by `FourCharCodeUtils.ToUInt32`; absent is `Any`. */
  function CodeOf(o: Option<CFObject>): Result<uint32, Exception> {
    if o.Some? && o.value.StringObj? then FourCharCode.ToUInt32(PrefixBeforeNul(o.value.text)) else Success(0)
  }

  /** The bytes of a data value. */
  function BytesOf(o: Option<CFObject>): Option<seq<byte>> {
    if o.Some? && o.value.DataObj? then Some(o.value.bytes) else None
  }

  /** A number value read as a `short`: 0 when absent or out of range. */
  function PortOf(o: Option<CFObject>): int16 {
    if o.Some? && o.value.NumberObj? && SInt16Type.Fits(o.value.value) then o.value.value else 0
  }

  /** Everything an item's getters read. */
  datatype ItemFields = ItemFields(
    itemType: Result<KeychainItemType, Exception>,
    authenticationType: Result<uint32, Exception>,
    protocol: Result<uint32, Exception>,
    data: Option<seq<byte>>,
    account: Option<string>,
    itemLabel: Option<string>,
    service: Option<string>,
    server: Option<string>,
    path: Option<string>,
    port: int16)

  /** The item the dictionary `d` describes. */
  ghost function Fields(objects: map<Handle, CFObject>, d: Handle): ItemFields
    requires d in objects && objects[d].DictionaryObj?
  {
    ItemFields(
      TypeAt(objects, d),
      CodeOf(ValueObject(objects, d, kSecAttrAuthenticationType)),
      CodeOf(ValueObject(objects, d, kSecAttrProtocol)),
      BytesOf(ValueObject(objects, d, kSecValueData)),
      TextOf(ValueObject(objects, d, kSecAttrAccount)),
      TextOf(ValueObject(objects, d, kSecAttrLabel)),
      TextOf(ValueObject(objects, d, kSecAttrService)),
      TextOf(ValueObject(objects, d, kSecAttrServer)),
      TextOf(ValueObject(objects, d, kSecAttrPath)),
      PortOf(ValueObject(objects, d, kSecAttrPort)))
  }

  /** What a new item of type `t` reads: its type, and nothing else set. */
  function NewFields(t: KeychainItemType): ItemFields
    requires !t.UndefinedType?
  {
    ItemFields(Success(t), Success(0), Success(0), None, None, None, None, None, None, 0)
  }

  /** The value under `key`, if any, is an object a wrapper of `kind` may read. */
  ghost predicate ValueOfKind(objects: map<Handle, CFObject>, d: Handle, key: Handle, kind: CFKind)
    requires d in objects && objects[d].DictionaryObj?
  {
    ValueObject(objects, d, key).Some? ==> OfKind(ValueObject(objects, d, key).value, kind)
  }

  /** The heap after `SetValue(key, h)` on the dictionary `d`, where `h` is the new object `o`. */
  ghost function PutNew(objects: map<Handle, CFObject>, d: Handle, key: Handle, h: Handle, o: CFObject): map<Handle, CFObject>
    requires d in objects && objects[d].DictionaryObj?
  {
    objects[h := o][d := DictionarySet(objects[d], key, h)]
  }

  /** `KeychainItem`: an item described by the attribute dictionary it wraps. */
  class KeychainItem {
    const dict: CFType

    /** `KeychainItem(CFDictionary dict)`. */
    constructor (dict: CFType)
      ensures this.dict == dict
    {
      this.dict := dict;
    }

    /** The wrapped dictionary is live. */
    ghost predicate Usable(heap: CFHeap)
      reads this, dict, heap
    {
      heap.Valid() && CFDictionary.IsDictionary(heap, dict)
    }

    /** The `Type` getter: the class constant, or `InvalidOperationException` when there is none. */
    function Type(heap: CFHeap): (r: Result<KeychainItemType, Exception>)
      reads this, dict, heap
      requires Usable(heap)
      ensures r == Fields(heap.objects, dict.handle).itemType
    {
      var value := CFDictionary.Get(heap, dict, kSecClass);
      if value == kSecClassGenericPassword then Success(GenericPassword)
      else if value == kSecClassInternetPassword then Success(InternetPassword)
      else Failure(InvalidOperationException(InvalidOperationMessage))
    }

    /** The `Type` setter: the class constant is stored; a value outside the enum is rejected. */
    method SetType(heap: CFHeap, value: KeychainItemType) returns (r: Outcome<Exception>)
      requires Usable(heap)
      modifies heap`objects
      ensures Usable(heap)
      ensures value.UndefinedType? ==> r == Fail(ArgumentOutOfRangeException) && heap.objects == old(heap.objects)
      ensures !value.UndefinedType? ==> r == Pass
      ensures !value.UndefinedType? ==>
        heap.objects == old(heap.objects)[dict.handle := DictionarySet(old(heap.objects[dict.handle]), kSecClass, ClassHandle(value))]
    {
      match value
      case GenericPassword =>
        CFDictionary.SetValue(heap, dict, kSecClass, kSecClassGenericPassword);
        r := Pass;
      case InternetPassword =>
        CFDictionary.SetValue(heap, dict, kSecClass, kSecClassInternetPassword);
        r := Pass;
      case UndefinedType(_) =>
        r := Fail(ArgumentOutOfRangeException);
    }

    /** The getter both four-character-code properties share. */
    method ReadCode(heap: CFHeap, key: Handle) returns (r: Result<uint32, Exception>)
      requires Usable(heap) && ValueOfKind(heap.objects, dict.handle, key, StringKind)
      ensures r == CodeOf(ValueObject(heap.objects, dict.handle, key))
    {
      CFDictionary.GetNullIffAbsent(heap, dict, key);
      var (found, valuePtr) := CFDictionary.TryGetValue(heap, dict, key);
      if found {
        var code := CFString.ToString(heap, valuePtr);
        r := FourCharCode.ToUInt32(code.value);
      } else {
        r := Success(0);
      }
    }

    /**
     * The setter both four-character-code properties share: zero (`Any`)
     * calls the unimplemented `Remove`; any other code is stored as a new
     * string, whose reference is never released.
     */
    method WriteCode(heap: CFHeap, key: Handle, value: uint32) returns (r: Outcome<Exception>, ghost stored: Handle)
      requires Usable(heap) && key in heap.objects
      modifies heap
      ensures Usable(heap)
      ensures value == 0 ==> r == Fail(NotImplementedException) && heap.objects == old(heap.objects) && heap.owned == old(heap.owned)
      ensures value != 0 ==> (r == Pass && stored != Null && stored !in old(heap.objects) &&
        heap.objects == PutNew(old(heap.objects), dict.handle, key, stored, StringObj(FourCharCode.ToString(value))) &&
        heap.owned == old(heap.owned) + multiset{stored})
    {
      if value == 0 {
        var removed := CFDictionary.Remove(key);
        return Fail(removed.error), Null;
      }
      var code := FourCharCode.ToString(value);
      var h := CFString.CreateHandle(heap, code);
      stored := h;
      CFDictionary.SetValue(heap, dict, key, h);
      r := Pass;
    }

    /** The `AuthenticationType` getter: the stored code, or `Any` when there is none. */
    method AuthenticationType(heap: CFHeap) returns (r: Result<uint32, Exception>)
      requires Usable(heap) && ValueOfKind(heap.objects, dict.handle, kSecAttrAuthenticationType, StringKind)
      ensures r == Fields(heap.objects, dict.handle).authenticationType
    {
      r := ReadCode(heap, kSecAttrAuthenticationType);
    }

    /** The `AuthenticationType` setter. */
    method SetAuthenticationType(heap: CFHeap, value: SecurityFramework.SecAuthenticationType)
      returns (r: Outcome<Exception>, ghost stored: Handle)
      requires Usable(heap)
      modifies heap
      ensures Usable(heap)
      ensures value.Any? ==> r == Fail(NotImplementedException) && heap.objects == old(heap.objects) && heap.owned == old(heap.owned)
      ensures !value.Any? ==> (r == Pass && stored != Null && stored !in old(heap.objects) &&
        heap.objects == PutNew(old(heap.objects), dict.handle, kSecAttrAuthenticationType, stored, StringObj(FourCharCode.ToString(value.Value()))) &&
        heap.owned == old(heap.owned) + multiset{stored})
    {
      SecurityFramework.AuthenticationFromValueInverse(value);
      r, stored := WriteCode(heap, kSecAttrAuthenticationType, value.Value());
    }

    /** The `Protocol` getter: the stored code, or `Any` when there is none. */
    method Protocol(heap: CFHeap) returns (r: Result<uint32, Exception>)
      requires Usable(heap) && ValueOfKind(heap.objects, dict.handle, kSecAttrProtocol, StringKind)
      ensures r == Fields(heap.objects, dict.handle).protocol
    {
      r := ReadCode(heap, kSecAttrProtocol);
    }

    /** The `Protocol` setter. */
    method SetProtocol(heap: CFHeap, value: SecurityFramework.SecProtocolType)
      returns (r: Outcome<Exception>, ghost stored: Handle)
      requires Usable(heap)
      modifies heap
      ensures Usable(heap)
      ensures value.Any? ==> r == Fail(NotImplementedException) && heap.objects == old(heap.objects) && heap.owned == old(heap.owned)
      ensures !value.Any? ==> (r == Pass && stored != Null && stored !in old(heap.objects) &&
        heap.objects == PutNew(old(heap.objects), dict.handle, kSecAttrProtocol, stored, StringObj(FourCharCode.ToString(value.Value()))) &&
        heap.owned == old(heap.owned) + multiset{stored})
    {
      SecurityFramework.ProtocolFromValueInverse(value);
      r, stored := WriteCode(heap, kSecAttrProtocol, value.Value());
    }

    /** The `Data` getter: a copy of the stored bytes, or null. */
    method Data(heap: CFHeap) returns (r: Option<seq<byte>>)
      requires Usable(heap) && ValueOfKind(heap.objects, dict.handle, kSecValueData, DataKind)
      ensures r == Fields(heap.objects, dict.handle).data
    {
      CFDictionary.GetNullIffAbsent(heap, dict, kSecValueData);
      var (found, valuePtr) := CFDictionary.TryGetValue(heap, dict, kSecValueData);
      if found {
        r := CFData.ToArray(heap, valuePtr);
      } else {
        r := None;
      }
    }

    /**
     * The `Data` setter: null calls the unimplemented `Remove`; bytes are
     * stored as a new data object, whose reference is never released.
     */
    method SetData(heap: CFHeap, value: Option<seq<byte>>) returns (r: Outcome<Exception>, ghost stored: Handle)
      requires Usable(heap)
      modifies heap
      ensures Usable(heap)
      ensures value.None? ==> r == Fail(NotImplementedException) && heap.objects == old(heap.objects) && heap.owned == old(heap.owned)
      ensures value.Some? ==> (r == Pass && stored != Null && stored !in old(heap.objects) &&
        heap.objects == PutNew(old(heap.objects), dict.handle, kSecValueData, stored, DataObj(value.value)) &&
        heap.owned == old(heap.owned) + multiset{stored})
    {
      if value.None? {
        var removed := CFDictionary.Remove(kSecValueData);
        return Fail(removed.error), Null;
      }
      var h := CFData.CreateHandle(heap, value.value);
      stored := h;
      CFDictionary.SetValue(heap, dict, kSecValueData, h);
      r := Pass;
    }

    /** The `Account`, `Label`, `Service`, `Server` and `Path` getters. */
    method GetText(heap: CFHeap, attribute: StringAttribute) returns (r: Option<string>)
      requires Usable(heap) && ValueOfKind(heap.objects, dict.handle, attribute.Key(), StringKind)
      ensures r == TextOf(ValueObject(heap.objects, dict.handle, attribute.Key()))
    {
      r := CFDictionary.GetString(heap, dict, attribute.Key());
    }

    /** The `Account`, `Label`, `Service`, `Server` and `Path` setters. */
    method SetText(heap: CFHeap, attribute: StringAttribute, value: Option<string>)
      returns (r: Outcome<Exception>, ghost stored: Handle)
      requires Usable(heap)
      modifies heap
      ensures Usable(heap)
      ensures value.None? ==> r == Fail(NotImplementedException) && heap.objects == old(heap.objects) && heap.owned == old(heap.owned)
      ensures value.Some? ==> (r == Pass && stored != Null && stored !in old(heap.objects) &&
        heap.objects == PutNew(old(heap.objects), dict.handle, attribute.Key(), stored, StringObj(value.value)) &&
        heap.owned == old(heap.owned) + multiset{stored})
    {
      r, stored := CFDictionary.SetString(heap, dict, attribute.Key(), value);
    }

    /** The `Port` getter: the stored number as a `short`, or 0. */
    function Port(heap: CFHeap): (r: int16)
      reads this, dict, heap
      requires Usable(heap) && ValueOfKind(heap.objects, dict.handle, kSecAttrPort, NumberKind)
      ensures r == Fields(heap.objects, dict.handle).port
    {
      CFDictionary.GetNullIffAbsent(heap, dict, kSecAttrPort);
      var (found, valuePtr) := CFDictionary.TryGetValue(heap, dict, kSecAttrPort);
      if found then CFNumber.ToInt16(heap, valuePtr) else 0
    }

    /**
     * The `Port` setter: a positive port is stored as a new `short` number,
     * whose reference is never released; any other calls the unimplemented
     * `Remove`.
     */
    method SetPort(heap: CFHeap, mem: Memory, value: int16) returns (r: Outcome<Exception>, ghost stored: Handle)
      requires Usable(heap) && mem.Valid()
      modifies heap, mem
      ensures Usable(heap) && mem.Valid() && mem.allocs == old(mem.allocs)
      ensures value <= 0 ==> r == Fail(NotImplementedException) && heap.objects == old(heap.objects) && heap.owned == old(heap.owned)
      ensures value > 0 ==> (r == Pass && stored != Null && stored !in old(heap.objects) &&
        heap.objects == PutNew(old(heap.objects), dict.handle, kSecAttrPort, stored, NumberObj(ShortType, value)) &&
        heap.owned == old(heap.owned) + multiset{stored})
    {
      if value <= 0 {
        var removed := CFDictionary.Remove(kSecAttrPort);
        return Fail(removed.error), Null;
      }
      var h := CFNumber.CreateHandleInt16(heap, mem, value);
      stored := h;
      CFDictionary.SetValue(heap, dict, kSecAttrPort, h);
      r := Pass;
    }

    /** `Dispose`: disposes the dictionary wrapper. */
    method Dispose(heap: CFHeap)
      requires heap.Valid() && (dict.WillRelease() ==> dict.handle in heap.owned)
      modifies dict`closed, heap`owned
      ensures heap.Valid() && dict.closed
      ensures old(dict.WillRelease()) ==> heap.owned == old(heap.owned) - multiset{dict.handle}
      ensures !old(dict.WillRelease()) ==> heap.owned == old(heap.owned)
    {
      dict.Dispose(heap);
    }
  }

  /**
   * `new KeychainItem(type)`: an item around a new empty dictionary of
   * capacity 32, with its type set; a type outside the enum is rejected
   * (the dictionary wrapper is then left to its finaliser).
   */
  method NewKeychainItem(heap: CFHeap, itemType: KeychainItemType) returns (r: Result<KeychainItem, Exception>)
    requires heap.Valid()
    modifies heap
    ensures heap.Valid()
    ensures r.Success? <==> !itemType.UndefinedType?
    ensures r.Failure? ==> r.error == ArgumentOutOfRangeException
    ensures r.Success? ==> fresh(r.value) && fresh(r.value.dict) && r.value.Usable(heap)
    ensures r.Success? ==> r.value.dict.ownsHandle && !r.value.dict.closed && r.value.dict.handle !in old(heap.objects)
    ensures r.Success? ==> Fields(heap.objects, r.value.dict.handle) == NewFields(itemType)
    ensures exists h :: heap.owned == old(heap.owned) + multiset{h}
  {
    var dict := CFDictionary.New(heap, 32);
    var item := new KeychainItem(dict);
    var typeSet := item.SetType(heap, itemType);
    assert heap.owned == old(heap.owned) + multiset{dict.handle};
    if typeSet.Fail? {
      return Failure(typeSet.error);
    }
    NewItemFields(heap.objects, dict.handle, itemType);
    return Success(item);
  }

  /** A dictionary holding only a class constant reads as a new item of that type. */
  lemma NewItemFields(objects: map<Handle, CFObject>, d: Handle, t: KeychainItemType)
    requires !t.UndefinedType? && d in objects
    requires objects[d] == DictionarySet(DictionaryObj(map[], []), kSecClass, ClassHandle(t))
    ensures Fields(objects, d) == NewFields(t)
  {
  }

  // ---------------------------------------------------------------- setter and getter pairs

  /** Every getter reads the same from `a` as from `b`. */
  predicate SameReads(a: Option<CFObject>, b: Option<CFObject>) {
    TextOf(a) == TextOf(b) && CodeOf(a) == CodeOf(b) && BytesOf(a) == BytesOf(b) && PortOf(a) == PortOf(b)
  }

  /**
   * `after` is `objects` with the dictionary `d` given a value under `key`
   * and perhaps new objects; nothing else that existed changed.
   */
  ghost predicate StoredUnder(objects: map<Handle, CFObject>, after: map<Handle, CFObject>, d: Handle, key: Handle)
  {
    d in objects && objects[d].DictionaryObj? && d in after && after[d].DictionaryObj? &&
    key in after[d].values && after[d].values == objects[d].values[key := after[d].values[key]] &&
    (forall g :: g in objects && g != d ==> g in after && after[g] == objects[g])
  }

  /**
   * A key other than the one stored under reads the same afterwards: its
   * value is the same object, or the dictionary itself, which no getter reads.
   */
  lemma {:induction false} KeyKept(objects: map<Handle, CFObject>, after: map<Handle, CFObject>, d: Handle, key: Handle, other: Handle)
    requires AllWellformed(objects) && StoredUnder(objects, after, d, key) && other != key
    ensures SameReads(ValueObject(after, d, other), ValueObject(objects, d, other))
  {
    if other in objects[d].values {
      assert Wellformed(objects[d], objects);
      var v := objects[d].values[other];
      assert v in objects && after[d].values[other] == v;
      if v != d {
        assert after[v] == objects[v];
      }
    }
  }

  /** The type, the codes, the data and the port survive a store under another key. */
  lemma {:induction false} OthersKeptNonText(objects: map<Handle, CFObject>, after: map<Handle, CFObject>, d: Handle, key: Handle)
    requires AllWellformed(objects) && StoredUnder(objects, after, d, key)
    ensures var f := Fields(objects, d);
      var g := Fields(after, d);
      (key != kSecClass ==> g.itemType == f.itemType) &&
      (key != kSecAttrAuthenticationType ==> g.authenticationType == f.authenticationType) &&
      (key != kSecAttrProtocol ==> g.protocol == f.protocol) &&
      (key != kSecValueData ==> g.data == f.data) &&
      (key != kSecAttrPort ==> g.port == f.port)
  {
    if key != kSecAttrAuthenticationType { KeyKept(objects, after, d, key, kSecAttrAuthenticationType); }
    if key != kSecAttrProtocol { KeyKept(objects, after, d, key, kSecAttrProtocol); }
    if key != kSecValueData { KeyKept(objects, after, d, key, kSecValueData); }
    if key != kSecAttrPort { KeyKept(objects, after, d, key, kSecAttrPort); }
  }

  /** The text properties survive a store under another key. */
  lemma {:induction false} OthersKeptText(objects: map<Handle, CFObject>, after: map<Handle, CFObject>, d: Handle, key: Handle)
    requires AllWellformed(objects) && StoredUnder(objects, after, d, key)
    ensures var f := Fields(objects, d);
      var g := Fields(after, d);
      (key != kSecAttrAccount ==> g.account == f.account) &&
      (key != kSecAttrLabel ==> g.itemLabel == f.itemLabel) &&
      (key != kSecAttrService ==> g.service == f.service) &&
      (key != kSecAttrServer ==> g.server == f.server) &&
      (key != kSecAttrPath ==> g.path == f.path)
  {
    if key != kSecAttrAccount { KeyKept(objects, after, d, key, kSecAttrAccount); }
    if key != kSecAttrLabel { KeyKept(objects, after, d, key, kSecAttrLabel); }
    if key != kSecAttrService { KeyKept(objects, after, d, key, kSecAttrService); }
    if key != kSecAttrServer { KeyKept(objects, after, d, key, kSecAttrServer); }
    if key != kSecAttrPath { KeyKept(objects, after, d, key, kSecAttrPath); }
  }

  /** After a value is stored under `key`, every getter reading another key gives what it gave before. */
  lemma {:induction false} OthersKept(objects: map<Handle, CFObject>, after: map<Handle, CFObject>, d: Handle, key: Handle)
    requires AllWellformed(objects) && StoredUnder(objects, after, d, key)
    ensures var f := Fields(objects, d);
      var g := Fields(after, d);
      (key != kSecClass ==> g.itemType == f.itemType) &&
      (key != kSecAttrAuthenticationType ==> g.authenticationType == f.authenticationType) &&
      (key != kSecAttrProtocol ==> g.protocol == f.protocol) &&
      (key != kSecValueData ==> g.data == f.data) &&
      (key != kSecAttrAccount ==> g.account == f.account) &&
      (key != kSecAttrLabel ==> g.itemLabel == f.itemLabel) &&
      (key != kSecAttrService ==> g.service == f.service) &&
      (key != kSecAttrServer ==> g.server == f.server) &&
      (key != kSecAttrPath ==> g.path == f.path) &&
      (key != kSecAttrPort ==> g.port == f.port)
  {
    OthersKeptNonText(objects, after, d, key);
    OthersKeptText(objects, after, d, key);
  }

  /** Storing a new object is storing under `key`. */
  lemma PutNewStores(objects: map<Handle, CFObject>, d: Handle, key: Handle, h: Handle, o: CFObject)
    requires d in objects && objects[d].DictionaryObj? && h !in objects
    ensures StoredUnder(objects, PutNew(objects, d, key, h, o), d, key)
  {
  }

  /** The object just stored under `key` is what a read of `key` finds. */
  lemma StoredIsRead(objects: map<Handle, CFObject>, d: Handle, key: Handle, h: Handle, o: CFObject)
    requires d in objects && objects[d].DictionaryObj? && h !in objects
    ensures ValueObject(PutNew(objects, d, key, h, o), d, key) == Some(o)
  {
  }

  /** A named four-character code survives `ToString`, storage as a string, and `ToUInt32`. */
  lemma {:induction false} CodeSurvives(tag: string, value: uint32)
    requires |tag| == 4 && IsAscii(tag) && '\0' !in tag
    requires FourCharCode.ToUInt32(tag) == Success(value)
    ensures CodeOf(Some(StringObj(FourCharCode.ToString(value)))) == Success(value)
  {
    FourCharCode.TagRoundTrip(tag);
    assert FourCharCode.ToString(value) == tag;
    CFString.ToStringWhole(tag);
  }

  /**
   * Setting a protocol other than `Any` and reading it back gives that
   * protocol; every other getter reads what it read before.
   */
  lemma {:induction false} SetProtocolThenGet(objects: map<Handle, CFObject>, d: Handle, h: Handle, p: SecurityFramework.SecProtocolType)
    requires AllWellformed(objects) && d in objects && objects[d].DictionaryObj? && h !in objects
    requires !p.Any?
    ensures Fields(PutNew(objects, d, kSecAttrProtocol, h, StringObj(FourCharCode.ToString(p.Value()))), d)
      == Fields(objects, d).(protocol := Success(p.Value()))
  {
    var o := StringObj(FourCharCode.ToString(p.Value()));
    PutNewStores(objects, d, kSecAttrProtocol, h, o);
    OthersKept(objects, PutNew(objects, d, kSecAttrProtocol, h, o), d, kSecAttrProtocol);
    StoredIsRead(objects, d, kSecAttrProtocol, h, o);
    ProtocolReadsBack(p);
  }

  /** A protocol other than `Any`, stored as its four-character string, reads back as itself. */
  lemma {:induction false} ProtocolReadsBack(p: SecurityFramework.SecProtocolType)
    requires !p.Any?
    ensures CodeOf(Some(StringObj(FourCharCode.ToString(p.Value())))) == Success(p.Value())
  {
    SecurityFramework.ProtocolTagValues(p);
    SecurityFramework.ProtocolTags(p);
    assert '\0' !in p.Tag();
    CodeSurvives(p.Tag(), p.Value());
  }

  /**
   * Setting an authentication type other than `Any` and reading it back
   * gives that type; every other getter reads what it read before.
   */
  lemma {:induction false} SetAuthenticationTypeThenGet(objects: map<Handle, CFObject>, d: Handle, h: Handle,
                                                        a: SecurityFramework.SecAuthenticationType)
    requires AllWellformed(objects) && d in objects && objects[d].DictionaryObj? && h !in objects
    requires !a.Any?
    ensures Fields(PutNew(objects, d, kSecAttrAuthenticationType, h, StringObj(FourCharCode.ToString(a.Value()))), d)
      == Fields(objects, d).(authenticationType := Success(a.Value()))
  {
    var o := StringObj(FourCharCode.ToString(a.Value()));
    PutNewStores(objects, d, kSecAttrAuthenticationType, h, o);
    OthersKept(objects, PutNew(objects, d, kSecAttrAuthenticationType, h, o), d, kSecAttrAuthenticationType);
    StoredIsRead(objects, d, kSecAttrAuthenticationType, h, o);
    AuthenticationTypeReadsBack(a);
  }

  /** An authentication type other than `Any`, stored as its four-character string, reads back as itself. */
  lemma {:induction false} AuthenticationTypeReadsBack(a: SecurityFramework.SecAuthenticationType)
    requires !a.Any?
    ensures CodeOf(Some(StringObj(FourCharCode.ToString(a.Value())))) == Success(a.Value())
  {
    SecurityFramework.AuthenticationTagValues(a);
    SecurityFramework.AuthenticationTags(a);
    assert '\0' !in a.Tag();
    CodeSurvives(a.Tag(), a.Value());
  }

  /** Setting data and reading it back gives the same bytes; every other getter is unchanged. */
  lemma {:induction false} SetDataThenGet(objects: map<Handle, CFObject>, d: Handle, h: Handle, bytes: seq<byte>)
    requires AllWellformed(objects) && d in objects && objects[d].DictionaryObj? && h !in objects
    ensures Fields(PutNew(objects, d, kSecValueData, h, DataObj(bytes)), d) == Fields(objects, d).(data := Some(bytes))
  {
    PutNewStores(objects, d, kSecValueData, h, DataObj(bytes));
    OthersKept(objects, PutNew(objects, d, kSecValueData, h, DataObj(bytes)), d, kSecValueData);
    StoredIsRead(objects, d, kSecValueData, h, DataObj(bytes));
  }

  /** Setting a positive port and reading it back gives that port; every other getter is unchanged. */
  lemma {:induction false} SetPortThenGet(objects: map<Handle, CFObject>, d: Handle, h: Handle, port: int16)
    requires AllWellformed(objects) && d in objects && objects[d].DictionaryObj? && h !in objects
    requires port > 0
    ensures Fields(PutNew(objects, d, kSecAttrPort, h, NumberObj(ShortType, port)), d) == Fields(objects, d).(port := port)
  {
    PutNewStores(objects, d, kSecAttrPort, h, NumberObj(ShortType, port));
    OthersKept(objects, PutNew(objects, d, kSecAttrPort, h, NumberObj(ShortType, port)), d, kSecAttrPort);
    StoredIsRead(objects, d, kSecAttrPort, h, NumberObj(ShortType, port));
  }

  /**
   * Setting a string attribute and reading it back gives the string up to
   * its first U+0000 (all of it when it has none); every other getter is
   * unchanged.
   */
  lemma {:induction false} SetTextThenGet(objects: map<Handle, CFObject>, d: Handle, h: Handle,
                                          attribute: StringAttribute, s: string)
    requires AllWellformed(objects) && d in objects && objects[d].DictionaryObj? && h !in objects
    ensures var g := Fields(PutNew(objects, d, attribute.Key(), h, StringObj(s)), d);
      var f := Fields(objects, d);
      g == (match attribute
            case Account => f.(account := Some(PrefixBeforeNul(s)))
            case Label => f.(itemLabel := Some(PrefixBeforeNul(s)))
            case Service => f.(service := Some(PrefixBeforeNul(s)))
            case Server => f.(server := Some(PrefixBeforeNul(s)))
            case Path => f.(path := Some(PrefixBeforeNul(s))))
  {
    PutNewStores(objects, d, attribute.Key(), h, StringObj(s));
    OthersKept(objects, PutNew(objects, d, attribute.Key(), h, StringObj(s)), d, attribute.Key());
    StoredIsRead(objects, d, attribute.Key(), h, StringObj(s));
  }

  /** Setting a type and reading it back gives that type; every other getter is unchanged. */
  lemma {:induction false} SetTypeThenGet(objects: map<Handle, CFObject>, d: Handle, t: KeychainItemType)
    requires AllWellformed(objects) && d in objects && objects[d].DictionaryObj? && !t.UndefinedType?
    ensures Fields(objects[d := DictionarySet(objects[d], kSecClass, ClassHandle(t))], d) == Fields(objects, d).(itemType := Success(t))
  {
    var after := objects[d := DictionarySet(objects[d], kSecClass, ClassHandle(t))];
    OthersKept(objects, after, d, kSecClass);
  }
}

/**
 * The query-based half of `Keychain`: `FindItem`, `FindItems`, `DeleteItem`
 * and `AddItem` take an item whose dictionary is the query. The framework's
 * answers (`SecItemCopyMatching`, `SecItemDelete`, `SecItemAdd`) are the
 * `status` and `result` arguments.
 */
module KeychainQueries {
  import opened Numeric
  import opened Wrappers
  import opened Exceptions
  import opened CoreFoundation
  import opened CFTypes
  import opened KeychainServices
  import opened Keychain
  import CFArray
  import CFDictionary

  /** An `IKeychainItem` argument: a `KeychainItem`, or anything else (another implementation, or null). */
  datatype ItemArgument = Item(item: KeychainItem) | NotKeychainItem

  /** The exception a query that is not a `KeychainItem` raises. */
  const NotKeychainItemError := ArgumentException("Must be of type KeychainItem")

  /** The argument is a `KeychainItem` whose dictionary is live. */
  ghost predicate UsableArgument(heap: CFHeap, a: ItemArgument)
    reads heap, if a.Item? then {a.item, a.item.dict} else {}
  {
    a.Item? ==> a.item.Usable(heap)
  }

  /**
   * The query dictionary after the three `Add` calls of a search: the match
   * limit, "return attributes" and "return data" are set where the query
   * does not set them already.
   */
  function WithSearchOptions(d: CFObject, limit: Handle, returnData: bool): (r: CFObject)
    requires d.DictionaryObj?
    ensures r.DictionaryObj?
  {
    var withLimit := DictionaryAdd(d, kSecMatchLimit, limit);
    var withAttributes := DictionaryAdd(withLimit, kSecReturnAttributes, kCFBooleanTrue);
    DictionaryAdd(withAttributes, kSecReturnData, if returnData then kCFBooleanTrue else kCFBooleanFalse)
  }

  /**
   * A search keeps every key the query already has, with its value, and adds
   * the three options: a query that already names a match limit keeps it.
   */
  lemma {:induction false} SearchKeepsQuery(d: CFObject, limit: Handle, returnData: bool)
    requires d.DictionaryObj?
    ensures var r := WithSearchOptions(d, limit, returnData);
      r.values.Keys == d.values.Keys + {kSecMatchLimit, kSecReturnAttributes, kSecReturnData} &&
      (forall k :: k in d.values ==> r.values[k] == d.values[k]) &&
      r.values[kSecMatchLimit] == (if kSecMatchLimit in d.values then d.values[kSecMatchLimit] else limit)
  {
    var withLimit := DictionaryAdd(d, kSecMatchLimit, limit);
    var withAttributes := DictionaryAdd(withLimit, kSecReturnAttributes, kCFBooleanTrue);
    AddThenGetKeeps(d, kSecMatchLimit, limit);
    AddThenGetKeeps(withLimit, kSecReturnAttributes, kCFBooleanTrue);
    AddThenGetKeeps(withAttributes, kSecReturnData, if returnData then kCFBooleanTrue else kCFBooleanFalse);
  }

  /** `CFDictionaryAddValue` keeps every existing entry and makes sure `key` has one. */
  lemma AddThenGetKeeps(d: CFObject, key: Handle, value: Handle)
    requires d.DictionaryObj?
    ensures DictionaryAdd(d, key, value).values.Keys == d.values.Keys + {key}
    ensures forall k :: k in d.values ==> DictionaryAdd(d, key, value).values[k] == d.values[k]
    ensures key !in d.values ==> DictionaryAdd(d, key, value).values[key] == value
  {
  }

  /**
   * The same query object used by `FindItems` and then by `FindItem` still
   * asks for all matches: the second search's `Add` does not replace the
   * first one's limit.
   */
  lemma ReusedQueryKeepsAllLimit(d: CFObject, returnData: bool)
    requires d.DictionaryObj? && kSecMatchLimit !in d.values
    ensures WithSearchOptions(WithSearchOptions(d, kSecMatchLimitAll, false), kSecMatchLimitOne, returnData)
      .values[kSecMatchLimit] == kSecMatchLimitAll
  {
    SearchKeepsQuery(d, kSecMatchLimitAll, false);
    SearchKeepsQuery(WithSearchOptions(d, kSecMatchLimitAll, false), kSecMatchLimitOne, returnData);
  }

  /** The switch every query call ends with: `OK`, not found, or the exception for the code. */
  function StatusOutcome<T>(status: int32, found: T, notFound: T): (r: Result<T, Exception>)
    ensures status == OK ==> r == Success(found)
    ensures status == ErrorSecItemNotFound ==> r == Success(notFound)
    ensures status != OK && status != ErrorSecItemNotFound ==> r == Failure(Throw(status))
  {
    if status == OK then Success(found)
    else if status == ErrorSecItemNotFound then Success(notFound)
    else Failure(Throw(status))
  }

  /** The three search options added to the query's dictionary. */
  method AddSearchOptions(heap: CFHeap, query: KeychainItem, limit: Handle, returnData: bool)
    requires query.Usable(heap) && limit in heap.objects
    modifies heap`objects
    ensures query.Usable(heap)
    ensures heap.objects == old(heap.objects)[query.dict.handle := WithSearchOptions(old(heap.objects[query.dict.handle]), limit, returnData)]
  {
    CFDictionary.Add(heap, query.dict, kSecMatchLimit, limit);
    CFDictionary.Add(heap, query.dict, kSecReturnAttributes, kCFBooleanTrue);
    CFDictionary.Add(heap, query.dict, kSecReturnData, if returnData then kCFBooleanTrue else kCFBooleanFalse);
  }

  /**
   * `FindItem(query, returnData)`: at most one match, with its attributes
   * and, when asked, its data. A match comes back as an item around the
   * result, wrapped without ownership: the reference the search returned is
   * never given back.
   */
  method FindItem(heap: CFHeap, query: ItemArgument, returnData: bool, status: int32, result: CFObject)
    returns (r: Result<Option<KeychainItem>, Exception>)
    requires heap.Valid() && UsableArgument(heap, query)
    requires query.Item? && status == OK ==> Wellformed(result, heap.objects)
    modifies heap
    ensures heap.Valid()
    ensures query.NotKeychainItem? ==>
      r == Failure(NotKeychainItemError) && heap.objects == old(heap.objects) && heap.owned == old(heap.owned)
    ensures query.Item? ==> query.item.Usable(heap)
    ensures query.Item? ==>
      heap.objects[query.item.dict.handle] == WithSearchOptions(old(heap.objects[query.item.dict.handle]), kSecMatchLimitOne, returnData)
    ensures query.Item? && status != OK ==>
      r == StatusOutcome(status, None, None) && heap.owned == old(heap.owned)
    ensures query.Item? && status == OK ==>
      r.Success? && r.value.Some? && fresh(r.value.value) && fresh(r.value.value.dict) &&
      r.value.value.dict.kind == DictionaryKind && !r.value.value.dict.ownsHandle &&
      r.value.value.dict.handle !in old(heap.objects) && r.value.value.dict.handle in heap.objects &&
      heap.objects[r.value.value.dict.handle] == result &&
      heap.owned == old(heap.owned) + multiset{r.value.value.dict.handle}
  {
    if !query.Item? {
      return Failure(NotKeychainItemError);
    }
    var kcQuery := query.item;
    AddSearchOptions(heap, kcQuery, kSecMatchLimitOne, returnData);
    var copyResult, resultPtr := ItemCopyMatching(heap, kcQuery.dict.handle, status, result);
    if copyResult == OK {
      var dict := Wrap(DictionaryKind, resultPtr, false);
      var item := new KeychainItem(dict);
      return Success(Some(item));
    }
    return StatusOutcome(copyResult, None, None);
  }

  /** The dictionaries among `items`, in order. */
  ghost function DictionaryElements(objects: map<Handle, CFObject>, items: seq<Handle>): (r: seq<Handle>)
    requires forall i :: 0 <= i < |items| ==> items[i] in objects
    ensures |r| <= |items|
    ensures forall h :: h in r ==> h in items && objects[h].DictionaryObj?
  {
    if items == [] then []
    else (if objects[items[0]].DictionaryObj? then [items[0]] else []) + DictionaryElements(objects, items[1..])
  }

  /** Taking one more element keeps the dictionaries found so far, and adds it if it is one. */
  lemma {:induction false} DictionaryElementsAppend(objects: map<Handle, CFObject>, items: seq<Handle>, i: nat)
    requires forall k :: 0 <= k < |items| ==> items[k] in objects
    requires i < |items|
    ensures DictionaryElements(objects, items[..i + 1]) ==
      DictionaryElements(objects, items[..i]) + (if objects[items[i]].DictionaryObj? then [items[i]] else [])
    decreases i
  {
    if i == 0 {
      assert items[..1][1..] == [];
    } else {
      assert items[..i + 1][1..] == items[1..][..i];
      assert items[..i][1..] == items[1..][..i - 1];
      DictionaryElementsAppend(objects, items[1..], i - 1);
    }
  }

  /** The items wrap, in order, the dictionaries listed in `handles`. */
  ghost predicate ItemsFor(items: seq<KeychainItem>, handles: seq<Handle>)
    reads set i | 0 <= i < |items| :: items[i].dict
  {
    |items| == |handles| && forall i :: 0 <= i < |items| ==> items[i].dict.handle == handles[i]
  }

  /**
   * `FindItems(query)`: every match, with its attributes but not its data.
   * The result array's elements become wrappers (one of an unregistered
   * type fails the whole call, as `CFArray.ToArray` does), and each
   * dictionary among them becomes an item, in the array's order. The
   * reference to the array itself is never given back.
   */
  method FindItems(heap: CFHeap, query: ItemArgument, status: int32, result: CFObject, describe: uint32 -> string)
    returns (r: Result<seq<KeychainItem>, Exception>)
    requires heap.Valid() && UsableArgument(heap, query)
    requires query.Item? && status == OK ==> result.ArrayObj? && Wellformed(result, heap.objects)
    modifies heap
    ensures heap.Valid()
    ensures query.NotKeychainItem? ==>
      r == Failure(NotKeychainItemError) && heap.objects == old(heap.objects) && heap.owned == old(heap.owned)
    ensures query.Item? ==> query.item.Usable(heap)
    ensures query.Item? ==>
      heap.objects[query.item.dict.handle] == WithSearchOptions(old(heap.objects[query.item.dict.handle]), kSecMatchLimitAll, false)
    ensures query.Item? && status != OK ==> r == StatusOutcome(status, [], []) && heap.owned == old(heap.owned)
    ensures query.Item? && status == OK ==> forall i :: 0 <= i < |result.items| ==> result.items[i] in heap.objects
    ensures query.Item? && status == OK && r.Success? ==>
      ItemsFor(r.value, DictionaryElements(heap.objects, result.items)) &&
      (forall i :: 0 <= i < |r.value| ==> fresh(r.value[i]) && !r.value[i].dict.ownsHandle && r.value[i].Usable(heap)) &&
      exists h :: h !in old(heap.objects) && h in heap.objects && heap.objects[h] == result && heap.owned == old(heap.owned) + multiset{h}
    ensures query.Item? && status == OK && r.Failure? ==> r.error.PlainException?
  {
    if !query.Item? {
      return Failure(NotKeychainItemError);
    }
    var kcQuery := query.item;
    AddSearchOptions(heap, kcQuery, kSecMatchLimitAll, false);
    var copyResult, resultPtr := ItemCopyMatching(heap, kcQuery.dict.handle, status, result);
    if copyResult != OK {
      return StatusOutcome(copyResult, [], []);
    }
    assert heap.objects[resultPtr] == result;
    r := ArrayItems(heap, resultPtr, describe);
  }

  /**
   * The items of the array at `arr`: its elements become wrappers, and the
   * dictionaries among them items, in order.
   */
  method ArrayItems(heap: CFHeap, arr: Handle, describe: uint32 -> string) returns (r: Result<seq<KeychainItem>, Exception>)
    requires heap.Valid() && arr in heap.objects && heap.objects[arr].ArrayObj?
    requires forall i :: 0 <= i < |heap.objects[arr].items| ==> heap.objects[arr].items[i] in heap.objects
    modifies heap
    ensures heap.Valid()
    ensures forall h :: h in old(heap.objects) ==> h in heap.objects && heap.objects[h] == old(heap.objects[h])
    ensures r.Success? ==> heap.objects == old(heap.objects) && heap.owned == old(heap.owned)
    ensures r.Success? ==>
      ItemsFor(r.value, DictionaryElements(heap.objects, heap.objects[arr].items)) &&
      forall i :: 0 <= i < |r.value| ==> fresh(r.value[i]) && !r.value[i].dict.ownsHandle && r.value[i].Usable(heap)
    ensures r.Failure? ==> r.error.PlainException?
  {
    var converted := CFArray.ToArray(heap, arr, describe);
    if converted.Failure? {
      return Failure(converted.error);
    }
    var items := DictionaryItems(heap, converted.value, heap.objects[arr].items);
    return Success(items);
  }

  /** `OfType<CFDictionary>()` then `new KeychainItem(dict)`: an item per dictionary wrapper, in order. */
  method DictionaryItems(heap: CFHeap, wrappers: seq<CFType>, ghost elements: seq<Handle>) returns (items: seq<KeychainItem>)
    requires heap.Valid() && |wrappers| == |elements|
    requires forall i :: 0 <= i < |wrappers| ==>
      wrappers[i].handle == elements[i] && elements[i] in heap.objects && wrappers[i].Refers(heap) && !wrappers[i].ownsHandle
    ensures ItemsFor(items, DictionaryElements(heap.objects, elements))
    ensures forall k :: 0 <= k < |items| ==> fresh(items[k]) && !items[k].dict.ownsHandle && items[k].Usable(heap)
  {
    ghost var objects := heap.objects;
    items := [];
    var i := 0;
    while i < |wrappers|
      invariant 0 <= i <= |wrappers|
      invariant |items| == |DictionaryElements(objects, elements[..i])|
      invariant forall k :: 0 <= k < |items| ==> items[k].dict.handle == DictionaryElements(objects, elements[..i])[k]
      invariant forall k :: 0 <= k < |items| ==> fresh(items[k]) && !items[k].dict.ownsHandle
    {
      DictionaryElementsAppend(objects, elements, i);
      var w := wrappers[i];
      if w.kind == DictionaryKind {
        var item := new KeychainItem(w);
        items := items + [item];
      } else {
        assert !objects[elements[i]].DictionaryObj?;
      }
      i := i + 1;
    }
    assert elements[..i] == elements;
    forall k | 0 <= k < |items|
      ensures items[k].Usable(heap)
    {
      assert items[k].dict.handle in DictionaryElements(objects, elements);
    }
  }

  /**
   * `DeleteItem(query)`: the query is narrowed to one match (this time with
   * `SetValue`, which replaces any limit it had), then deleted; true when
   * something was deleted, false when nothing matched.
   */
  method DeleteItem(heap: CFHeap, query: ItemArgument, status: int32) returns (r: Result<bool, Exception>)
    requires heap.Valid() && UsableArgument(heap, query)
    modifies heap`objects
    ensures heap.Valid()
    ensures query.NotKeychainItem? ==> r == Failure(NotKeychainItemError) && heap.objects == old(heap.objects)
    ensures query.Item? ==> r == StatusOutcome(status, true, false)
    ensures query.Item? ==> heap.objects == old(heap.objects)[query.item.dict.handle :=
      DictionarySet(old(heap.objects[query.item.dict.handle]), kSecMatchLimit, kSecMatchLimitOne)]
  {
    if !query.Item? {
      return Failure(NotKeychainItemError);
    }
    var kcQuery := query.item;
    CFDictionary.SetValue(heap, kcQuery.dict, kSecMatchLimit, kSecMatchLimitOne);
    var deleteResult := status;
    return StatusOutcome(deleteResult, true, false);
  }

  /** `AddItem(item)`: the item's dictionary is handed to `SecItemAdd`; any code but `OK` raises. */
  function AddItem(heap: CFHeap, item: ItemArgument, status: int32): (r: Outcome<Exception>)
    ensures item.NotKeychainItem? ==> r == Fail(NotKeychainItemError)
    ensures item.Item? ==> (r.Pass? <==> status == OK)
    ensures item.Item? && status != OK ==> r == Fail(Throw(status))
  {
    if !item.Item? then Fail(NotKeychainItemError)
    else if status == OK then Pass
    else Fail(Throw(status))
  }
}

=== FILE: keychain_services.dfy ===
/**
 * The Security framework's side of the keychain calls the library makes:
 * the password items of the default keychain, and the calls that find, add,
 * modify and delete them or hand out their contents.
 *
 * A keychain item is identified by the attribute bytes the framework was
 * given, exactly as given: the framework sees each string argument only as
 * a pointer and a byte count. An item reference is a CoreFoundation object
 * naming the item's id; password data comes back in a block the caller must
 * hand to `SecKeychainItemFreeContent`, an attribute list in one it must
 * hand to `SecKeychainItemFreeAttributesAndData`.
 *
 * An OS-side failure (a locked keychain, a refused prompt) is the `fault`
 * argument: any code other than `OK` is returned as is, with nothing
 * changed. The query calls (`SecItemCopyMatching`, `SecItemDelete`,
 * `SecItemAdd`) are answered by their `status` and `result` arguments.
 */
module KeychainServices {
  import opened Numeric
  import opened Wrappers
  import opened Unicode
  import opened NativeMemory
  import opened CoreFoundation
  import SecurityFramework

  const OK: int32 := SecurityFramework.OK
  const ErrorSecItemNotFound: int32 := SecurityFramework.ErrorSecItemNotFound
  const ErrorSecDuplicateItem: int32 := SecurityFramework.ErrorSecDuplicateItem
  const ErrorSecNoSuchAttr: int32 := SecurityFramework.ErrorSecNoSuchAttr
  /** `errSecInvalidItemRef`: the reference names an item that no longer exists. */
  const ErrorSecInvalidItemRef: int32 := -25304

  /**
   * The bytes the framework reads for a string argument passed with a byte
   * count: the first `length` bytes of its UTF-8 form (the marshaller hands
   * over the whole UTF-8 form plus a zero byte); a null string is no bytes.
   */
  function Passed(s: Option<string>, length: nat): (r: seq<byte>)
    requires s.None? ==> length == 0
    requires s.Some? ==> length <= |Utf8Encode(s.value)|
    ensures |r| == length
    ensures s.Some? ==> r == Utf8Encode(s.value)[..length]
  {
    if s.None? then [] else Utf8Encode(s.value)[..length]
  }

  /**
   * The byte count the library passes for a string argument, as written:
   * `(uint)(s?.Length ?? 0)`, the string's UTF-16 length.
   */
  function LengthAsWritten(s: Option<string>): (r: nat)
    ensures s.None? ==> r == 0
    ensures s.Some? ==> r <= |Utf8Encode(s.value)|
  {
    if s.None? then 0 else (Utf16LengthBounds(s.value); Utf16Length(s.value))
  }

  /** The bytes the framework sees for a string argument, as written. */
  function ArgumentAsWritten(s: Option<string>): (r: seq<byte>)
    ensures |r| == LengthAsWritten(s)
    ensures s.Some? ==> r <= Utf8Encode(s.value)
  {
    Passed(s, LengthAsWritten(s))
  }

  /**
   * The bytes the framework sees when the byte count is that of the UTF-8
   * form: the whole UTF-8 form, and nothing for null.
   */
  function Argument(s: Option<string>): (r: seq<byte>)
    ensures r == Utf8Encode(s.GetOr(""))
  {
    Passed(s, if s.None? then 0 else |Utf8Encode(s.value)|)
  }

  /** With UTF-8 byte counts, distinct strings reach the framework as distinct arguments (null reads as empty). */
  lemma ArgumentInjective(a: Option<string>, b: Option<string>)
    requires Argument(a) == Argument(b)
    ensures a.GetOr("") == b.GetOr("")
  {
    Utf8Injective(a.GetOr(""), b.GetOr(""));
  }

  /** For ASCII text (and null) the UTF-16 length is the byte count, so both versions agree. */
  lemma ArgumentsAgreeOnAscii(s: Option<string>)
    requires s.Some? ==> IsAscii(s.value)
    ensures ArgumentAsWritten(s) == Argument(s)
  {
    if s.Some? {
      Utf16LengthBounds(s.value);
    }
  }

  /**
   * As written, "\u00E9" and "\u00E8" reach the framework as the same single
   * byte 0xC3: their UTF-16 length is 1, their UTF-8 form two bytes long.
   */
  lemma ArgumentAsWrittenCollides()
    ensures "\U{E9}" != "\U{E8}"
    ensures ArgumentAsWritten(Some("\U{E9}")) == ArgumentAsWritten(Some("\U{E8}")) == [0xC3]
  {
    assert Utf8Encode("\U{E9}") == [0xC3, 0xA9] by {
      assert "\U{E9}"[1..] == [];
    }
    assert Utf8Encode("\U{E8}") == [0xC3, 0xA8] by {
      assert "\U{E8}"[1..] == [];
    }
    assert Utf16Length("\U{E9}") == 1 by {
      assert "\U{E9}"[1..] == [];
    }
    assert Utf16Length("\U{E8}") == 1 by {
      assert "\U{E8}"[1..] == [];
    }
  }

  /** The attributes that identify a password item. */
  datatype ItemAttributes =
    | GenericAttributes(service: seq<byte>, account: seq<byte>)
    | InternetAttributes(server: seq<byte>, securityDomain: seq<byte>, account: seq<byte>, path: seq<byte>,
                         port: uint16, protocol: uint32, authenticationType: uint32)

  /** A stored item: its id (what an item reference names) and its password bytes. */
  datatype Entry = Entry(id: nat, data: seq<byte>)

  /**
   * The value of the attribute `tag` of an item: its service ("svce", generic
   * items only), its account ("acct"), and its label ("labl"), which a new
   * item takes from its service or server. Other attributes are not kept.
   */
  function AttributeValue(a: ItemAttributes, tag: uint32): (r: Option<seq<byte>>)
    ensures tag == SecurityFramework.SecKeychainAttrType.Account.Value() ==> r == Some(a.account)
    ensures r.Some? ==> tag in {SecurityFramework.SecKeychainAttrType.Service.Value(),
                               SecurityFramework.SecKeychainAttrType.Account.Value(),
                               SecurityFramework.SecKeychainAttrType.Label.Value()}
  {
    if tag == SecurityFramework.SecKeychainAttrType.Service.Value() then
      (if a.GenericAttributes? then Some(a.service) else None)
    else if tag == SecurityFramework.SecKeychainAttrType.Account.Value() then Some(a.account)
    else if tag == SecurityFramework.SecKeychainAttrType.Label.Value() then
      Some(if a.GenericAttributes? then a.service else a.server)
    else None
  }

  /** Delete of the item with id `id`: every other item stays. */
  function WithoutId(items: map<ItemAttributes, Entry>, id: nat): (r: map<ItemAttributes, Entry>)
    ensures forall a :: a in r <==> a in items && items[a].id != id
    ensures forall a :: a in r ==> r[a] == items[a]
  {
    map a | a in items && items[a].id != id :: items[a]
  }

  /** The item with id `id`, if any, holds `data` instead; nothing else changes. */
  function WithData(items: map<ItemAttributes, Entry>, id: nat, data: seq<byte>): (r: map<ItemAttributes, Entry>)
    ensures r.Keys == items.Keys
    ensures forall a :: a in items && items[a].id == id ==> r[a] == Entry(id, data)
    ensures forall a :: a in items && items[a].id != id ==> r[a] == items[a]
  {
    map a | a in items :: if items[a].id == id then Entry(id, data) else items[a]
  }

  /** The default keychain's password items. */
  class Vault {
    var items: map<ItemAttributes, Entry>
    /** The first id never handed out. */
    var nextId: nat

    /** Ids are below `nextId` and name at most one item. */
    ghost predicate Valid()
      reads this
    {
      (forall a :: a in items ==> items[a].id < nextId) &&
      (forall a, b :: a in items && b in items && items[a].id == items[b].id ==> a == b)
    }

    /** An item with id `id` exists. */
    ghost predicate HasId(id: nat)
      reads this
    {
      exists a :: a in items && items[a].id == id
    }

    /** The item with id `id` exists and keeps the attribute `tag`. */
    ghost predicate HasAttribute(id: nat, tag: uint32)
      reads this
    {
      exists a :: a in items && items[a].id == id && AttributeValue(a, tag).Some?
    }

    constructor ()
      ensures Valid() && items == map[]
    {
      items := map[];
      nextId := 0;
    }

    /**
     * `SecKeychainFindGenericPassword` / `SecKeychainFindInternetPassword`:
     * for the item with exactly these attributes, a new content block holding
     * its password bytes and a new reference to it; `ErrorSecItemNotFound`
     * when there is none. The keychain itself never changes.
     */
    method FindPassword(heap: CFHeap, mem: Memory, attrs: ItemAttributes, fault: int32)
      returns (status: int32, passwordLength: nat, passwordData: Ptr, itemRef: Handle)
      requires Valid() && heap.Valid() && mem.Valid()
      modifies heap, mem
      ensures heap.Valid() && mem.Valid()
      ensures fault != OK ==> status == fault
      ensures fault == OK && attrs !in items ==> status == ErrorSecItemNotFound
      ensures status != OK ==>
        passwordData == Zero && itemRef == Null && heap.objects == old(heap.objects) &&
        heap.owned == old(heap.owned) && mem.allocs == old(mem.allocs)
      ensures status == OK <==> fault == OK && attrs in items
      ensures status == OK ==>
        passwordLength == |items[attrs].data| && passwordData != Zero && passwordData !in old(mem.allocs) &&
        mem.allocs == old(mem.allocs)[passwordData := Allocation(KeychainContent, passwordLength)] &&
        HasBytes(mem.cells, passwordData, items[attrs].data)
      ensures status == OK ==>
        itemRef != Null && itemRef !in old(heap.objects) &&
        heap.objects == old(heap.objects)[itemRef := KeychainItemObj(items[attrs].id)] &&
        heap.owned == old(heap.owned) + multiset{itemRef}
    {
      if fault != OK {
        return fault, 0, Zero, Null;
      }
      if attrs !in items {
        return ErrorSecItemNotFound, 0, Zero, Null;
      }
      var entry := items[attrs];
      passwordData := mem.Alloc(KeychainContent, |entry.data|);
      mem.CopyIn(passwordData, entry.data, passwordData);
      itemRef := heap.Create(KeychainItemObj(entry.id));
      return OK, |entry.data|, passwordData, itemRef;
    }

    /**
     * `SecKeychainAddGenericPassword` / `SecKeychainAddInternetPassword`: a new
     * item holding `password`, and a new reference to it; an item with the
     * same attributes already there is `ErrorSecDuplicateItem`.
     */
    method AddPassword(heap: CFHeap, attrs: ItemAttributes, password: seq<byte>, fault: int32)
      returns (status: int32, itemRef: Handle)
      requires Valid() && heap.Valid()
      modifies this, heap
      ensures Valid() && heap.Valid()
      ensures fault != OK ==> status == fault
      ensures fault == OK && attrs in old(items) ==> status == ErrorSecDuplicateItem
      ensures status == OK <==> fault == OK && attrs !in old(items)
      ensures status != OK ==>
        itemRef == Null && items == old(items) && nextId == old(nextId) &&
        heap.objects == old(heap.objects) && heap.owned == old(heap.owned)
      ensures status == OK ==>
        items == old(items)[attrs := Entry(old(nextId), password)] && nextId == old(nextId) + 1 &&
        itemRef != Null && itemRef !in old(heap.objects) &&
        heap.objects == old(heap.objects)[itemRef := KeychainItemObj(old(nextId))] &&
        heap.owned == old(heap.owned) + multiset{itemRef}
    {
      if fault != OK {
        return fault, Null;
      }
      if attrs in items {
        return ErrorSecDuplicateItem, Null;
      }
      var id := nextId;
      items := items[attrs := Entry(id, password)];
      nextId := nextId + 1;
      itemRef := heap.Create(KeychainItemObj(id));
      return OK, itemRef;
    }

    /**
     * `SecKeychainItemModifyAttributesAndData(itemRef, NULL, length, data)`:
     * the referenced item holds `data` from now on; its attributes stay.
     */
    method ModifyData(heap: CFHeap, itemRef: Handle, data: seq<byte>, fault: int32) returns (status: int32)
      requires Valid() && heap.Valid()
      requires itemRef in heap.objects && heap.objects[itemRef].KeychainItemObj?
      modifies this`items
      ensures Valid()
      ensures fault != OK ==> status == fault
      ensures fault == OK && !old(HasId(heap.objects[itemRef].itemId)) ==> status == ErrorSecInvalidItemRef
      ensures status == OK <==> fault == OK && old(HasId(heap.objects[itemRef].itemId))
      ensures status != OK ==> items == old(items)
      ensures status == OK ==> items == WithData(old(items), heap.objects[itemRef].itemId, data)
    {
      if fault != OK {
        return fault;
      }
      var id := heap.objects[itemRef].itemId;
      if !exists a :: a in items && items[a].id == id {
        return ErrorSecInvalidItemRef;
      }
      items := WithData(items, id, data);
      return OK;
    }

    /** `SecKeychainItemDelete(itemRef)`: the referenced item is gone; every other item stays. */
    method DeleteItem(heap: CFHeap, itemRef: Handle, fault: int32) returns (status: int32)
      requires Valid() && heap.Valid()
      requires itemRef in heap.objects && heap.objects[itemRef].KeychainItemObj?
      modifies this`items
      ensures Valid()
      ensures fault != OK ==> status == fault
      ensures fault == OK && !old(HasId(heap.objects[itemRef].itemId)) ==> status == ErrorSecInvalidItemRef
      ensures status == OK <==> fault == OK && old(HasId(heap.objects[itemRef].itemId))
      ensures status != OK ==> items == old(items)
      ensures status == OK ==> items == WithoutId(old(items), heap.objects[itemRef].itemId)
    {
      if fault != OK {
        return fault;
      }
      var id := heap.objects[itemRef].itemId;
      if !exists a :: a in items && items[a].id == id {
        return ErrorSecInvalidItemRef;
      }
      items := WithoutId(items, id);
      return OK;
    }

    /**
     * `SecKeychainItemCopyAttributesAndData` for one attribute, without the
     * data: a new attribute-list block holding a one-element list whose
     * attribute carries the tag read at `tagPtr` and the attribute's bytes.
     * The list sits at the block's start, its attribute in the next cell, the
     * bytes after that.
     */
    method CopyAttribute(heap: CFHeap, mem: Memory, itemRef: Handle, tagPtr: Ptr, fault: int32)
      returns (status: int32, attrList: Ptr)
      requires Valid() && heap.Valid() && mem.Valid()
      requires itemRef in heap.objects && heap.objects[itemRef].KeychainItemObj?
      requires tagPtr in mem.cells && mem.cells[tagPtr].Int32Cell?
      modifies mem
      ensures mem.Valid()
      ensures fault != OK ==> status == fault
      ensures status != OK ==> attrList == Zero && mem.allocs == old(mem.allocs) && mem.cells == old(mem.cells)
      ensures status == OK ==> fault == OK && HasId(heap.objects[itemRef].itemId)
      ensures fault == OK && HasAttribute(heap.objects[itemRef].itemId, AsUInt32(old(mem.cells[tagPtr]).i)) ==> status == OK
      ensures status == OK ==> attrList != Zero && attrList !in old(mem.allocs)
      ensures status == OK ==>
        (exists a :: a in items && items[a].id == heap.objects[itemRef].itemId &&
          AttributeValue(a, AsUInt32(old(mem.cells[tagPtr]).i)).Some? &&
          AttributeStored(mem, attrList, AsUInt32(old(mem.cells[tagPtr]).i), AttributeValue(a, AsUInt32(old(mem.cells[tagPtr]).i)).value))
      ensures status == OK ==>
        mem.allocs.Keys == old(mem.allocs.Keys) + {attrList} && mem.allocs[attrList].allocator == KeychainAttributes &&
        (forall p :: p in old(mem.allocs) ==> mem.allocs[p] == old(mem.allocs[p]))
    {
      if fault != OK {
        return fault, Zero;
      }
      var id := heap.objects[itemRef].itemId;
      if !exists a :: a in items && items[a].id == id {
        return ErrorSecInvalidItemRef, Zero;
      }
      var a :| a in items && items[a].id == id;
      var tag := AsUInt32(mem.cells[tagPtr].i);
      var value := AttributeValue(a, tag);
      if value.None? {
        return ErrorSecNoSuchAttr, Zero;
      }
      attrList := NewAttributeList(mem, tag, value.value);
      assert a in items && items[a].id == id && AttributeValue(a, tag).Some? &&
        AttributeStored(mem, attrList, tag, AttributeValue(a, tag).value);
      status := OK;
    }

    /** `SecKeychainItemFreeContent(NULL, data)`: hands a content block back. */
    method FreeContent(mem: Memory, data: Ptr) returns (status: int32)
      requires mem.Valid() && data in mem.allocs && mem.allocs[data].allocator == KeychainContent
      modifies mem
      ensures mem.Valid() && status == OK
      ensures mem.allocs == old(mem.allocs) - {data}
    {
      mem.Free(data, KeychainContent);
      return OK;
    }

    /** `SecKeychainItemFreeAttributesAndData(attrList, NULL)`: hands an attribute-list block back. */
    method FreeAttributesAndData(mem: Memory, attrList: Ptr) returns (status: int32)
      requires mem.Valid() && attrList in mem.allocs && mem.allocs[attrList].allocator == KeychainAttributes
      modifies mem
      ensures mem.Valid() && status == OK
      ensures mem.allocs == old(mem.allocs) - {attrList}
    {
      mem.Free(attrList, KeychainAttributes);
      return OK;
    }
  }

  /**
   * The block at `attrList` holds a one-element attribute list whose
   * attribute has tag `tag` and the bytes `bytes`.
   */
  ghost predicate AttributeStored(mem: Memory, attrList: Ptr, tag: uint32, bytes: seq<byte>)
    reads mem
  {
    attrList in mem.cells && mem.cells[attrList].AttributeListCell? &&
    mem.cells[attrList].list.count == 1 &&
    var first := mem.cells[attrList].list.attributes;
    first in mem.cells && mem.cells[first].AttributeCell? &&
    mem.cells[first].attribute.tag == tag && mem.cells[first].attribute.length == |bytes| &&
    mem.cells[first].attribute.data != Zero && HasBytes(mem.cells, mem.cells[first].attribute.data, bytes)
  }
  /**
   * The block `SecKeychainItemCopyAttributesAndData` hands out for one
   * attribute: the list in its first cell, the attribute in the next, the
   * bytes after that.
   */
  method NewAttributeList(mem: Memory, tag: uint32, bytes: seq<byte>) returns (attrList: Ptr)
    requires mem.Valid()
    modifies mem
    ensures mem.Valid()
    ensures attrList != Zero && attrList !in old(mem.allocs)
    ensures mem.allocs == old(mem.allocs)[attrList := Allocation(KeychainAttributes, 2 + |bytes|)]
    ensures AttributeStored(mem, attrList, tag, bytes)
  {
    attrList := mem.Alloc(KeychainAttributes, 2 + |bytes|);
    mem.Write(attrList, attrList, AttributeListCell(SecKeychainAttributeList(1, attrList + 1)));
    mem.Write(attrList, attrList + 1, AttributeCell(SecKeychainAttribute(tag, |bytes|, attrList + 2)));
    mem.CopyIn(attrList, bytes, attrList + 2);
  }


  /**
   * `SecItemCopyMatching(query, out result)`: the framework's answer is
   * `status` and, on `OK`, a new object `result` the caller owns.
   */
  method ItemCopyMatching(heap: CFHeap, query: Handle, status: int32, result: CFObject)
    returns (code: int32, resultPtr: Handle)
    requires heap.Valid() && query in heap.objects && heap.objects[query].DictionaryObj?
    requires status == OK ==> Wellformed(result, heap.objects)
    modifies heap
    ensures heap.Valid() && code == status
    ensures status != OK ==> resultPtr == Null && heap.objects == old(heap.objects) && heap.owned == old(heap.owned)
    ensures status == OK ==>
      resultPtr != Null && resultPtr !in old(heap.objects) &&
      heap.objects == old(heap.objects)[resultPtr := result] &&
      heap.owned == old(heap.owned) + multiset{resultPtr}
  {
    if status != OK {
      return status, Null;
    }
    resultPtr := heap.Create(result);
    code := OK;
  }
}

=== FILE: macos_keychain.dfy ===
/**
 * `MacOSKeychain` (the root `MacOSKeychain.cs`), the secure store of the
 * `GetData`/`SetData`/`DeleteData`/`ListKeys` interface: each key names one
 * generic password item of the default keychain, whose service is the key
 * and whose account is the current user's name.
 *
 * It is built against the `NativeMethods.MacOS` of `NativeMethods.cs`, whose
 * non-partial class declares exactly the six calls it makes; its failures
 * are therefore those of `NativeMethodsLegacy.ThrowOnError`, plain
 * `Exception`s with fixed or "Unknown error" messages.
 *
 * The user name is a parameter (`Environment.UserName` is outside the
 * model), and so is the way each framework call fails (`findFault`,
 * `writeFault`, ...: `OK` for a keychain that behaves normally). Keys and
 * user names reach the framework as their whole UTF-8 form
 * (`StoreAttributes`); what the code as written passes is
 * `StoreAttributesAsWritten`.
 *
 * What each operation does to the keychain and answers is a function of the
 * keychain before it (`DataLookup`, `SetEffect`, `DeleteEffect`); the
 * methods are proved to follow those functions and to hand back every
 * native reference they receive.
 */
module MacOSKeychain {
  import opened Numeric
  import opened Wrappers
  import opened Exceptions
  import opened Unicode
  import opened NativeMemory
  import opened CoreFoundation
  import opened KeychainServices
  import NativeMethodsLegacy
  import IntPtrExtensions

  const UpdateFailedMessage: Option<string> := Some("Could not update existing item")
  const CreateFailedMessage: Option<string> := Some("Could not create new item")

  /**
   * The exception `ThrowOnError(status, message)` raises for a failing
   * status; `None` is the omitted (null) default message.
   */
  function Throw(status: int32, message: Option<string>): (e: Exception)
    requires status != OK
    ensures NativeMethodsLegacy.ThrowOnError(status, message) == Fail(e)
    ensures e.PlainException?
  {
    NativeMethodsLegacy.ThrowOnError(status, message).error
  }

  /** The item a key is stored under: service = the key, account = the user name. */
  function StoreAttributes(key: string, userName: string): (r: ItemAttributes)
    ensures r.GenericAttributes?
    ensures r.service == Utf8Encode(key) && r.account == Utf8Encode(userName)
  {
    GenericAttributes(Argument(Some(key)), Argument(Some(userName)))
  }

  /**
   * The item as written: the byte counts passed are the UTF-16 lengths
   * `key.Length` and `UserName.Length`, so the framework sees a prefix of
   * each UTF-8 form.
   */
  function StoreAttributesAsWritten(key: string, userName: string): (r: ItemAttributes)
    ensures r.GenericAttributes?
    ensures r.service <= Utf8Encode(key) && r.account <= Utf8Encode(userName)
  {
    GenericAttributes(ArgumentAsWritten(Some(key)), ArgumentAsWritten(Some(userName)))
  }

  /** Distinct keys of one user name are distinct items. */
  lemma StoreAttributesInjective(a: string, b: string, userName: string)
    requires StoreAttributes(a, userName) == StoreAttributes(b, userName)
    ensures a == b
  {
    ArgumentInjective(Some(a), Some(b));
  }

  /**
   * As written, the keys "é" and "è" name the same item, whatever
   * the user name: a value stored under one is read back under the other.
   */
  lemma KeysCollideAsWritten(userName: string)
    ensures "\U{E9}" != "\U{E8}"
    ensures StoreAttributesAsWritten("\U{E9}", userName) == StoreAttributesAsWritten("\U{E8}", userName)
  {
    ArgumentAsWrittenCollides();
  }

  /** For ASCII keys and user names both versions name the same item. */
  lemma StoreAttributesAgreeOnAscii(key: string, userName: string)
    requires IsAscii(key) && IsAscii(userName)
    ensures StoreAttributesAsWritten(key, userName) == StoreAttributes(key, userName)
  {
    ArgumentsAgreeOnAscii(Some(key));
    ArgumentsAgreeOnAscii(Some(userName));
  }

  /** No two items share an id (part of `Vault.Valid`). */
  ghost predicate UniqueIds(items: map<ItemAttributes, Entry>) {
    forall a, b :: a in items && b in items && items[a].id == items[b].id ==> a == b
  }

  /** With unique ids, rewriting the data of an item's id rewrites that item alone. */
  lemma WithDataIsUpdate(items: map<ItemAttributes, Entry>, attrs: ItemAttributes, data: seq<byte>)
    requires UniqueIds(items) && attrs in items
    ensures WithData(items, items[attrs].id, data) == items[attrs := Entry(items[attrs].id, data)]
  {
    var id := items[attrs].id;
    var written := WithData(items, id, data);
    var updated := items[attrs := Entry(id, data)];
    assert written.Keys == updated.Keys;
    forall a | a in written
      ensures written[a] == updated[a]
    {
      if a != attrs {
        assert items[a].id != id;
      }
    }
  }

  /** With unique ids, deleting an item's id deletes that item alone. */
  lemma WithoutIdIsRemoval(items: map<ItemAttributes, Entry>, attrs: ItemAttributes)
    requires UniqueIds(items) && attrs in items
    ensures WithoutId(items, items[attrs].id) == items - {attrs}
  {
    var id := items[attrs].id;
    var kept := WithoutId(items, id);
    var removed := items - {attrs};
    forall a
      ensures a in kept <==> a in removed
    {
      if a in items && a != attrs {
        assert items[a].id != id;
      }
    }
    assert kept.Keys == removed.Keys;
  }

  /**
   * What `GetData` answers: the stored bytes when the item is there, the
   * plain `Exception("Item does not exist")` of `errSecItemNotFound` when
   * it is not, and the exception of the failing status otherwise.
   */
  function DataLookup(items: map<ItemAttributes, Entry>, attrs: ItemAttributes, fault: int32)
    : (r: Result<seq<byte>, Exception>)
    ensures r.Success? <==> fault == OK && attrs in items
    ensures r.Success? ==> r.value == items[attrs].data
    ensures fault == OK && attrs !in items ==> r == Failure(PlainException("Item does not exist"))
    ensures fault != OK ==> r == Failure(Throw(fault, None))
  {
    if fault != OK then Failure(Throw(fault, None))
    else if attrs !in items then Failure(Throw(ErrorSecItemNotFound, None))
    else Success(items[attrs].data)
  }

  /**
   * `GetData(key)`: the bytes stored under the key. The content block and
   * the item reference the lookup hands out are given back either way.
   */
  method GetData(vault: Vault, heap: CFHeap, mem: Memory, key: string, userName: string, fault: int32)
    returns (r: Result<seq<byte>, Exception>)
    requires vault.Valid() && heap.Valid() && mem.Valid()
    modifies heap, mem
    ensures heap.Valid() && mem.Valid()
    ensures r == DataLookup(vault.items, StoreAttributes(key, userName), fault)
    ensures heap.owned == old(heap.owned) && mem.allocs == old(mem.allocs)
  {
    var attrs := StoreAttributes(key, userName);
    var status, passwordLength, passwordData, itemRef := vault.FindPassword(heap, mem, attrs, fault);
    var check := NativeMethodsLegacy.ThrowOnError(status, None);
    if check.Fail? {
      r := Failure(check.error);
    } else {
      r := IntPtrExtensions.ToByteArray(mem, passwordData, passwordLength, vault.items[attrs].data);
    }
    GiveBack(vault, heap, mem, passwordData, itemRef, old(mem.allocs), old(heap.owned));
  }

  /**
   * The `finally` block the three operations share: the content block and
   * the item reference the lookup handed out are given back, when there
   * are any.
   */
  method GiveBack(vault: Vault, heap: CFHeap, mem: Memory, passwordData: Ptr, itemRef: Handle,
                  ghost allocsBefore: map<Ptr, Allocation>, ghost ownedBefore: multiset<Handle>)
    requires heap.Valid() && mem.Valid()
    requires passwordData != Zero ==>
      passwordData !in allocsBefore && passwordData in mem.allocs &&
      mem.allocs[passwordData].allocator == KeychainContent &&
      mem.allocs == allocsBefore[passwordData := mem.allocs[passwordData]]
    requires passwordData == Zero ==> mem.allocs == allocsBefore
    requires itemRef != Null ==> heap.owned == ownedBefore + multiset{itemRef}
    requires itemRef == Null ==> heap.owned == ownedBefore
    modifies heap`owned, mem
    ensures heap.Valid() && mem.Valid()
    ensures mem.allocs == allocsBefore && heap.owned == ownedBefore
  {
    if passwordData != Zero {
      var _ := vault.FreeContent(mem, passwordData);
    }
    if itemRef != Null {
      heap.Release(itemRef);
    }
  }

  /**
   * What `SetData` answers and leaves in the keychain. A lookup that finds
   * the item leads to an update; any other lookup (not found, or failed)
   * leads to an add, which meets a duplicate when the item is there after
   * all. A failing write leaves the keychain as it was.
   */
  function SetEffect(items: map<ItemAttributes, Entry>, nextId: nat, attrs: ItemAttributes, data: seq<byte>,
                     findFault: int32, writeFault: int32)
    : (r: (Outcome<Exception>, map<ItemAttributes, Entry>))
    ensures r.0.Pass? <==> writeFault == OK && (findFault == OK || attrs !in items)
    ensures r.0.Fail? ==> r.1 == items
    ensures r.0.Pass? ==> attrs in r.1 && r.1[attrs].data == data
    ensures r.0.Pass? && attrs in items ==> r.1[attrs].id == items[attrs].id
    ensures r.0.Pass? && attrs !in items ==> r.1[attrs].id == nextId
    ensures forall b :: b != attrs ==> (b in r.1 <==> b in items)
    ensures forall b :: b != attrs && b in items ==> r.1[b] == items[b]
  {
    if findFault == OK && attrs in items then
      if writeFault == OK then (Pass, items[attrs := Entry(items[attrs].id, data)])
      else (Fail(Throw(writeFault, UpdateFailedMessage)), items)
    else if writeFault != OK then (Fail(Throw(writeFault, CreateFailedMessage)), items)
    else if attrs in items then (Fail(Throw(ErrorSecDuplicateItem, CreateFailedMessage)), items)
    else (Pass, items[attrs := Entry(nextId, data)])
  }

  /** The update branch: modify the item the lookup referenced. */
  method UpdateItem(vault: Vault, heap: CFHeap, itemRef: Handle, attrs: ItemAttributes, data: seq<byte>,
                    writeFault: int32)
    returns (r: Outcome<Exception>)
    requires vault.Valid() && heap.Valid() && attrs in vault.items
    requires itemRef in heap.objects && heap.objects[itemRef] == KeychainItemObj(vault.items[attrs].id)
    modifies vault`items
    ensures vault.Valid()
    ensures writeFault == OK ==> r == Pass && vault.items == old(vault.items)[attrs := Entry(old(vault.items)[attrs].id, data)]
    ensures writeFault != OK ==> r == Fail(Throw(writeFault, UpdateFailedMessage)) && vault.items == old(vault.items)
  {
    assert vault.items[attrs].id == heap.objects[itemRef].itemId;
    assert vault.HasId(heap.objects[itemRef].itemId);
    ghost var before := vault.items;
    var status := vault.ModifyData(heap, itemRef, data, writeFault);
    r := NativeMethodsLegacy.ThrowOnError(status, UpdateFailedMessage);
    if writeFault == OK {
      WithDataIsUpdate(before, attrs, data);
    }
  }

  /** The add branch: add the item, which meets a duplicate when it is there after all. */
  method AddItem(vault: Vault, heap: CFHeap, attrs: ItemAttributes, data: seq<byte>, writeFault: int32)
    returns (r: Outcome<Exception>, itemRef: Handle)
    requires vault.Valid() && heap.Valid()
    modifies vault, heap
    ensures vault.Valid() && heap.Valid()
    ensures r.Pass? <==> writeFault == OK && attrs !in old(vault.items)
    ensures writeFault != OK ==> r == Fail(Throw(writeFault, CreateFailedMessage))
    ensures writeFault == OK && attrs in old(vault.items) ==> r == Fail(Throw(ErrorSecDuplicateItem, CreateFailedMessage))
    ensures r.Fail? ==> vault.items == old(vault.items) && itemRef == Null && heap.owned == old(heap.owned)
    ensures r.Pass? ==>
      vault.items == old(vault.items)[attrs := Entry(old(vault.nextId), data)] &&
      heap.owned == old(heap.owned) + multiset{itemRef}
  {
    var addStatus;
    addStatus, itemRef := vault.AddPassword(heap, attrs, data, writeFault);
    r := NativeMethodsLegacy.ThrowOnError(addStatus, CreateFailedMessage);
  }

  /**
   * `SetData(key, data)`: the item holds `data` afterwards when the call
   * passes. The lookup's status is ignored: only whether it handed out an
   * item reference decides between update and add. Every block and
   * reference handed out is given back.
   */
  method SetData(vault: Vault, heap: CFHeap, mem: Memory, key: string, userName: string, data: seq<byte>,
                 findFault: int32, writeFault: int32)
    returns (r: Outcome<Exception>)
    requires vault.Valid() && heap.Valid() && mem.Valid()
    modifies vault, heap, mem
    ensures vault.Valid() && heap.Valid() && mem.Valid()
    ensures (r, vault.items) ==
      SetEffect(old(vault.items), old(vault.nextId), StoreAttributes(key, userName), data, findFault, writeFault)
    ensures heap.owned == old(heap.owned) && mem.allocs == old(mem.allocs)
  {
    var attrs := StoreAttributes(key, userName);
    var status, passwordLength, passwordData, itemRef := vault.FindPassword(heap, mem, attrs, findFault);
    if itemRef != Null {
      r := UpdateItem(vault, heap, itemRef, attrs, data, writeFault);
    } else {
      r, itemRef := AddItem(vault, heap, attrs, data, writeFault);
    }
    GiveBack(vault, heap, mem, passwordData, itemRef, old(mem.allocs), old(heap.owned));
  }

  /**
   * What `DeleteData` answers and leaves in the keychain: true and the item
   * gone when the lookup finds it and the delete passes; false, with nothing
   * changed, whenever the lookup hands out no reference, including when it
   * fails.
   */
  function DeleteEffect(items: map<ItemAttributes, Entry>, attrs: ItemAttributes, findFault: int32, deleteFault: int32)
    : (r: (Result<bool, Exception>, map<ItemAttributes, Entry>))
    ensures r.0 == Success(true) <==> findFault == OK && attrs in items && deleteFault == OK
    ensures r.0 == Success(false) <==> findFault != OK || attrs !in items
    ensures r.0.Failure? ==> r.0.error == Throw(deleteFault, None)
    ensures r.0 == Success(true) ==> r.1 == items - {attrs}
    ensures r.0 != Success(true) ==> r.1 == items
  {
    if findFault == OK && attrs in items then
      if deleteFault == OK then (Success(true), items - {attrs})
      else (Failure(Throw(deleteFault, None)), items)
    else (Success(false), items)
  }

  /** The delete branch: delete the item the lookup referenced. */
  method DeleteItem(vault: Vault, heap: CFHeap, itemRef: Handle, attrs: ItemAttributes, deleteFault: int32)
    returns (r: Result<bool, Exception>)
    requires vault.Valid() && heap.Valid() && attrs in vault.items
    requires itemRef in heap.objects && heap.objects[itemRef] == KeychainItemObj(vault.items[attrs].id)
    modifies vault`items
    ensures vault.Valid()
    ensures deleteFault == OK ==> r == Success(true) && vault.items == old(vault.items) - {attrs}
    ensures deleteFault != OK ==>
      r == Failure(Throw(deleteFault, None)) && vault.items == old(vault.items)
  {
    assert vault.items[attrs].id == heap.objects[itemRef].itemId;
    assert vault.HasId(heap.objects[itemRef].itemId);
    ghost var before := vault.items;
    var status := vault.DeleteItem(heap, itemRef, deleteFault);
    var check := NativeMethodsLegacy.ThrowOnError(status, None);
    if check.Fail? {
      r := Failure(check.error);
    } else {
      WithoutIdIsRemoval(before, attrs);
      r := Success(true);
    }
  }

  /**
   * `DeleteData(key)`: whether an item was deleted. Every block and
   * reference the lookup handed out is given back.
   */
  method DeleteData(vault: Vault, heap: CFHeap, mem: Memory, key: string, userName: string,
                    findFault: int32, deleteFault: int32)
    returns (r: Result<bool, Exception>)
    requires vault.Valid() && heap.Valid() && mem.Valid()
    modifies vault, heap, mem
    ensures vault.Valid() && heap.Valid() && mem.Valid()
    ensures (r, vault.items) == DeleteEffect(old(vault.items), StoreAttributes(key, userName), findFault, deleteFault)
    ensures heap.owned == old(heap.owned) && mem.allocs == old(mem.allocs)
  {
    var attrs := StoreAttributes(key, userName);
    var status, passwordLength, passwordData, itemRef := vault.FindPassword(heap, mem, attrs, findFault);
    if itemRef != Null {
      r := DeleteItem(vault, heap, itemRef, attrs, deleteFault);
    } else {
      r := Success(false);
    }
    GiveBack(vault, heap, mem, passwordData, itemRef, old(mem.allocs), old(heap.owned));
  }

  /** `ListKeys()`: not implemented in this revision. */
  function ListKeys(): (r: Result<seq<string>, Exception>)
    ensures r.Failure? && r.error.NotImplementedException?
  {
    Failure(NotImplementedException)
  }

  /** A value set under a key is what a later `GetData` of that key returns. */
  lemma SetThenGet(items: map<ItemAttributes, Entry>, nextId: nat, key: string, userName: string, data: seq<byte>,
                   findFault: int32, writeFault: int32)
    requires SetEffect(items, nextId, StoreAttributes(key, userName), data, findFault, writeFault).0.Pass?
    ensures DataLookup(SetEffect(items, nextId, StoreAttributes(key, userName), data, findFault, writeFault).1,
                       StoreAttributes(key, userName), OK) == Success(data)
  {
  }

  /** Setting one key leaves what every other key of the user reads unchanged. */
  lemma SetLeavesOtherKeys(items: map<ItemAttributes, Entry>, nextId: nat, key: string, other: string,
                           userName: string, data: seq<byte>, findFault: int32, writeFault: int32, fault: int32)
    requires key != other
    ensures DataLookup(SetEffect(items, nextId, StoreAttributes(key, userName), data, findFault, writeFault).1,
                       StoreAttributes(other, userName), fault)
         == DataLookup(items, StoreAttributes(other, userName), fault)
  {
    if StoreAttributes(other, userName) == StoreAttributes(key, userName) {
      StoreAttributesInjective(other, key, userName);
    }
  }

  /**
   * As written, setting "é" overwrites what "è" reads: the two keys reach
   * the keychain as the same item.
   */
  lemma SetOverwritesCollidingKeyAsWritten(items: map<ItemAttributes, Entry>, nextId: nat, userName: string, data: seq<byte>)
    ensures DataLookup(SetEffect(items, nextId, StoreAttributesAsWritten("\U{E9}", userName), data, OK, OK).1,
                       StoreAttributesAsWritten("\U{E8}", userName), OK)
         == Success(data)
  {
    KeysCollideAsWritten(userName);
  }

  /** As written, setting one key leaves every other key alone when the keys and the user name are ASCII. */
  lemma SetLeavesOtherAsciiKeysAsWritten(items: map<ItemAttributes, Entry>, nextId: nat, key: string, other: string,
                                         userName: string, data: seq<byte>, findFault: int32, writeFault: int32, fault: int32)
    requires key != other && IsAscii(key) && IsAscii(other) && IsAscii(userName)
    ensures DataLookup(SetEffect(items, nextId, StoreAttributesAsWritten(key, userName), data, findFault, writeFault).1,
                       StoreAttributesAsWritten(other, userName), fault)
         == DataLookup(items, StoreAttributesAsWritten(other, userName), fault)
  {
    StoreAttributesAgreeOnAscii(key, userName);
    StoreAttributesAgreeOnAscii(other, userName);
    SetLeavesOtherKeys(items, nextId, key, other, userName, data, findFault, writeFault, fault);
  }

  /**
   * A lookup that fails while the item exists turns an update into an add,
   * which the framework refuses as a duplicate: the caller sees a plain
   * `Exception("Item already exists")` and the stored value is unchanged.
   */
  lemma SetAfterFailedLookup(items: map<ItemAttributes, Entry>, nextId: nat, attrs: ItemAttributes,
                             data: seq<byte>, findFault: int32)
    requires findFault != OK && attrs in items
    ensures SetEffect(items, nextId, attrs, data, findFault, OK).0 == Fail(PlainException("Item already exists"))
    ensures SetEffect(items, nextId, attrs, data, findFault, OK).1 == items
  {
  }

  /** After a delete that reports true, reading the key raises `Exception("Item does not exist")`. */
  lemma DeleteThenGet(items: map<ItemAttributes, Entry>, key: string, userName: string,
                      findFault: int32, deleteFault: int32)
    requires DeleteEffect(items, StoreAttributes(key, userName), findFault, deleteFault).0 == Success(true)
    ensures DataLookup(DeleteEffect(items, StoreAttributes(key, userName), findFault, deleteFault).1,
                       StoreAttributes(key, userName), OK)
         == Failure(PlainException("Item does not exist"))
  {
  }

  /**
   * Deleting a key that was never set reports false and changes nothing;
   * so does a delete whose lookup fails, even when the item exists.
   */
  lemma DeleteWithoutLookupIsFalse(items: map<ItemAttributes, Entry>, attrs: ItemAttributes,
                                   findFault: int32, deleteFault: int32)
    requires findFault != OK || attrs !in items
    ensures DeleteEffect(items, attrs, findFault, deleteFault) == (Success(false), items)
  {
  }
}

=== FILE: native_memory.dfy ===
/**
 * Unmanaged memory as the marshalling layer sees it: typed cells at
 * addresses, and a table of live allocations that records which allocator
 * each block came from. A block is released by handing it back to the
 * allocator that produced it; the table is what makes "freed exactly once,
 * by the right call" a checkable property.
 *
 * The native structures the library reads through pointers are plain values
 * here (`Win32Credential`, `SecKeychainAttributeList`, `SecKeychainAttribute`)
 * stored whole in one cell; `Marshal.PtrToStructure` reads such a cell.
 */
module NativeMemory {
  import opened Numeric
  import opened Wrappers
  import opened FileTimeExtensions

  /** An `IntPtr`; `Zero` is the null pointer. */
  type Ptr = int

  const Zero: Ptr := 0

  /** `Marshal.SizeOf(typeof(IntPtr))` on the 64-bit hosts the library targets. */
  const PointerSize: nat := 8

  /** `Marshal.SizeOf<SecKeychainAttribute>()`: a 4-byte tag, a 4-byte length, a pointer. */
  const SizeOfAttribute: nat := 16

  /** Who handed out a block, and so which call must take it back. */
  datatype Allocator =
    | HGlobal            // Marshal.AllocHGlobal / FreeHGlobal
    | CoTaskMem          // Marshal.AllocCoTaskMem / FreeCoTaskMem
    | CredentialApi      // CredRead / CredEnumerate, released by CredFree
    | KeychainContent    // password data from SecKeychainFind*, released by SecKeychainItemFreeContent
    | KeychainAttributes // attribute lists, released by SecKeychainItemFreeAttributesAndData

  datatype Allocation = Allocation(allocator: Allocator, size: nat)

  /** `CREDENTIALW` (Advapi32.cs), with null strings as `None`. */
  datatype Win32Credential = Win32Credential(
    flags: int32,
    credentialType: int32,
    targetName: Option<string>,
    comment: Option<string>,
    lastWritten: FileTime,
    credentialBlobSize: int32,
    credentialBlob: Ptr,
    persist: int32,
    attributeCount: int32,
    credAttribute: Ptr,
    targetAlias: Option<string>,
    userName: Option<string>)

  /** `SecKeychainAttributeList`: a count and a pointer to that many attributes. */
  datatype SecKeychainAttributeList = SecKeychainAttributeList(count: uint32, attributes: Ptr)

  /**
   * `SecKeychainAttribute`: a four-char tag, a byte length and a pointer to
   * the bytes. The length is a `UInt32` in the structure; it is left unbounded here.
   */
  datatype SecKeychainAttribute = SecKeychainAttribute(tag: uint32, length: nat, data: Ptr)

  /** What a cell of memory holds. */
  datatype Cell =
    | ByteCell(b: byte)
    | Int16Cell(s: int16)
    | Int32Cell(i: int32)
    | Int64Cell(l: int64)
    | PtrCell(p: Ptr)
    | CredentialCell(credential: Win32Credential)
    | AttributeListCell(list: SecKeychainAttributeList)
    | AttributeCell(attribute: SecKeychainAttribute)

  /** The bytes `bytes` are stored at `p` onward, one byte cell per address. */
  ghost predicate HasBytes(cells: map<Ptr, Cell>, p: Ptr, bytes: seq<byte>) {
    forall i :: 0 <= i < |bytes| ==> p + i in cells && cells[p + i] == ByteCell(bytes[i])
  }

  /** The cell of one stored byte. */
  lemma ByteAt(cells: map<Ptr, Cell>, p: Ptr, bytes: seq<byte>, i: int)
    requires HasBytes(cells, p, bytes) && 0 <= i < |bytes|
    ensures p + i in cells && cells[p + i] == ByteCell(bytes[i])
  {
  }

  /** Freeing a block that was allocated after `before` gives `before` back. */
  lemma FreeUndoesAlloc(before: map<Ptr, Allocation>, p: Ptr, a: Allocation)
    requires p !in before
    ensures before[p := a] - {p} == before
  {
  }

  class Memory {
    /** The contents of every written address. */
    var cells: map<Ptr, Cell>
    /** The live blocks, by base address. */
    var allocs: map<Ptr, Allocation>
    /** The first address never handed out. */
    var next: Ptr

    ghost predicate Valid()
      reads this
    {
      0 < next &&
      forall p :: p in allocs ==> 0 < p && p + allocs[p].size < next
    }

    /** The range `[p, p + n)` lies inside the live block at `base`. */
    ghost predicate Within(base: Ptr, p: Ptr, n: nat)
      reads this
    {
      base in allocs && base <= p && p + n <= base + allocs[base].size
    }

    constructor ()
      ensures Valid() && cells == map[] && allocs == map[]
    {
      cells := map[];
      allocs := map[];
      next := 1;
    }

    /**
     * A fresh block of `size` bytes from `allocator`: never null, never a
     * live block, contents unspecified (the cells are left as they were).
     */
    method Alloc(allocator: Allocator, size: nat) returns (p: Ptr)
      requires Valid()
      modifies this
      ensures Valid()
      ensures p != Zero && p !in old(allocs)
      ensures allocs == old(allocs)[p := Allocation(allocator, size)]
      ensures cells == old(cells)
      ensures forall q :: q in old(allocs) ==> q + old(allocs)[q].size <= p
    {
      p := next;
      allocs := allocs[p := Allocation(allocator, size)];
      // A zero-sized block still takes an address of its own.
      next := next + size + 1;
    }

    /** Returns the block at `p` to `allocator`; anything else is a double or mismatched free. */
    method Free(p: Ptr, allocator: Allocator)
      requires Valid()
      requires p in allocs && allocs[p].allocator == allocator
      modifies this
      ensures Valid()
      ensures allocs == old(allocs) - {p}
      ensures cells == old(cells)
    {
      allocs := allocs - {p};
    }

    /** Stores one cell inside a live block (`Marshal.WriteInt32` and friends). */
    method Write(ghost base: Ptr, p: Ptr, c: Cell)
      requires Valid() && Within(base, p, 1)
      modifies this`cells
      ensures cells == old(cells)[p := c]
    {
      cells := cells[p := c];
    }

    /**
     * `Marshal.Copy(bytes, 0, p, |bytes|)`: copies a managed array into a live
     * block, one byte at a time; nothing outside the copied range changes.
     */
    method CopyIn(ghost base: Ptr, bytes: seq<byte>, p: Ptr)
      requires Valid() && Within(base, p, |bytes|)
      modifies this`cells
      ensures HasBytes(cells, p, bytes)
      ensures forall q :: q in old(cells) && !(p <= q < p + |bytes|) ==> q in cells && cells[q] == old(cells)[q]
      ensures forall q :: q in cells <==> q in old(cells) || p <= q < p + |bytes|
    {
      var i := 0;
      while i < |bytes|
        invariant 0 <= i <= |bytes|
        invariant forall k :: 0 <= k < i ==> p + k in cells && cells[p + k] == ByteCell(bytes[k])
        invariant forall q :: q in old(cells) && !(p <= q < p + i) ==> q in cells && cells[q] == old(cells)[q]
        invariant forall q :: q in cells <==> q in old(cells) || p <= q < p + i
      {
        cells := cells[p + i := ByteCell(bytes[i])];
        i := i + 1;
      }
    }
  }
}

=== FILE: native_methods.dfy ===
/**
 * The older macOS error check of `NativeMethods.MacOS` (NativeMethods.cs):
 * three codes have fixed messages, every other non-zero code an "Unknown
 * error" message, and every failure is a plain `Exception`.
 */
module NativeMethodsLegacy {
  import opened Numeric
  import opened Wrappers
  import opened Exceptions
  import opened Decimal

  const OK: int32 := 0
  const ErrorSecDuplicateItem: int32 := -25299
  const ErrorSecItemNotFound: int32 := -25300
  const ErrorSecInteractionNotAllowed: int32 := -25308

  /** The three codes with a fixed message. */
  function FixedMessage(error: int32): Option<string> {
    if error == ErrorSecDuplicateItem then Some("Item already exists")
    else if error == ErrorSecItemNotFound then Some("Item does not exist")
    else if error == ErrorSecInteractionNotAllowed then Some("Interaction not allowed")
    else None
  }

  /** The message for a code without a fixed one; `None` is a null default message. */
  function UnknownErrorMessage(error: int32, defaultErrorMessage: Option<string>): string {
    match defaultErrorMessage
    case None => "Unknown error " + IntToString(error)
    case Some(m) => m + ". Unknown error " + IntToString(error)
  }

  /**
   * `ThrowOnError`: returns only for `OK`; every other code raises a plain
   * `Exception`, with the fixed message for the three named codes and the
   * "Unknown error" message otherwise.
   */
  function ThrowOnError(error: int32, defaultErrorMessage: Option<string>): (r: Outcome<Exception>)
    ensures r.Pass? <==> error == OK
    ensures r.Fail? ==> r.error.PlainException?
    ensures r.Fail? && FixedMessage(error).Some? ==> r.error.message == FixedMessage(error).value
    ensures r.Fail? && FixedMessage(error).None? ==> r.error.message == UnknownErrorMessage(error, defaultErrorMessage)
  {
    if error == OK then Pass
    else if FixedMessage(error).Some? then Fail(PlainException(FixedMessage(error).value))
    else Fail(PlainException(UnknownErrorMessage(error, defaultErrorMessage)))
  }

  /** Exactly the three named codes have fixed messages, and those differ. */
  lemma FixedMessagesExactlyThree(error: int32)
    ensures FixedMessage(error).Some? <==>
      error in {ErrorSecDuplicateItem, ErrorSecItemNotFound, ErrorSecInteractionNotAllowed}
    ensures forall a: int32, b: int32 ::
              FixedMessage(a).Some? && FixedMessage(b).Some? && a != b ==> FixedMessage(a) != FixedMessage(b)
  {
  }

  /** Unknown-error messages name the code: two codes with the same message and default are the same code. */
  lemma {:induction false} UnknownErrorMessageIdentifiesCode(a: int32, b: int32, defaultErrorMessage: Option<string>)
    requires UnknownErrorMessage(a, defaultErrorMessage) == UnknownErrorMessage(b, defaultErrorMessage)
    ensures a == b
  {
    var prefix := match defaultErrorMessage
      case None => "Unknown error "
      case Some(m) => m + ". Unknown error ";
    assert UnknownErrorMessage(a, defaultErrorMessage) == prefix + IntToString(a);
    assert UnknownErrorMessage(b, defaultErrorMessage) == prefix + IntToString(b);
    assert IntToString(a) == UnknownErrorMessage(a, defaultErrorMessage)[|prefix|..];
    IntToStringInjective(a, b);
  }
}

=== FILE: native_methods_mac.dfy ===
/**
 * The macOS error check of `NativeMethods.MacOS` (NativeMethods.Mac.cs):
 * each Security framework result code becomes an exception type, and every
 * message ends with the code in parentheses.
 */
module NativeMethodsMac {
  import opened Numeric
  import opened Wrappers
  import opened Exceptions
  import opened Decimal

  const OK: int32 := 0
  const ErrorSecNoSuchKeychain: int32 := -25294
  const ErrorSecInvalidKeychain: int32 := -25295
  const ErrorSecAuthFailed: int32 := -25293
  const ErrorSecDuplicateItem: int32 := -25299
  const ErrorSecItemNotFound: int32 := -25300
  const ErrorSecInteractionNotAllowed: int32 := -25308
  const ErrorSecInteractionRequired: int32 := -25315
  const ErrorSecNoSuchAttr: int32 := -25303

  const UnknownErrorMessage := "Unknown error."

  /** The text every failure message ends with: the code in parentheses. */
  function CodeSuffix(error: int): string {
    " (" + IntToString(error) + ")"
  }

  /** The six codes that become `InvalidOperationException`. */
  predicate IsInvalidOperationCode(error: int32) {
    error in {ErrorSecNoSuchKeychain, ErrorSecInvalidKeychain, ErrorSecAuthFailed,
              ErrorSecInteractionNotAllowed, ErrorSecInteractionRequired, ErrorSecNoSuchAttr}
  }

  /** The fixed description of each named code, before the code suffix. */
  function NamedMessage(error: int32): Option<string> {
    if error == ErrorSecNoSuchKeychain then Some("The keychain does not exist.")
    else if error == ErrorSecInvalidKeychain then Some("The keychain is not valid.")
    else if error == ErrorSecAuthFailed then Some("Authorization/Authentication failed.")
    else if error == ErrorSecDuplicateItem then Some("The item already exists.")
    else if error == ErrorSecItemNotFound then Some("The item cannot be found.")
    else if error == ErrorSecInteractionNotAllowed then Some("Interaction with the Security Server is not allowed.")
    else if error == ErrorSecInteractionRequired then Some("User interaction is required.")
    else if error == ErrorSecNoSuchAttr then Some("The attribute does not exist.")
    else None
  }

  function ExceptionMessage(e: Exception): string {
    match e
    case PlainException(m) => m
    case ArgumentException(m) => m
    case KeyNotFoundException(m) => m
    case InvalidOperationException(m) => m
    case _ => ""
  }

  /**
   * `ThrowOnError`: returns only for `OK`; a duplicate item raises
   * `ArgumentException`, a missing item `KeyNotFoundException`, the six other
   * named codes `InvalidOperationException`, and anything else a plain
   * `Exception` built from the default message. Every message is the
   * description followed by the code in parentheses.
   */
  function ThrowOnError(error: int32, defaultErrorMessage: string): (r: Outcome<Exception>)
    ensures r.Pass? <==> error == OK
    ensures error == ErrorSecDuplicateItem ==> r.Fail? && r.error.ArgumentException?
    ensures error == ErrorSecItemNotFound ==> r.Fail? && r.error.KeyNotFoundException?
    ensures IsInvalidOperationCode(error) ==> r.Fail? && r.error.InvalidOperationException?
    ensures r.Fail? && NamedMessage(error).None? ==> r.error == PlainException(defaultErrorMessage + CodeSuffix(error))
    ensures r.Fail? ==> ExceptionMessage(r.error) == NamedMessage(error).GetOr(defaultErrorMessage) + CodeSuffix(error)
  {
    if error == OK then Pass
    else
      var message := NamedMessage(error).GetOr(defaultErrorMessage) + CodeSuffix(error);
      if error == ErrorSecDuplicateItem then Fail(ArgumentException(message))
      else if error == ErrorSecItemNotFound then Fail(KeyNotFoundException(message))
      else if IsInvalidOperationCode(error) then Fail(InvalidOperationException(message))
      else Fail(PlainException(message))
  }

  /**
   * The code can be read back from the end of any failure message: two
   * failures with the same message come from the same code.
   */
  lemma MessageIdentifiesCode(a: int32, b: int32, defaultA: string, defaultB: string)
    requires ThrowOnError(a, defaultA).Fail? && ThrowOnError(b, defaultB).Fail?
    requires ExceptionMessage(ThrowOnError(a, defaultA).error) == ExceptionMessage(ThrowOnError(b, defaultB).error)
    ensures a == b
  {
    SuffixDeterminesCode(NamedMessage(a).GetOr(defaultA), a, NamedMessage(b).GetOr(defaultB), b);
  }

  /** Whatever precedes it, the code suffix at the end of a message fixes the code. */
  lemma SuffixDeterminesCode(pa: string, a: int, pb: string, b: int)
    requires pa + CodeSuffix(a) == pb + CodeSuffix(b)
    ensures a == b
  {
    var m := pa + CodeSuffix(a);
    var da := IntToString(a);
    var db := IntToString(b);
    SuffixDigits(a);
    SuffixDigits(b);
    assert m == pa + " (" + da + ")";
    assert m == pb + " (" + db + ")";
    // Neither rendering contains a space, so each suffix starts after the last space.
    LastSpace(pa, da);
    LastSpace(pb, db);
    assert da == m[|pa| + 2..|m| - 1];
    assert db == m[|pb| + 2..|m| - 1];
    IntToStringInjective(a, b);
  }

  lemma SuffixDigits(n: int)
    ensures ' ' !in IntToString(n) && ')' !in IntToString(n)
  {
    var s := IntToString(n);
    if n < 0 {
      assert s == "-" + NatToString(-n);
      assert forall i :: 1 <= i < |s| ==> IsDigit(s[i]) by {
        forall i | 1 <= i < |s| ensures IsDigit(s[i]) { assert s[i] == NatToString(-n)[i - 1]; }
      }
    }
  }

  /** The characters after the last " (" of `p + " (" + d + ")"` are `d`, when `d` holds no space. */
  lemma LastSpace(p: string, d: string)
    requires ' ' !in d
    ensures LastSpaceIndex(p + " (" + d + ")") == |p| + 1
  {
    var m := p + " (" + d + ")";
    assert m[|p|] == ' ';
    forall i | |p| + 1 <= i < |m| ensures m[i] != ' ' {
      if i == |p| + 1 { assert m[i] == '('; }
      else if i < |m| - 1 { assert m[i] == d[i - |p| - 2]; }
      else { assert m[i] == ')'; }
    }
    LastSpaceIndexIs(m, |p|);
  }

  /** The index just past the last ' ' in `s`, or 0. */
  function LastSpaceIndex(s: string): nat
    ensures LastSpaceIndex(s) <= |s|
  {
    if s == [] then 0
    else if s[|s| - 1] == ' ' then |s|
    else LastSpaceIndex(s[..|s| - 1])
  }

  lemma {:induction false} LastSpaceIndexIs(s: string, k: nat)
    requires k < |s| && s[k] == ' '
    requires forall i :: k < i < |s| ==> s[i] != ' '
    ensures LastSpaceIndex(s) == k + 1
  {
    if s[|s| - 1] != ' ' {
      var t := s[..|s| - 1];
      assert forall i :: k < i < |t| ==> t[i] == s[i];
      LastSpaceIndexIs(t, k);
    }
  }
}

=== FILE: numeric.dfy ===
/**
 * Fixed-width integers of the .NET runtime, and the little-endian byte order
 * that `BitConverter` uses on the (little-endian) hosts this library runs on.
 */
module Numeric {

  type byte = x: int | 0 <= x < 0x100
  type uint16 = x: int | 0 <= x < 0x1_0000
  type uint32 = x: int | 0 <= x < 0x1_0000_0000
  type int16 = x: int | -0x8000 <= x < 0x8000
  type int32 = x: int | -0x8000_0000 <= x < 0x8000_0000
  type int64 = x: int | -0x8000_0000_0000_0000 <= x < 0x8000_0000_0000_0000

  const TwoTo32: int := 0x1_0000_0000
  const TwoTo64: int := 0x1_0000_0000_0000_0000

  /** Unchecked C# cast to `byte`: keeps the low 8 bits. */
  function WrapByte(x: int): (r: byte)
    ensures (r - x) % 0x100 == 0
  {
    x % 0x100
  }

  /** Unchecked C# cast to `short`: the low 16 bits read as two's complement. */
  function WrapInt16(x: int): (r: int16)
    ensures (r - x) % 0x1_0000 == 0
  {
    var m := x % 0x1_0000;
    if m < 0x8000 then m else m - 0x1_0000
  }

  /** Unchecked C# cast to `int`: the low 32 bits read as two's complement. */
  function WrapInt32(x: int): (r: int32)
    ensures (r - x) % TwoTo32 == 0
  {
    var m := x % TwoTo32;
    if m < 0x8000_0000 then m else m - TwoTo32
  }

  /** Unchecked C# cast to `long`: the low 64 bits read as two's complement. */
  function WrapInt64(x: int): (r: int64)
    ensures (r - x) % TwoTo64 == 0
  {
    var m := x % TwoTo64;
    if m < 0x8000_0000_0000_0000 then m else m - TwoTo64
  }

  /** The 32-bit pattern of an `int`, as C#'s `(uint)` cast gives it. */
  function AsUInt32(x: int32): (r: uint32)
    ensures r % TwoTo32 == x % TwoTo32
    ensures x >= 0 ==> r == x
  {
    if x >= 0 then x else x + TwoTo32
  }

  /** `(int)` of a `uint`, read back as unsigned, is the same `uint`. */
  lemma UnsignedRoundTrip(v: uint32)
    ensures AsUInt32(WrapInt32(v)) == v
  {
  }

  /** `Enumerable.Reverse` on a finite sequence. */
  function Reverse<T>(s: seq<T>): (r: seq<T>)
    ensures |r| == |s|
    ensures forall i :: 0 <= i < |s| ==> r[i] == s[|s| - 1 - i]
  {
    if s == [] then [] else Reverse(s[1..]) + [s[0]]
  }

  lemma ReverseReverse<T>(s: seq<T>)
    ensures Reverse(Reverse(s)) == s
  {
    assert forall i :: 0 <= i < |s| ==> Reverse(Reverse(s))[i] == s[i];
  }

  /** `BitConverter.GetBytes(uint)`: least significant byte first. */
  function LittleEndianBytes(x: uint32): (r: seq<byte>)
    ensures |r| == 4
  {
    [x % 0x100, (x / 0x100) % 0x100, (x / 0x1_0000) % 0x100, x / 0x100_0000]
  }

  /** Reads four bytes, least significant first (`BitConverter.ToUInt32(b, 0)`). */
  function FromLittleEndian(b: seq<byte>): (r: uint32)
    requires |b| >= 4
  {
    b[0] as int + 0x100 * b[1] as int + 0x1_0000 * b[2] as int + 0x100_0000 * b[3] as int
  }

  /** Reads four bytes, most significant first. */
  function FromBigEndian(b: seq<byte>): (r: uint32)
    requires |b| == 4
  {
    FromLittleEndian(Reverse(b))
  }

  /** Splitting off the low byte of a natural number. */
  lemma LowByte(n: int)
    requires 0 <= n
    ensures n == n % 0x100 + 0x100 * (n / 0x100)
    ensures n / 0x1_0000 == (n / 0x100) / 0x100
  {
  }

  /** A low byte and a higher part make a number whose low byte and higher part they are. */
  lemma JoinByte(lo: int, hi: int)
    requires 0 <= lo < 0x100 && 0 <= hi
    ensures (lo + 0x100 * hi) % 0x100 == lo && (lo + 0x100 * hi) / 0x100 == hi
  {
  }

  lemma {:induction false} LittleEndianRoundTrip(x: uint32)
    ensures FromLittleEndian(LittleEndianBytes(x)) == x
  {
    LowByte(x);
    LowByte(x / 0x100);
    LowByte(x / 0x1_0000);
  }

  lemma {:induction false} LittleEndianInverse(b: seq<byte>)
    requires |b| == 4
    ensures LittleEndianBytes(FromLittleEndian(b)) == b
  {
    var n2 := b[2] as int + 0x100 * b[3] as int;
    var n1 := b[1] as int + 0x100 * n2;
    var x := b[0] as int + 0x100 * n1;
    assert FromLittleEndian(b) == x;
    JoinByte(b[0], n1);
    JoinByte(b[1], n2);
    JoinByte(b[2], b[3]);
    LowByte(x);
    LowByte(x / 0x100);
    LowByte(x / 0x1_0000);
  }
}

=== FILE: sec_items.dfy ===
/**
 * `MacOS.MacOSKeychain`, the later revision of the object-style keychain
 * API (its password calls are `Keychain`'s, unchanged): searching with a
 * query dictionary built from a `SecItemQuery`, reading the attributes of
 * a found item through a `SecItem`, and reading one attribute of an item
 * reference with `SecKeychainItemCopyAttributesAndData`.
 *
 * Unlike `Keychain`, this revision stores the protocol and authentication
 * type of a query as numbers, not as four-character strings, and its search
 * result is an owned dictionary.
 */
module SecItems {
  import opened Numeric
  import opened Wrappers
  import opened Exceptions
  import opened Unicode
  import opened NativeMemory
  import opened CoreFoundation
  import opened CFTypes
  import opened KeychainServices
  import SecurityFramework
  import IntPtrExtensions
  import CFData
  import CFString
  import CFNumber
  import CFDictionary
  import Keychain
  import KeychainQueries

  // ---------------------------------------------------------------- queries

  /** A search: the common options and the attributes of one item class. */
  datatype SecItemQuery =
    | GenericPasswordQuery(returnData: bool, account: Option<string>, itemLabel: Option<string>,
                           service: Option<string>)
    | InternetPasswordQuery(returnData: bool, account: Option<string>, itemLabel: Option<string>,
                            authenticationType: SecurityFramework.SecAuthenticationType,
                            protocol: SecurityFramework.SecProtocolType,
                            server: Option<string>, port: int16, path: Option<string>)

  /** What a query dictionary holds under a key: a framework constant, or a new object. */
  datatype QueryValue = Constant(handle: Handle) | Created(obj: CFObject)

  /** `m` with `key` set to `v` when `cond` holds. */
  function PutIf(m: map<Handle, QueryValue>, cond: bool, key: Handle, v: QueryValue): map<Handle, QueryValue> {
    if cond then m[key := v] else m
  }

  /** `m` with `key` set to a new string when the text is not null. */
  function PutText(m: map<Handle, QueryValue>, key: Handle, s: Option<string>): map<Handle, QueryValue> {
    if s.Some? then m[key := Created(StringObj(s.value))] else m
  }

  /**
   * What `ToCFDictionary` stores before the class-specific parameters:
   * attributes are always returned, the data only when asked for, and the
   * account and label only when they are not null.
   */
  function CommonEntries(q: SecItemQuery): map<Handle, QueryValue> {
    var m0 := map[kSecReturnAttributes := Constant(kCFBooleanTrue)];
    var m1 := PutIf(m0, q.returnData, kSecReturnData, Constant(kCFBooleanTrue));
    PutText(PutText(m1, kSecAttrAccount, q.account), kSecAttrLabel, q.itemLabel)
  }

  /**
   * The whole query dictionary. A generic query names its class and, when
   * not null, the service. An internet query names its class; the
   * authentication type and protocol unless they are `Any`, as 64-bit
   * numbers (`new CFNumber((uint)value)` takes the `long` constructor); the
   * server and path unless null; and the port, as a `short`, only when it
   * is positive.
   */
  function QueryEntries(q: SecItemQuery): map<Handle, QueryValue> {
    match q
    case GenericPasswordQuery(_, _, _, service) =>
      PutText(CommonEntries(q)[kSecClass := Constant(kSecClassGenericPassword)], kSecAttrService, service)
    case InternetPasswordQuery(_, _, _, auth, protocol, server, port, path) =>
      var m0 := CommonEntries(q)[kSecClass := Constant(kSecClassInternetPassword)];
      var m1 := PutIf(m0, !auth.Any?, kSecAttrAuthenticationType, Created(NumberObj(LongType, auth.Value() as int)));
      var m2 := PutIf(m1, !protocol.Any?, kSecAttrProtocol, Created(NumberObj(LongType, protocol.Value() as int)));
      var m3 := PutText(m2, kSecAttrServer, server);
      var m4 := PutIf(m3, port > 0, kSecAttrPort, Created(NumberObj(ShortType, port)));
      PutText(m4, kSecAttrPath, path)
  }

  /** The handle `h` stored in the dictionary `d` stands for `v`. */
  ghost predicate Realises(objects: map<Handle, CFObject>, d: Handle, v: QueryValue, h: Handle) {
    match v
    case Constant(c) => h == c
    case Created(o) => h != d && h in objects && objects[h] == o
  }

  /** The dictionary `d` holds exactly the keys of `entries`, each with its value. */
  ghost predicate Holds(objects: map<Handle, CFObject>, d: Handle, entries: map<Handle, QueryValue>) {
    d in objects && objects[d].DictionaryObj? &&
    objects[d].values.Keys == entries.Keys &&
    forall k :: k in entries ==> Realises(objects, d, entries[k], objects[d].values[k])
  }

  /** Every object other than `d` is still there, unchanged. */
  ghost predicate Keeps(before: map<Handle, CFObject>, after: map<Handle, CFObject>, d: Handle) {
    forall h :: h in before && h != d ==> h in after && after[h] == before[h]
  }

  /** `dict[key] = constant`. */
  method PutConstant(heap: CFHeap, dict: CFType, key: Handle, c: Handle, ghost entries: map<Handle, QueryValue>)
    requires heap.Valid() && Holds(heap.objects, dict.handle, entries) && key in heap.objects && c in heap.objects
    modifies heap`objects
    ensures heap.Valid() && Holds(heap.objects, dict.handle, entries[key := Constant(c)])
    ensures Keeps(old(heap.objects), heap.objects, dict.handle)
  {
    CFDictionary.SetValue(heap, dict, key, c);
  }

  /** `dict[key] = new CFString(s).DangerousGetHandle()`: the new string's reference is never given back. */
  method PutString(heap: CFHeap, dict: CFType, key: Handle, s: string, ghost entries: map<Handle, QueryValue>)
    returns (ghost stored: Handle)
    requires heap.Valid() && Holds(heap.objects, dict.handle, entries) && key in heap.objects
    modifies heap
    ensures heap.Valid() && Holds(heap.objects, dict.handle, entries[key := Created(StringObj(s))])
    ensures Keeps(old(heap.objects), heap.objects, dict.handle)
    ensures stored !in old(heap.objects) && heap.owned == old(heap.owned) + multiset{stored}
  {
    var w := NewString(heap, s);
    stored := w.handle;
    CFDictionary.SetValue(heap, dict, key, w.handle);
  }

  /** `dict[key] = new CFNumber(value).DangerousGetHandle()` for a `long`. */
  method PutInt64(heap: CFHeap, mem: Memory, dict: CFType, key: Handle, value: int64, ghost entries: map<Handle, QueryValue>)
    returns (ghost stored: Handle)
    requires heap.Valid() && mem.Valid() && Holds(heap.objects, dict.handle, entries) && key in heap.objects
    modifies heap, mem
    ensures heap.Valid() && mem.Valid() && mem.allocs == old(mem.allocs)
    ensures Holds(heap.objects, dict.handle, entries[key := Created(NumberObj(LongType, value))])
    ensures Keeps(old(heap.objects), heap.objects, dict.handle)
    ensures stored !in old(heap.objects) && heap.owned == old(heap.owned) + multiset{stored}
  {
    var w := NewNumberInt64(heap, mem, value);
    stored := w.handle;
    CFDictionary.SetValue(heap, dict, key, w.handle);
  }

  /** `dict[key] = new CFNumber(value).DangerousGetHandle()` for a `short`. */
  method PutInt16(heap: CFHeap, mem: Memory, dict: CFType, key: Handle, value: int16, ghost entries: map<Handle, QueryValue>)
    returns (ghost stored: Handle)
    requires heap.Valid() && mem.Valid() && Holds(heap.objects, dict.handle, entries) && key in heap.objects
    modifies heap, mem
    ensures heap.Valid() && mem.Valid() && mem.allocs == old(mem.allocs)
    ensures Holds(heap.objects, dict.handle, entries[key := Created(NumberObj(ShortType, value))])
    ensures Keeps(old(heap.objects), heap.objects, dict.handle)
    ensures stored !in old(heap.objects) && heap.owned == old(heap.owned) + multiset{stored}
  {
    var w := NewNumberInt16(heap, mem, value);
    stored := w.handle;
    CFDictionary.SetValue(heap, dict, key, w.handle);
  }

  /** The references in `leaked` are all to objects created since `objects`. */
  ghost predicate AllNew(leaked: multiset<Handle>, objects: map<Handle, CFObject>) {
    forall h :: h in leaked ==> h !in objects
  }

  /** Two steps that each keep every object but `d` keep them together. */
  lemma KeepsChain(a: map<Handle, CFObject>, b: map<Handle, CFObject>, c: map<Handle, CFObject>, d: Handle)
    requires Keeps(a, b, d) && Keeps(b, c, d)
    ensures Keeps(a, c, d)
  {
  }

  /** References new after the first of two steps, or after the second, were new before both. */
  lemma AllNewChain(l1: multiset<Handle>, l2: multiset<Handle>, a: map<Handle, CFObject>, b: map<Handle, CFObject>, d: Handle)
    requires Keeps(a, b, d) && d in b && AllNew(l1, a) && AllNew(l2, b)
    ensures AllNew(l1 + l2, a)
  {
  }

  /**
   * `ToCFDictionary`: a new owned dictionary of capacity 32 holding exactly
   * `QueryEntries(q)`. Every other object is left alone; the references of
   * the strings and numbers stored in it stay with the library (`leaked`).
   */
  method ToCFDictionary(heap: CFHeap, mem: Memory, q: SecItemQuery) returns (dict: CFType, ghost leaked: multiset<Handle>)
    requires heap.Valid() && mem.Valid()
    modifies heap, mem
    ensures heap.Valid() && mem.Valid() && mem.allocs == old(mem.allocs)
    ensures fresh(dict) && dict.kind == DictionaryKind && dict.ownsHandle && !dict.closed
    ensures dict.handle !in old(heap.objects) && Holds(heap.objects, dict.handle, QueryEntries(q))
    ensures forall h :: h in old(heap.objects) ==> h in heap.objects && heap.objects[h] == old(heap.objects[h])
    ensures heap.owned == old(heap.owned) + multiset{dict.handle} + leaked && AllNew(leaked, old(heap.objects))
  {
    dict := CFDictionary.New(heap, 32);
    ghost var leaked1 := AddCommonEntries(heap, dict, q);
    ghost var leaked2 := AddQueryParameters(heap, mem, dict, q);
    leaked := leaked1 + leaked2;
  }

  /** The part of `ToCFDictionary` before `AddQueryParameters`, on a new empty dictionary. */
  method AddCommonEntries(heap: CFHeap, dict: CFType, q: SecItemQuery) returns (ghost leaked: multiset<Handle>)
    requires heap.Valid() && dict.handle in heap.objects && heap.objects[dict.handle] == DictionaryObj(map[], [])
    modifies heap
    ensures heap.Valid() && Holds(heap.objects, dict.handle, CommonEntries(q))
    ensures Keeps(old(heap.objects), heap.objects, dict.handle)
    ensures heap.owned == old(heap.owned) + leaked && AllNew(leaked, old(heap.objects))
  {
    ghost var d := dict.handle;
    ghost var o0 := heap.objects;
    PutReturnFlags(heap, dict, q.returnData);
    ghost var o1 := heap.objects;
    ghost var m := PutIf(map[kSecReturnAttributes := Constant(kCFBooleanTrue)], q.returnData, kSecReturnData, Constant(kCFBooleanTrue));
    leaked := PutTextPair(heap, dict, kSecAttrAccount, q.account, kSecAttrLabel, q.itemLabel, m);
    KeepsChain(o0, o1, heap.objects, d);
    AllNewChain(multiset{}, leaked, o0, o1, d);
    assert multiset{} + leaked == leaked;
  }

  /** `dict[kSecReturnAttributes] = true`, then `dict[kSecReturnData] = true` when data is wanted, on an empty dictionary. */
  method PutReturnFlags(heap: CFHeap, dict: CFType, returnData: bool)
    requires heap.Valid() && dict.handle in heap.objects && heap.objects[dict.handle] == DictionaryObj(map[], [])
    modifies heap`objects
    ensures heap.Valid()
    ensures Holds(heap.objects, dict.handle,
                  PutIf(map[kSecReturnAttributes := Constant(kCFBooleanTrue)], returnData, kSecReturnData, Constant(kCFBooleanTrue)))
    ensures Keeps(old(heap.objects), heap.objects, dict.handle)
  {
    ghost var m: map<Handle, QueryValue> := map[];
    PutConstant(heap, dict, kSecReturnAttributes, kCFBooleanTrue, m);
    m := m[kSecReturnAttributes := Constant(kCFBooleanTrue)];
    if returnData {
      ghost var o1 := heap.objects;
      PutConstant(heap, dict, kSecReturnData, kCFBooleanTrue, m);
      KeepsChain(old(heap.objects), o1, heap.objects, dict.handle);
    }
  }

  /** Two `PutText` steps in a row: optional strings under `key1`, then `key2`. */
  method PutTextPair(heap: CFHeap, dict: CFType, key1: Handle, s1: Option<string>, key2: Handle, s2: Option<string>,
                     ghost entries: map<Handle, QueryValue>)
    returns (ghost leaked: multiset<Handle>)
    requires heap.Valid() && Holds(heap.objects, dict.handle, entries) && key1 in heap.objects && key2 in heap.objects
    modifies heap
    ensures heap.Valid() && Holds(heap.objects, dict.handle, PutText(PutText(entries, key1, s1), key2, s2))
    ensures Keeps(old(heap.objects), heap.objects, dict.handle)
    ensures heap.owned == old(heap.owned) + leaked && AllNew(leaked, old(heap.objects))
  {
    ghost var d := dict.handle;
    ghost var o0 := heap.objects;
    ghost var l1 := PutTextStep(heap, dict, key1, s1, entries);
    ghost var o1 := heap.objects;
    ghost var l2 := PutTextStep(heap, dict, key2, s2, PutText(entries, key1, s1));
    AllNewChain(l1, l2, o0, o1, d);
    KeepsChain(o0, o1, heap.objects, d);
    leaked := l1 + l2;
  }

  /** `if (s != null) dict[key] = new CFString(s)...`, as a step on `entries`. */
  method PutTextStep(heap: CFHeap, dict: CFType, key: Handle, s: Option<string>, ghost entries: map<Handle, QueryValue>)
    returns (ghost leaked: multiset<Handle>)
    requires heap.Valid() && Holds(heap.objects, dict.handle, entries) && key in heap.objects
    modifies heap
    ensures heap.Valid() && Holds(heap.objects, dict.handle, PutText(entries, key, s))
    ensures Keeps(old(heap.objects), heap.objects, dict.handle)
    ensures heap.owned == old(heap.owned) + leaked && AllNew(leaked, old(heap.objects))
  {
    leaked := multiset{};
    if s.Some? {
      ghost var stored := PutString(heap, dict, key, s.value, entries);
      leaked := multiset{stored};
    }
  }

  /** `if (cond) dict[key] = new CFNumber((uint)value)...`, the `long` overload, as a step on `entries`. */
  method PutInt64Step(heap: CFHeap, mem: Memory, dict: CFType, key: Handle, cond: bool, value: uint32,
                      ghost entries: map<Handle, QueryValue>)
    returns (ghost leaked: multiset<Handle>)
    requires heap.Valid() && mem.Valid() && Holds(heap.objects, dict.handle, entries) && key in heap.objects
    modifies heap, mem
    ensures heap.Valid() && mem.Valid() && mem.allocs == old(mem.allocs)
    ensures Holds(heap.objects, dict.handle, PutIf(entries, cond, key, Created(NumberObj(LongType, value as int))))
    ensures Keeps(old(heap.objects), heap.objects, dict.handle)
    ensures heap.owned == old(heap.owned) + leaked && AllNew(leaked, old(heap.objects))
  {
    leaked := multiset{};
    if cond {
      ghost var stored := PutInt64(heap, mem, dict, key, value as int64, entries);
      leaked := multiset{stored};
    }
  }

  /** `AddQueryParameters` of a generic-password query. */
  method AddGenericParameters(heap: CFHeap, dict: CFType, q: SecItemQuery) returns (ghost leaked: multiset<Handle>)
    requires q.GenericPasswordQuery?
    requires heap.Valid() && Holds(heap.objects, dict.handle, CommonEntries(q))
    modifies heap
    ensures heap.Valid() && Holds(heap.objects, dict.handle, QueryEntries(q))
    ensures Keeps(old(heap.objects), heap.objects, dict.handle)
    ensures heap.owned == old(heap.owned) + leaked && AllNew(leaked, old(heap.objects))
  {
    ghost var m := CommonEntries(q);
    PutConstant(heap, dict, kSecClass, kSecClassGenericPassword, m);
    m := m[kSecClass := Constant(kSecClassGenericPassword)];
    leaked := PutTextStep(heap, dict, kSecAttrService, q.service, m);
  }

  /** The internet-password entries up to and including the server. */
  function InternetHead(q: SecItemQuery): map<Handle, QueryValue>
    requires q.InternetPasswordQuery?
  {
    var m0 := CommonEntries(q)[kSecClass := Constant(kSecClassInternetPassword)];
    var m1 := PutIf(m0, !q.authenticationType.Any?, kSecAttrAuthenticationType,
                    Created(NumberObj(LongType, q.authenticationType.Value() as int)));
    var m2 := PutIf(m1, !q.protocol.Any?, kSecAttrProtocol, Created(NumberObj(LongType, q.protocol.Value() as int)));
    PutText(m2, kSecAttrServer, q.server)
  }

  /** Two numbers, each set only when its condition holds: the authentication type and the protocol. */
  method PutInt64Pair(heap: CFHeap, mem: Memory, dict: CFType, key1: Handle, cond1: bool, value1: uint32,
                      key2: Handle, cond2: bool, value2: uint32, ghost entries: map<Handle, QueryValue>)
    returns (ghost leaked: multiset<Handle>)
    requires heap.Valid() && mem.Valid() && Holds(heap.objects, dict.handle, entries)
    requires key1 in heap.objects && key2 in heap.objects && key2 != dict.handle
    modifies heap, mem
    ensures heap.Valid() && mem.Valid() && mem.allocs == old(mem.allocs)
    ensures Holds(heap.objects, dict.handle,
                  PutIf(PutIf(entries, cond1, key1, Created(NumberObj(LongType, value1 as int))),
                        cond2, key2, Created(NumberObj(LongType, value2 as int))))
    ensures Keeps(old(heap.objects), heap.objects, dict.handle)
    ensures heap.owned == old(heap.owned) + leaked && AllNew(leaked, old(heap.objects))
  {
    ghost var d := dict.handle;
    ghost var o0 := heap.objects;
    ghost var l1 := PutInt64Step(heap, mem, dict, key1, cond1, value1, entries);
    ghost var o1 := heap.objects;
    ghost var l2 := PutInt64Step(heap, mem, dict, key2, cond2, value2,
                                 PutIf(entries, cond1, key1, Created(NumberObj(LongType, value1 as int))));
    AllNewChain(l1, l2, o0, o1, d);
    KeepsChain(o0, o1, heap.objects, d);
    leaked := l1 + l2;
  }

  /** The class, the authentication type, the protocol and the server of an internet-password query. */
  method AddInternetHead(heap: CFHeap, mem: Memory, dict: CFType, q: SecItemQuery) returns (ghost leaked: multiset<Handle>)
    requires q.InternetPasswordQuery?
    requires heap.Valid() && mem.Valid() && Holds(heap.objects, dict.handle, CommonEntries(q))
    modifies heap, mem
    ensures heap.Valid() && mem.Valid() && mem.allocs == old(mem.allocs)
    ensures Holds(heap.objects, dict.handle, InternetHead(q))
    ensures Keeps(old(heap.objects), heap.objects, dict.handle)
    ensures heap.owned == old(heap.owned) + leaked && AllNew(leaked, old(heap.objects))
  {
    ghost var d := dict.handle;
    ghost var m := CommonEntries(q)[kSecClass := Constant(kSecClassInternetPassword)];
    ghost var o0 := heap.objects;
    PutConstant(heap, dict, kSecClass, kSecClassInternetPassword, CommonEntries(q));
    ghost var o1 := heap.objects;
    var auth := q.authenticationType;
    var protocol := q.protocol;
    ghost var l1 := PutInt64Pair(heap, mem, dict, kSecAttrAuthenticationType, !auth.Any?, auth.Value(),
                                 kSecAttrProtocol, !protocol.Any?, protocol.Value(), m);
    m := PutIf(PutIf(m, !auth.Any?, kSecAttrAuthenticationType, Created(NumberObj(LongType, auth.Value() as int))),
               !protocol.Any?, kSecAttrProtocol, Created(NumberObj(LongType, protocol.Value() as int)));
    ghost var o2 := heap.objects;
    KeepsChain(o0, o1, o2, d);
    ghost var l2 := PutTextStep(heap, dict, kSecAttrServer, q.server, m);
    AllNewChain(l1, l2, o0, o2, d);
    KeepsChain(o0, o2, heap.objects, d);
    leaked := l1 + l2;
  }

  /** `AddQueryParameters` of an internet-password query: then the port, when positive, and the path. */
  method AddInternetParameters(heap: CFHeap, mem: Memory, dict: CFType, q: SecItemQuery) returns (ghost leaked: multiset<Handle>)
    requires q.InternetPasswordQuery?
    requires heap.Valid() && mem.Valid() && Holds(heap.objects, dict.handle, CommonEntries(q))
    modifies heap, mem
    ensures heap.Valid() && mem.Valid() && mem.allocs == old(mem.allocs)
    ensures Holds(heap.objects, dict.handle, QueryEntries(q))
    ensures Keeps(old(heap.objects), heap.objects, dict.handle)
    ensures heap.owned == old(heap.owned) + leaked && AllNew(leaked, old(heap.objects))
  {
    ghost var l1 := AddInternetHead(heap, mem, dict, q);
    ghost var m := InternetHead(q);
    ghost var l2 := multiset{};
    if q.port > 0 {
      ghost var stored := PutInt16(heap, mem, dict, kSecAttrPort, q.port, m);
      l2 := multiset{stored};
    }
    m := PutIf(m, q.port > 0, kSecAttrPort, Created(NumberObj(ShortType, q.port)));
    ghost var l3 := PutTextStep(heap, dict, kSecAttrPath, q.path, m);
    leaked := l1 + l2 + l3;
  }

  /** `AddQueryParameters`, the class-specific part, for both query classes. */
  method AddQueryParameters(heap: CFHeap, mem: Memory, dict: CFType, q: SecItemQuery) returns (ghost leaked: multiset<Handle>)
    requires heap.Valid() && mem.Valid() && Holds(heap.objects, dict.handle, CommonEntries(q))
    modifies heap, mem
    ensures heap.Valid() && mem.Valid() && mem.allocs == old(mem.allocs)
    ensures Holds(heap.objects, dict.handle, QueryEntries(q))
    ensures Keeps(old(heap.objects), heap.objects, dict.handle)
    ensures heap.owned == old(heap.owned) + leaked && AllNew(leaked, old(heap.objects))
  {
    if q.GenericPasswordQuery? {
      leaked := AddGenericParameters(heap, dict, q);
    } else {
      leaked := AddInternetParameters(heap, mem, dict, q);
    }
  }

  /** What a search dictionary holds: the query's entries and a limit of one match. */
  function SearchEntries(q: SecItemQuery): map<Handle, QueryValue> {
    QueryEntries(q)[kSecMatchLimit := Constant(kSecMatchLimitOne)]
  }

  /**
   * Which keys a query dictionary holds: the class and the request for
   * attributes always; the data request, the strings, the codes and the port
   * exactly when the query sets them; never a match limit or data.
   */
  lemma QueryEntriesKeys(q: SecItemQuery, k: Handle)
    ensures k in QueryEntries(q) <==> QueryHasKey(q, k)
    ensures QueryEntries(q)[kSecClass] ==
      Constant(if q.GenericPasswordQuery? then kSecClassGenericPassword else kSecClassInternetPassword)
  {
    if q.InternetPasswordQuery? {
      assert k in InternetHead(q) <==> QueryHasKey(q, k) && k != kSecAttrPort && k != kSecAttrPath;
    }
  }

  /** A query dictionary never holds a match limit. */
  lemma NoMatchLimit(q: SecItemQuery)
    ensures kSecMatchLimit !in QueryEntries(q)
  {
    QueryEntriesKeys(q, kSecMatchLimit);
  }

  /** Whether the query dictionary holds `k`, one condition per key. */
  predicate QueryHasKey(q: SecItemQuery, k: Handle) {
    var internet := q.InternetPasswordQuery?;
    if k == kSecClass || k == kSecReturnAttributes then true
    else if k == kSecReturnData then q.returnData
    else if k == kSecAttrAccount then q.account.Some?
    else if k == kSecAttrLabel then q.itemLabel.Some?
    else if k == kSecAttrService then !internet && q.service.Some?
    else if k == kSecAttrAuthenticationType then internet && !q.authenticationType.Any?
    else if k == kSecAttrProtocol then internet && !q.protocol.Any?
    else if k == kSecAttrServer then internet && q.server.Some?
    else if k == kSecAttrPort then internet && q.port > 0
    else if k == kSecAttrPath then internet && q.path.Some?
    else false
  }

  // ---------------------------------------------------------------- items

  /** The two item classes a `SecItem` can stand for. */
  datatype SecItemKind = GenericPasswordItem | InternetPasswordItem

  /** Everything the getters of an item read from its dictionary. */
  datatype ItemView = ItemView(
    data: seq<byte>,
    account: Option<string>,
    itemLabel: Option<string>,
    server: Option<string>,
    port: int16,
    path: Option<string>)

  /** The bytes of a data value; none when there is no value. */
  function DataOf(o: Option<CFObject>): seq<byte> {
    if o.Some? && o.value.DataObj? then o.value.bytes else []
  }

  /** A string value up to its first U+0000, or `defaultValue` when there is no value. */
  function TextOr(o: Option<CFObject>, defaultValue: Option<string>): Option<string> {
    if o.Some? && o.value.StringObj? then Some(PrefixBeforeNul(o.value.text)) else defaultValue
  }

  /** A number value read as a `long` (0 when it does not fit), or `defaultValue` when there is none. */
  function NumberOr(o: Option<CFObject>, defaultValue: int64): int64 {
    if o.Some? && o.value.NumberObj? then (if SInt64Type.Fits(o.value.value) then o.value.value else 0)
    else defaultValue
  }

  /** The item the dictionary `d` describes, as `SecItem` reads it. */
  ghost function View(objects: map<Handle, CFObject>, d: Handle): ItemView
    requires d in objects && objects[d].DictionaryObj?
  {
    ItemView(
      DataOf(Keychain.ValueObject(objects, d, kSecValueData)),
      TextOr(Keychain.ValueObject(objects, d, kSecAttrAccount), None),
      TextOr(Keychain.ValueObject(objects, d, kSecAttrLabel), None),
      TextOr(Keychain.ValueObject(objects, d, kSecAttrServer), None),
      WrapInt16(NumberOr(Keychain.ValueObject(objects, d, kSecAttrPort), 0)),
      TextOr(Keychain.ValueObject(objects, d, kSecAttrPath), None))
  }

  /** `SecItem` and its two subclasses: a found item, read through its attribute dictionary. */
  class SecItem {
    const dict: CFType
    const kind: SecItemKind
    var disposed: bool

    /** `SecItemGenericPassword(dict)` / `SecItemInternetPassword(dict)`. */
    constructor (dict: CFType, kind: SecItemKind)
      ensures this.dict == dict && this.kind == kind && !disposed
    {
      this.dict := dict;
      this.kind := kind;
      disposed := false;
    }

    /** The wrapped dictionary is live. */
    ghost predicate Usable(heap: CFHeap)
      reads this, dict, heap
    {
      heap.Valid() && CFDictionary.IsDictionary(heap, dict)
    }

    /** `GetAttributes()`: the dictionary itself. */
    function GetAttributes(): CFType
      reads this
    {
      dict
    }

    /** `GetData(key)`: a copy of the data stored under `key`, or no bytes. */
    method GetData(heap: CFHeap, key: Handle) returns (r: seq<byte>)
      requires Usable(heap) && Keychain.ValueOfKind(heap.objects, dict.handle, key, DataKind)
      ensures r == DataOf(Keychain.ValueObject(heap.objects, dict.handle, key))
    {
      CFDictionary.GetNullIffAbsent(heap, dict, key);
      var (found, value) := CFDictionary.TryGetValue(heap, dict, key);
      if found {
        var bytes := CFData.ToArray(heap, value);
        return bytes.value;
      }
      return [];
    }

    /** `GetString(key, defaultValue)`: the string stored under `key`, or `defaultValue`. */
    method GetString(heap: CFHeap, key: Handle, defaultValue: Option<string>) returns (r: Option<string>)
      requires Usable(heap) && Keychain.ValueOfKind(heap.objects, dict.handle, key, StringKind)
      ensures r == TextOr(Keychain.ValueObject(heap.objects, dict.handle, key), defaultValue)
    {
      CFDictionary.GetNullIffAbsent(heap, dict, key);
      var (found, value) := CFDictionary.TryGetValue(heap, dict, key);
      if found {
        var text := CFString.ToString(heap, value);
        return text;
      }
      return defaultValue;
    }

    /** `GetNumber(key, defaultValue)`: the number stored under `key` as a `long`, or `defaultValue`. */
    function GetNumber(heap: CFHeap, key: Handle, defaultValue: int64): (r: int64)
      reads this, dict, heap
      requires Usable(heap) && Keychain.ValueOfKind(heap.objects, dict.handle, key, NumberKind)
      ensures r == NumberOr(Keychain.ValueObject(heap.objects, dict.handle, key), defaultValue)
    {
      CFDictionary.GetNullIffAbsent(heap, dict, key);
      var (found, value) := CFDictionary.TryGetValue(heap, dict, key);
      if found then CFNumber.ToInt64(heap, value).value else defaultValue
    }

    /** `Data`: the item's password bytes, empty when they were not asked for. */
    method Data(heap: CFHeap) returns (r: seq<byte>)
      requires Usable(heap) && Keychain.ValueOfKind(heap.objects, dict.handle, kSecValueData, DataKind)
      ensures r == View(heap.objects, dict.handle).data
    {
      r := GetData(heap, kSecValueData);
    }

    /** `Account`. */
    method Account(heap: CFHeap) returns (r: Option<string>)
      requires Usable(heap) && Keychain.ValueOfKind(heap.objects, dict.handle, kSecAttrAccount, StringKind)
      ensures r == View(heap.objects, dict.handle).account
    {
      r := GetString(heap, kSecAttrAccount, None);
    }

    /** `Label`. */
    method Label(heap: CFHeap) returns (r: Option<string>)
      requires Usable(heap) && Keychain.ValueOfKind(heap.objects, dict.handle, kSecAttrLabel, StringKind)
      ensures r == View(heap.objects, dict.handle).itemLabel
    {
      r := GetString(heap, kSecAttrLabel, None);
    }

    /** `SecItemInternetPassword.Server`. */
    method Server(heap: CFHeap) returns (r: Option<string>)
      requires kind == InternetPasswordItem
      requires Usable(heap) && Keychain.ValueOfKind(heap.objects, dict.handle, kSecAttrServer, StringKind)
      ensures r == View(heap.objects, dict.handle).server
    {
      r := GetString(heap, kSecAttrServer, None);
    }

    /**
     * `SecItemInternetPassword.Port`: the stored number as a `long`, cast
     * to `short` without a check (the low 16 bits), 0 when there is none.
     */
    function Port(heap: CFHeap): (r: int16)
      reads this, dict, heap
      requires kind == InternetPasswordItem
      requires Usable(heap) && Keychain.ValueOfKind(heap.objects, dict.handle, kSecAttrPort, NumberKind)
      ensures r == View(heap.objects, dict.handle).port
      ensures (r - NumberOr(Keychain.ValueObject(heap.objects, dict.handle, kSecAttrPort), 0)) % 0x1_0000 == 0
    {
      WrapInt16(GetNumber(heap, kSecAttrPort, 0))
    }

    /** `SecItemInternetPassword.Path`. */
    method Path(heap: CFHeap) returns (r: Option<string>)
      requires kind == InternetPasswordItem
      requires Usable(heap) && Keychain.ValueOfKind(heap.objects, dict.handle, kSecAttrPath, StringKind)
      ensures r == View(heap.objects, dict.handle).path
    {
      r := GetString(heap, kSecAttrPath, None);
    }

    /**
     * `Dispose`: the first call disposes the dictionary wrapper, and later
     * calls do nothing, so the dictionary's reference is given back at most
     * once.
     */
    method Dispose(heap: CFHeap)
      requires heap.Valid() && (!disposed && dict.WillRelease() ==> dict.handle in heap.owned)
      modifies this`disposed, dict`closed, heap`owned
      ensures heap.Valid() && disposed
      ensures old(disposed) ==> heap.owned == old(heap.owned) && dict.closed == old(dict.closed)
      ensures !old(disposed) ==> dict.closed
      ensures !old(disposed) && old(dict.WillRelease()) ==> heap.owned == old(heap.owned) - multiset{dict.handle}
      ensures !old(disposed) && !old(dict.WillRelease()) ==> heap.owned == old(heap.owned)
    {
      if disposed {
        return;
      }
      dict.Dispose(heap);
      disposed := true;
    }
  }

  /** What a `SecItem` around a dictionary holding exactly the query's entries would read. */
  function QueryView(q: SecItemQuery): ItemView {
    var text := (s: Option<string>) => if s.Some? then Some(PrefixBeforeNul(s.value)) else None;
    match q
    case GenericPasswordQuery(_, account, itemLabel, _) =>
      ItemView([], text(account), text(itemLabel), None, 0, None)
    case InternetPasswordQuery(_, account, itemLabel, _, _, server, port, path) =>
      ItemView([], text(account), text(itemLabel), text(server), if port > 0 then port else 0, text(path))
  }

  /**
   * Reading a search dictionary through the item getters gives back what the
   * query set: its account, label, server and path (up to a first U+0000),
   * its port when positive and 0 otherwise, and no data.
   */
  lemma {:induction false} QueryReadsBack(objects: map<Handle, CFObject>, d: Handle, q: SecItemQuery, entries: map<Handle, QueryValue>)
    requires entries == QueryEntries(q) || entries == SearchEntries(q)
    requires Holds(objects, d, entries)
    ensures View(objects, d) == QueryView(q)
  {
    QueryNoData(objects, d, q, entries);
    QueryText(objects, d, q, entries, kSecAttrAccount, q.account);
    QueryText(objects, d, q, entries, kSecAttrLabel, q.itemLabel);
    QueryPort(objects, d, q, entries);
    if q.InternetPasswordQuery? {
      QueryText(objects, d, q, entries, kSecAttrServer, q.server);
      QueryText(objects, d, q, entries, kSecAttrPath, q.path);
    } else {
      QueryEntriesKeys(q, kSecAttrServer);
      ReadsText(objects, d, entries, kSecAttrServer, None);
      QueryEntriesKeys(q, kSecAttrPath);
      ReadsText(objects, d, entries, kSecAttrPath, None);
    }
  }

  /** A query never stores data, so the data getter reads the empty array. */
  lemma QueryNoData(objects: map<Handle, CFObject>, d: Handle, q: SecItemQuery, entries: map<Handle, QueryValue>)
    requires entries == QueryEntries(q) || entries == SearchEntries(q)
    requires Holds(objects, d, entries)
    ensures DataOf(Keychain.ValueObject(objects, d, kSecValueData)) == []
  {
    QueryEntriesKeys(q, kSecValueData);
  }

  /** The port reads back as the query's port when positive, and 0 otherwise. */
  lemma QueryPort(objects: map<Handle, CFObject>, d: Handle, q: SecItemQuery, entries: map<Handle, QueryValue>)
    requires entries == QueryEntries(q) || entries == SearchEntries(q)
    requires Holds(objects, d, entries)
    ensures WrapInt16(NumberOr(Keychain.ValueObject(objects, d, kSecAttrPort), 0)) == QueryView(q).port
  {
    QueryEntriesKeys(q, kSecAttrPort);
    if q.InternetPasswordQuery? && q.port > 0 {
      assert QueryEntries(q)[kSecAttrPort] == Created(NumberObj(ShortType, q.port));
      assert Keychain.ValueObject(objects, d, kSecAttrPort) == Some(NumberObj(ShortType, q.port));
    }
  }

  /** A text key of the query reads back as the query's text, and as null when the query has none. */
  lemma QueryText(objects: map<Handle, CFObject>, d: Handle, q: SecItemQuery, entries: map<Handle, QueryValue>,
                  key: Handle, s: Option<string>)
    requires entries == QueryEntries(q) || entries == SearchEntries(q)
    requires Holds(objects, d, entries)
    requires key in {kSecAttrAccount, kSecAttrLabel, kSecAttrServer, kSecAttrPath}
    requires key == kSecAttrAccount ==> s == q.account
    requires key == kSecAttrLabel ==> s == q.itemLabel
    requires key == kSecAttrServer ==> q.InternetPasswordQuery? && s == q.server
    requires key == kSecAttrPath ==> q.InternetPasswordQuery? && s == q.path
    ensures TextOr(Keychain.ValueObject(objects, d, key), None) == (if s.Some? then Some(PrefixBeforeNul(s.value)) else None)
  {
    QueryEntriesKeys(q, key);
    if s.Some? {
      assert QueryEntries(q)[key] == Created(StringObj(s.value));
    }
    ReadsText(objects, d, entries, key, s);
  }

  /** A key the builder filled with `PutText` reads back as that text, and as null when it was skipped. */
  lemma ReadsText(objects: map<Handle, CFObject>, d: Handle, entries: map<Handle, QueryValue>,
                  key: Handle, s: Option<string>)
    requires Holds(objects, d, entries)
    requires key in entries <==> s.Some?
    requires s.Some? ==> entries[key] == Created(StringObj(s.value))
    ensures TextOr(Keychain.ValueObject(objects, d, key), None) == (if s.Some? then Some(PrefixBeforeNul(s.value)) else None)
  {
  }

  // ---------------------------------------------------------------- searching

  /**
   * `FindItem(CFDictionary query)`: adds a limit of one match (a limit the
   * query already has is kept) and searches. A match comes back as an owned
   * dictionary wrapper around the result; "not found" is null; every other
   * code raises.
   */
  method FindItem(heap: CFHeap, query: CFType, status: int32, result: CFObject)
    returns (r: Result<Option<CFType>, Exception>)
    requires heap.Valid() && CFDictionary.IsDictionary(heap, query)
    requires status == OK ==> Wellformed(result, heap.objects)
    modifies heap
    ensures heap.Valid() && CFDictionary.IsDictionary(heap, query)
    ensures heap.objects[query.handle] == DictionaryAdd(old(heap.objects[query.handle]), kSecMatchLimit, kSecMatchLimitOne)
    ensures Keeps(old(heap.objects), heap.objects, query.handle)
    ensures status != OK ==> r == KeychainQueries.StatusOutcome(status, None, None)
    ensures status != OK ==> heap.owned == old(heap.owned) && heap.objects.Keys == old(heap.objects).Keys
    ensures status == OK ==>
      r.Success? && r.value.Some? && fresh(r.value.value) &&
      r.value.value.kind == DictionaryKind && r.value.value.ownsHandle && !r.value.value.closed &&
      r.value.value.handle !in old(heap.objects) && r.value.value.handle in heap.objects &&
      heap.objects[r.value.value.handle] == result &&
      heap.owned == old(heap.owned) + multiset{r.value.value.handle}
  {
    CFDictionary.Add(heap, query, kSecMatchLimit, kSecMatchLimitOne);
    if status == OK {
      WellformedMonotone(result, old(heap.objects), heap.objects);
    }
    var copyResult, resultPtr := ItemCopyMatching(heap, query.handle, status, result);
    if copyResult == OK {
      var found := Wrap(DictionaryKind, resultPtr, true);
      return Success(Some(found));
    } else if copyResult == ErrorSecItemNotFound {
      return Success(None);
    }
    var thrown := SecurityFramework.ThrowIfError(copyResult, SecurityFramework.UnknownErrorMessage);
    return Failure(thrown.error);
  }

  /** The item class a query searches for. */
  function KindOf(q: SecItemQuery): SecItemKind {
    if q.GenericPasswordQuery? then GenericPasswordItem else InternetPasswordItem
  }

  /**
   * `FindItem(SecItemGenericPasswordQuery)` and
   * `FindItem(SecItemInternetPasswordQuery)`: the query becomes a search
   * dictionary holding exactly `SearchEntries(q)`, which is never disposed
   * (it and the values stored in it are `leaked`); a match becomes an item
   * of the query's class around the owned result dictionary.
   *
   * The query asks for attributes, so a match is a dictionary.
   */
  method FindSecItem(heap: CFHeap, mem: Memory, q: SecItemQuery, status: int32, result: CFObject)
    returns (r: Result<Option<SecItem>, Exception>, ghost queryDict: Handle, ghost leaked: multiset<Handle>)
    requires heap.Valid() && mem.Valid()
    requires status == OK ==> Wellformed(result, heap.objects) && result.DictionaryObj?
    modifies heap, mem
    ensures heap.Valid() && mem.Valid() && mem.allocs == old(mem.allocs)
    ensures queryDict !in old(heap.objects) && Holds(heap.objects, queryDict, SearchEntries(q))
    ensures forall h :: h in old(heap.objects) ==> h in heap.objects && heap.objects[h] == old(heap.objects[h])
    ensures queryDict in leaked && AllNew(leaked, old(heap.objects))
    ensures status != OK ==> r == KeychainQueries.StatusOutcome(status, None, None)
    ensures status != OK ==> heap.owned == old(heap.owned) + leaked
    ensures status == OK ==>
      r.Success? && r.value.Some? && fresh(r.value.value) && fresh(r.value.value.dict) &&
      r.value.value.kind == KindOf(q) && !r.value.value.disposed && r.value.value.Usable(heap) &&
      r.value.value.dict.ownsHandle && !r.value.value.dict.closed &&
      r.value.value.dict.handle !in old(heap.objects) && heap.objects[r.value.value.dict.handle] == result &&
      heap.owned == old(heap.owned) + leaked + multiset{r.value.value.dict.handle}
  {
    var found;
    found, queryDict, leaked := Search(heap, mem, q, status, result);
    if found.Failure? {
      r := Failure(found.error);
    } else if found.value.None? {
      r := Success(None);
    } else {
      var item := new SecItem(found.value.value, KindOf(q));
      r := Success(Some(item));
    }
  }

  /**
   * The search `FindSecItem` makes: the query's dictionary with the limit
   * added, and the result of `FindItem` on it.
   */
  method Search(heap: CFHeap, mem: Memory, q: SecItemQuery, status: int32, result: CFObject)
    returns (found: Result<Option<CFType>, Exception>, ghost queryDict: Handle, ghost leaked: multiset<Handle>)
    requires heap.Valid() && mem.Valid()
    requires status == OK ==> Wellformed(result, heap.objects) && result.DictionaryObj?
    modifies heap, mem
    ensures heap.Valid() && mem.Valid() && mem.allocs == old(mem.allocs)
    ensures queryDict !in old(heap.objects) && Holds(heap.objects, queryDict, SearchEntries(q))
    ensures forall h :: h in old(heap.objects) ==> h in heap.objects && heap.objects[h] == old(heap.objects[h])
    ensures queryDict in leaked && AllNew(leaked, old(heap.objects))
    ensures status != OK ==> found == KeychainQueries.StatusOutcome(status, None, None)
    ensures status != OK ==> heap.owned == old(heap.owned) + leaked
    ensures status == OK ==>
      found.Success? && found.value.Some? && fresh(found.value.value) &&
      found.value.value.kind == DictionaryKind && found.value.value.ownsHandle && !found.value.value.closed &&
      found.value.value.handle !in old(heap.objects) && found.value.value.handle in heap.objects &&
      heap.objects[found.value.value.handle] == result &&
      heap.owned == old(heap.owned) + leaked + multiset{found.value.value.handle}
  {
    var queryDictionary, queryLeaked := ToCFDictionary(heap, mem, q);
    queryDict := queryDictionary.handle;
    leaked := multiset{queryDict} + queryLeaked;
    NoMatchLimit(q);
    ghost var before := heap.objects;
    if status == OK {
      KeysGrow(old(heap.objects), before);
      WellformedMonotone(result, old(heap.objects), before);
    }
    found := SearchDictionary(heap, queryDictionary, status, result, QueryEntries(q));
    UnchangedChain(old(heap.objects), before, heap.objects, queryDict);
  }

  /** `FindItem` on a dictionary holding `entries`: afterwards it holds them and the limit of one match. */
  method SearchDictionary(heap: CFHeap, query: CFType, status: int32, result: CFObject,
                          ghost entries: map<Handle, QueryValue>)
    returns (found: Result<Option<CFType>, Exception>)
    requires heap.Valid() && Holds(heap.objects, query.handle, entries) && kSecMatchLimit !in entries
    requires status == OK ==> Wellformed(result, heap.objects)
    modifies heap
    ensures heap.Valid() && Holds(heap.objects, query.handle, entries[kSecMatchLimit := Constant(kSecMatchLimitOne)])
    ensures Keeps(old(heap.objects), heap.objects, query.handle)
    ensures status != OK ==> found == KeychainQueries.StatusOutcome(status, None, None) && heap.owned == old(heap.owned)
    ensures status == OK ==>
      found.Success? && found.value.Some? && fresh(found.value.value) &&
      found.value.value.kind == DictionaryKind && found.value.value.ownsHandle && !found.value.value.closed &&
      found.value.value.handle !in old(heap.objects) && found.value.value.handle in heap.objects &&
      heap.objects[found.value.value.handle] == result &&
      heap.owned == old(heap.owned) + multiset{found.value.value.handle}
  {
    ghost var before := heap.objects;
    found := FindItem(heap, query, status, result);
    LimitHolds(before, heap.objects, query.handle, entries);
  }

  /** Objects that survive a step unchanged are still there. */
  lemma KeysGrow(a: map<Handle, CFObject>, b: map<Handle, CFObject>)
    requires forall h :: h in a ==> h in b && b[h] == a[h]
    ensures a.Keys <= b.Keys
  {
    forall h | h in a.Keys
      ensures h in b.Keys
    {
      assert h in a;
    }
  }

  /**
   * Objects that survive a step unchanged, and then a step that changes
   * only `d`, a new object, survive both.
   */
  lemma UnchangedChain(a: map<Handle, CFObject>, b: map<Handle, CFObject>, c: map<Handle, CFObject>, d: Handle)
    requires forall h :: h in a ==> h in b && b[h] == a[h]
    requires Keeps(b, c, d) && d !in a
    ensures forall h :: h in a ==> h in c && c[h] == a[h]
  {
  }

  /** Adding the limit to a dictionary holding the query's entries gives one holding the search's. */
  lemma SearchHolds(before: map<Handle, CFObject>, after: map<Handle, CFObject>, d: Handle, q: SecItemQuery)
    requires Holds(before, d, QueryEntries(q)) && kSecMatchLimit !in QueryEntries(q)
    requires d in after && after[d] == DictionaryAdd(before[d], kSecMatchLimit, kSecMatchLimitOne)
    requires Keeps(before, after, d)
    ensures Holds(after, d, SearchEntries(q))
  {
    LimitHolds(before, after, d, QueryEntries(q));
  }

  /** Adding the limit to a dictionary holding `entries` gives one holding them and the limit. */
  lemma LimitHolds(before: map<Handle, CFObject>, after: map<Handle, CFObject>, d: Handle,
                   entries: map<Handle, QueryValue>)
    requires Holds(before, d, entries) && kSecMatchLimit !in entries
    requires d in after && after[d] == DictionaryAdd(before[d], kSecMatchLimit, kSecMatchLimitOne)
    requires Keeps(before, after, d)
    ensures Holds(after, d, entries[kSecMatchLimit := Constant(kSecMatchLimitOne)])
  {
    var limited := entries[kSecMatchLimit := Constant(kSecMatchLimitOne)];
    assert after[d].values.Keys == limited.Keys;
    forall k | k in limited
      ensures Realises(after, d, limited[k], after[d].values[k])
    {
      if k != kSecMatchLimit {
        assert Realises(before, d, entries[k], before[d].values[k]);
      }
    }
  }

  // ---------------------------------------------------------------- attributes

  /** The attribute-list structure a cell holds, if it holds one. */
  function AttributeListOf(c: Cell): Option<SecKeychainAttributeList> {
    if c.AttributeListCell? then Some(c.list) else None
  }

  /** The attribute structure a cell holds, if it holds one. */
  function AttributeOf(c: Cell): Option<SecKeychainAttribute> {
    if c.AttributeCell? then Some(c.attribute) else None
  }

  /** `Marshal.SizeOf<SecKeychainAttribute>()`: a `uint` tag, a `uint` length and a pointer. */
  const SecKeychainAttributeSize: nat := 16

  /** The item with id `id` has the attribute `tag`, and its bytes are `bytes`. */
  ghost predicate AttributeIs(vault: Vault, id: nat, tag: uint32, bytes: seq<byte>)
    reads vault
  {
    exists a :: a in vault.items && vault.items[a].id == id && AttributeValue(a, tag) == Some(bytes)
  }

  /**
   * `GetAttributeData(itemRef, attrType, attrFormat)`: the bytes of one
   * attribute of the item. The tag and format arrays are allocated, the
   * attribute is copied out, its bytes are copied into managed memory, and
   * the `finally` block gives back all three native blocks, so memory ends
   * as it began. A missing item or attribute, or an OS-side `fault`,
   * raises the framework's code.
   */
  method GetAttributeData(vault: Vault, heap: CFHeap, mem: Memory, itemRef: Handle,
                          attrType: SecurityFramework.SecKeychainAttrType,
                          attrFormat: SecurityFramework.CssmDbAttributeFormat, fault: int32)
    returns (r: Result<seq<byte>, Exception>)
    requires vault.Valid() && heap.Valid() && mem.Valid()
    requires itemRef in heap.objects && heap.objects[itemRef].KeychainItemObj?
    modifies mem
    ensures mem.Valid() && mem.allocs == old(mem.allocs)
    ensures r.Success? <==> fault == OK && vault.HasAttribute(heap.objects[itemRef].itemId, attrType.Value())
    ensures r.Success? ==> AttributeIs(vault, heap.objects[itemRef].itemId, attrType.Value(), r.value)
    ensures r.Failure? ==> r.error.InteropException? && r.error.code != OK
    ensures fault != OK ==> r == Failure(Keychain.Throw(fault))
  {
    var tagArrayPtr, formatArrayPtr := AllocAttributeInfo(mem, attrType.Value(), attrFormat.Value());
    ghost var allocs1 := mem.allocs;
    var status, attrListPtr := vault.CopyAttribute(heap, mem, itemRef, tagArrayPtr, fault);
    ghost var allocs2 := mem.allocs;
    var checked := SecurityFramework.ThrowIfError(status, SecurityFramework.UnknownErrorMessage);
    if checked.Fail? {
      // finally: the two arrays; no attribute list was handed out.
      mem.Free(tagArrayPtr, HGlobal);
      mem.Free(formatArrayPtr, HGlobal);
      ArraysGivenBack(old(mem.allocs), allocs1, tagArrayPtr, formatArrayPtr);
      return Failure(checked.error);
    }
    var data := CopyOutAndFree(vault, heap, mem, itemRef, attrType.Value(), tagArrayPtr, formatArrayPtr, attrListPtr);
    BlocksGivenBack(old(mem.allocs), allocs1, allocs2, tagArrayPtr, formatArrayPtr, attrListPtr);
    return Success(data);
  }

  /**
   * The start of `GetAttributeData`'s `try`: two new four-byte HGlobal
   * blocks, holding `(int)attrType` and `(int)attrFormat`.
   */
  method AllocAttributeInfo(mem: Memory, tag: uint32, format: uint32) returns (tagPtr: Ptr, formatPtr: Ptr)
    requires mem.Valid()
    modifies mem
    ensures mem.Valid()
    ensures tagPtr !in old(mem.allocs) && formatPtr !in old(mem.allocs) && tagPtr != formatPtr
    ensures mem.allocs.Keys == old(mem.allocs).Keys + {tagPtr, formatPtr}
    ensures forall p :: p in old(mem.allocs) ==> mem.allocs[p] == old(mem.allocs)[p]
    ensures mem.allocs[tagPtr] == Allocation(HGlobal, 4) && mem.allocs[formatPtr] == Allocation(HGlobal, 4)
    ensures tagPtr in mem.cells && mem.cells[tagPtr].Int32Cell? && AsUInt32(mem.cells[tagPtr].i) == tag
    ensures formatPtr in mem.cells && mem.cells[formatPtr].Int32Cell? && AsUInt32(mem.cells[formatPtr].i) == format
  {
    tagPtr := mem.Alloc(HGlobal, 4);
    formatPtr := mem.Alloc(HGlobal, 4);
    mem.Write(tagPtr, tagPtr, Int32Cell(WrapInt32(tag)));
    mem.Write(formatPtr, formatPtr, Int32Cell(WrapInt32(format)));
    UnsignedRoundTrip(tag);
    UnsignedRoundTrip(format);
  }

  /**
   * The rest of the `try` once the call succeeded, and the `finally`: the
   * attribute's bytes are copied out, then the three blocks are given back.
   */
  method CopyOutAndFree(vault: Vault, heap: CFHeap, mem: Memory, itemRef: Handle, tag: uint32,
                        tagPtr: Ptr, formatPtr: Ptr, attrList: Ptr)
    returns (data: seq<byte>)
    requires vault.Valid() && mem.Valid()
    requires itemRef in heap.objects && heap.objects[itemRef].KeychainItemObj?
    requires tagPtr in mem.allocs && mem.allocs[tagPtr].allocator == HGlobal
    requires formatPtr in mem.allocs && mem.allocs[formatPtr].allocator == HGlobal && formatPtr != tagPtr
    requires attrList in mem.allocs && mem.allocs[attrList].allocator == KeychainAttributes
    requires attrList != tagPtr && attrList != formatPtr
    requires AttributeCopied(vault, mem, heap.objects[itemRef].itemId, tag, attrList)
    modifies mem
    ensures mem.Valid() && mem.allocs == old(mem.allocs) - {tagPtr} - {formatPtr} - {attrList}
    ensures AttributeIs(vault, heap.objects[itemRef].itemId, tag, data)
  {
    ghost var id := heap.objects[itemRef].itemId;
    ghost var a :| a in vault.items && vault.items[a].id == id && AttributeValue(a, tag).Some? &&
      AttributeStored(mem, attrList, tag, AttributeValue(a, tag).value);
    ghost var bytes := AttributeValue(a, tag).value;
    data := ReadAttributeBytes(mem, attrList, tag, bytes);
    mem.Free(tagPtr, HGlobal);
    mem.Free(formatPtr, HGlobal);
    var _ := vault.FreeAttributesAndData(mem, attrList);
  }

  /** The block at `attrList` holds the attribute `tag` of the item with id `id`. */
  ghost predicate AttributeCopied(vault: Vault, mem: Memory, id: nat, tag: uint32, attrList: Ptr)
    reads vault, mem
  {
    exists a :: a in vault.items && vault.items[a].id == id && AttributeValue(a, tag).Some? &&
                AttributeStored(mem, attrList, tag, AttributeValue(a, tag).value)
  }

  /** Giving back the two arrays leaves the blocks `GetAttributeData` started with. */
  lemma ArraysGivenBack(start: map<Ptr, Allocation>, middle: map<Ptr, Allocation>, tag: Ptr, format: Ptr)
    requires tag !in start && format !in start && tag != format
    requires middle.Keys == start.Keys + {tag, format} && forall p :: p in start ==> middle[p] == start[p]
    ensures middle - {tag} - {format} == start
  {
    var back := middle - {tag} - {format};
    assert back.Keys == start.Keys;
    assert forall p :: p in back ==> back[p] == middle[p] == start[p];
  }

  /** Giving back the three blocks `GetAttributeData` obtained leaves the blocks it started with. */
  lemma BlocksGivenBack(start: map<Ptr, Allocation>, middle: map<Ptr, Allocation>, after: map<Ptr, Allocation>,
                        tag: Ptr, format: Ptr, attrList: Ptr)
    requires tag !in start && format !in start && tag != format
    requires middle.Keys == start.Keys + {tag, format} && forall p :: p in start ==> middle[p] == start[p]
    requires attrList !in middle
    requires after.Keys == middle.Keys + {attrList} && forall p :: p in middle ==> after[p] == middle[p]
    ensures after - {tag} - {format} - {attrList} == start
  {
    var back := after - {tag} - {format} - {attrList};
    assert back.Keys == start.Keys;
    assert forall p :: p in back ==> back[p] == middle[p] == start[p];
  }

  /**
   * The body of the `try` after the call: the list at `attrList`, its
   * first attribute (`ToStructureArray(1)`), and that attribute's bytes.
   */
  method ReadAttributeBytes(mem: Memory, attrList: Ptr, ghost tag: uint32, ghost bytes: seq<byte>) returns (data: seq<byte>)
    requires AttributeStored(mem, attrList, tag, bytes)
    ensures data == bytes
  {
    var list := IntPtrExtensions.Dereference(mem, attrList, AttributeListOf);
    var values := IntPtrExtensions.ToStructureArray(mem, list.attributes, 1, SecKeychainAttributeSize, AttributeOf);
    assert values.Success?;
    var value := values.value[0];
    var copied := IntPtrExtensions.ToByteArray(mem, value.data, value.length, bytes);
    assert copied.Success?;
    return copied.value;
  }

  /**
   * `ReadSecItemAttributes(itemRef)`: reads the service, account and label
   * of an item (each call with its own OS-side fault) and decodes them,
   * then returns null; the first failing read raises.
   */
  method ReadSecItemAttributes(vault: Vault, heap: CFHeap, mem: Memory, itemRef: Handle,
                               serviceFault: int32, accountFault: int32, labelFault: int32)
    returns (r: Outcome<Exception>)
    requires vault.Valid() && heap.Valid() && mem.Valid()
    requires itemRef in heap.objects && heap.objects[itemRef].KeychainItemObj?
    modifies mem
    ensures mem.Valid() && mem.allocs == old(mem.allocs)
    ensures r.Pass? <==>
      serviceFault == OK && accountFault == OK && labelFault == OK &&
      vault.HasAttribute(heap.objects[itemRef].itemId, SecurityFramework.SecKeychainAttrType.Service.Value()) &&
      vault.HasAttribute(heap.objects[itemRef].itemId, SecurityFramework.SecKeychainAttrType.Account.Value()) &&
      vault.HasAttribute(heap.objects[itemRef].itemId, SecurityFramework.SecKeychainAttrType.Label.Value())
    ensures r.Fail? ==> r.error.InteropException?
  {
    var serviceBytes := GetAttributeData(vault, heap, mem, itemRef, SecurityFramework.SecKeychainAttrType.Service,
                                         SecurityFramework.FormatString, serviceFault);
    if serviceBytes.Failure? {
      return Fail(serviceBytes.error);
    }
    var accountBytes := GetAttributeData(vault, heap, mem, itemRef, SecurityFramework.SecKeychainAttrType.Account,
                                         SecurityFramework.FormatString, accountFault);
    if accountBytes.Failure? {
      return Fail(accountBytes.error);
    }
    var labelBytes := GetAttributeData(vault, heap, mem, itemRef, SecurityFramework.SecKeychainAttrType.Label,
                                       SecurityFramework.FormatString, labelFault);
    if labelBytes.Failure? {
      return Fail(labelBytes.error);
    }
    var service := Utf8Decode(serviceBytes.value);
    var account := Utf8Decode(accountBytes.value);
    var itemLabel := Utf8Decode(labelBytes.value);
    return Pass;
  }

  /**
   * An internet password keeps no service attribute, so reading the
   * attributes of one always fails, whatever the OS answers.
   */
  lemma InternetItemHasNoService(vault: Vault, a: ItemAttributes)
    requires vault.Valid() && a in vault.items && a.InternetAttributes?
    ensures !vault.HasAttribute(vault.items[a].id, SecurityFramework.SecKeychainAttrType.Service.Value())
  {
  }

  // ---------------------------------------------------------------- the two revisions

  /**
   * This revision stores the protocol and authentication type as numbers,
   * where `Keychain` stored four-character strings: `Keychain`'s getters
   * read such a dictionary's codes as 0 (`Any`) even when the query named one.
   */
  lemma NumericCodesReadAsAny(objects: map<Handle, CFObject>, d: Handle, q: SecItemQuery)
    requires Holds(objects, d, QueryEntries(q))
    ensures Keychain.CodeOf(Keychain.ValueObject(objects, d, kSecAttrProtocol)) == Success(0)
    ensures Keychain.CodeOf(Keychain.ValueObject(objects, d, kSecAttrAuthenticationType)) == Success(0)
  {
    NotStringCode(objects, d, q, kSecAttrProtocol);
    NotStringCode(objects, d, q, kSecAttrAuthenticationType);
  }

  /** Under a code key the query dictionary holds a number, when it holds anything. */
  lemma NotStringCode(objects: map<Handle, CFObject>, d: Handle, q: SecItemQuery, key: Handle)
    requires Holds(objects, d, QueryEntries(q))
    requires key == kSecAttrProtocol || key == kSecAttrAuthenticationType
    ensures Keychain.ValueObject(objects, d, key).Some? ==> Keychain.ValueObject(objects, d, key).value.NumberObj?
  {
    QueryEntriesKeys(q, key);
    if key in QueryEntries(q) {
      var value := if key == kSecAttrProtocol then q.protocol.Value() else q.authenticationType.Value();
      assert QueryEntries(q)[key] == Created(NumberObj(LongType, value as int));
    }
  }

  /**
   * `SecItemInternetPassword.Port` keeps the low 16 bits of a stored number
   * that does not fit a `short`, where `Keychain`'s `Port` reads 0: a stored
   * 66 979 (0x1_05A3) reads as 1443 here.
   */
  lemma PortKeepsLowBits(objects: map<Handle, CFObject>, d: Handle)
    requires d in objects && objects[d].DictionaryObj?
    requires kSecAttrPort in objects[d].values && objects[d].values[kSecAttrPort] in objects
    requires objects[objects[d].values[kSecAttrPort]] == NumberObj(IntType, 0x1_05A3)
    ensures View(objects, d).port == 1443
    ensures Keychain.Fields(objects, d).port == 0
  {
  }
}

=== FILE: security_framework.dfy ===
/**
 * The Security framework's result codes, the error check that turns them
 * into exceptions, and the four-character enum tables the keychain API uses.
 */
module SecurityFramework {
  import opened Numeric
  import opened Wrappers
  import opened Exceptions
  import opened Unicode
  import FourCharCode

  const OK: int32 := 0
  const ErrorSecNoSuchKeychain: int32 := -25294
  const ErrorSecInvalidKeychain: int32 := -25295
  const ErrorSecAuthFailed: int32 := -25293
  const ErrorSecDuplicateItem: int32 := -25299
  const ErrorSecItemNotFound: int32 := -25300
  const ErrorSecInteractionNotAllowed: int32 := -25308
  const ErrorSecInteractionRequired: int32 := -25315
  const ErrorSecNoSuchAttr: int32 := -25303

  /** The default of `ThrowIfError`'s message parameter. */
  const UnknownErrorMessage := "Unknown error."

  /** The fixed message of each of the eight named error codes. */
  function NamedErrorMessage(error: int32): Option<string> {
    if error == ErrorSecNoSuchKeychain then Some("The keychain does not exist.")
    else if error == ErrorSecInvalidKeychain then Some("The keychain is not valid.")
    else if error == ErrorSecAuthFailed then Some("Authorization/Authentication failed.")
    else if error == ErrorSecDuplicateItem then Some("The item already exists.")
    else if error == ErrorSecItemNotFound then Some("The item cannot be found.")
    else if error == ErrorSecInteractionNotAllowed then Some("Interaction with the Security Server is not allowed.")
    else if error == ErrorSecInteractionRequired then Some("User interaction is required.")
    else if error == ErrorSecNoSuchAttr then Some("The attribute does not exist.")
    else None
  }

  /**
   * `ThrowIfError`: returns normally only for `OK`; every other code raises
   * an `InteropException` carrying that code, with the code's fixed message
   * or, for an unnamed code, the caller's default message.
   */
  function ThrowIfError(error: int32, defaultErrorMessage: string): (r: Outcome<Exception>)
    ensures r.Pass? <==> error == OK
    ensures r.Fail? ==> r.error.InteropException? && r.error.code == error
    ensures r.Fail? && NamedErrorMessage(error).Some? ==> r.error.message == NamedErrorMessage(error).value
    ensures r.Fail? && NamedErrorMessage(error).None? ==> r.error.message == defaultErrorMessage
  {
    if error == OK then Pass
    else
      match NamedErrorMessage(error)
      case Some(m) => Fail(InteropException(m, error))
      case None => Fail(InteropException(defaultErrorMessage, error))
  }

  /** `OK` has no message, and distinct named codes have distinct messages. */
  lemma NamedErrorMessagesDistinct(a: int32, b: int32)
    requires NamedErrorMessage(a).Some? && NamedErrorMessage(a) == NamedErrorMessage(b)
    ensures a == b && a != OK
  {
  }

  /**
   * `ErrorSecItemNotFound` is not special to `ThrowIfError`: it raises like
   * any other failure, so a caller that treats "not found" as a normal
   * outcome must test for it first.
   */
  lemma ItemNotFoundThrows(defaultErrorMessage: string)
    ensures ThrowIfError(ErrorSecItemNotFound, defaultErrorMessage) == Fail(InteropException("The item cannot be found.", ErrorSecItemNotFound))
  {
  }

  datatype SecKeychainAttrType =
    Service
    | Account
    | Label
    | CreationDate
    | ModifiedDate
  {
    /** The enum's `uint` value. */
    function Value(): uint32 {
      match this
      case Service => 1937138533
      case Account => 1633903476
      case Label => 1818321516
      case CreationDate => 1667522932
      case ModifiedDate => 1835295092
    }

    /** The four-character tag the value spells (given for every named code). */
    function Tag(): string
    {
      match this
      case Service => "svce"
      case Account => "acct"
      case Label => "labl"
      case CreationDate => "cdat"
      case ModifiedDate => "mdat"
    }
  }

  /** The named value with the given `uint`, if there is one. */
  function SecKeychainAttrTypeFromValue(v: uint32): Option<SecKeychainAttrType> {
    if v == 1937138533 then Some(SecKeychainAttrType.Service)
    else if v == 1633903476 then Some(SecKeychainAttrType.Account)
    else if v == 1818321516 then Some(SecKeychainAttrType.Label)
    else if v == 1667522932 then Some(SecKeychainAttrType.CreationDate)
    else if v == 1835295092 then Some(SecKeychainAttrType.ModifiedDate)
    else None
  }

  datatype SecProtocolType =
    Any
    | FTP
    | FTPAccount
    | HTTP
    | IRC
    | NNTP
    | POP3
    | SMTP
    | SOCKS
    | IMAP
    | LDAP
    | AppleTalk
    | AFP
    | Telnet
    | SSH
    | FTPS
    | HTTPS
    | HTTPProxy
    | HTTPSProxy
    | FTPProxy
    | CIFS
    | SMB
    | RTSP
    | RTSPProxy
    | DAAP
    | EPPC
    | IPP
    | NNTPS
    | LDAPS
    | TelnetS
    | IMAPS
    | IRCS
    | POP3S
    | CVSpserver
    | SVN
  {
    /** The enum's `uint` value. */
    function Value(): uint32 {
      match this
      case Any => 0
      case FTP => 1718906912
      case FTPAccount => 1718906977
      case HTTP => 1752462448
      case IRC => 1769104160
      case NNTP => 1852732528
      case POP3 => 1886351411
      case SMTP => 1936553072
      case SOCKS => 1936685088
      case IMAP => 1768776048
      case LDAP => 1818517872
      case AppleTalk => 1635019883
      case AFP => 1634103328
      case Telnet => 1952803950
      case SSH => 1936943136
      case FTPS => 1718906995
      case HTTPS => 1752461427
      case HTTPProxy => 1752461432
      case HTTPSProxy => 1752462200
      case FTPProxy => 1718907000
      case CIFS => 1667851891
      case SMB => 1936548384
      case RTSP => 1920234352
      case RTSPProxy => 1920234360
      case DAAP => 1684103536
      case EPPC => 1701867619
      case IPP => 1768976416
      case NNTPS => 1853124723
      case LDAPS => 1818521715
      case TelnetS => 1952803955
      case IMAPS => 1768779891
      case IRCS => 1769104243
      case POP3S => 1886351475
      case CVSpserver => 1668707184
      case SVN => 1937141280
    }

    /** The four-character tag the value spells (given for every named code). */
    function Tag(): string
      requires !Any?
    {
      match this
      case FTP => "ftp "
      case FTPAccount => "ftpa"
      case HTTP => "http"
      case IRC => "irc "
      case NNTP => "nntp"
      case POP3 => "pop3"
      case SMTP => "smtp"
      case SOCKS => "sox "
      case IMAP => "imap"
      case LDAP => "ldap"
      case AppleTalk => "atlk"
      case AFP => "afp "
      case Telnet => "teln"
      case SSH => "ssh "
      case FTPS => "ftps"
      case HTTPS => "htps"
      case HTTPProxy => "htpx"
      case HTTPSProxy => "htsx"
      case FTPProxy => "ftpx"
      case CIFS => "cifs"
      case SMB => "smb "
      case RTSP => "rtsp"
      case RTSPProxy => "rtsx"
      case DAAP => "daap"
      case EPPC => "eppc"
      case IPP => "ipp "
      case NNTPS => "ntps"
      case LDAPS => "ldps"
      case TelnetS => "tels"
      case IMAPS => "imps"
      case IRCS => "ircs"
      case POP3S => "pops"
      case CVSpserver => "cvsp"
      case SVN => "svn "
    }
  }

  /** The named value with the given `uint`, if there is one. */
  function SecProtocolTypeFromValue(v: uint32): Option<SecProtocolType> {
    if v == 0 then Some(SecProtocolType.Any)
    else if v == 1718906912 then Some(SecProtocolType.FTP)
    else if v == 1718906977 then Some(SecProtocolType.FTPAccount)
    else if v == 1752462448 then Some(SecProtocolType.HTTP)
    else if v == 1769104160 then Some(SecProtocolType.IRC)
    else if v == 1852732528 then Some(SecProtocolType.NNTP)
    else if v == 1886351411 then Some(SecProtocolType.POP3)
    else if v == 1936553072 then Some(SecProtocolType.SMTP)
    else if v == 1936685088 then Some(SecProtocolType.SOCKS)
    else if v == 1768776048 then Some(SecProtocolType.IMAP)
    else if v == 1818517872 then Some(SecProtocolType.LDAP)
    else if v == 1635019883 then Some(SecProtocolType.AppleTalk)
    else if v == 1634103328 then Some(SecProtocolType.AFP)
    else if v == 1952803950 then Some(SecProtocolType.Telnet)
    else if v == 1936943136 then Some(SecProtocolType.SSH)
    else if v == 1718906995 then Some(SecProtocolType.FTPS)
    else if v == 1752461427 then Some(SecProtocolType.HTTPS)
    else if v == 1752461432 then Some(SecProtocolType.HTTPProxy)
    else if v == 1752462200 then Some(SecProtocolType.HTTPSProxy)
    else if v == 1718907000 then Some(SecProtocolType.FTPProxy)
    else if v == 1667851891 then Some(SecProtocolType.CIFS)
    else if v == 1936548384 then Some(SecProtocolType.SMB)
    else if v == 1920234352 then Some(SecProtocolType.RTSP)
    else if v == 1920234360 then Some(SecProtocolType.RTSPProxy)
    else if v == 1684103536 then Some(SecProtocolType.DAAP)
    else if v == 1701867619 then Some(SecProtocolType.EPPC)
    else if v == 1768976416 then Some(SecProtocolType.IPP)
    else if v == 1853124723 then Some(SecProtocolType.NNTPS)
    else if v == 1818521715 then Some(SecProtocolType.LDAPS)
    else if v == 1952803955 then Some(SecProtocolType.TelnetS)
    else if v == 1768779891 then Some(SecProtocolType.IMAPS)
    else if v == 1769104243 then Some(SecProtocolType.IRCS)
    else if v == 1886351475 then Some(SecProtocolType.POP3S)
    else if v == 1668707184 then Some(SecProtocolType.CVSpserver)
    else if v == 1937141280 then Some(SecProtocolType.SVN)
    else None
  }

  datatype SecAuthenticationType =
    Any
    | NTLM
    | MSN
    | DPA
    | RPA
    | HTTPBasic
    | HTTPDigest
    | HTMLForm
    | Default
  {
    /** The enum's `uint` value. */
    function Value(): uint32 {
      match this
      case Any => 0
      case NTLM => 1853123693
      case MSN => 1836281441
      case DPA => 1685086561
      case RPA => 1919967585
      case HTTPBasic => 1752462448
      case HTTPDigest => 1752462436
      case HTMLForm => 1718579821
      case Default => 1684434036
    }

    /** The four-character tag the value spells (given for every named code). */
    function Tag(): string
      requires !Any?
    {
      match this
      case NTLM => "ntlm"
      case MSN => "msna"
      case DPA => "dpaa"
      case RPA => "rpaa"
      case HTTPBasic => "http"
      case HTTPDigest => "httd"
      case HTMLForm => "form"
      case Default => "dflt"
    }
  }

  /** The named value with the given `uint`, if there is one. */
  function SecAuthenticationTypeFromValue(v: uint32): Option<SecAuthenticationType> {
    if v == 0 then Some(SecAuthenticationType.Any)
    else if v == 1853123693 then Some(SecAuthenticationType.NTLM)
    else if v == 1836281441 then Some(SecAuthenticationType.MSN)
    else if v == 1685086561 then Some(SecAuthenticationType.DPA)
    else if v == 1919967585 then Some(SecAuthenticationType.RPA)
    else if v == 1752462448 then Some(SecAuthenticationType.HTTPBasic)
    else if v == 1752462436 then Some(SecAuthenticationType.HTTPDigest)
    else if v == 1718579821 then Some(SecAuthenticationType.HTMLForm)
    else if v == 1684434036 then Some(SecAuthenticationType.Default)
    else None
  }

  /** Each tag is four ASCII characters whose big-endian value is the listed code. */
  lemma AttrTypeTagValues(t: SecKeychainAttrType)
    ensures |t.Tag()| == 4 && IsAscii(t.Tag())
    ensures FourCharCode.TagValue(t.Tag()) == t.Value()
  {
  }

  /** Every named attribute type is the code of its tag. */
  lemma {:induction false} AttrTypeTags(t: SecKeychainAttrType)
    ensures FourCharCode.ToUInt32(t.Tag()) == Success(t.Value())
  {
    AttrTypeTagValues(t);
    FourCharCode.ToUInt32OfTag(t.Tag());
  }

  /** `SecKeychainAttrTypeFromValue` inverts `Value`, so no two members share a value. */
  lemma AttrTypeFromValueInverse(t: SecKeychainAttrType)
    ensures SecKeychainAttrTypeFromValue(t.Value()) == Some(t)
  {
  }

  /** Each tag is four ASCII characters whose big-endian value is the listed code. */
  lemma ProtocolTagValues(p: SecProtocolType)
    requires !p.Any?
    ensures |p.Tag()| == 4 && IsAscii(p.Tag())
    ensures FourCharCode.TagValue(p.Tag()) == p.Value()
  {
  }

  /** Every protocol other than `Any` is the code of its tag. */
  lemma {:induction false} ProtocolTags(p: SecProtocolType)
    ensures !p.Any? ==> FourCharCode.ToUInt32(p.Tag()) == Success(p.Value())
  {
    if !p.Any? {
      ProtocolTagValues(p);
      FourCharCode.ToUInt32OfTag(p.Tag());
    }
  }

  /** `SecProtocolTypeFromValue` inverts `Value`, so no two members share a value; only `Any` is zero. */
  lemma ProtocolFromValueInverse(p: SecProtocolType)
    ensures SecProtocolTypeFromValue(p.Value()) == Some(p)
    ensures p.Value() == 0 <==> p.Any?
  {
  }

  /** Each tag is four ASCII characters whose big-endian value is the listed code. */
  lemma AuthenticationTagValues(a: SecAuthenticationType)
    requires !a.Any?
    ensures |a.Tag()| == 4 && IsAscii(a.Tag())
    ensures FourCharCode.TagValue(a.Tag()) == a.Value()
  {
  }

  /** Every authentication type other than `Any` is the code of its tag. */
  lemma {:induction false} AuthenticationTags(a: SecAuthenticationType)
    ensures !a.Any? ==> FourCharCode.ToUInt32(a.Tag()) == Success(a.Value())
  {
    if !a.Any? {
      AuthenticationTagValues(a);
      FourCharCode.ToUInt32OfTag(a.Tag());
    }
  }

  /** `SecAuthenticationTypeFromValue` inverts `Value`, so no two members share a value; only `Any` is zero. */
  lemma AuthenticationFromValueInverse(a: SecAuthenticationType)
    ensures SecAuthenticationTypeFromValue(a.Value()) == Some(a)
    ensures a.Value() == 0 <==> a.Any?
  {
  }

  /** Distinct enum members have distinct values within each table. */
  lemma EnumValuesDistinct(p: SecProtocolType, q: SecProtocolType, a: SecAuthenticationType, b: SecAuthenticationType)
    ensures p.Value() == q.Value() ==> p == q
    ensures a.Value() == b.Value() ==> a == b
  {
    ProtocolFromValueInverse(p);
    ProtocolFromValueInverse(q);
    AuthenticationFromValueInverse(a);
    AuthenticationFromValueInverse(b);
  }

  /** The protocol HTTP and the authentication type HTTPBasic share the code of "http". */
  lemma HttpSharedAcrossTables()
    ensures SecProtocolType.HTTP.Value() == SecAuthenticationType.HTTPBasic.Value() == 1752462448
    ensures FourCharCode.ToUInt32("http") == Success(1752462448)
  {
    ProtocolTags(SecProtocolType.HTTP);
  }

  /** `CssmDbAttributeFormat`: how the bytes of an attribute are to be read. */
  datatype CssmDbAttributeFormat =
    FormatString | FormatSInt32 | FormatUInt32 | FormatBigNum | FormatReal | FormatTimeDate
    | FormatBlob | FormatMultiUInt32 | FormatComplex
  {
    /** The enum's `uint` value. */
    function Value(): uint32 {
      match this
      case FormatString => 0
      case FormatSInt32 => 1
      case FormatUInt32 => 2
      case FormatBigNum => 3
      case FormatReal => 4
      case FormatTimeDate => 5
      case FormatBlob => 6
      case FormatMultiUInt32 => 7
      case FormatComplex => 8
    }
  }
}

=== FILE: string_extensions.dfy ===
/** `StringExtensions.ToByteArray`: a possibly-null string to its encoded bytes. */
module StringExtensions {
  import opened Numeric
  import opened Wrappers
  import opened Unicode

  /**
   * `str.ToByteArray(encoding)`: an empty array for a null or empty string,
   * otherwise `encoding.GetBytes(str)`. The result is never null.
   */
  function ToByteArray(str: Option<string>, encoding: Encoding): (r: seq<byte>)
    ensures str.None? ==> r == []
    ensures str.Some? ==> r == GetBytes(encoding, str.value)
    ensures r == [] <==> str.None? || str.value == ""
  {
    match str
    case None => []
    case Some(s) =>
      if s == "" then []
      else
        GetBytesNonEmpty(encoding, s);
        GetBytes(encoding, s)
  }

  /** Encoding a non-empty string gives at least one byte. */
  lemma GetBytesNonEmpty(encoding: Encoding, s: string)
    requires s != ""
    ensures GetBytes(encoding, s) != []
  {
    assert s == [s[0]] + s[1..];
    match encoding
    case UTF8 =>
      Utf8EncodeAppend([s[0]], s[1..]);
      assert Utf8Encode([s[0]]) == EncodeChar(s[0]);
    case UTF16LE =>
      Utf16LengthAppend([s[0]], s[1..]);
  }

  /** Decoding the bytes gives back the string, with null read as empty. */
  lemma ToByteArrayRoundTrip(str: Option<string>, encoding: Encoding)
    ensures GetString(encoding, ToByteArray(str, encoding)) == str.GetOr("")
  {
    if str.Some? {
      EncodingRoundTrip(encoding, str.value);
    }
  }
}

=== FILE: unicode.dfy ===
/**
 * The two text encodings the library uses: UTF-8 (`Encoding.UTF8`, and the
 * ANSI string marshalling of the macOS imports) and UTF-16 little-endian
 * (`Encoding.Unicode`, the Windows credential blob). A managed string is a
 * sequence of Unicode scalar values; its .NET `Length` counts UTF-16 units.
 */
module Unicode {
  import opened Numeric

  /** U+FFFD, which the .NET decoders substitute for malformed input. */
  const Replacement: char := '�'

  predicate IsScalar(n: int) {
    (0 <= n < 0xD800) || (0xE000 <= n < 0x11_0000)
  }

  predicate IsAscii(s: string) {
    forall i :: 0 <= i < |s| ==> s[i] as int < 0x80
  }

  lemma CharIsScalar(c: char)
    ensures IsScalar(c as int)
  {
  }

  // ---------------------------------------------------------------- UTF-8

  /** The UTF-8 encoding of one scalar value. */
  function EncodeChar(c: char): (r: seq<byte>)
    ensures 1 <= |r| <= 4
    ensures (|r| == 1) == (c as int < 0x80)
    ensures |r| <= 3 <==> c as int < 0x1_0000
    ensures r[0] == 0 <==> c == '\0'
    ensures forall i :: 1 <= i < |r| ==> r[i] != 0
  {
    var n := c as int;
    if n < 0x80 then [n]
    else if n < 0x800 then [0xC0 + n / 0x40, 0x80 + n % 0x40]
    else if n < 0x1_0000 then [0xE0 + n / 0x1000, 0x80 + (n / 0x40) % 0x40, 0x80 + n % 0x40]
    else [0xF0 + n / 0x4_0000, 0x80 + (n / 0x1000) % 0x40, 0x80 + (n / 0x40) % 0x40, 0x80 + n % 0x40]
  }

  /** `Encoding.UTF8.GetBytes`. */
  function Utf8Encode(s: string): seq<byte> {
    if s == [] then [] else EncodeChar(s[0]) + Utf8Encode(s[1..])
  }

  predicate IsContinuation(b: byte) {
    0x80 <= b < 0xC0
  }

  function Value2(b0: byte, b1: byte): int {
    (b0 - 0xC0) * 0x40 + (b1 - 0x80)
  }

  function Value3(b0: byte, b1: byte, b2: byte): int {
    (b0 - 0xE0) * 0x1000 + (b1 - 0x80) * 0x40 + (b2 - 0x80)
  }

  function Value4(b0: byte, b1: byte, b2: byte, b3: byte): int {
    (b0 - 0xF0) * 0x4_0000 + (b1 - 0x80) * 0x1000 + (b2 - 0x80) * 0x40 + (b3 - 0x80)
  }

  /** The length of a well-formed sequence led by `b0`: 1 to 4, or 0 for a byte that cannot lead one. */
  function SequenceLength(b0: byte): (n: nat)
    ensures n <= 4
  {
    if b0 < 0x80 then 1
    else if 0xC2 <= b0 < 0xE0 then 2
    else if 0xE0 <= b0 < 0xF0 then 3
    else if 0xF0 <= b0 < 0xF5 then 4
    else 0
  }

  /**
   * The second bytes a well-formed sequence led by `b0` admits (Table 3-7 of
   * the Unicode Standard): narrower after E0, ED, F0 and F4, which rules out
   * overlong forms, surrogates and values above U+10FFFF.
   */
  predicate SecondByteFits(b0: byte, b1: byte) {
    if b0 == 0xE0 then 0xA0 <= b1 < 0xC0
    else if b0 == 0xED then 0x80 <= b1 < 0xA0
    else if b0 == 0xF0 then 0x90 <= b1 < 0xC0
    else if b0 == 0xF4 then 0x80 <= b1 < 0x90
    else IsContinuation(b1)
  }

  /**
   * How many leading bytes of `b` fit the pattern of a well-formed sequence
   * of `n` bytes: all `n` of them, or the maximal subpart that a
   * replacement character stands for.
   */
  function MatchedLength(b: seq<byte>, n: nat): (k: nat)
    requires |b| > 0 && 2 <= n <= 4
    ensures 1 <= k <= n && k <= |b|
    ensures k >= 2 <==> |b| >= 2 && SecondByteFits(b[0], b[1])
    ensures k >= 3 <==> n >= 3 && k >= 2 && |b| >= 3 && IsContinuation(b[2])
    ensures k == 4 <==> n == 4 && k >= 3 && |b| >= 4 && IsContinuation(b[3])
  {
    if |b| < 2 || !SecondByteFits(b[0], b[1]) then 1
    else if n == 2 || |b| < 3 || !IsContinuation(b[2]) then 2
    else if n == 3 || |b| < 4 || !IsContinuation(b[3]) then 3
    else 4
  }

  lemma Value2Scalar(b0: byte, b1: byte)
    requires SequenceLength(b0) == 2 && IsContinuation(b1)
    ensures 0x80 <= Value2(b0, b1) < 0x800
  {
  }

  lemma Value3Scalar(b0: byte, b1: byte, b2: byte)
    requires SequenceLength(b0) == 3 && SecondByteFits(b0, b1) && IsContinuation(b2)
    ensures 0x800 <= Value3(b0, b1, b2) < 0x1_0000 && IsScalar(Value3(b0, b1, b2))
  {
  }

  lemma Value4Scalar(b0: byte, b1: byte, b2: byte, b3: byte)
    requires SequenceLength(b0) == 4 && SecondByteFits(b0, b1) && IsContinuation(b2) && IsContinuation(b3)
    ensures 0x1_0000 <= Value4(b0, b1, b2, b3) < 0x11_0000
  {
  }

  /**
   * The first character of a non-empty byte sequence and how many bytes it
   * takes. As `Encoding.UTF8` does since .NET Core 3.0, a byte that cannot
   * lead a sequence becomes one U+FFFD, and so does each maximal subpart: a
   * lead byte with the bytes after it that still fit a well-formed
   * sequence, cut short.
   */
  function DecodeFirst(b: seq<byte>): (r: (char, nat))
    requires |b| > 0
    ensures 1 <= r.1 <= |b| && r.1 <= 4
  {
    var n := SequenceLength(b[0]);
    if n == 1 then (b[0] as char, 1)
    else if n == 0 then (Replacement, 1)
    else
      var k := MatchedLength(b, n);
      if k < n then (Replacement, k)
      else if n == 2 then
        Value2Scalar(b[0], b[1]);
        (Value2(b[0], b[1]) as char, 2)
      else if n == 3 then
        Value3Scalar(b[0], b[1], b[2]);
        (Value3(b[0], b[1], b[2]) as char, 3)
      else
        Value4Scalar(b[0], b[1], b[2], b[3]);
        (Value4(b[0], b[1], b[2], b[3]) as char, 4)
  }

  /** `Encoding.UTF8.GetString`. */
  function Utf8Decode(b: seq<byte>): string
    decreases |b|
  {
    if b == [] then [] else
      var (c, k) := DecodeFirst(b);
      [c] + Utf8Decode(b[k..])
  }

  lemma DecodeEncodeChar2(n: int, b: seq<byte>)
    requires 0x80 <= n < 0x800
    requires |b| >= 2 && b[0] == 0xC0 + n / 0x40 && b[1] == 0x80 + n % 0x40
    ensures SequenceLength(b[0]) == 2 && SecondByteFits(b[0], b[1]) && Value2(b[0], b[1]) == n
  {
  }

  lemma DecodeEncodeChar3(n: int, b: seq<byte>)
    requires 0x800 <= n < 0x1_0000 && IsScalar(n)
    requires |b| >= 3 && b[0] == 0xE0 + n / 0x1000
    requires b[1] == 0x80 + (n / 0x40) % 0x40 && b[2] == 0x80 + n % 0x40
    ensures SequenceLength(b[0]) == 3 && SecondByteFits(b[0], b[1]) && IsContinuation(b[2])
    ensures Value3(b[0], b[1], b[2]) == n
  {
    var q := n / 0x40;
    assert n == q * 0x40 + n % 0x40;
    assert q == (q / 0x40) * 0x40 + q % 0x40;
    assert q / 0x40 == n / 0x1000;
  }

  lemma DecodeEncodeChar4(n: int, b: seq<byte>)
    requires 0x1_0000 <= n < 0x11_0000
    requires |b| >= 4 && b[0] == 0xF0 + n / 0x4_0000 && b[1] == 0x80 + (n / 0x1000) % 0x40
    requires b[2] == 0x80 + (n / 0x40) % 0x40 && b[3] == 0x80 + n % 0x40
    ensures SequenceLength(b[0]) == 4 && SecondByteFits(b[0], b[1]) && IsContinuation(b[2]) && IsContinuation(b[3])
    ensures Value4(b[0], b[1], b[2], b[3]) == n
  {
    var q := n / 0x40;
    var p := q / 0x40;
    assert n == q * 0x40 + n % 0x40;
    assert q == p * 0x40 + q % 0x40;
    assert p == (p / 0x40) * 0x40 + p % 0x40;
    assert p == n / 0x1000;
    assert p / 0x40 == n / 0x4_0000;
  }

  /** Decoding reads back exactly the character that was encoded, whatever follows. */
  lemma DecodeFirstEncodeChar(c: char, rest: seq<byte>)
    ensures DecodeFirst(EncodeChar(c) + rest) == (c, |EncodeChar(c)|)
  {
    var n := c as int;
    var b := EncodeChar(c) + rest;
    if n < 0x80 {
    } else if n < 0x800 {
      DecodeEncodeChar2(n, b);
    } else if n < 0x1_0000 {
      CharIsScalar(c);
      DecodeEncodeChar3(n, b);
    } else {
      DecodeEncodeChar4(n, b);
    }
  }

  lemma {:induction false} Utf8EncodeAppend(a: string, b: string)
    ensures Utf8Encode(a + b) == Utf8Encode(a) + Utf8Encode(b)
  {
    if a != [] {
      assert (a + b)[1..] == a[1..] + b;
      Utf8EncodeAppend(a[1..], b);
      calc {
        Utf8Encode(a + b);
        EncodeChar(a[0]) + Utf8Encode(a[1..] + b);
        EncodeChar(a[0]) + (Utf8Encode(a[1..]) + Utf8Encode(b));
        (EncodeChar(a[0]) + Utf8Encode(a[1..])) + Utf8Encode(b);
      }
    } else {
      assert a + b == b;
    }
  }

  /** UTF-8 decoding inverts UTF-8 encoding, for every string. */
  lemma {:induction false} Utf8RoundTrip(s: string)
    ensures Utf8Decode(Utf8Encode(s)) == s
  {
    if s != [] {
      var e := EncodeChar(s[0]);
      DecodeFirstEncodeChar(s[0], Utf8Encode(s[1..]));
      assert (e + Utf8Encode(s[1..]))[|e|..] == Utf8Encode(s[1..]);
      Utf8RoundTrip(s[1..]);
    }
  }

  /**
   * Ill-formed input gives one U+FFFD per maximal subpart: a cut-off
   * four-byte sequence is one replacement, a cut-off three-byte sequence
   * before "A" is one replacement and "A", while a byte that cannot lead
   * (C0, a lone continuation, ED before A0) is replaced on its own.
   */
  lemma MaximalSubpartsReplaced()
    ensures Utf8Decode([0xF0, 0x9F, 0x98]) == [Replacement]
    ensures Utf8Decode([0xE2, 0x82, 0x41]) == [Replacement, 'A']
    ensures Utf8Decode([0xC0, 0x80]) == [Replacement, Replacement]
    ensures Utf8Decode([0xED, 0xA0, 0x80]) == [Replacement, Replacement, Replacement]
  {
    assert [0xF0, 0x9F, 0x98][3..] == [];
    assert [0xE2, 0x82, 0x41][2..] == [0x41];
    assert [0x41][1..] == [];
    assert [0xC0, 0x80][1..] == [0x80];
    assert [0x80][1..] == [];
    assert [0xED, 0xA0, 0x80][1..] == [0xA0, 0x80];
    assert [0xA0, 0x80][1..] == [0x80];
  }

  /** Different strings never share a UTF-8 encoding. */
  lemma Utf8Injective(a: string, b: string)
    requires Utf8Encode(a) == Utf8Encode(b)
    ensures a == b
  {
    Utf8RoundTrip(a);
    Utf8RoundTrip(b);
  }

  /** An ASCII string encodes to one byte per character, equal to the character. */
  lemma {:induction false} Utf8EncodeAscii(s: string)
    requires IsAscii(s)
    ensures |Utf8Encode(s)| == |s|
    ensures forall i :: 0 <= i < |s| ==> Utf8Encode(s)[i] == s[i] as int
  {
    if s != [] {
      assert IsAscii(s[1..]) by {
        forall i | 0 <= i < |s[1..]| ensures s[1..][i] as int < 0x80 { assert s[1..][i] == s[i + 1]; }
      }
      Utf8EncodeAscii(s[1..]);
    }
  }

  /** Bytes below 0x80 decode to the characters with the same values. */
  lemma {:induction false} Utf8DecodeAscii(b: seq<byte>)
    requires forall i :: 0 <= i < |b| ==> b[i] < 0x80
    ensures |Utf8Decode(b)| == |b|
    ensures forall i :: 0 <= i < |b| ==> Utf8Decode(b)[i] as int == b[i]
  {
    if b != [] {
      Utf8DecodeAscii(b[1..]);
    }
  }

  // --------------------------------------------------- UTF-16 code units

  /** UTF-16 code units needed for one character (1, or 2 for a surrogate pair). */
  function Utf16Width(c: char): (r: nat)
    ensures r == 1 || r == 2
  {
    if c as int < 0x1_0000 then 1 else 2
  }

  /** `string.Length`: the number of UTF-16 code units. */
  function Utf16Length(s: string): nat {
    if s == [] then 0 else Utf16Width(s[0]) + Utf16Length(s[1..])
  }

  /** `.Length` never exceeds the UTF-8 byte count, and a third of it bounds that count. */
  lemma {:induction false} Utf16LengthBounds(s: string)
    ensures Utf16Length(s) <= |Utf8Encode(s)| <= 3 * Utf16Length(s)
    ensures Utf16Length(s) == |Utf8Encode(s)| <==> IsAscii(s)
  {
    if s != [] {
      Utf16LengthBounds(s[1..]);
      if IsAscii(s) {
        assert IsAscii(s[1..]) by {
          forall i | 0 <= i < |s[1..]| ensures s[1..][i] as int < 0x80 { assert s[1..][i] == s[i + 1]; }
        }
      } else if s[0] as int < 0x80 {
        assert !IsAscii(s[1..]) by {
          var i :| 0 <= i < |s| && s[i] as int >= 0x80;
          assert s[1..][i - 1] == s[i];
        }
      }
    }
  }

  lemma {:induction false} Utf16LengthAppend(a: string, b: string)
    ensures Utf16Length(a + b) == Utf16Length(a) + Utf16Length(b)
  {
    if a != [] {
      assert (a + b)[1..] == a[1..] + b;
      assert (a + b)[0] == a[0];
      Utf16LengthAppend(a[1..], b);
    } else {
      assert a + b == b;
    }
  }

  // ------------------------------------------------------ UTF-16 LE bytes

  /** The UTF-16 little-endian bytes of one character. */
  function EncodeCharUtf16(c: char): (r: seq<byte>)
    ensures |r| == 2 * Utf16Width(c)
  {
    var n := c as int;
    if n < 0x1_0000 then [n % 0x100, n / 0x100]
    else
      var m := n - 0x1_0000;
      var hi := 0xD800 + m / 0x400;
      var lo := 0xDC00 + m % 0x400;
      [hi % 0x100, hi / 0x100, lo % 0x100, lo / 0x100]
  }

  /** `Encoding.Unicode.GetBytes`. */
  function Utf16Encode(s: string): (r: seq<byte>)
    ensures |r| == 2 * Utf16Length(s)
  {
    if s == [] then [] else EncodeCharUtf16(s[0]) + Utf16Encode(s[1..])
  }

  function Unit(b0: byte, b1: byte): int {
    b0 + 0x100 * b1
  }

  predicate IsHighSurrogate(u: int) { 0xD800 <= u < 0xDC00 }

  predicate IsLowSurrogate(u: int) { 0xDC00 <= u < 0xE000 }

  /**
   * The first character of non-empty UTF-16LE bytes and how many bytes it
   * takes; a trailing odd byte or an unpaired surrogate decodes to U+FFFD.
   */
  function DecodeFirstUtf16(b: seq<byte>): (r: (char, nat))
    requires |b| > 0
    ensures 1 <= r.1 <= |b|
  {
    if |b| == 1 then (Replacement, 1)
    else
      var u := Unit(b[0], b[1]);
      if IsScalar(u) then (u as char, 2)
      else if IsHighSurrogate(u) && |b| >= 4 && IsLowSurrogate(Unit(b[2], b[3])) then
        ((0x1_0000 + (u - 0xD800) * 0x400 + (Unit(b[2], b[3]) - 0xDC00)) as char, 4)
      else (Replacement, 2)
  }

  /** `Encoding.Unicode.GetString`. */
  function Utf16Decode(b: seq<byte>): string
    decreases |b|
  {
    if b == [] then [] else
      var (c, k) := DecodeFirstUtf16(b);
      [c] + Utf16Decode(b[k..])
  }

  lemma DecodeFirstEncodeCharUtf16(c: char, rest: seq<byte>)
    ensures DecodeFirstUtf16(EncodeCharUtf16(c) + rest) == (c, |EncodeCharUtf16(c)|)
  {
    var n := c as int;
    var b := EncodeCharUtf16(c) + rest;
    if n < 0x1_0000 {
      assert Unit(b[0], b[1]) == n;
    } else {
      var m := n - 0x1_0000;
      var hi := 0xD800 + m / 0x400;
      var lo := 0xDC00 + m % 0x400;
      assert Unit(b[0], b[1]) == hi;
      assert Unit(b[2], b[3]) == lo;
      assert m == (m / 0x400) * 0x400 + m % 0x400;
    }
  }

  /** UTF-16 decoding inverts UTF-16 encoding, for every string. */
  lemma {:induction false} Utf16RoundTrip(s: string)
    ensures Utf16Decode(Utf16Encode(s)) == s
  {
    if s != [] {
      var e := EncodeCharUtf16(s[0]);
      DecodeFirstEncodeCharUtf16(s[0], Utf16Encode(s[1..]));
      assert (e + Utf16Encode(s[1..]))[|e|..] == Utf16Encode(s[1..]);
      Utf16RoundTrip(s[1..]);
    }
  }

  // ------------------------------------------------- NUL-terminated text

  /** The characters before the first U+0000, or all of them. */
  function PrefixBeforeNul(s: string): (r: string)
    ensures '\0' !in r
    ensures r <= s
    ensures |r| < |s| ==> s[|r|] == '\0'
  {
    if s == [] then []
    else if s[0] == '\0' then []
    else [s[0]] + PrefixBeforeNul(s[1..])
  }

  /** `Array.IndexOf(b, 0)`: the first zero byte, or -1. */
  function IndexOfZero(b: seq<byte>): (r: int)
    ensures -1 <= r < |b|
    ensures r >= 0 ==> b[r] == 0 && forall j :: 0 <= j < r ==> b[j] != 0
    ensures r == -1 ==> forall j :: 0 <= j < |b| ==> b[j] != 0
  {
    if b == [] then -1
    else if b[0] == 0 then 0
    else
      var k := IndexOfZero(b[1..]);
      if k == -1 then -1 else k + 1
  }

  /**
   * In the UTF-8 encoding of `s` followed by a terminator, the first zero
   * byte ends the encoding of the text before the first U+0000.
   */
  lemma {:induction false} FirstZeroIsFirstNul(s: string)
    ensures IndexOfZero(Utf8Encode(s) + [0]) == |Utf8Encode(PrefixBeforeNul(s))|
    ensures (Utf8Encode(s) + [0])[..|Utf8Encode(PrefixBeforeNul(s))|] == Utf8Encode(PrefixBeforeNul(s))
  {
    if s == [] {
    } else if s[0] == '\0' {
      assert Utf8Encode(s)[0] == 0;
    } else {
      var e := EncodeChar(s[0]);
      FirstZeroIsFirstNul(s[1..]);
      var tail := Utf8Encode(s[1..]) + [0];
      assert Utf8Encode(s) + [0] == e + tail;
      assert PrefixBeforeNul(s) == [s[0]] + PrefixBeforeNul(s[1..]);
      assert Utf8Encode(PrefixBeforeNul(s)) == e + Utf8Encode(PrefixBeforeNul(s[1..])) by {
        assert ([s[0]] + PrefixBeforeNul(s[1..]))[1..] == PrefixBeforeNul(s[1..]);
      }
      IndexOfZeroShift(e, tail);
    }
  }

  lemma {:induction false} IndexOfZeroShift(e: seq<byte>, tail: seq<byte>)
    requires forall i :: 0 <= i < |e| ==> e[i] != 0
    requires IndexOfZero(tail) >= 0
    ensures IndexOfZero(e + tail) == |e| + IndexOfZero(tail)
  {
    if e != [] {
      assert (e + tail)[0] == e[0];
      assert (e + tail)[1..] == e[1..] + tail;
      IndexOfZeroShift(e[1..], tail);
    } else {
      assert e + tail == tail;
    }
  }

  /** Bytes after the first zero do not move it. */
  lemma {:induction false} IndexOfZeroPrefix(a: seq<byte>, b: seq<byte>)
    requires IndexOfZero(a) >= 0
    ensures IndexOfZero(a + b) == IndexOfZero(a)
  {
    if a[0] != 0 {
      assert (a + b)[1..] == a[1..] + b;
      IndexOfZeroPrefix(a[1..], b);
    }
  }

  // ---------------------------------------------------------- encodings

  /** The two `System.Text.Encoding` instances the library uses. */
  datatype Encoding = UTF8 | UTF16LE

  /** `encoding.GetBytes(s)`. */
  function GetBytes(encoding: Encoding, s: string): seq<byte> {
    match encoding
    case UTF8 => Utf8Encode(s)
    case UTF16LE => Utf16Encode(s)
  }

  /** `encoding.GetString(b)`. */
  function GetString(encoding: Encoding, b: seq<byte>): string {
    match encoding
    case UTF8 => Utf8Decode(b)
    case UTF16LE => Utf16Decode(b)
  }

  /** Both encodings decode what they encode. */
  lemma EncodingRoundTrip(encoding: Encoding, s: string)
    ensures GetString(encoding, GetBytes(encoding, s)) == s
  {
    match encoding
    case UTF8 => Utf8RoundTrip(s);
    case UTF16LE => Utf16RoundTrip(s);
  }
}

=== FILE: utf8_string_marshaler.dfy ===
/**
 * `Utf8StringMarshaler`, the custom marshaler that passes .NET strings to
 * native code as NUL-terminated UTF-8. Two shared instances differ only in
 * whether native data they are handed back is freed.
 *
 * The conversions themselves belong to `Utf8StringConverter`, which is not
 * part of this model; here `ToNative` is a fresh `AllocHGlobal` block
 * holding the UTF-8 bytes and a terminator (the block `CleanUpNativeData`
 * gives back with `FreeHGlobal`), and `ToManaged` decodes the bytes before
 * the first zero.
 */
module Utf8StringMarshaler {
  import opened Numeric
  import opened Wrappers
  import opened Exceptions
  import opened Unicode
  import opened NativeMemory

  const NativeCookie: string := "U8StringMarshaler.Native"
  const ManagedCookie: string := "U8StringMarshaler.Managed"

  /** The managed `object` handed to the marshaler. */
  datatype ManagedObject = NullObject | StringObject(s: string) | OtherObject

  class Marshaler {
    /** Whether native data passed to `CleanUpNativeData` is freed. */
    const cleanup: bool

    constructor (cleanup: bool)
      ensures this.cleanup == cleanup
    {
      this.cleanup := cleanup;
    }

    /** `GetNativeDataSize`: -1, the size of a string is not fixed. */
    function GetNativeDataSize(): (r: int)
      ensures r < 0 && r == -1
    {
      -1
    }

    /**
     * `MarshalManagedToNative`: null becomes the null pointer, a string a new
     * HGlobal block holding its UTF-8 bytes and a zero byte, and anything
     * else fails without allocating.
     */
    method MarshalManagedToNative(mem: Memory, value: ManagedObject) returns (r: Result<Ptr, Exception>)
      requires mem.Valid()
      modifies mem
      ensures mem.Valid()
      ensures value.NullObject? ==> r == Success(Zero)
      ensures value.OtherObject? ==> r == Failure(MarshalDirectiveException("Cannot marshal a non-string"))
      ensures !value.StringObject? ==> mem.allocs == old(mem.allocs) && mem.cells == old(mem.cells)
      ensures value.StringObject? ==> r.Success? && r.value != Zero && r.value !in old(mem.allocs)
      ensures value.StringObject? ==>
        mem.allocs == old(mem.allocs)[r.value := Allocation(HGlobal, |Utf8Encode(value.s)| + 1)] &&
        HasBytes(mem.cells, r.value, Utf8Encode(value.s) + [0])
    {
      match value
      case NullObject =>
        return Success(Zero);
      case StringObject(str) =>
        var bytes := Utf8Encode(str) + [0];
        var p := mem.Alloc(HGlobal, |bytes|);
        mem.CopyIn(p, bytes, p);
        return Success(p);
      case OtherObject =>
        return Failure(MarshalDirectiveException("Cannot marshal a non-string"));
    }

    /**
     * `MarshalNativeToManaged`: null for the null pointer, otherwise the UTF-8
     * text before the first zero byte. `stored` names the bytes at `ptr`.
     */
    method MarshalNativeToManaged(mem: Memory, ptr: Ptr, ghost stored: seq<byte>) returns (r: Option<string>)
      requires ptr != Zero ==> HasBytes(mem.cells, ptr, stored) && IndexOfZero(stored) >= 0
      ensures ptr == Zero <==> r.None?
      ensures ptr != Zero ==> r == Some(Utf8Decode(stored[..IndexOfZero(stored)]))
    {
      if ptr == Zero {
        return None;
      }
      ghost var end := IndexOfZero(stored);
      var n := 0;
      var bytes: seq<byte> := [];
      ByteAt(mem.cells, ptr, stored, 0);
      while mem.cells[ptr + n] != ByteCell(0)
        invariant 0 <= n <= end
        invariant ptr + n in mem.cells && mem.cells[ptr + n] == ByteCell(stored[n])
        invariant bytes == stored[..n]
        decreases end - n
      {
        assert n < end;
        bytes := bytes + [mem.cells[ptr + n].b];
        assert bytes == stored[..n + 1];
        ByteAt(mem.cells, ptr, stored, n + 1);
        n := n + 1;
      }
      return Some(Utf8Decode(bytes));
    }

    /** `CleanUpManagedData`: nothing to release on the managed side. */
    method CleanUpManagedData(value: ManagedObject)
    {
    }

    /**
     * `CleanUpNativeData(ptr)`: frees the block with `FreeHGlobal` exactly
     * when the pointer is not null and this instance cleans up.
     */
    method CleanUpNativeData(mem: Memory, ptr: Ptr)
      requires mem.Valid()
      requires ptr != Zero && cleanup ==> ptr in mem.allocs && mem.allocs[ptr].allocator == HGlobal
      modifies mem
      ensures mem.Valid() && mem.cells == old(mem.cells)
      ensures ptr != Zero && cleanup ==> mem.allocs == old(mem.allocs) - {ptr}
      ensures !(ptr != Zero && cleanup) ==> mem.allocs == old(mem.allocs)
    {
      if ptr != Zero && cleanup {
        mem.Free(ptr, HGlobal);
      }
    }
  }

  /** The two shared instances, created once. */
  class Instances {
    const nativeInstance: Marshaler
    const managedInstance: Marshaler

    constructor ()
      ensures nativeInstance.cleanup && !managedInstance.cleanup
      ensures nativeInstance != managedInstance
    {
      nativeInstance := new Marshaler(true);
      managedInstance := new Marshaler(false);
    }

    /**
     * `GetInstance(cookie)`: the cleaning instance for the native cookie, the
     * other one for the managed cookie, the same object on every call; any
     * other cookie is rejected.
     */
    function GetInstance(cookie: string): (r: Result<Marshaler, Exception>)
      ensures r.Success? <==> cookie == NativeCookie || cookie == ManagedCookie
      ensures cookie == NativeCookie ==> r == Success(nativeInstance)
      ensures cookie == ManagedCookie ==> r == Success(managedInstance)
      ensures r.Failure? ==> r.error == ArgumentException("Invalid marshaler cookie")
    {
      if cookie == NativeCookie then Success(nativeInstance)
      else if cookie == ManagedCookie then Success(managedInstance)
      else Failure(ArgumentException("Invalid marshaler cookie"))
    }
  }

  /**
   * A string marshalled to native and read back is the text before its
   * first U+0000: the whole string when it has none.
   */
  lemma NativeRoundTrip(s: string)
    ensures IndexOfZero(Utf8Encode(s) + [0]) >= 0
    ensures Utf8Decode((Utf8Encode(s) + [0])[..IndexOfZero(Utf8Encode(s) + [0])]) == PrefixBeforeNul(s)
  {
    FirstZeroIsFirstNul(s);
    Utf8RoundTrip(PrefixBeforeNul(s));
  }
}

=== FILE: win32_error.dfy ===
/**
 * Win32 error codes (Win32Error.cs): the constants the credential store
 * tests for, the last-error read after a native call, and the check that
 * turns a non-zero code into an `InteropException`.
 */
module Win32Error {
  import opened Numeric
  import opened Wrappers
  import opened Exceptions

  const Success: int32 := 0
  const FileNotFound: int32 := 2
  const InvalidHandle: int32 := 6
  const NotEnoughMemory: int32 := 8
  const GenericFailure: int32 := 31
  const SharingViolation: int32 := 32
  const FileExists: int32 := 80
  const InsufficientBuffer: int32 := 122
  const AlreadyExists: int32 := 183
  const NotCapable: int32 := 775
  const InvalidFlags: int32 := 1004
  const NotFound: int32 := 1168
  const NoSuchLogonSession: int32 := 1312

  const UnknownErrorMessage := "Unknown error."

  /**
   * `GetLastError(success)`: `Success` after a call that reported success,
   * otherwise the thread's last Win32 error, which the caller passes in as
   * `lastWin32Error`.
   */
  function GetLastError(success: bool, lastWin32Error: int32): (r: int32)
    ensures success ==> r == Success
    ensures !success ==> r == lastWin32Error
  {
    if success then Success else lastWin32Error
  }

  /**
   * `ThrowIfError`: returns only for `Success`; any other code raises an
   * `InteropException` with the default message around `Win32Exception(error)`.
   */
  function ThrowIfError(error: int32, defaultErrorMessage: string): (r: Outcome<Exception>)
    ensures r.Pass? <==> error == Success
    ensures r.Fail? ==> r.error == Win32InteropException(defaultErrorMessage, error)
  {
    if error == Success then Pass else Fail(Win32InteropException(defaultErrorMessage, error))
  }

  /**
   * After a native call, the check fails exactly when the call reported
   * failure with a non-zero last error, and it carries that error.
   */
  lemma CheckAfterCall(success: bool, lastWin32Error: int32, message: string)
    ensures var r := ThrowIfError(GetLastError(success, lastWin32Error), message);
      (r.Fail? <==> !success && lastWin32Error != Success) &&
      (r.Fail? ==> r.error.win32Code == lastWin32Error)
  {
  }

  /** `NotFound` is itself a failure, so callers test for it before the check. */
  lemma NotFoundFails(message: string)
    ensures NotFound != Success
    ensures ThrowIfError(NotFound, message) == Fail(Win32InteropException(message, 1168))
  {
  }
}

=== FILE: windows_credential_manager.dfy ===
/**
 * `WindowsCredentialManager` (the root `WindowsCredentialManager.cs`), the
 * secure store for Windows of the `Get`/`AddOrUpdate`/`Remove` interface:
 * each key is the target name of one generic credential holding a user name
 * and a password.
 *
 * The calls it makes go through `NativeMethods.Windows`, whose members are
 * not part of this model. They are taken to be the advapi32 calls of
 * `Advapi32`, each reporting its Win32 error code, and a `ThrowOnError`
 * that returns for success, raises `KeyNotFoundException` for
 * `ERROR_NOT_FOUND` (the exception both callers catch for a missing key)
 * and a plain `Exception` for any other code.
 */
module WindowsCredentialManager {
  import opened Numeric
  import opened Wrappers
  import opened Exceptions
  import opened Unicode
  import opened NativeMemory
  import opened FileTimeExtensions
  import opened Advapi32
  import Win32Error
  import IntPtrExtensions

  const ReadFailedMessage := "Failed to read item from store."
  const WriteFailedMessage := "Failed to write item to store."

  /** `Credential`, the user name and password pair of `ICredential`; null strings are `None`. */
  datatype Credential = Credential(userName: Option<string>, password: Option<string>)

  /**
   * `NativeMethods.Windows.ThrowOnError`, as the callers rely on it: a
   * missing credential is a `KeyNotFoundException`, any other failure a
   * plain `Exception`. The text of the messages is not modelled: each
   * carries the caller's message, or none.
   */
  function ThrowOnError(error: int32, defaultErrorMessage: Option<string>): (r: Outcome<Exception>)
    ensures r.Pass? <==> error == Win32Error.Success
    ensures r.Fail? ==> (r.error.KeyNotFoundException? <==> error == Win32Error.NotFound)
    ensures r.Fail? && error != Win32Error.NotFound ==> r.error.PlainException?
  {
    if error == Win32Error.Success then Pass
    else if error == Win32Error.NotFound then Fail(KeyNotFoundException(defaultErrorMessage.GetOr("")))
    else Fail(PlainException(defaultErrorMessage.GetOr("")))
  }

  /**
   * What `Get` answers: the user name and decoded password when the key is
   * stored, null exactly when the read raises `KeyNotFoundException`, and
   * the exception of any other failure.
   */
  function GetResult(creds: map<string, Stored>, key: string, fault: int32): (r: Result<Option<Credential>, Exception>)
    ensures r.Success? && r.value.Some? <==> fault == Win32Error.Success && key in creds
    ensures r.Success? && r.value.Some? ==>
      r.value.value == Credential(creds[key].userName, Some(Utf16Decode(creds[key].blob)))
    ensures r == Success(None) <==>
      ThrowOnError(ReadError(creds, key, CredentialTypeGeneric, fault), Some(ReadFailedMessage)).Fail? &&
      ThrowOnError(ReadError(creds, key, CredentialTypeGeneric, fault), Some(ReadFailedMessage)).error.KeyNotFoundException?
    ensures r.Failure? ==> r.error == PlainException(ReadFailedMessage)
  {
    var error := ReadError(creds, key, CredentialTypeGeneric, fault);
    if error == Win32Error.Success then Success(Some(Credential(creds[key].userName, Some(Utf16Decode(creds[key].blob)))))
    else if error == Win32Error.NotFound then Success(None)
    else Failure(PlainException(ReadFailedMessage))
  }

  /** `Get(key)`; the block `CredRead` hands out is freed on every path. */
  method Get(store: CredentialSet, mem: Memory, key: string, fault: int32)
    returns (r: Result<Option<Credential>, Exception>)
    requires store.Valid() && mem.Valid()
    modifies mem
    ensures mem.Valid()
    ensures r == GetResult(store.creds, key, fault)
    ensures mem.allocs == old(mem.allocs)
  {
    var success, lastError, credPtr := store.CredRead(mem, key, CredentialTypeGeneric, fault);
    var check := ThrowOnError(Win32Error.GetLastError(success, lastError), Some(ReadFailedMessage));
    if check.Fail? {
      r := if check.error.KeyNotFoundException? then Success(None) else Failure(check.error);
    } else {
      ghost var s := store.creds[key];
      var credential := mem.cells[credPtr].credential;
      var userName := credential.userName;
      // `NativeMethods.ToByteArray`, taken to copy as `IntPtrExtensions.ToByteArray` does.
      var passwordBytes := IntPtrExtensions.ToByteArray(mem, credential.credentialBlob, credential.credentialBlobSize, s.blob);
      var password := Utf16Decode(passwordBytes.value);
      r := Success(Some(Credential(userName, Some(password))));
    }
    if credPtr != Zero {
      store.CredFree(mem, credPtr);
    }
  }

  /**
   * What `AddOrUpdate` answers and leaves in the set: a null password fails
   * before anything is allocated; otherwise the key holds a generic
   * credential persisted on the local machine, with no comment, the user
   * name and the UTF-16 bytes of the password, and `now` as its time of
   * writing.
   */
  function AddOrUpdateEffect(creds: map<string, Stored>, key: string, credential: Credential, fault: int32, now: FileTime)
    : (r: (Outcome<Exception>, map<string, Stored>))
    ensures r.0.Pass? <==> credential.password.Some? && fault == Win32Error.Success
    ensures credential.password.None? ==> r.0 == Fail(ArgumentNullException)
    ensures credential.password.Some? && fault != Win32Error.Success ==>
      r.0 == ThrowOnError(fault, Some(WriteFailedMessage))
    ensures r.0.Fail? ==> r.1 == creds
    ensures r.0.Pass? ==>
      r.1 == creds[key := Stored(credential.userName, None, Utf16Encode(credential.password.value), PersistLocalMachine, now)]
  {
    if credential.password.None? then (Fail(ArgumentNullException), creds)
    else if fault != Win32Error.Success then (ThrowOnError(fault, Some(WriteFailedMessage)), creds)
    else (Pass, creds[key := Stored(credential.userName, None, Utf16Encode(credential.password.value), PersistLocalMachine, now)])
  }

  /**
   * `AddOrUpdate(key, credential)`: the password blob comes from
   * `AllocCoTaskMem` and goes back with `FreeCoTaskMem` on every path.
   */
  method AddOrUpdate(store: CredentialSet, mem: Memory, key: string, credential: Credential, fault: int32, now: FileTime)
    returns (r: Outcome<Exception>)
    requires store.Valid() && mem.Valid()
    requires credential.password.Some? ==> |Utf16Encode(credential.password.value)| <= MaxInt32
    modifies store, mem
    ensures store.Valid() && mem.Valid()
    ensures (r, store.creds) == AddOrUpdateEffect(old(store.creds), key, credential, fault, now)
    ensures r.Fail? ==> store.order == old(store.order)
    ensures r.Pass? ==> store.order == if key in old(store.order) then old(store.order) else old(store.order) + [key]
    ensures mem.allocs == old(mem.allocs)
  {
    if credential.password.None? {
      return Fail(ArgumentNullException);
    }
    var passwordBytes := Utf16Encode(credential.password.value);
    var blob := mem.Alloc(CoTaskMem, |passwordBytes|);
    var w32Credential := Win32Credential(0, CredentialTypeGeneric, Some(key), None, FileTime(0, 0),
                                         |passwordBytes|, blob, PersistLocalMachine, 0, Zero, None,
                                         credential.userName);
    mem.CopyIn(blob, passwordBytes, blob);
    var success, lastError := store.CredWrite(mem, w32Credential, 0, fault, now, passwordBytes);
    r := ThrowOnError(Win32Error.GetLastError(success, lastError), Some(WriteFailedMessage));
    if blob != Zero {
      mem.Free(blob, CoTaskMem);
    }
  }

  /**
   * What `Remove` answers and leaves in the set: true and the key gone,
   * false when the delete raises `KeyNotFoundException`, the exception of
   * any other failure.
   */
  function RemoveEffect(creds: map<string, Stored>, key: string, fault: int32)
    : (r: (Result<bool, Exception>, map<string, Stored>))
    ensures r.0 == Success(true) <==> fault == Win32Error.Success && key in creds
    ensures r.0 == Success(false) <==> fault == Win32Error.NotFound || (fault == Win32Error.Success && key !in creds)
    ensures r.0.Failure? ==> r.0.error == PlainException("")
    ensures r.1 == if r.0 == Success(true) then creds - {key} else creds
  {
    var error := ReadError(creds, key, CredentialTypeGeneric, fault);
    if error == Win32Error.Success then (Success(true), creds - {key})
    else if error == Win32Error.NotFound then (Success(false), creds)
    else (Failure(PlainException("")), creds)
  }

  /** `Remove(key)`. */
  method Remove(store: CredentialSet, key: string, fault: int32) returns (r: Result<bool, Exception>)
    requires store.Valid()
    modifies store
    ensures store.Valid()
    ensures (r, store.creds) == RemoveEffect(old(store.creds), key, fault)
    ensures store.order == if r == Success(true) then Advapi32.Remove(old(store.order), key) else old(store.order)
  {
    var success, lastError := store.CredDelete(key, CredentialTypeGeneric, fault);
    var check := ThrowOnError(Win32Error.GetLastError(success, lastError), None);
    if check.Fail? {
      r := if check.error.KeyNotFoundException? then Success(false) else Failure(check.error);
    } else {
      r := Success(true);
    }
  }

  /** A credential added under a key is what `Get` of that key returns. */
  lemma AddOrUpdateThenGet(creds: map<string, Stored>, key: string, credential: Credential, fault: int32, now: FileTime)
    requires AddOrUpdateEffect(creds, key, credential, fault, now).0.Pass?
    ensures GetResult(AddOrUpdateEffect(creds, key, credential, fault, now).1, key, Win32Error.Success)
         == Success(Some(credential))
  {
    Utf16RoundTrip(credential.password.value);
  }

  /** Adding under one key leaves what every other key reads unchanged. */
  lemma AddOrUpdateLeavesOtherKeys(creds: map<string, Stored>, key: string, credential: Credential, fault: int32,
                                   now: FileTime, other: string, readFault: int32)
    requires key != other
    ensures GetResult(AddOrUpdateEffect(creds, key, credential, fault, now).1, other, readFault)
         == GetResult(creds, other, readFault)
  {
  }

  /** After a remove that reports true, `Get` of the key returns null. */
  lemma RemoveThenGet(creds: map<string, Stored>, key: string, fault: int32)
    requires RemoveEffect(creds, key, fault).0 == Success(true)
    ensures GetResult(RemoveEffect(creds, key, fault).1, key, Win32Error.Success) == Success(None)
  {
  }
}

=== FILE: wrappers.dfy ===
/** Failure-carrying result types. A C# `throw` becomes a failure value. */
module Wrappers {

  /** A value or nothing; `None` stands for a C# `null` result. */
  datatype Option<+T> = None | Some(value: T) {
    predicate IsFailure() { None? }

    function PropagateFailure<U>(): Option<U>
      requires None?
    {
      None
    }

    function Extract(): T
      requires Some?
    {
      value
    }

    function GetOr(default: T): T {
      match this
      case Some(v) => v
      case None => default
    }
  }

  /** A value, or the error that the C# code would have thrown. */
  datatype Result<+T, +E> = Success(value: T) | Failure(error: E) {
    predicate IsFailure() { Failure? }

    function PropagateFailure<U>(): Result<U, E>
      requires Failure?
    {
      Failure(error)
    }

    function Extract(): T
      requires Success?
    {
      value
    }
  }

  /** Normal return (`Pass`) or a thrown error (`Fail`) for a `void` C# member. */
  datatype Outcome<+E> = Pass | Fail(error: E) {
    predicate IsFailure() { Fail? }

    function PropagateFailure(): Outcome<E>
      requires Fail?
    {
      this
    }
  }
}
